=== FILE: README.md ===
# Shanghai Mahjong rooms, rules and client, in Dafny

This project models the core of a small online Shanghai Mahjong game:

- **Rules engine** (`backend/app/ws.py`):
  - the tile set, the wall and the deal;
  - drawing and the bonus (flower) chain;
  - discarding, and the five-second reaction window a discard opens;
  - the pong, kong, chi and win claims, and their resolution by priority and seating;
  - ting (ready hand) declarations;
  - hand evaluation, which is the meld search, the winning-tile search and the four special patterns;
  - scoring, the dice multipliers, and the settling of wins.
- **Room manager** (`backend/app/ws.py`) and the per-recipient snapshot `serialize_for`.
- **Connection loop** `handle_ws` (`backend/app/main.py`): one decoded message at a time.
- **Browser side** (`frontend/src`):
  - the WebSocket client `WSClient`, which handles heartbeat, reconnect and sending;
  - what the page derives from a snapshot (`App.tsx`, `Hand.tsx`, `ActionPanel.tsx`);
  - the tile reading `formatTileZh`.

Everything is pure. Each module takes a value and returns the next value, along with the messages or effects it produces. Randomness is an input: the shuffled wall and the dice. So is the clock: a `now` in whole milliseconds. The network is also an input, as the messages the server decodes and the events the browser fires.

Most modules model the code as it stands, including its defects. The module `Intended` holds the corrected definitions, one for each entry under "## Findings", and proves the property the original code misses.

Module layout, following the program:

| module | models |
|---|---|
| `Wrappers`, `Wire` | optional values and JSON values, with truthiness, `str()`, `strip()`/`trim()` and decimal numerals |
| `Tiles`, `TileSort`, `TileText` | tile codes, `tile_sort_key`, `formatTileZh` |
| `Melds`, `Hands`, `Patterns`, `Scoring` | `can_form_melds_recursive`, `check_standard_hand`, `can_win_hand`, `winning_tiles_for`, the four patterns, `calculate_score`, the dice multipliers |
| `Bonus`, `Game`, `Deal` | the game record, drawing, the bonus chain, `start`, `_start_game`, `roll_dice` |
| `Actions`, `Claims`, `Turns`, `Resolve`, `Settle` | `compute_actions_for`, claims and `seating_priority`, `discard` and `start_reactions`, `apply_claim` and `resolve_reactions`, and the payments |
| `Rooms`, `Projection`, `Encoding`, `Server` | `RoomManager`, `serialize_for`, the snapshot's JSON, `handle_ws` |
| `Session`, `View`, `Crossing` | `WSClient`, the page's derivations, and what the client concludes from what the server sends |
| `Intended` | the corrected definitions for the findings |

## Model

| member | source | states |
|---|---|---|
| Tiles.Code | backend/app/ws.py:95-113 | The wire code of every tile is the one `build_wall` spells, from the SUITS, WINDS, DRAGONS and SEASONS tables. |
| Tiles.ParseTile | backend/app/ws.py:95-113 | A string reads as a tile exactly when it is that tile's code; any other text is rejected. |
| Tiles.ParseCode | backend/app/ws.py:95-113 | Every tile's code reads back as the same tile (round trip). |
| Tiles.CodeInjective | backend/app/ws.py:95-113 | Distinct tiles have distinct codes, so comparing the strings the code compares is comparing tiles. |
| Tiles.MultisetExt | backend/app/ws.py:147-151 | Two tile collections with the same count of every tile (`count_tiles`) are the same multiset. |
| Tiles.HasSuitLetter | backend/app/ws.py:211-261 | The test `t[0] in SUITS` also admits the dragons, through their shared letter 'D'. |
| Tiles.SortRankIsKeyOrder | backend/app/ws.py:121-135 | The flattened rank orders tiles exactly as the `tile_sort_key` tuples do, and no two tiles share a key. |
| Tiles.CodeRank | backend/app/ws.py:357-409 | The position of a tile's code among the 42 codes in string order. |
| Tiles.TileAtCodeRank | backend/app/ws.py:357-409 | Every tile is enumerated exactly once in code-string order. |
| Tiles.CodeRankIsStringOrder | backend/app/ws.py:368 | The code-string order `sorted(counts.keys())` uses is the rank order of the model. |
| TileSort.SortBy | backend/app/ws.py:523 | Python's stable key sort: the result is ordered by the key and is a permutation of the input. |
| TileSort.SortedUnique | backend/app/ws.py:121-135 | With a key that tells all elements apart, two ordered arrangements of the same elements are equal. |
| TileSort.SortTiles | backend/app/ws.py:523 | A hand sorted by `tile_sort_key` is ordered and holds the same tiles. |
| TileSort.SortTilesCanonical | backend/app/ws.py:523 | Sorting forgets arrival order: two hands with the same tiles sort to the same sequence. |
| TileText.ClampRank | frontend/src/i18n.ts:28 | `Math.max(1, Math.min(9, n))` always lands in 1..9 and keeps values already in range. |
| TileText.FormatCode | frontend/src/i18n.ts:23-47 | Formatting a tile's code gives that tile's Chinese reading. |
| TileText.NameShape | frontend/src/i18n.ts:29-44 | The second character of a two-character reading tells the kind of tile. |
| TileText.TileNameInjective | frontend/src/i18n.ts:23-47 | Distinct tiles read differently, so the reading identifies the tile. |
| TileText.FormatEmpty | frontend/src/i18n.ts:24 | Only the empty string formats to the empty string. |
| TileText.FormatClamps | frontend/src/i18n.ts:27-31 | For every string that is B, C or D followed by one or more digits, the reading is that of the suited tile of that suit whose rank is the number clamped into 1..9. |
| TileText.FormatClampExamples | frontend/src/i18n.ts:27-31 | Three instances of the clamp: "C0" reads 一万, "B12" reads 九条 and "D007" reads 七筒. |
| TileText.FormatUnknown | frontend/src/i18n.ts:33-46 | Text that is neither a suited code nor a named code comes back unchanged; this includes the flowers F5 to F8. |
| Wire.Field | backend/app/main.py:30-31 | `obj.get(key)` / `obj.key`: absent unless the value is an object binding the key. |
| Wire.NatToString | backend/app/main.py:128 | The decimal numeral of a number, without leading zeros. |
| Wire.NatToStringRoundTrip | backend/app/main.py:128 | Reading the numeral back gives the number (round trip). |
| Wire.StripLeftShape | backend/app/main.py:37 | Left stripping keeps a suffix that does not start with whitespace. |
| Wire.StripLeftDrops | backend/app/main.py:37 | Everything left stripping drops is whitespace. |
| Wire.StripRightShape | backend/app/main.py:37 | Right stripping keeps a prefix that does not end with whitespace. |
| Wire.StripRightDrops | backend/app/main.py:37 | Everything right stripping drops is whitespace. |
| Wire.StripSlice | backend/app/main.py:37 | `strip()` keeps a contiguous middle part that neither starts nor ends with whitespace. |
| Wire.StripKeeps | backend/app/main.py:37 | Stripping removes only whitespace: every other character survives. |
| Wire.StripIdempotent | backend/app/main.py:37 | Stripping a stripped string changes nothing. |
| Wire.StripPlain | backend/app/main.py:63 | A string that neither starts nor ends with whitespace is left as it is. |
| Wire.LobbyPlain | backend/app/main.py:37 | The default room id `lobby` has no surrounding whitespace. |
| Wire.GuestPlain | backend/app/main.py:38 | The default player name `guest` has no surrounding whitespace. |
| Wire.NormalizeSpec | backend/app/main.py:37-38 | A normalised room id or name is never blank and already stripped; a missing field gives the fallback, and a string with non-blank content gives that content, stripped. |
| Wire.NormalizeNull | backend/app/main.py:37 | A JSON `null` normalises to "None", as Python's `str(None)` does. |
| Melds.Sum | backend/app/ws.py:357-409 | All tiles of a list of melds, counted with multiplicity. |
| Melds.Witness | backend/app/ws.py:357-409 | Any list of melds shows that its tiles split into melds. |
| Melds.DecomposableSize | backend/app/ws.py:357-409 | Tiles that split into melds number a multiple of three. |
| Melds.Smallest | backend/app/ws.py:368 | `sorted(counts.keys())[0]` is a tile of the multiset. |
| Melds.SmallestMinimal | backend/app/ws.py:368 | It is the least tile in code-string order. |
| Melds.UnsuitedCountsThree | backend/app/ws.py:357-409 | Any list of melds holds three copies of an honour or a flower per triplet of it, and no others. |
| Melds.HonorsOnlyInTriplets | backend/app/ws.py:370-409 | Honours and flowers only ever sit in triplets: runs are made of suited tiles. |
| Melds.SumConcat | backend/app/ws.py:357-409 | The tiles of two lists of melds put together are counted tile by tile. |
| Melds.ConsMeld | backend/app/ws.py:357-409 | Putting a meld in front of a split of the rest splits the whole. |
| Melds.AddMeld | backend/app/ws.py:357-409 | Adding one meld's tiles keeps a multiset splittable into melds. |
| Melds.SearchStep | backend/app/ws.py:366-409 | A successful search on a non-empty multiset commits to one meld of its smallest tile and succeeds on the rest. |
| Melds.CanFormMeldsSound | backend/app/ws.py:357-409 | Every success of the search yields a split into triplets and runs. |
| Melds.MeldOfSmallest | backend/app/ws.py:368-409 | In any split, the meld holding the smallest tile is its triplet or the run it starts. |
| Melds.HeadedBySmallest | backend/app/ws.py:368-409 | A meld inside the multiset that holds its smallest tile starts with that tile. |
| Melds.RemoveMeld | backend/app/ws.py:357-409 | Dropping one meld from a split leaves a split of the rest. |
| Melds.CanFormMeldsComplete | backend/app/ws.py:357-409 | Every multiset that splits into melds is found by the search. |
| Melds.SearchAccepts | backend/app/ws.py:366-409 | The search accepts a multiset when the meld of its smallest tile leaves an acceptable rest. |
| Melds.RunStartsIn | backend/app/ws.py:380-409 | A run inside the multiset starts at a tile the run test recognises. |
| Melds.CanFormMeldsCorrect | backend/app/ws.py:357-409 | The search succeeds exactly on the multisets that split into triplets and runs (if and only if). |
| Hands.CheckStandardHandCorrect | backend/app/ws.py:323-355 | `check_standard_hand` succeeds exactly on the empty hand and on a pair plus melds; the 3N + 2 size test only fails the others early. |
| Hands.CanWinHandCorrect | backend/app/ws.py:302-321 | A hand wins exactly when the tile count with the exposed melds reaches 14 and the concealed tiles are empty or a pair plus melds; exposed melds are never re-split. |
| Hands.KongBlocksWin | backend/app/ws.py:302-321 | An exposed kong counts four fixed tiles, so the concealed tiles are never 3N + 2 and the hand can never win. |
| Hands.DefaultCandidatesShape | backend/app/ws.py:419-422 | The default candidate pool has 31 tiles, no dragon and no flower, in display order. |
| Hands.FilterBy | backend/app/ws.py:424-427 | The elements satisfying the test, in their original order, and only those. |
| Hands.FilterAscending | backend/app/ws.py:424-427 | Filtering keeps relative order, so an ascending sequence filters to an ascending one. |
| Hands.LoneUnsuitedNeverCompletes | backend/app/ws.py:302-355 | A wind, dragon or flower the hand does not hold never completes it: it could only be the pair or part of a triplet, and both need a second copy. |
| Hands.WinningTilesComplete | backend/app/ws.py:412-427 | For a hand without a bonus tile, the list holds exactly the tiles that would complete the hand. The dragons missing from the pool lose nothing. |
| Hands.WinningTilesFor | backend/app/ws.py:412-427 | `winning_tiles_for` lists exactly the candidates that complete the hand, in candidate order, each once, never a dragon or a flower. |
| Hands.ExtendDecomposition | backend/app/ws.py:357-409 | A split of one list followed by a meld's tiles splits the concatenation. |
| Hands.FourMeldsDecompose | backend/app/ws.py:357-409 | Four lists, each a meld's tiles, split together. |
| Hands.TestWinHand | backend/app/test.py:15-27 | The 14-tile hand of `test_win_hand` (three bamboo runs, a C2 triplet, a D5 pair) wins. |
| Hands.TestTingTiles | backend/app/test.py:30-42 | The 13-tile hand of `test_ting_tiles` waits on D5. |
| Patterns.DropFlowers | backend/app/ws.py:195 | Every tile but the flowers, in order. |
| Patterns.KindCounts | backend/app/ws.py:147-151 | `count_tiles` laid out by kind: entry k counts the tile at code position k. |
| Patterns.SumFromBump | backend/app/ws.py:147-151 | Two count rows that differ by one at a position differ by one in their sums. |
| Patterns.KindSumIsSize | backend/app/ws.py:147-151 | The counts of all 42 kinds add up to the number of tiles. |
| Patterns.IsSevenPairsCorrect | backend/app/ws.py:188-209 | Seven pairs holds exactly for a hand with no exposed meld whose 14 non-flower tiles come in kinds of 2 or 4 (if and only if). |
| Patterns.PairedHandIsSevenPairs | backend/app/ws.py:188-209 | Any 14 flower-free tiles held in kinds of 2 or 4 form seven pairs; a four-of-a-kind counts as two. |
| Patterns.FirstSuited | backend/app/ws.py:252 | The first tile whose letter is a suit letter, or nothing. |
| Patterns.IsPureSuitCorrect | backend/app/ws.py:211-235 | Pure suit does not depend on which tile comes first: it holds exactly when every non-flower tile carries the same suit letter. |
| Patterns.IsHalfSuitCorrect | backend/app/ws.py:237-261 | Half suit holds exactly when some non-flower tile carries a suit letter and no two carry different ones. |
| Patterns.PureImpliesHalf | backend/app/ws.py:237-261 | Every pure-suit hand also passes the half-suit check, so only the scoring's `elif` keeps the two factors apart. |
| Patterns.PairKindsAtMost | backend/app/ws.py:263-300 | When only one position can hold a pair, at most one pair kind is counted. |
| Patterns.OnePairKind | backend/app/ws.py:263-300 | "Exactly one pair kind", stated on tiles rather than positions. |
| Patterns.IsAllPongsCorrect | backend/app/ws.py:263-300 | All pongs holds exactly when no exposed meld is a chi, the tiles number 14, and they form one pair with every other kind a triplet or a quad. |
| Scoring.MeldBonusAdditive | backend/app/ws.py:772-783 | Meld points add up over any split of the melds, so their order does not matter. |
| Scoring.MeldBonusBound | backend/app/ws.py:772-783 | No meld adds more than 2 points, and chis add none. |
| Scoring.PatternMultiplierValues | backend/app/ws.py:785-804 | The pattern factor is one of 1, 2, 4, 8, 16; a pure-suit hand gets the suit factor 4 and not 4 x 2, because half suit is an `elif`. |
| Scoring.PatternFactorCounts | backend/app/ws.py:785-804 | The pattern factor exceeds 1 exactly when the hand is seven pairs, pure suit, half suit or all pongs (if and only if). |
| Scoring.ScoreBounds | backend/app/ws.py:758-804 | A score is at least 10 plus the bonus tiles and at most 16 times the base; each extra bonus tile is worth exactly one pattern factor. |
| Scoring.DiscardWinMissesPatterns | backend/app/ws.py:870-889 | A win on a discard is scored on the hand without the claimed tile, so seven pairs and all pongs, which need 14 tiles, never count there. |
| Scoring.DiceMultipliers | backend/app/ws.py:462-475 | Both multipliers are 1 or 2, and both are 1 without exactly two dice. |
| Scoring.DiceMultipliersOnFaces | backend/app/ws.py:462-475 | For real dice, this game doubles exactly on a double; the next game doubles exactly on 1-4, 2-5 or 3-6 in either order; never both. |
| Bonus.ProcessBonusChain | backend/app/ws.py:599-616 | The chain stops when the hand is empty or ends in a non-bonus tile, and right after moving a bonus tile once the wall is empty. |
| Bonus.BonusChainConserves | backend/app/ws.py:599-616 | No tile is created or lost: hand, bonus pile and wall together hold the same tiles. |
| Bonus.BonusChainPile | backend/app/ws.py:599-616 | The bonus pile only grows, and only by bonus tiles. |
| Bonus.BonusChainShape | backend/app/ws.py:599-616 | Replacements come from the head of the wall, so what is left is a suffix of it; the hand keeps its size except for a final bonus tile moved once the wall ran out. |
| Bonus.NoRoundNoChange | backend/app/ws.py:599-616 | A chain that draws nothing and keeps the hand size did not run at all. |
| Bonus.BonusChainDrawn | backend/app/ws.py:599-616 | `last_drawn` changes only when a replacement is drawn, and then names the last tile taken from the wall. |
| Bonus.BonusChainClearsHand | backend/app/ws.py:599-616 | If every tile before the last is free of bonus tiles, the whole hand is free of them after the chain: each arriving tile is checked at the end of the hand. |
| Bonus.BonusChainDrawnLast | backend/app/ws.py:599-616 | When no bonus tile is left over, the last tile drawn ends the hand. |
| Bonus.NoBonusNoChange | backend/app/ws.py:608 | A hand that does not end in a bonus tile is left alone. |
| Game.IndexOf | backend/app/ws.py:998 | `list.index`: the first position of the element, present exactly when the element is in the list. |
| Game.ReseatFrame | backend/app/ws.py:599-616 | Writing a chain back touches only that seat and the wall. |
| Game.RunChainConserves | backend/app/ws.py:599-616 | The chain moves tiles only between the seat's hand, its bonus pile and the wall. |
| Game.RunChainExit | backend/app/ws.py:608 | Afterwards the hand does not end in a bonus tile unless the wall has run out. |
| Game.RunChainFrame | backend/app/ws.py:599-616 | Only the seat's hand, its bonus pile, its `last_drawn` and the wall change. |
| Game.RunChainSize | backend/app/ws.py:599-616 | The chain keeps the hand's size unless the wall runs out. |
| Game.TailMoved | backend/app/ws.py:585-587 | Moving the wall's last tile to the end of the hand keeps the tiles of hand, pile and wall. |
| Game.DrawToEffect | backend/app/ws.py:535-547 | A draw conserves the seat's tiles with the wall and shrinks the wall; the hand grows by one unless the wall ran out during the chain; it does not end in a bonus tile unless the wall is empty. |
| Game.DrawToFrame | backend/app/ws.py:535-547 | Nobody else's hand or pile changes, and neither do melds or ting state. |
| Game.AutoDrawTable | backend/app/ws.py:549-573 | The automatic draw changes the table only by the current seat's draw, and leaves seating, turn and scores alone. |
| Game.AutoDrawSelfWin | backend/app/ws.py:549-583 | After the automatic draw, a window opens exactly when the drawing player is in ting and now holds a winning hand; it offers only the self-win on the tile from the tail, with a five-second deadline. Otherwise a discard is expected. |
| Deal.FullWallCount | backend/app/ws.py:102-113 | The full set holds every tile exactly its number of copies: four of each suited tile, wind and dragon, one of each flower. |
| Deal.SeatSumOne | backend/app/ws.py:511-520 | Changing one seat's hand and pile changes the seats' total by exactly that seat's change. |
| Deal.DealOneInPlay | backend/app/ws.py:511-520 | Dealing a tile to a seated player moves it from the wall to that seat. |
| Deal.RoundsKeep | backend/app/ws.py:511-520 | A measure every round keeps is kept over any number of rounds. |
| Deal.DealRoundsInPlay | backend/app/ws.py:511-520 | The deal loses and invents no tile: each is in a seated hand, a seated bonus pile or the wall. |
| Deal.DealRoundSizes | backend/app/ws.py:511-520 | One round gives each seat one more tile, unless the wall runs out, and leaves the other seats alone. |
| Deal.DealRoundsSizes | backend/app/ws.py:511-520 | After n rounds from empty hands every seat holds n tiles, unless the wall ran out. |
| Deal.DealtNoTing | backend/app/ws.py:495-533 | Nobody is in ting after the deal. |
| Deal.StartGameEffect | backend/app/ws.py:495-533 | A new game is under way: the opening seat (the last winner when seated) is current and must discard, no window is open, and nobody waits to roll dice. |
| Deal.DealtTiles | backend/app/ws.py:102-113 | From a shuffle of the full set, the deal keeps every tile somewhere seated or in the wall and, unless the wall ran out, gives every seat 13. |
| Deal.StartIgnored | backend/app/ws.py:477-480 | A running game or an empty room is left alone by `start`. |
| Deal.StartFirst | backend/app/ws.py:477-493 | The first `start` seats up to four players with zero scores, takes both multipliers from the dice, and deals. |
| Deal.StartLater | backend/app/ws.py:477-493 | Any later `start` only counts the game and reseats, leaving it stopped until the winner rolls. |
| Deal.RollDiceEffect | backend/app/main.py:93-104 | A roll is accepted exactly from the awaited roller; the game then starts with the carried multiplier times the throw's. |
| Deal.SelfWinStalls | backend/app/ws.py:831-867 | After a self-drawn win nobody is the awaited roller, so every `roll_dice` is refused and `start` cannot start the next game either: the room stalls. |
| Actions.ActionIdInjective | backend/app/ws.py:711-728 | Action ids tell actions apart, except that every self-win has the same id. |
| Actions.FindById | backend/app/main.py:116 | The first offered action with the claimed id: it sits at a position before which no action has that id. Nothing is found exactly when no action has the id. |
| Actions.ChiOptionsCorrect | backend/app/ws.py:741-756 | The chi options are exactly the pairs completing a run with the tile, and each makes a run meld with it (if and only if). |
| Actions.ChiOptionsDistinct | backend/app/ws.py:741-756 | No chi option is listed twice. |
| Actions.ChiActions | backend/app/ws.py:721-727 | The chi actions are the options whose two tiles are both in the hand. |
| Actions.ActionsSound | backend/app/ws.py:689-729 | Every action offered after a discard is one the player is entitled to. Only players other than the discarder are offered anything; a player in ting is offered only the win, and only with a hand that then wins; pong, kong and chi need their tiles in hand; chi is offered only to the next seat. |
| Actions.ActionsComplete | backend/app/ws.py:689-729 | Every action the player is entitled to is offered. |
| Actions.ActionIdsUnique | backend/app/ws.py:689-729 | Ids are unique among the actions offered after a discard, so a claimed id selects exactly one. |
| Actions.OfferedDistinct | backend/app/ws.py:689-729 | The actions offered after a discard are pairwise different. |
| Actions.OfferShapeDistinct | backend/app/ws.py:711-728 | A discard offer is an optional pong, an optional kong, distinct chis, then pass, all pairwise different. |
| Claims.RemoveFirst | backend/app/ws.py:932-958 | `list.remove` drops the first copy: the result is the list with one copy fewer, and nothing exactly when the tile is absent. |
| Claims.RemoveAll | backend/app/ws.py:955-958 | Successive removals succeed only if each one does. |
| Claims.RemoveAllSucceeds | backend/app/ws.py:932-958 | The removals succeed exactly when the hand holds every tile to remove, counting copies, and then remove exactly those. |
| Claims.Keys | backend/app/ws.py:828-829 | The claims dictionary's keys in insertion order, each once. |
| Claims.SetClaimSpec | backend/app/main.py:120 | Assignment behaves as a dictionary's: the key maps to the new claim, every other key keeps its own, and a new key is appended to the key order. |
| Claims.ClaimersMembers | backend/app/ws.py:824-829 | The claimers of a type are exactly the players who made a claim of that type. |
| Claims.ClaimersClaimed | backend/app/ws.py:824-829 | A claimer listed under a type made a claim of that type. |
| Claims.Clockwise | backend/app/ws.py:806-816 | The other seats, clockwise from the one after the discarder. |
| Claims.KeepClaimers | backend/app/ws.py:806-816 | The seats that are claimers, in seat order. |
| Claims.ModNear | backend/app/ws.py:806-816 | The Euclidean remainder of a value within one modulus of the range. |
| Claims.ClockwiseDistance | backend/app/ws.py:806-816 | The j-th seat of the clockwise list is j + 1 seats from the discarder. |
| Claims.ClockwiseCovers | backend/app/ws.py:806-816 | Every other seat appears in the clockwise list, and the discarder does not. |
| Claims.IncreasingTail | backend/app/ws.py:806-816 | The tail of a list increasing in distance is increasing and lies above its head. |
| Claims.IncreasingCons | backend/app/ws.py:806-816 | A list increasing in distance stays so with a nearer element put in front. |
| Claims.SeatingPriorityCorrect | backend/app/ws.py:806-816 | With a seated discarder and distinct seats, the priority list holds exactly the seated claimers other than the discarder, nearest clockwise first. |
| Turns.WithDiscardFrame | backend/app/ws.py:641-651 | Writing back a discard touches only the discarder's hand, pile and ting flags. |
| Turns.DiscardAccepted | backend/app/ws.py:618-654 | A discard is accepted exactly on the player's own turn, with the tile in hand, the tile just drawn when in ting, and a waiting hand left when a declaration is pending (if and only if). |
| Turns.DiscardRefused | backend/app/ws.py:621-642 | A refused discard changes nothing, except that a player in ting who named the tile just drawn loses that record. |
| Turns.PlaceDiscardEffect | backend/app/ws.py:641-651 | Laying the discard removes one copy from the hand, which stays sorted; appends the tile to the pile; turns a pending declaration into ting; and touches nobody else. |
| Turns.StartReactionsEffect | backend/app/ws.py:656-687 | After a discard, the window stays open exactly when another seated player can do more than pass. It then carries the discard, no claims and a deadline five seconds on, and the table is unchanged. |
| Turns.NoReactionClosesWindow | backend/app/ws.py:656-687 | When the turn passes straight on from an unclaimable discard, no window is left open, so a self-drawn win found by the next player's draw is not offered. |
| Turns.PassTurnKeepsPiles | backend/app/ws.py:656-687 | Passing the turn leaves every discard pile alone. |
| Turns.DiscardEffect | backend/app/ws.py:621-654 | An accepted discard is the current player's and goes on top of their pile; a player in ting discards exactly the tile last drawn. |
| Turns.DiscardWindow | backend/app/ws.py:652-687 | After an accepted discard, either the window is open on it and no discard is expected, or it is closed and the next player must discard. |
| Turns.PendingTingCommits | backend/app/ws.py:632-651 | A pending declaration becomes ting only with a discard that leaves the hand waiting. |
| Turns.DeclareThenCancel | backend/app/main.py:74-91 | Declaring is allowed exactly when discarding is, and marks only that player pending. Cancelling withdraws it, and the same discard is then judged as if nothing had been declared. |
| Resolve.ClaimTilesInMeld | backend/app/ws.py:932-963 | The hand gives up what the claim uses, and the meld holds those tiles with the discard. |
| Resolve.ClaimTableSucceeds | backend/app/ws.py:926-963 | The table side succeeds exactly when the hand holds the tiles the claim uses. |
| Resolve.ClaimTableHeld | backend/app/ws.py:926-963 | On success, the seat's tiles grow by exactly the discard. |
| Resolve.ClaimTableShape | backend/app/ws.py:932-963 | On success, the meld is appended, and the hand is sorted unless a kong's replacement was appended after sorting. |
| Resolve.ApplyClaimEffect | backend/app/ws.py:919-963 | A claim applies exactly when the claimant is seated and holds its tiles. The claimant is then current and must discard, and their tiles grow by the discard. |
| Resolve.ApplyClaimRejected | backend/app/ws.py:919-963 | Otherwise nothing changes. |
| Resolve.TakeBackEffect | backend/app/ws.py:920-925 | The discarder's pile loses its top tile exactly when that tile is the discard. |
| Resolve.PassTurnEffect | backend/app/ws.py:903-910 | After passing, the seat after the discarder is current, a discard is expected, and no window is open. |
| Resolve.PassTurnTable | backend/app/ws.py:903-910 | That seat has drawn if the game is on and the wall is not empty; the scores are untouched. |
| Resolve.MeldClaimKind | backend/app/ws.py:892-900 | After the wins, the claim types are tried in the order kong, pong, chi, and the one chosen was claimed. |
| Resolve.ResolvePriority | backend/app/ws.py:818-917 | The type resolved is the highest-priority type claimed, where a win counts only on a discard, and it was claimed. |
| Resolve.PriorityFromAbsence | backend/app/ws.py:818-917 | A type chosen once no claimer of a higher type is left outranks every claim made. |
| Resolve.ReactionsKind | backend/app/ws.py:818-917 | The type `resolve_reactions` reports, branch by branch. |
| Resolve.DiscardKindChosen | backend/app/ws.py:892-900 | A discard's claims resolve to the type the priority order picks, or to none. |
| Resolve.NearestClaimer | backend/app/ws.py:892-900 | A meld type goes to a seated non-discarder with a valid claim of that type, nearer clockwise than every other such claimer. |
| Resolve.ClaimersSeated | backend/app/ws.py:892-900 | Every claimer of a type is seated and is not the discarder. |
| Resolve.ClaimOfClaimer | backend/app/ws.py:892-900 | A claimer's recorded claim is of the claimed type and was offered to them. |
| Resolve.FirstIsNearest | backend/app/ws.py:806-816 | The head of a list ordered by distance that holds exactly the eligible claimers is the nearest of them. |
| Resolve.ValidClaimBy | backend/app/main.py:114-120 | A valid claim on a discard comes from a seated player other than the discarder, for an action offered to them. |
| Resolve.MeldClaimApplies | backend/app/ws.py:919-963 | A valid kong, pong or chi claim always applies: the claimant holds the tiles it uses. |
| Resolve.ClaimTilesHeld | backend/app/ws.py:932-958 | The hand tiles a pong, kong or chi takes are in a hand holding the copies it needs. |
| Resolve.PairHeld | backend/app/ws.py:955-958 | Two different tiles of a hand form a sub-multiset of it. |
| Resolve.CopiesHeld | backend/app/ws.py:932-944 | Copies of one tile, no more than the hand holds, form a sub-multiset of it. |
| Resolve.ResolveMeldClaim | backend/app/ws.py:892-900 | With valid claims and distinct seats, a kong, pong or chi goes to the nearest claimer of that type clockwise from the discarder, who becomes current and lays the meld; the window closes. |
| Resolve.ResolveZeroSum | backend/app/ws.py:831-889 | Every win is zero-sum: over any distinct list of players holding every seated player and every claimant, the total score is unchanged by resolving. |
| Resolve.ResolveDiscardScores | backend/app/ws.py:892-910 | Meld claims and passing the turn leave the scores alone. |
| Resolve.ResolveWinEndings | backend/app/ws.py:831-889 | A self-drawn win ends the game without handing out the dice, while a discard win makes the winner the awaited roller. |
| Resolve.ResolveNoClaims | backend/app/ws.py:903-915 | With only passes on a discard, the turn passes exactly when the deadline has passed or every other seated player has answered; until then nothing changes. |
| Resolve.OnlyPassers | backend/app/ws.py:824-829 | Where every claim is a pass, no other type has claimers. |
| Settle.CreditTotal | backend/app/ws.py:845-885 | A credit changes the total of a list of distinct players by its amount if the player is listed, and not at all otherwise. |
| Settle.PayAllZeroSum | backend/app/ws.py:845-850 | A self-win settlement is zero-sum over any distinct list holding the winner and every seated player. |
| Settle.PayDiscardZeroSum | backend/app/ws.py:883-885 | A discard-win settlement is zero-sum, whoever the two players are. |
| Settle.PayAllShares | backend/app/ws.py:845-850 | With distinct seats, each other seated player pays exactly the amount, the winner gains it once per payer, and nobody else is touched. |
| Settle.PayDiscardShares | backend/app/ws.py:883-885 | The discarder loses and the winner gains exactly the amount, and nobody else is touched. |
| Rooms.Connect | backend/app/ws.py:27-29 | A new connection gets a fresh record with no name and no room; rooms and games are unchanged. |
| Rooms.GetOrCreateGame | backend/app/ws.py:72-77 | The room's game, created with the defaults and stored if there was none; membership is unchanged. |
| Rooms.Least | backend/app/ws.py:79-80 | The smallest member of a non-empty set. |
| Rooms.Members | backend/app/ws.py:79-80 | The members of a set, each once, in ascending order. |
| Rooms.ListRoomPlayers | backend/app/ws.py:79-80 | Exactly the room's members, each once, and none for an unknown room. |
| Rooms.ConnectConsistent | backend/app/ws.py:27-29 | A new connection joins no room and keeps the manager consistent. |
| Rooms.DisconnectSpec | backend/app/ws.py:31-38 | After a disconnect the connection is unknown and in no room, and every other connection keeps its record and room. A room disappears only when left empty, and its game goes with it. |
| Rooms.DisconnectConsistent | backend/app/ws.py:31-38 | Consistency of records and rooms survives a disconnect. |
| Rooms.JoinRoomSpec | backend/app/ws.py:40-55 | A join succeeds exactly for a known connection. The connection is then a member of the joined room only, under the given name, and everyone else keeps their record and rooms. |
| Rooms.JoinRoomConsistent | backend/app/ws.py:40-55 | Consistency survives a join under any non-empty room id. |
| Projection.Pivot | backend/app/ws.py:997-1000 | The recipient's seat, or seat 0 for an onlooker; always a valid seat. |
| Projection.RotatedSeats | backend/app/ws.py:997-1001 | The rotation keeps every seat, puts a seated recipient first, and leaves an onlooker's view unrotated. |
| Projection.DisplayName | backend/app/ws.py:1005 | The player's name when it is non-empty, else `player<i+1>`. |
| Projection.Dedup | backend/app/ws.py:1034 | `dict.fromkeys` keeps each tile once, at its first position, and holds exactly the tiles of the input. |
| Projection.KeepWaiting | backend/app/ws.py:1034-1039 | The listed tiles whose discard leaves a waiting hand, in order. |
| Projection.KeepWaitingDistinct | backend/app/ws.py:1034-1039 | Filtering a list without repeats gives a list without repeats. |
| Projection.SerializePlayers | backend/app/ws.py:1002-1014 | The players are the seats in rotated order, numbered from 0; only the recipient is marked "you" and only the current seat "turn"; each carries its own counts and flags. |
| Projection.SerializeYourTurn | backend/app/ws.py:1002-1014 | Some entry is both "you" and "turn" exactly when the recipient is seated and holds the current seat. |
| Projection.TingChoicesSpec | backend/app/ws.py:1031-1039 | The candidates are exactly the tiles in hand whose discard leaves a waiting hand, each once. |
| Projection.SerializeCanTing | backend/app/ws.py:1028-1039 | "canTing" is true exactly when the player who may declare has a discard that leaves a waiting hand; nobody else is ever told they can. |
| Projection.SerializeTing | backend/app/ws.py:1059-1061 | The candidates are sent only while a declaration is pending, and then they are the waiting discards, each once. |
| Projection.OfferedDiscardAccepted | backend/app/ws.py:1028-1039 | A tile offered for a ting discard is one the server accepts; while a declaration is pending nothing else is. |
| Projection.SerializeActions | backend/app/ws.py:1024-1026 | Actions are listed only inside a reaction window, never to the discarder, and each listed id picks out that very action. |
| Encoding.TilesJson | backend/app/ws.py:1056 | A tile list becomes an array of the tiles' codes, in order. |
| Encoding.TilesOf | backend/app/ws.py:1056 | Reading codes back gives a list of the same length, or nothing. |
| Encoding.TilesRoundTrip | backend/app/ws.py:1056 | Tiles survive the trip through their codes (round trip). |
| Encoding.ListJson | backend/app/ws.py:1055-1058 | A list becomes an array of its encoded elements, in order. |
| Encoding.SnapshotTurnFields | backend/app/ws.py:1048-1053 | The fields a client reads to decide whose turn it is come back as sent. |
| Encoding.SnapshotPlayersField | backend/app/ws.py:1055 | The player list comes back as sent. |
| Encoding.SnapshotHandFields | backend/app/ws.py:1056-1061 | The hand, actions and ting fields come back as sent. |
| Encoding.SnapshotDiceFields | backend/app/ws.py:1062-1067 | The dice, roller, game count and deadline fields come back as sent. |
| Encoding.SnapshotLacksTurnIndex | backend/app/ws.py:1051 | The snapshot has no `turn_index` key; its turn field is spelled `turnIndex`. |
| Encoding.PlayerFields | backend/app/ws.py:1004-1013 | A player entry's "you", "turn", "ting" and "name" come back as sent. |
| Encoding.ActionFields | backend/app/ws.py:711-728 | An action's "id" is its id. |
| Server.Broadcast | backend/app/ws.py:57-69 | The message goes to every member of the room, and to nobody for an unknown room. |
| Server.BroadcastState | backend/app/ws.py:82-91 | Every member of the room gets its own snapshot of the room's game; nothing is sent without a game or without members. |
| Server.Store | backend/app/ws.py:72-77 | The room's game is replaced and membership stays as it was. |
| Server.DisconnectMembership | backend/app/ws.py:31-38 | Disconnecting depends on membership alone. |
| Server.HandleJoin | backend/app/main.py:36-45 | `join` puts the sender in the normalised room under the normalised name, confirms the join to the sender, and sends the room's state. |
| Server.HandleStart | backend/app/main.py:47-52 | `start` offers the room's members to `start`, then sends the state. |
| Server.HandleDraw | backend/app/main.py:54-59 | `draw` is a manual draw for the sender, then the state. |
| Server.HandleDiscard | backend/app/main.py:61-72 | A refused discard is reported to the sender; the state goes out either way. |
| Server.HandleTing | backend/app/main.py:74-82 | A declaration by the player about to discard, or an error to the sender. |
| Server.HandleTingCancel | backend/app/main.py:84-91 | Withdraws a pending declaration, or sends an error to the sender. |
| Server.HandleRollDice | backend/app/main.py:93-104 | Only the awaited roller may roll, and the next game then starts. |
| Server.HandleClaim | backend/app/main.py:106-123 | With a window open, the claimed id must be offered to the sender; it becomes the sender's claim and the reactions are resolved. |
| Server.Route | backend/app/main.py:33-129 | Each message type that reads the payload goes to its own handler. |
| Server.Handle | backend/app/main.py:19-146 | A message dispatched by type. A non-object message, or a truthy non-object payload where it is read, drops the connection; a missing payload is empty. |
| Server.RoomOfNonEmpty | backend/app/main.py:37 | The normalised room id is never empty. |
| Server.JoinConsistent | backend/app/main.py:36-45 | A join by a registered connection never drops it and keeps the manager consistent. |
| Server.DroppedConsistent | backend/app/main.py:142-146 | Dropping the connection keeps the manager consistent and forgets the connection. |
| Server.HandleConsistent | backend/app/main.py:30-129 | The handlers keep the manager consistent; the sender stays registered unless dropped, and is forgotten if dropped. |
| Server.ExpiryKeepsRooms | backend/app/main.py:131-141 | The expiry check changes no membership. |
| Server.StepConsistent | backend/app/main.py:11-146 | Every step keeps room membership and client records in agreement, and the sender stays registered exactly while the connection is open. |
| Server.UnparsableAnswered | backend/app/main.py:20-28 | A frame that is not JSON changes nothing and is answered, to the sender only, with an error; the connection stays open. |
| Server.UnknownTypeAnswered | backend/app/main.py:125-129 | An unknown type changes nothing and is answered with an error naming the type; the connection stays open. |
| Server.TingGuard | backend/app/main.py:74-82 | `ting` is accepted exactly when the sender may discard; then only the sender's pending flag changes; otherwise the sender alone hears why. |
| Server.TingCancelGuard | backend/app/main.py:84-91 | `ting_cancel` clears the sender's pending flag when the sender has an entry, and is refused otherwise. |
| Server.RollGuard | backend/app/main.py:93-104 | `roll_dice` is accepted only from the awaited roller; the new multiplier is the throw's times the carried one. |
| Server.ClaimGuard | backend/app/main.py:106-123 | A claim with no window or an id not offered is refused with nothing changed; otherwise exactly the chosen action becomes the sender's claim before resolving. |
| Server.DiscardReplies | backend/app/main.py:61-72 | For a refused discard, the sender alone hears the error, first, and the state still goes to every member; an accepted one sends only the state. |
| Server.DiscardTextUnknown | backend/app/main.py:63-65 | A discard text that names no tile changes no game. |
| Server.DiscardTextCode | backend/app/main.py:63-65 | A discard text naming a tile is judged as that tile's discard. |
| Server.ExpiryResolves | backend/app/main.py:131-141 | After a handled message, the sender's room has no expired window left open; it was resolved and its state broadcast. |
| Server.RoomDefault | backend/app/main.py:37 | A payload without a room id addresses `lobby`. |
| Server.Dispatch | backend/app/main.py:30-129 | A message of a payload-reading type, with an object payload, goes to that type's handler. |
| Server.ClaimInDefaultRoom | backend/app/main.py:106-123 | A claim without a room id is judged in `lobby`; an id offered there is recorded and the window resolved. |
| Server.TileTextPlain | backend/app/main.py:63 | A tile text without surrounding whitespace is read as sent. |
| Server.DiscardInDefaultRoom | backend/app/main.py:61-72 | A discard without a room id is judged in `lobby`, as the discard of that text. |
| Server.DiscardTileInDefaultRoom | backend/app/main.py:61-72 | A discard of a tile's code without a room id is that tile's discard in `lobby`, a refusal reported to the sender first. |
| Server.JoinDefaults | backend/app/main.py:36-43 | A join with no room id and no name joins `lobby` as `guest`. |
| Session.NewClientValid | frontend/src/ws.ts:24-30 | A new client is valid, with the default heartbeat of 10 s and reconnect delay of 2 s unless given. |
| Session.StepValid | frontend/src/ws.ts:32-113 | Every step keeps the client valid: at most one heartbeat and one reconnect timer exist at any time. |
| Session.ConnectSpec | frontend/src/ws.ts:32-38 | `connect` does nothing exactly when the current socket is connecting or open; otherwise a new socket becomes current and connecting. |
| Session.ConnectTwice | frontend/src/ws.ts:32-38 | Calling `connect` again right away changes nothing. |
| Session.SendSpec | frontend/src/ws.ts:109-113 | A frame goes out exactly when the current socket is open, and on that socket. |
| Session.ReceivedSpec | frontend/src/ws.ts:45-58 | Each of "hello", "joined", "state" and "error" reaches its own callback, with its payload, and changes nothing else. A pong records the time; anything else is ignored. |
| Session.HeartbeatSendsPing | frontend/src/ws.ts:77-82 | A heartbeat sends a ping stamped with the current time on the open current socket. |
| Session.OpenedStartsHeartbeat | frontend/src/ws.ts:40-43 | Opening starts a single fresh heartbeat and replaces any earlier one. |
| Session.DisconnectStillReconnects | frontend/src/ws.ts:60-75 | After `disconnect`, the closing socket's close event schedules a reconnect, and when it fires a new socket connects. |
| Session.StaleCloseStopsHeartbeat | frontend/src/ws.ts:60-64 | A close event from a replaced socket still runs `cleanup`: the live connection loses its heartbeat and is marked disconnected. |
| View.FirstYou | frontend/src/App.tsx:44 | The first player entry marked "you", or nothing when there is none. |
| View.NoGameNoTurn | frontend/src/App.tsx:43 | With no snapshot it is never your turn. |
| View.IsYourTurnNeeds | frontend/src/App.tsx:43 | Your turn needs an entry both "you" and "turn", and a falsy `expectsDiscard` rules it out. |
| View.TingDefaults | frontend/src/App.tsx:45-46 | Missing fields give no pending ting and an empty list of ting discards. |
| View.TileEnabledCases | frontend/src/components/Hand.tsx:20 | Off turn no tile is enabled; on turn without a pending ting every tile is; with a pending ting exactly the listed ones are. |
| View.TileClickSpec | frontend/src/components/Hand.tsx:25 | A click sends a message exactly when the tile is enabled, and then a discard of that tile with no room id. |
| View.StatusPriority | frontend/src/components/Hand.tsx:10-16 | The reaction message outranks the turn prompt, which outranks the wait. |
| View.StatusWithoutTurnIndex | frontend/src/components/Hand.tsx:5 | A snapshot without a `turn_index` key always waits for "对家". |
| View.TingButtonsExclusive | frontend/src/components/ActionPanel.tsx:26-30 | The ting and cancel buttons never show together; cancel shows exactly on your turn with a pending ting. |
| View.StartShownCases | frontend/src/components/ActionPanel.tsx:23 | The start button shows exactly before any snapshot or while the game count is 0. |
| View.ActionButtonsSpec | frontend/src/components/ActionPanel.tsx:35-43 | Action buttons need an open window and an offered action; each sends a claim with exactly that action's id. |
| View.CountdownShownSpec | frontend/src/components/ActionPanel.tsx:44-46 | The countdown needs the action section and a numeric deadline. |
| View.CountdownCeiling | frontend/src/components/ActionPanel.tsx:45 | The countdown is the number of started seconds left: zero once the deadline is reached, otherwise the least whole number of seconds covering the rest. |
| View.CountdownMonotone | frontend/src/components/ActionPanel.tsx:45 | The countdown never goes up as time passes. |
| View.RollButtonCases | frontend/src/components/ActionPanel.tsx:7-16 | The roll button shows exactly when the game is started, waits for dice and the roller has no name; a named roller is never matched. |
| View.TrimOrSpec | frontend/src/App.tsx:39-41 | A trimmed input, or the fallback when it trims to nothing: never blank and already trimmed. |
| View.JoinRoomMessageSpec | frontend/src/App.tsx:39-41 | Joining sends the trimmed room id and name, falling back to `lobby` and `guest`, never blank. |
| Crossing.YouAndTurnListed | backend/app/ws.py:1002-1014 | The client finds an entry both "you" and "turn" exactly when the server put one in the list. |
| Crossing.SnapshotTurn | frontend/src/App.tsx:43 | On a snapshot, "your turn" is a listed entry both "you" and "turn", with a discard expected. |
| Crossing.ClientTurnAgrees | frontend/src/App.tsx:43 | The client's "your turn" holds exactly when the recipient holds the current seat and a discard is expected. This is the server's discard condition, short of its running-game test. |
| Crossing.StatusOnSnapshot | frontend/src/components/Hand.tsx:5 | Because the snapshot spells `turnIndex`, on every snapshot the status line waits for "对家", whoever's turn it is. |
| Crossing.RollButtonRefused | frontend/src/components/ActionPanel.tsx:7-16 | The dice section shows only for a running game that waits for dice, which `start` and `roll_dice` never produce; even then the roll button never matches a named roller. |
| Crossing.RollerSeesName | frontend/src/components/ActionPanel.tsx:11-16 | The awaited roller, known by name, sees the roller's name and no roll button. |
| Crossing.ClaimMessageShape | frontend/src/components/ActionPanel.tsx:40 | A claim button sends a `claim` whose payload holds the action's id, and no room id. |
| Crossing.ClaimButtonRecorded | frontend/src/components/ActionPanel.tsx:40 | A claim button's id is judged in `lobby`, and an id offered there is recorded before resolving. |
| Crossing.CodeSendable | frontend/src/components/Hand.tsx:25 | A tile's code needs no stripping and reads back as the tile. |
| Crossing.DiscardMessageShape | frontend/src/components/Hand.tsx:25 | A tile button sends a `discard` with the tile as given, and no room id. |
| Crossing.DiscardMessageRouted | backend/app/main.py:61-72 | The server hands a tile button's message to the discard handler. |
| Crossing.TileButtonDiscards | frontend/src/components/Hand.tsx:25 | A tile button's discard is judged in `lobby`, whatever room the page joined. |
| Crossing.TingButtonAccepted | frontend/src/components/ActionPanel.tsx:26 | The ting button shows only to the player the server would let declare, provided the game is running. |
| Crossing.CandidateListed | frontend/src/App.tsx:46 | A tile the client finds among the ting candidates is one of them. |
| Crossing.PendingTileAccepted | frontend/src/components/Hand.tsx:20 | A tile the hand enables while a declaration is pending is one the server accepts. |
| Intended.SettleSelfWin | backend/app/ws.py:831-867 | The corrected self-win settlement: the as-written payments, ending like a discard win, with the winner as the awaited dice roller. |
| Intended.SelfWinHandsDice | backend/app/test.py:73-92 | After the corrected self-win, exactly the winner may roll, and the roll starts the next game whenever anyone is seated. |
| Intended.OfferedSelfWinSettles | backend/app/ws.py:831-867 | The two corrections composed: the corrected pass offers the next seat its self-win. Once that seat claims it, the as-written settlement stops the game and leaves its roll refused. The corrected settlement accepts the roll. |
| Intended.SelfWinClaimSettles | backend/app/ws.py:831-867 | An open window whose only claim is a self-win resolves as a self-win; the as-written ending refuses every roll and start, and the corrected one accepts the claimer's roll. |
| Intended.PassTurn | backend/app/ws.py:656-687 | The corrected pass closes the window first and then draws, so a self-drawn win found by the draw stays offered. It agrees with the as-written pass on the table and the turn. |
| Intended.PassTurnOffersSelfWin | backend/app/ws.py:549-573 | When the next seat is in ting and its draw wins, the corrected pass offers that seat the self-win on the drawn tile with a five-second deadline; the as-written pass leaves no window. |
| Intended.DiscardWinScore | backend/app/ws.py:870-889 | The corrected discard-win score is taken on the hand with the claimed tile added. |
| Intended.DiscardWinCountsPatterns | backend/app/ws.py:758-804 | A seven-pairs or all-pongs win completed by the claimed tile gets a pattern factor of at least 2 in the corrected score, where the as-written 13-tile hand is neither. |
| Intended.SettleWin | backend/app/ws.py:870-889 | The corrected discard win pays the corrected score; otherwise it is as written: the game stops and the winner is the awaited roller. |
| Intended.SetTotalCountsKongs | backend/app/ws.py:308-313 | The as-written fixed count exceeds the corrected one by exactly one per kong. |
| Intended.CountingSetsAgrees | backend/app/ws.py:302-321 | Without a kong the corrected win test is the as-written one. |
| Intended.KongCountsAsPong | backend/app/ws.py:302-321 | With the corrected count a kong wins exactly as the pong it grew from: the concealed tiles are 14 less three per meld and are empty or a pair plus melds. The as-written test refuses every such hand. |
| Intended.ElevenBesideKong | backend/app/ws.py:302-321 | Eleven concealed tiles forming a standard hand beside one kong win with the corrected count and not as written. |
| Intended.KongHandWins | backend/app/ws.py:942-953 | Three bamboo runs and a D5 pair beside an exposed kong of C2 win with the corrected count but not as written. |
| Intended.FirstOfSuit | backend/app/ws.py:252 | The first tile that really is suited, or none when no tile is. |
| Intended.PureSuitByKindCorrect | backend/app/ws.py:211-235 | The corrected pure suit holds exactly when the non-flower tiles are not empty and all suited tiles of one suit. |
| Intended.HalfSuitByKindCorrect | backend/app/ws.py:237-261 | The corrected half suit holds exactly when some tile is suited and all suited tiles share one suit. |
| Intended.SuitByKindAgrees | backend/app/ws.py:211-261 | With no dragon among the tiles, both corrected suit tests agree with the as-written ones. |
| Intended.SuitedLetters | backend/app/ws.py:227-233 | On tiles without a dragon, "one suit letter" and "one suit" mean the same thing. |
| Intended.DotBesideDragon | backend/app/ws.py:211-261 | A dot beside a dragon passes the as-written pure-suit test. With the corrected tests it is no pure suit, only a half suit. |
| Intended.DragonWithDots | backend/app/ws.py:211-261 | D1 with the red dragon, taken as a concrete case of the above. |
| Intended.TileButtonInRoom | frontend/src/components/Hand.tsx:25 | With the room id the join confirmed, a tile button's discard is judged in that room, a refusal reported to the sender first. |
| Intended.RoomMessageRouted | backend/app/main.py:61-72 | A discard carrying a room id reaches the discard handler with both fields. |
| Intended.RoomPayloadRead | backend/app/main.py:62-63 | The server reads such a payload as the room and the tile's code, unchanged. |
| Intended.FirstTurn | frontend/src/components/Hand.tsx:5 | The first player entry marked "turn", or nothing when there is none. |
| Intended.StatusLine | frontend/src/components/Hand.tsx:5-16 | The corrected status line names the entry marked "turn" instead of reading the missing `turn_index`. |
| Intended.StatusNamesCurrent | frontend/src/components/Hand.tsx:10-16 | While someone else is to play, the corrected line names that player as the snapshot lists them. |
| Intended.StatusOnEntry | frontend/src/components/Hand.tsx:10-16 | Off the reactions and off the page's own turn, the corrected line names the first entry marked "turn", or waits for "对家" when none is. |
| Intended.TurnEntry | backend/app/ws.py:1002-1014 | The first entry marked "turn" is the current seat's, and there is one exactly when a seat is current. |
| Intended.DiceSection | frontend/src/components/ActionPanel.tsx:7-16 | The corrected dice section shows the roll button exactly when the game waits for dice and the roller's name is the joined name. |
| Intended.RollButtonForWinner | frontend/src/components/ActionPanel.tsx:11-16 | After a discard win, exactly the pages joined under the winner's name show the roll button, and the winner's roll is accepted; the as-written section shows nothing. |
| Intended.RollButtonWhenAwaited | frontend/src/components/ActionPanel.tsx:11-16 | In a stopped game waiting for a named roller, the corrected section offers the roll to pages joined under that name. |
| Intended.RollerSeen | backend/app/ws.py:1041-1046 | A page reads the dice flags as sent, and the roller's name when the roller is known by name. |
| Intended.Disconnect | frontend/src/ws.ts:71-75 | The corrected `disconnect` also cancels a pending reconnect. |
| Intended.Closed | frontend/src/ws.ts:60-64 | Only the current socket's close cleans up and reconnects; a dropped or replaced socket's close is recorded and changes nothing else. |
| Intended.ClosedValid | frontend/src/ws.ts:60-64 | The corrected close keeps the client's timers accounted for. |
| Intended.DisconnectIsFinal | frontend/src/ws.ts:71-75 | After the corrected `disconnect`, the dropped socket's close schedules nothing, and the client stays disconnected with no timer left. |
| Intended.StaleCloseKeepsConnection | frontend/src/ws.ts:60-64 | With the corrected close, an old socket's late close leaves the live connection connected with its heartbeat. |

## Left out

- Game.Current: Python's `player_order[turn_index]` raises IndexError for a stale index; the model reads no current seat instead. Here is an input that reaches it:
  1. Four players are seated. A discard win goes to the seat at index 3, and `_end_game` keeps `turn_index` 3.
  2. Two players disconnect.
  3. `start` reseats two players.
  4. The next `serialize_for` raises at backend/app/ws.py:1009, and the sender is disconnected (backend/app/main.py:144-146).
- Projection.SerializeFor: for that input the model sends snapshots with no seat marked "turn", where the source raises (backend/app/ws.py:1009, 1030-1031).
- Server.BroadcastState: every later `broadcast_state` of such a room raises too. The model keeps sending snapshots.
- Server.HandleTing: the same stale index raises at backend/app/main.py:78. The model refuses the declaration.
- Game.AutoDrawCurrent: the stale index at backend/app/ws.py:552 would raise. The model draws for nobody.
- Turns.CanDiscard: the stale index at backend/app/ws.py:619 would raise. The model refuses the discard.
- Resolve.ApplyClaim: in the source, a `hand.remove` that raises (backend/app/ws.py:932-958) leaves the take-back of the discard (920-925) done and drops the connection. In the model a claim whose tiles are not held changes nothing. `Resolve.MeldClaimApplies` shows that a valid claim always holds its tiles.
- Resolve.ResolveMeld: on the two failure paths the source raises and the model does not. A claim `ApplyClaim` refuses still has its reaction window cleared by `ResolveMeld`, while the source raises from `hand.remove` before `clear_reactions` (backend/app/ws.py:898-899). An empty claimer list returns the game unchanged, while the source's `ordered[0]` raises IndexError (ws.py:897). Neither path is reachable with valid claims from distinct seats, by `Resolve.MeldClaimApplies` and `Resolve.NearestClaimer`.
- Claims.RemoveFirst: Python's `list.remove` raises ValueError for an absent tile. The model returns nothing, and each caller treats that as "no change".
- Claims.RemoveAll: the same, for a sequence of removals.
- Time: the source uses float seconds from `time.time()`. The deadline is `time.time() + 5.0` (backend/app/ws.py:569, 678), and the client multiplies it by 1000 (frontend/src/components/ActionPanel.tsx:45). The model counts whole milliseconds throughout: `now` is a natural number, the window is 5000 ms, and the snapshot's deadline is sent in ms.
- View.Countdown: works on whole milliseconds, without the `* 1000` rescale of a float deadline.
- Rooms.ListRoomPlayers: Python lists a `set` in hash order (backend/app/ws.py:79-80). The model lists the members in ascending id order. That order decides who `start` seats, who counts as the next seat for chi, claim priority and the snapshot rotation.
- Wire.PyStr: `str()` of a non-empty object becomes "{...}", without its contents. Two different object-valued room ids therefore share a room in the model.
- Wire.PyStr: strings inside lists and objects are not escaped as Python's `repr` would escape them. Non-integer numbers are not modelled, since JSON numbers are integers here.
- JSON text is not parsed. A frame is either a decoded value or unparsable, and the client's `JSON.parse` and `JSON.stringify` are not modelled.
- Logging is not modelled: the `print` at backend/app/ws.py:1030, the `traceback.print_exc` calls in backend/app/main.py, and the `console.log` at frontend/src/components/ActionPanel.tsx:4.
- `broadcast` (backend/app/ws.py:57-69): sending errors and the pruning of dead sockets are not modelled. Every send is taken to succeed.
- The `hello` greeting and the `pong` reply of `handle_ws` (backend/app/main.py:14-17, 34) are modelled as bare message kinds. The greeting text and the pong's ISO timestamp are not.
- Randomness is an input:
  - the shuffled wall of `_start_game` is any permutation of the full set (`Deal.IsShuffle`);
  - the dice of `roll_dice` (backend/app/ws.py:458-460) are given as a sequence.
- The asyncio event loop, concurrent connections and `WebSocketDisconnect` are not modelled. Each step is one message from one connection.
- The greedy `can_form_melds` (backend/app/ws.py:153-186) is not modelled, because no caller uses it.
- React rendering, styling and the components outside the three pages' derivations (DiscardPile, ConnectionStatus, RoomInfo, JoinRoomForm, ui) are not modelled.

## Findings

| source | as written | input that shows it | evidently intended | confidence | as-written member | corrected member |
|---|---|---|---|---|---|---|
| backend/app/ws.py:831-867 | A self-drawn win stops the game without calling `_end_game`, so nobody becomes the dice roller and `waiting_for_dice` stays false. | Latent as written: the only self-win offer (ws.py:564) is closed again right after each pass (next row), so no claim reaches this branch yet. Once the pass keeps the offer, a player in ting whose draw completes the hand claims the self-win, and from then on every `roll_dice` is refused and `start` only counts the game. | As in `_end_game` and backend/app/test.py:73-92, the winner rolls to start the next game. | not executed | Deal.SelfWinStalls, Intended.OfferedSelfWinSettles | Intended.SettleSelfWin, Intended.SelfWinHandsDice |
| backend/app/ws.py:656-687, 903-910 | Both places that pass the turn after a discard (nobody can react, at 681-684; everybody passed or the deadline ran out, at 906-909) call `auto_draw_current`, which may open a self-win window for the next seat, and then call `clear_reactions`, which closes it. | The next seat is in ting, and the tile it draws from the tail completes its hand. | The self-win found by the draw stays offered until it is claimed or its deadline passes. | not executed | Turns.NoReactionClosesWindow | Intended.PassTurn, Intended.PassTurnOffersSelfWin |
| backend/app/ws.py:870-889 | A discard win is scored by `calculate_score` on the hand before the claimed tile is added. | A seven-pairs hand waiting on its last pair tile wins on a discard and is scored without the seven-pairs factor. | The win is scored on the 14-tile winning hand, as a self-drawn win is. | not executed | Scoring.DiscardWinMissesPatterns | Intended.DiscardWinScore, Intended.DiscardWinCountsPatterns, Intended.SettleWin |
| frontend/src/App.tsx:13, 29 | `joined` is set to `true`, so `joined.roomId` is undefined and every in-game message omits the room id. | The page joins room "r1" and clicks a tile. The server judges the discard in "lobby". | Messages carry the room id the join confirmed. | not executed | Crossing.TileButtonDiscards, Crossing.ClaimButtonRecorded | Intended.TileButtonInRoom |
| frontend/src/components/Hand.tsx:5 | The status line reads `game.turn_index`, which the snapshot spells `turnIndex` (backend/app/ws.py:1051). | Any snapshot while another player is to discard shows "等待 对家 出牌". | The line names the player whose turn it is. | not executed | Crossing.StatusOnSnapshot | Intended.StatusLine, Intended.StatusNamesCurrent |
| frontend/src/components/ActionPanel.tsx:7, 11-16 | The dice section needs `game.started`, which is false whenever dice are awaited, and it compares the roller's name with `joined.name` of a boolean. | After a discard win, the winner's page shows no roll button. | The winner's page shows the roll button. | not executed | Crossing.RollButtonRefused | Intended.DiceSection, Intended.RollButtonForWinner |
| frontend/src/ws.ts:60-64, 71-75 | `onclose` always cleans up and schedules a reconnect, even after `disconnect` and for a socket already replaced. | Call `disconnect`: the close event reconnects. Or call `disconnect`, `connect`, and open the new socket; the old close then stops the new heartbeat. | `disconnect` is final, and only the current socket's close affects the client. | not executed | Session.DisconnectStillReconnects, Session.StaleCloseStopsHeartbeat | Intended.Disconnect, Intended.Closed, Intended.DisconnectIsFinal, Intended.StaleCloseKeepsConnection |
| backend/app/ws.py:308-317 | `can_win_hand` counts an exposed kong as four tiles toward the 14, so a player who has declared a kong holds one tile too many and can never win or be offered ting. | Three bamboo runs and a pair of D5 beside an exposed kong of C2: a complete hand, refused. | A kong counts as one set, like the pong it grew from; its fourth tile is made up for by the supplement drawn at ws.py:947-950. | not executed | Hands.KongBlocksWin | Intended.CanWinCountingSets, Intended.KongCountsAsPong, Intended.KongHandWins, Intended.CountingSetsAgrees |
| backend/app/ws.py:227, 233, 252, 259 | The suit tests ask `t[0] in SUITS`, which the dragons ('DR', 'DG', 'DW') pass as dots. | Latent as written: the dragons are bonus tiles (ws.py:591-597) and never stay in a hand (Bonus.BonusChainClearsHand). A hand of dots and a dragon would score the pure-suit factor 4 instead of the half-suit factor 2. | A dragon is an honour: it never counts toward a suit. | not executed | Tiles.HasSuitLetter, Intended.DotBesideDragon | Intended.IsPureSuitByKind, Intended.IsHalfSuitByKind, Intended.PureSuitByKindCorrect, Intended.HalfSuitByKindCorrect, Intended.SuitByKindAgrees |

The default candidate pool of `winning_tiles_for` (ws.py:419-421) leaves out the dragons, although its docstring (ws.py:416) promises all standard tiles. This is not a finding. The dragons are bonus tiles, and the bonus chain moves each one to the bonus pile as it arrives, so a hand never holds one (Bonus.BonusChainClearsHand). A tile that is not suited can only complete a hand that already holds a copy of it (Hands.LoneUnsuitedNeverCompletes). So for every hand without a bonus tile the list is exactly the set of tiles that complete it (Hands.WinningTilesComplete).

=== FILE: actions.dfy ===
/** The reactions a player may claim after a discard: `compute_actions_for`, `next_player_is`
    and `chi_options` (ws.py:689-756), and the action ids the client sends back. */
module Actions {
  import opened Wrappers
  import opened Tiles
  import opened Hands
  import opened Game

  // ---------------------------------------------------------------------------
  // Action ids
  // ---------------------------------------------------------------------------

  /** The `id` field of an action dictionary. A self-win's id does not name its tile. */
  function ActionId(a: Action): string {
    match a
    case SelfWin(_) => "self-win"
    case Win(t) => "win-" + Code(t)
    case PongOf(t) => "pong-" + Code(t)
    case KongOf(t) => "kong-" + Code(t)
    case ChiWith(x, y) => "chi-" + Code(x) + "-" + Code(y)
    case Pass => "pass"
  }

  /** Ids tell actions apart, except that every self-win has the same id. */
  lemma ActionIdInjective(a: Action, b: Action)
    requires ActionId(a) == ActionId(b)
    ensures a.SelfWin? <==> b.SelfWin?
    ensures !a.SelfWin? ==> a == b
  {
    match a
    case SelfWin(_) => {
      assert |ActionId(b)| == 8;
    }
    case Win(t) => {
      assert ActionId(b)[..4] == "win-";
      assert ActionId(b)[4..] == Code(t);
      CodeInjective(t, b.tile);
    }
    case PongOf(t) => {
      assert ActionId(b)[..5] == "pong-";
      assert ActionId(b)[5..] == Code(t);
      CodeInjective(t, b.tile);
    }
    case KongOf(t) => {
      assert ActionId(b)[..5] == "kong-";
      assert ActionId(b)[5..] == Code(t);
      CodeInjective(t, b.tile);
    }
    case ChiWith(x, y) => {
      assert ActionId(b)[..4] == "chi-";
      assert |ActionId(b)| == 9;
      assert ActionId(b)[4..6] == Code(x) && ActionId(b)[7..] == Code(y);
      assert ActionId(b)[4..6] == Code(b.first) && ActionId(b)[7..] == Code(b.second);
      CodeInjective(x, b.first);
      CodeInjective(y, b.second);
    }
    case Pass => {
    }
  }

  /** `next((a for a in avail if a.get("id") == claim_id), None)` (main.py:116). */
  function FindById(avail: seq<Action>, id: string): (r: Option<Action>)
    ensures r.Some? ==> r.value in avail && ActionId(r.value) == id
    ensures r.Some? ==> (exists i :: 0 <= i < |avail| && avail[i] == r.value
                                     && (forall j :: 0 <= j < i ==> ActionId(avail[j]) != id))
    ensures r.None? ==> forall i :: 0 <= i < |avail| ==> ActionId(avail[i]) != id
  {
    if avail == [] then None
    else if ActionId(avail[0]) == id then Some(avail[0])
    else FindById(avail[1..], id)
  }

  // ---------------------------------------------------------------------------
  // chi_options and next_player_is
  // ---------------------------------------------------------------------------

  /** `chi_options`: the pairs of tiles that complete a run with a suited tile of rank n, for the
      runs n-2..n, n-1..n+1 and n..n+2 that fit within 1..9, lower tile first. */
  function ChiOptions(t: Tile): seq<(Tile, Tile)>
    requires t.Suited?
  {
    var s := t.suit;
    var n := t.rank;
    (if n - 2 >= 1 then [(Suited(s, n - 2), Suited(s, n - 1))] else [])
    + (if 1 <= n - 1 && n + 1 <= 9 then [(Suited(s, n - 1), Suited(s, n + 1))] else [])
    + (if n + 2 <= 9 then [(Suited(s, n + 1), Suited(s, n + 2))] else [])
  }

  /** Reference: `a` and `b`, lower first, make a run of three consecutive ranks of one suit
      together with `t`. */
  predicate RunWith(a: Tile, b: Tile, t: Tile) {
    a.Suited? && b.Suited? && t.Suited? && a.suit == t.suit && b.suit == t.suit
    && a.rank < b.rank && a.rank != t.rank && b.rank != t.rank
    && Max3(a.rank, b.rank, t.rank) - Min3(a.rank, b.rank, t.rank) == 2
  }

  function Min3(x: int, y: int, z: int): int {
    if x <= y && x <= z then x else if y <= z then y else z
  }

  function Max3(x: int, y: int, z: int): int {
    if x >= y && x >= z then x else if y >= z then y else z
  }

  /** The options are exactly the pairs completing a run with the tile, and each one together
      with the tile is the tile multiset of a run meld. */
  lemma ChiOptionsCorrect(t: Tile, a: Tile, b: Tile)
    requires t.Suited?
    ensures (a, b) in ChiOptions(t) <==> RunWith(a, b, t)
    ensures (a, b) in ChiOptions(t) ==>
              exists k: Melds.RunStart :: multiset{a, b, t} == Melds.MeldTiles(Melds.Run(t.suit, k))
  {
    if (a, b) in ChiOptions(t) {
      ChiOptionsSound(t, a, b);
    }
    if RunWith(a, b, t) {
      ChiOptionsComplete(t, a, b);
    }
  }

  lemma ChiOptionsSound(t: Tile, a: Tile, b: Tile)
    requires t.Suited? && (a, b) in ChiOptions(t)
    ensures RunWith(a, b, t)
    ensures exists k: Melds.RunStart :: multiset{a, b, t} == Melds.MeldTiles(Melds.Run(t.suit, k))
  {
    var n: int := t.rank;
    if a.rank < n && n < b.rank {
      RunAround(t, a, b);
    } else if b.rank < n {
      RunBelow(t, a, b);
    } else {
      RunAbove(t, a, b);
    }
  }

  lemma RunBelow(t: Tile, a: Tile, b: Tile)
    requires t.Suited? && t.rank >= 3 && a == Suited(t.suit, t.rank - 2) && b == Suited(t.suit, t.rank - 1)
    ensures exists k: Melds.RunStart :: multiset{a, b, t} == Melds.MeldTiles(Melds.Run(t.suit, k))
  {
    var k: Melds.RunStart := t.rank - 2;
    assert multiset{a, b, t} == Melds.MeldTiles(Melds.Run(t.suit, k));
  }

  lemma RunAround(t: Tile, a: Tile, b: Tile)
    requires t.Suited? && 2 <= t.rank <= 8 && a == Suited(t.suit, t.rank - 1) && b == Suited(t.suit, t.rank + 1)
    ensures exists k: Melds.RunStart :: multiset{a, b, t} == Melds.MeldTiles(Melds.Run(t.suit, k))
  {
    var k: Melds.RunStart := t.rank - 1;
    assert multiset{a, t, b} == Melds.MeldTiles(Melds.Run(t.suit, k));
  }

  lemma RunAbove(t: Tile, a: Tile, b: Tile)
    requires t.Suited? && t.rank <= 7 && a == Suited(t.suit, t.rank + 1) && b == Suited(t.suit, t.rank + 2)
    ensures exists k: Melds.RunStart :: multiset{a, b, t} == Melds.MeldTiles(Melds.Run(t.suit, k))
  {
    var k: Melds.RunStart := t.rank;
    assert multiset{t, a, b} == Melds.MeldTiles(Melds.Run(t.suit, k));
  }

  lemma ChiOptionsComplete(t: Tile, a: Tile, b: Tile)
    requires t.Suited? && RunWith(a, b, t)
    ensures (a, b) in ChiOptions(t)
  {
    var s := t.suit;
    var n: int := t.rank;
    if b.rank < n {
      assert a == Suited(s, n - 2) && b == Suited(s, n - 1);
    } else if a.rank < n {
      assert a == Suited(s, n - 1) && b == Suited(s, n + 1);
    } else {
      assert a == Suited(s, n + 1) && b == Suited(s, n + 2);
    }
  }

  /** No option is listed twice. */
  lemma ChiOptionsDistinct(t: Tile)
    requires t.Suited?
    ensures forall i, j :: 0 <= i < j < |ChiOptions(t)| ==> ChiOptions(t)[i] != ChiOptions(t)[j]
  {
  }

  /** `next_player_is`: `p` sits right after the discarder `from`. */
  predicate NextPlayerIs(order: seq<ClientId>, p: ClientId, from: ClientId) {
    var next := NextSeat(order, from);
    next.Some? && order[next.value] == p
  }

  // ---------------------------------------------------------------------------
  // compute_actions_for
  // ---------------------------------------------------------------------------

  /** The chi options whose two tiles are both in the hand. */
  function ChiActions(opts: seq<(Tile, Tile)>, hand: seq<Tile>): (r: seq<Action>)
    ensures forall a :: a in r <==> a.ChiWith? && (a.first, a.second) in opts && a.first in hand && a.second in hand
  {
    if opts == [] then []
    else
      var o := opts[0];
      (if o.0 in hand && o.1 in hand then [ChiWith(o.0, o.1)] else []) + ChiActions(opts[1..], hand)
  }

  /** `compute_actions_for`: nothing outside a window; in a self-draw window the precomputed
      actions; the discarder gets nothing; a player in ting may only win; anyone else may pong
      (two copies), kong (three copies) or, sitting right after the discarder, chi a suited
      tile, and then may also pass. */
  function ComputeActionsFor(g: Game, p: ClientId): seq<Action> {
    if !g.window.active then []
    else if g.window.lastDiscard.None? then
      (if p in g.window.actions then g.window.actions[p] else [])
    else
      var from := g.window.lastDiscard.value.0;
      var tile := g.window.lastDiscard.value.1;
      var hand := HandOf(g.table, p);
      if p == from then []
      else if InTing(g.table, p) then
        (if CanWinHand(hand + [tile], ExposedOf(g.table, p)) then [Win(tile)] else [])
      else
        var count := multiset(hand)[tile];
        var acts := (if count >= 2 then [PongOf(tile)] else [])
                    + (if count >= 3 then [KongOf(tile)] else [])
                    + (if tile.Suited? && NextPlayerIs(g.playerOrder, p, from)
                       then ChiActions(ChiOptions(tile), hand) else []);
        if acts != [] then acts + [Pass] else []
  }

  /** Every action offered after a discard is one the player is entitled to: only others than
      the discarder are offered anything, a player in ting only the win with a hand that then
      wins, a pong needs two copies, a kong three, a chi the next seat and two hand tiles
      completing a run, and a pass is offered only alongside something else. */
  lemma ActionsSound(g: Game, p: ClientId, a: Action)
    requires g.window.active && g.window.lastDiscard.Some?
    requires a in ComputeActionsFor(g, p)
    ensures var from := g.window.lastDiscard.value.0;
      var tile := g.window.lastDiscard.value.1;
      var hand := HandOf(g.table, p);
      p != from
      && (a.Win? ==> a.tile == tile && InTing(g.table, p) && CanWinHand(hand + [tile], ExposedOf(g.table, p)))
      && (!a.Win? ==> !InTing(g.table, p))
      && (a.PongOf? ==> a.tile == tile && multiset(hand)[tile] >= 2)
      && (a.KongOf? ==> a.tile == tile && multiset(hand)[tile] >= 3)
      && (a.ChiWith? ==> NextPlayerIs(g.playerOrder, p, from) && a.first in hand && a.second in hand
                         && RunWith(a.first, a.second, tile))
      && (a.Pass? ==> exists b :: b in ComputeActionsFor(g, p) && b != Pass)
      && !a.SelfWin?
  {
    var tile := g.window.lastDiscard.value.1;
    if a.ChiWith? {
      ChiOptionsCorrect(tile, a.first, a.second);
    }
    if a.Pass? {
      var r := ComputeActionsFor(g, p);
      assert r[0] in r && r[0] != Pass;
    }
  }

  /** And every entitled action is offered. */
  lemma ActionsComplete(g: Game, p: ClientId, a: Tile, b: Tile)
    requires g.window.active && g.window.lastDiscard.Some?
    ensures var from := g.window.lastDiscard.value.0;
      var tile := g.window.lastDiscard.value.1;
      var hand := HandOf(g.table, p);
      var r := ComputeActionsFor(g, p);
      p != from ==>
        (InTing(g.table, p) && CanWinHand(hand + [tile], ExposedOf(g.table, p)) ==> Win(tile) in r)
        && (!InTing(g.table, p) && multiset(hand)[tile] >= 2 ==> PongOf(tile) in r && Pass in r)
        && (!InTing(g.table, p) && multiset(hand)[tile] >= 3 ==> KongOf(tile) in r)
        && ((!InTing(g.table, p) && NextPlayerIs(g.playerOrder, p, from) && a in hand && b in hand
             && RunWith(a, b, tile)) ==> ChiWith(a, b) in r && Pass in r)
  {
    var tile := g.window.lastDiscard.value.1;
    if tile.Suited? {
      ChiOptionsCorrect(tile, a, b);
    }
  }

  /** Ids are unique among the actions offered after a discard, so a claimed id selects exactly
      one of them. */
  lemma ActionIdsUnique(g: Game, p: ClientId, i: nat, j: nat)
    requires g.window.active && g.window.lastDiscard.Some?
    requires i < j < |ComputeActionsFor(g, p)|
    ensures ActionId(ComputeActionsFor(g, p)[i]) != ActionId(ComputeActionsFor(g, p)[j])
  {
    var r := ComputeActionsFor(g, p);
    if ActionId(r[i]) == ActionId(r[j]) {
      ActionsSound(g, p, r[i]);
      ActionIdInjective(r[i], r[j]);
      OfferedDistinct(g, p, i, j);
      assert false;
    }
  }

  /** The actions offered after a discard are pairwise different. */
  lemma OfferedDistinct(g: Game, p: ClientId, i: nat, j: nat)
    requires g.window.active && g.window.lastDiscard.Some?
    requires i < j < |ComputeActionsFor(g, p)|
    ensures ComputeActionsFor(g, p)[i] != ComputeActionsFor(g, p)[j]
  {
    var from := g.window.lastDiscard.value.0;
    var tile := g.window.lastDiscard.value.1;
    var hand := HandOf(g.table, p);
    if p != from && !InTing(g.table, p) {
      var count := multiset(hand)[tile];
      var chi := if tile.Suited? && NextPlayerIs(g.playerOrder, p, from)
                 then ChiActions(ChiOptions(tile), hand) else [];
      if chi != [] {
        ChiOptionsDistinct(tile);
        ChiActionsDistinct(ChiOptions(tile), hand);
      }
      assert forall k :: 0 <= k < |chi| ==> chi[k] in chi;
      OfferShapeDistinct(tile, count >= 2, count >= 3, chi, i, j);
    }
  }

  /** The shape of a discard offer: an optional pong, an optional kong, distinct chis, then
      pass. Its entries are pairwise different. */
  lemma OfferShapeDistinct(tile: Tile, pong: bool, kong: bool, chi: seq<Action>, i: nat, j: nat)
    requires forall k :: 0 <= k < |chi| ==> chi[k].ChiWith?
    requires forall a, b :: 0 <= a < b < |chi| ==> chi[a] != chi[b]
    requires i < j < |(if pong then [PongOf(tile)] else []) + (if kong then [KongOf(tile)] else []) + chi + [Pass]|
    ensures var r := (if pong then [PongOf(tile)] else []) + (if kong then [KongOf(tile)] else []) + chi + [Pass];
      r[i] != r[j]
  {
    var head := (if pong then [PongOf(tile)] else []) + (if kong then [KongOf(tile)] else []);
    var r := head + chi + [Pass];
    assert forall k :: 0 <= k < |head| ==> r[k] == head[k] && (head[k].PongOf? || head[k].KongOf?);
    assert |head| == 2 ==> head[0].PongOf? && head[1].KongOf?;
    assert forall k :: |head| <= k < |head| + |chi| ==> r[k] == chi[k - |head|];
    assert r[|r| - 1] == Pass;
  }

  lemma {:induction false} ChiActionsDistinct(opts: seq<(Tile, Tile)>, hand: seq<Tile>)
    requires forall i, j :: 0 <= i < j < |opts| ==> opts[i] != opts[j]
    ensures forall i, j :: 0 <= i < j < |ChiActions(opts, hand)| ==> ChiActions(opts, hand)[i] != ChiActions(opts, hand)[j]
  {
    if opts != [] {
      ChiActionsDistinct(opts[1..], hand);
      var rest := ChiActions(opts[1..], hand);
      assert ChiWith(opts[0].0, opts[0].1) !in rest;
    }
  }
}

=== FILE: bonus.dfy ===
/** `process_bonus_chain` (ws.py:599-616): while the last tile of a hand is a bonus tile it moves
    to the bonus pile and, if the wall is not empty, a replacement comes from the head of the wall. */
module Bonus {
  import opened Wrappers
  import opened Tiles

  function Last<T>(s: seq<T>): T
    requires |s| > 0
  {
    s[|s| - 1]
  }

  /** The tiles the chain works on: one player's hand and bonus pile, and the wall (its head is
      index 0). `drawn` is the latest replacement drawn, the value `last_drawn` receives. */
  datatype Chain = Chain(hand: seq<Tile>, pile: seq<Tile>, wall: seq<Tile>, drawn: Option<Tile>)

  /** One round of the loop: the bonus tile at the end of the hand goes to the pile and, when
      the wall is not empty, its head is appended to the hand and recorded as drawn. */
  function Step(c: Chain): Chain
    requires c.hand != []
  {
    var hand' := c.hand[..|c.hand| - 1];
    var pile' := c.pile + [Last(c.hand)];
    if c.wall == [] then Chain(hand', pile', c.wall, c.drawn)
    else Chain(hand' + [c.wall[0]], pile', c.wall[1..], Some(c.wall[0]))
  }

  predicate EndsInBonus(hand: seq<Tile>) {
    hand != [] && IsBonus(Last(hand))
  }

  /** The loop: it stops when the hand is empty or ends in a non-bonus tile, and also right after
      moving a bonus tile when the wall is empty. */
  function ProcessBonusChain(c: Chain): (r: Chain)
    ensures !EndsInBonus(r.hand) || r.wall == []
    decreases |c.wall|
  {
    if !EndsInBonus(c.hand) then c
    else if c.wall == [] then Step(c)
    else ProcessBonusChain(Step(c))
  }

  function ChainTiles(c: Chain): multiset<Tile> {
    multiset(c.hand) + multiset(c.pile) + multiset(c.wall)
  }

  lemma StepConserves(c: Chain)
    requires c.hand != []
    ensures ChainTiles(Step(c)) == ChainTiles(c)
  {
    var hand' := c.hand[..|c.hand| - 1];
    assert c.hand == hand' + [Last(c.hand)];
    if c.wall != [] {
      assert c.wall == [c.wall[0]] + c.wall[1..];
    }
    assert forall x :: ChainTiles(Step(c))[x] == ChainTiles(c)[x];
    MultisetExt(ChainTiles(Step(c)), ChainTiles(c));
  }

  /** No tile is created or lost: hand, bonus pile and wall together hold the same tiles. */
  lemma {:induction false} BonusChainConserves(c: Chain)
    ensures ChainTiles(ProcessBonusChain(c)) == ChainTiles(c)
    decreases |c.wall|
  {
    if EndsInBonus(c.hand) {
      StepConserves(c);
      if c.wall != [] {
        BonusChainConserves(Step(c));
      }
    }
  }

  /** The bonus pile only grows, and only by bonus tiles. */
  lemma {:induction false} BonusChainPile(c: Chain)
    ensures var r := ProcessBonusChain(c);
      |r.pile| >= |c.pile| && r.pile[..|c.pile|] == c.pile
      && forall i :: |c.pile| <= i < |r.pile| ==> IsBonus(r.pile[i])
    decreases |c.wall|
  {
    if EndsInBonus(c.hand) && c.wall != [] {
      BonusChainPile(Step(c));
      var r := ProcessBonusChain(c);
      assert r.pile[..|c.pile| + 1] == Step(c).pile;
      assert r.pile[..|c.pile|] == Step(c).pile[..|c.pile|];
    }
  }

  /** Replacements come from the head of the wall, so what is left is a suffix of it; the hand
      keeps its size except for the final bonus tile moved once the wall has run out, and all
      tiles before its last one stay in place. */
  lemma {:induction false} BonusChainShape(c: Chain)
    ensures var r := ProcessBonusChain(c);
      |r.wall| <= |c.wall| && r.wall == c.wall[|c.wall| - |r.wall|..]
      && (|r.hand| == |c.hand| || (|r.hand| + 1 == |c.hand| && r.wall == []))
      && (c.hand != [] ==> r.hand[..|c.hand| - 1] == c.hand[..|c.hand| - 1])
    decreases |c.wall|
  {
    if EndsInBonus(c.hand) && c.wall != [] {
      BonusChainShape(Step(c));
      var r := ProcessBonusChain(c);
      assert r.hand[..|c.hand| - 1] == Step(c).hand[..|c.hand| - 1];
    }
  }

  /** A chain that draws nothing and keeps the hand size did not run at all. */
  lemma NoRoundNoChange(c: Chain)
    requires |ProcessBonusChain(c).wall| == |c.wall| && |ProcessBonusChain(c).hand| == |c.hand|
    ensures ProcessBonusChain(c) == c
  {
    if EndsInBonus(c.hand) {
      if c.wall != [] {
        BonusChainShape(Step(c));
      }
    }
  }

  /** `last_drawn` changes only when a replacement is drawn, and then names the last tile taken
      from the wall. */
  lemma {:induction false} BonusChainDrawn(c: Chain)
    ensures var r := ProcessBonusChain(c);
      (|r.wall| == |c.wall| ==> r.drawn == c.drawn)
      && (|r.wall| < |c.wall| ==> r.drawn == Some(c.wall[|c.wall| - |r.wall| - 1]))
    decreases |c.wall|
  {
    if EndsInBonus(c.hand) && c.wall != [] {
      var s := Step(c);
      var r := ProcessBonusChain(s);
      BonusChainDrawn(s);
      BonusChainShape(s);
      assert s.wall == c.wall[1..];
      if |r.wall| < |s.wall| {
        assert s.wall[|s.wall| - |r.wall| - 1] == c.wall[|c.wall| - |r.wall| - 1];
      }
    }
  }

  /** When no bonus tile was left over at the end, the last tile drawn ends the hand. */
  lemma {:induction false} BonusChainDrawnLast(c: Chain)
    ensures var r := ProcessBonusChain(c);
      |r.wall| < |c.wall| && |r.hand| == |c.hand| ==> r.drawn == Some(Last(r.hand))
    decreases |c.wall|
  {
    if EndsInBonus(c.hand) && c.wall != [] {
      var s := Step(c);
      var r := ProcessBonusChain(s);
      BonusChainShape(s);
      if |r.wall| < |s.wall| {
        BonusChainDrawnLast(s);
      } else if |r.hand| == |s.hand| {
        NoRoundNoChange(s);
      }
    }
  }

  /** No tile of the hand is a bonus tile. */
  predicate BonusFree(hand: seq<Tile>) {
    forall i :: 0 <= i < |hand| ==> !IsBonus(hand[i])
  }

  /** A hand whose tiles before the last hold no bonus tile holds none after the chain: every
      tile reaches the end of the hand as it arrives and is checked there, and when the wall
      runs out the bonus tile is still moved. */
  lemma {:induction false} BonusChainClearsHand(c: Chain)
    requires c.hand != [] ==> BonusFree(c.hand[..|c.hand| - 1])
    ensures BonusFree(ProcessBonusChain(c).hand)
    decreases |c.wall|
  {
    if EndsInBonus(c.hand) {
      var s := Step(c);
      if c.wall != [] {
        assert s.hand[..|s.hand| - 1] == c.hand[..|c.hand| - 1];
        BonusChainClearsHand(s);
      }
    } else if c.hand != [] {
      assert c.hand == c.hand[..|c.hand| - 1] + [Last(c.hand)];
    }
  }

  /** A hand that does not end in a bonus tile is left alone. */
  lemma NoBonusNoChange(c: Chain)
    requires !EndsInBonus(c.hand)
    ensures ProcessBonusChain(c) == c
  {
  }
}

=== FILE: claims.dfy ===
/** Claims made in a reaction window: the `reaction_claims` dictionary, its grouping by type in
    `resolve_reactions` (ws.py:818-830), and `seating_priority` (ws.py:806-816). Also
    `list.remove` as the claim and discard code uses it. */
module Claims {
  import opened Wrappers
  import opened Tiles
  import opened Game

  // ---------------------------------------------------------------------------
  // list.remove
  // ---------------------------------------------------------------------------

  /** `list.remove(x)`: drops the first copy of `x`; nothing where Python raises `ValueError`. */
  function RemoveFirst(s: seq<Tile>, x: Tile): (r: Option<seq<Tile>>)
    ensures r.Some? <==> x in s
    ensures r.Some? ==> multiset(r.value) + multiset{x} == multiset(s) && |r.value| + 1 == |s|
  {
    if s == [] then None
    else if s[0] == x then
      assert s == [s[0]] + s[1..];
      Some(s[1..])
    else
      var r := RemoveFirst(s[1..], x);
      assert s == [s[0]] + s[1..];
      if r.None? then None else Some([s[0]] + r.value)
  }

  /** `for x in xs: hand.remove(x)`: nothing as soon as one removal would raise. */
  function RemoveAll(s: seq<Tile>, xs: seq<Tile>): (r: Option<seq<Tile>>)
    ensures r.Some? ==> multiset(r.value) + multiset(xs) == multiset(s)
    decreases |xs|
  {
    if xs == [] then Some(s)
    else
      var r := RemoveFirst(s, xs[0]);
      if r.None? then None
      else
        assert xs == [xs[0]] + xs[1..];
        RemoveAll(r.value, xs[1..])
  }

  /** The removals succeed exactly when the hand holds every tile to remove, counting copies. */
  lemma {:induction false} RemoveAllSucceeds(s: seq<Tile>, xs: seq<Tile>)
    ensures RemoveAll(s, xs).Some? <==> multiset(xs) <= multiset(s)
    decreases |xs|
  {
    if xs != [] {
      var x := xs[0];
      assert xs == [x] + xs[1..];
      assert multiset(xs) == multiset{x} + multiset(xs[1..]);
      var r := RemoveFirst(s, x);
      if r.None? {
        assert multiset(xs)[x] > multiset(s)[x];
      } else {
        RemoveAllSucceeds(r.value, xs[1..]);
        assert multiset(s) == multiset(r.value) + multiset{x};
        if multiset(xs[1..]) <= multiset(r.value) {
          forall y ensures multiset(xs)[y] <= multiset(s)[y] { }
        }
        if multiset(xs) <= multiset(s) {
          forall y ensures multiset(xs[1..])[y] <= multiset(r.value)[y] {
            assert multiset(xs)[y] <= multiset(s)[y];
          }
        }
      }
    }
  }

  // ---------------------------------------------------------------------------
  // The claims dictionary
  // ---------------------------------------------------------------------------

  type ClaimList = seq<(ClientId, Action)>

  /** The dictionary's keys in insertion order. */
  function Keys(claims: ClaimList): (r: seq<ClientId>)
    ensures |r| == |claims| && forall i :: 0 <= i < |r| ==> r[i] == claims[i].0
  {
    if claims == [] then [] else [claims[0].0] + Keys(claims[1..])
  }

  /** `reaction_claims.get(p)`. */
  function ClaimOf(claims: ClaimList, p: ClientId): Option<Action> {
    if claims == [] then None
    else if claims[0].0 == p then Some(claims[0].1)
    else ClaimOf(claims[1..], p)
  }

  predicate Distinct<T(==)>(s: seq<T>) {
    forall i, j :: 0 <= i < j < |s| ==> s[i] != s[j]
  }

  lemma DistinctTail<T>(s: seq<T>)
    requires Distinct(s) && s != []
    ensures Distinct(s[1..]) && s[0] !in s[1..]
  {
    assert forall i :: 0 <= i < |s| - 1 ==> s[1..][i] == s[i + 1];
  }

  /** `reaction_claims[p] = a`: a new key goes last, an existing key keeps its position. */
  function SetClaim(claims: ClaimList, p: ClientId, a: Action): ClaimList {
    if claims == [] then [(p, a)]
    else if claims[0].0 == p then [(p, a)] + claims[1..]
    else [claims[0]] + SetClaim(claims[1..], p, a)
  }

  /** Assignment behaves as a dictionary's: the key now maps to the new claim, every other key
      keeps its claim, the keys stay distinct, and the key order changes only by appending a
      new key. */
  lemma {:induction false} SetClaimSpec(claims: ClaimList, p: ClientId, a: Action)
    requires Distinct(Keys(claims))
    ensures var r := SetClaim(claims, p, a);
      Distinct(Keys(r))
      && (forall q :: ClaimOf(r, q) == if q == p then Some(a) else ClaimOf(claims, q))
      && Keys(r) == if p in Keys(claims) then Keys(claims) else Keys(claims) + [p]
  {
    if claims != [] {
      var rest := claims[1..];
      assert Keys(claims) == [claims[0].0] + Keys(rest);
      if claims[0].0 != p {
        SetClaimSpec(rest, p, a);
        var r := SetClaim(claims, p, a);
        assert Keys(r) == [claims[0].0] + Keys(SetClaim(rest, p, a));
        assert claims[0].0 !in Keys(rest);
      } else {
        assert p !in Keys(rest);
        KeyAbsent(rest, p);
      }
    }
  }

  lemma {:induction false} KeyAbsent(claims: ClaimList, p: ClientId)
    requires p !in Keys(claims)
    ensures ClaimOf(claims, p) == None
  {
    if claims != [] {
      assert Keys(claims) == [claims[0].0] + Keys(claims[1..]);
      KeyAbsent(claims[1..], p);
    }
  }

  // ---------------------------------------------------------------------------
  // Grouping by type
  // ---------------------------------------------------------------------------

  datatype Kind = SelfWinKind | WinKind | KongKind | PongKind | ChiKind | PassKind

  function KindOf(a: Action): Kind {
    match a
    case SelfWin(_) => SelfWinKind
    case Win(_) => WinKind
    case KongOf(_) => KongKind
    case PongOf(_) => PongKind
    case ChiWith(_, _) => ChiKind
    case Pass => PassKind
  }

  /** The order `resolve_reactions` tries the groups in: self-win, win, kong, pong, chi, pass. */
  function Priority(k: Kind): nat {
    match k
    case SelfWinKind => 5
    case WinKind => 4
    case KongKind => 3
    case PongKind => 2
    case ChiKind => 1
    case PassKind => 0
  }

  /** `claims_by_type[k]`: the claimers of one type, in the order their claims were made. */
  function Claimers(claims: ClaimList, k: Kind): seq<ClientId> {
    if claims == [] then []
    else (if KindOf(claims[0].1) == k then [claims[0].0] else []) + Claimers(claims[1..], k)
  }

  /** The claimers of a type are exactly the players who made a claim of that type. */
  lemma {:induction false} ClaimersMembers(claims: ClaimList, k: Kind)
    ensures forall q :: q in Claimers(claims, k) <==> exists i :: 0 <= i < |claims| && claims[i].0 == q && KindOf(claims[i].1) == k
  {
    if claims != [] {
      ClaimersMembers(claims[1..], k);
      assert forall i :: 1 <= i < |claims| ==> claims[i] == claims[1..][i - 1];
    }
  }

  /** A claimer listed under a type made a claim of that type. */
  lemma ClaimersClaimed(claims: ClaimList, k: Kind, q: ClientId)
    requires Distinct(Keys(claims)) && q in Claimers(claims, k)
    ensures ClaimOf(claims, q).Some? && KindOf(ClaimOf(claims, q).value) == k
  {
    ClaimersMembers(claims, k);
    var i :| 0 <= i < |claims| && claims[i].0 == q && KindOf(claims[i].1) == k;
    ClaimAt(claims, i);
  }

  lemma {:induction false} ClaimAt(claims: ClaimList, i: nat)
    requires Distinct(Keys(claims)) && i < |claims|
    ensures ClaimOf(claims, claims[i].0) == Some(claims[i].1)
  {
    if i > 0 {
      assert Keys(claims)[0] != Keys(claims)[i];
      assert Distinct(Keys(claims[1..])) by {
        assert forall j :: 0 <= j < |claims| - 1 ==> Keys(claims[1..])[j] == Keys(claims)[j + 1];
      }
      ClaimAt(claims[1..], i - 1);
    }
  }

  // ---------------------------------------------------------------------------
  // seating_priority
  // ---------------------------------------------------------------------------

  /** The other seats, clockwise from the one after `from`: `order[(start + i) % n]` for
      `i < n - 1`. */
  function Clockwise(order: seq<ClientId>, from: ClientId): (r: seq<ClientId>)
    requires from in order
    ensures |r| == |order| - 1
  {
    var n := |order|;
    var start := (IndexOf(order, from).value + 1) % n;
    seq(n - 1, i requires 0 <= i < n - 1 => order[(start + i) % n])
  }

  /** The elements of `s` that are among the claimers, in the order of `s`. */
  function KeepClaimers(s: seq<ClientId>, claimers: seq<ClientId>): (r: seq<ClientId>)
    ensures forall q :: q in r <==> q in s && q in claimers
  {
    if s == [] then []
    else (if s[0] in claimers then [s[0]] else []) + KeepClaimers(s[1..], claimers)
  }

  /** `seating_priority`: claimers of a discard ordered by distance clockwise from the
      discarder; unchanged when the discarder is not seated. */
  function SeatingPriority(order: seq<ClientId>, claimers: seq<ClientId>, from: ClientId): seq<ClientId> {
    if from !in order then claimers else KeepClaimers(Clockwise(order, from), claimers)
  }

  /** How many seats clockwise `q` sits from `from`, 1 for the next player (0 when either is
      not seated). */
  function Distance(order: seq<ClientId>, from: ClientId, q: ClientId): int {
    if from in order && q in order then (IndexOf(order, q).value - IndexOf(order, from).value) % |order|
    else 0
  }

  lemma PositionOf(order: seq<ClientId>, k: nat)
    requires Distinct(order) && k < |order|
    ensures IndexOf(order, order[k]) == Some(k)
  {
  }

  /** Euclidean remainder of a value within one modulus of the range. */
  lemma ModNear(a: int, n: int)
    requires n > 0 && -n <= a < 2 * n
    ensures a % n == if a < 0 then a + n else if a < n then a else a - n
  {
  }

  /** The j-th seat of `Clockwise` is j + 1 seats away. */
  lemma ClockwiseDistance(order: seq<ClientId>, from: ClientId, j: nat)
    requires Distinct(order) && from in order && j < |order| - 1
    ensures Distance(order, from, Clockwise(order, from)[j]) == j + 1
  {
    var n := |order|;
    var f := IndexOf(order, from).value;
    ModNear(f + 1, n);
    var start := (f + 1) % n;
    ModNear(start + j, n);
    var k := (start + j) % n;
    assert Clockwise(order, from)[j] == order[k];
    PositionOf(order, k);
    ModNear(k - f, n);
  }

  /** Every other seat appears in `Clockwise`, and the discarder does not. */
  lemma ClockwiseCovers(order: seq<ClientId>, from: ClientId, q: ClientId)
    requires Distinct(order) && from in order && q in order
    ensures q in Clockwise(order, from) <==> q != from
  {
    var n := |order|;
    var f := IndexOf(order, from).value;
    var c := Clockwise(order, from);
    if q != from {
      var k := IndexOf(order, q).value;
      ModNear(k - f, n);
      var j := (k - f) % n - 1;
      ClockwiseDistance(order, from, j);
      PositionOf(order, k);
      var x := c[j];
      assert x in order;
      assert Distance(order, from, x) == Distance(order, from, q);
      DistanceInjective(order, from, x, q);
    } else {
      forall j | 0 <= j < n - 1 ensures c[j] != from {
        ClockwiseDistance(order, from, j);
        ModNear(0, n);
      }
    }
  }

  lemma DistanceInjective(order: seq<ClientId>, from: ClientId, x: ClientId, y: ClientId)
    requires Distinct(order) && from in order && x in order && y in order
    requires Distance(order, from, x) == Distance(order, from, y)
    ensures x == y
  {
    var n := |order|;
    var f := IndexOf(order, from).value;
    ModNear(IndexOf(order, x).value - f, n);
    ModNear(IndexOf(order, y).value - f, n);
  }

  predicate Increasing(d: ClientId -> int, s: seq<ClientId>) {
    forall i, j :: 0 <= i < j < |s| ==> d(s[i]) < d(s[j])
  }

  lemma {:induction false} KeepClaimersIncreasing(d: ClientId -> int, s: seq<ClientId>, claimers: seq<ClientId>)
    requires Increasing(d, s)
    ensures Increasing(d, KeepClaimers(s, claimers))
  {
    if s != [] {
      IncreasingTail(d, s);
      KeepClaimersIncreasing(d, s[1..], claimers);
      var rest := KeepClaimers(s[1..], claimers);
      if s[0] in claimers {
        IncreasingCons(d, s[0], rest);
        assert KeepClaimers(s, claimers) == [s[0]] + rest;
      } else {
        assert KeepClaimers(s, claimers) == rest;
      }
    }
  }

  /** The tail of an increasing list is increasing, and lies above its head. */
  lemma IncreasingTail(d: ClientId -> int, s: seq<ClientId>)
    requires Increasing(d, s) && s != []
    ensures Increasing(d, s[1..]) && forall x :: x in s[1..] ==> d(s[0]) < d(x)
  {
    forall i, j | 0 <= i < j < |s[1..]| ensures d(s[1..][i]) < d(s[1..][j]) {
      assert s[1..][i] == s[i + 1] && s[1..][j] == s[j + 1];
    }
    forall x | x in s[1..] ensures d(s[0]) < d(x) {
      var j :| 0 <= j < |s[1..]| && s[1..][j] == x;
      assert s[j + 1] == x;
    }
  }

  /** An increasing list stays increasing with a smaller element put in front. */
  lemma IncreasingCons(d: ClientId -> int, x: ClientId, rest: seq<ClientId>)
    requires Increasing(d, rest) && forall y :: y in rest ==> d(x) < d(y)
    ensures Increasing(d, [x] + rest)
  {
    var r := [x] + rest;
    forall i, j | 0 <= i < j < |r| ensures d(r[i]) < d(r[j]) {
      assert r[j] == rest[j - 1] && r[j] in rest;
      if i > 0 {
        assert r[i] == rest[i - 1];
      }
    }
  }

  /** With a seated discarder and distinct seats, the priority list holds exactly the seated
      claimers other than the discarder, nearest clockwise first. */
  lemma SeatingPriorityCorrect(order: seq<ClientId>, claimers: seq<ClientId>, from: ClientId)
    requires Distinct(order) && from in order
    ensures var r := SeatingPriority(order, claimers, from);
      (forall q :: q in r <==> q in order && q != from && q in claimers)
      && (forall i, j :: 0 <= i < j < |r| ==> Distance(order, from, r[i]) < Distance(order, from, r[j]))
  {
    SeatingPriorityMembers(order, claimers, from);
    SeatingPriorityOrdered(order, claimers, from);
  }

  lemma SeatingPriorityMembers(order: seq<ClientId>, claimers: seq<ClientId>, from: ClientId)
    requires Distinct(order) && from in order
    ensures var r := SeatingPriority(order, claimers, from);
      forall q :: q in r <==> q in order && q != from && q in claimers
  {
    var c := Clockwise(order, from);
    forall q | q in order ensures q in c <==> q != from {
      ClockwiseCovers(order, from, q);
    }
    assert forall q :: q in c ==> q in order;
  }

  lemma SeatingPriorityOrdered(order: seq<ClientId>, claimers: seq<ClientId>, from: ClientId)
    requires Distinct(order) && from in order
    ensures var r := SeatingPriority(order, claimers, from);
      forall i, j :: 0 <= i < j < |r| ==> Distance(order, from, r[i]) < Distance(order, from, r[j])
  {
    var d := (q: ClientId) => Distance(order, from, q);
    ClockwiseIncreasing(order, from, d);
    KeepClaimersIncreasing(d, Clockwise(order, from), claimers);
    var r := SeatingPriority(order, claimers, from);
    assert r == KeepClaimers(Clockwise(order, from), claimers);
    forall i, j | 0 <= i < j < |r| ensures Distance(order, from, r[i]) < Distance(order, from, r[j]) {
      assert d(r[i]) < d(r[j]);
    }
  }

  lemma ClockwiseIncreasing(order: seq<ClientId>, from: ClientId, d: ClientId -> int)
    requires Distinct(order) && from in order
    requires forall q :: d(q) == Distance(order, from, q)
    ensures Increasing(d, Clockwise(order, from))
  {
    var c := Clockwise(order, from);
    forall i, j | 0 <= i < j < |c| ensures d(c[i]) < d(c[j]) {
      ClockwiseDistance(order, from, i);
      ClockwiseDistance(order, from, j);
    }
  }
}

=== FILE: crossing.dfy ===
/** Where the browser client meets the server: what the client's derivations (App.tsx,
    Hand.tsx, ActionPanel.tsx) conclude from a snapshot the server sent, and what the server
    does with the messages the client's buttons send. */
module Crossing {
  import opened Wrappers
  import opened Tiles
  import opened Game
  import opened Actions
  import opened Turns
  import opened Deal
  import opened Rooms
  import opened Projection
  import opened Wire
  import opened Encoding
  import Session
  import opened View
  import opened Server

  /** The client's copy of the snapshot `serialize_for` produced for `p`. */
  function Seen(g: Game, p: ClientId, clients: map<ClientId, Client>): GameView {
    Some(SnapshotJson(SerializeFor(g, p, clients)))
  }

  /** The client finds a player entry that is both "you" and "turn" exactly when the
      server put one in the list. */
  lemma YouAndTurnListed(ps: seq<PlayerView>)
    ensures SomeYouAndTurn(ListJson(ps, PlayerJson).items) <==> exists i :: 0 <= i < |ps| && ps[i].you && ps[i].turn
  {
    var items := ListJson(ps, PlayerJson).items;
    if SomeYouAndTurn(items) {
      var i :| 0 <= i < |items| && YouAndTurn(items[i]);
      PlayerFields(ps[i]);
    }
    if exists i :: 0 <= i < |ps| && ps[i].you && ps[i].turn {
      var i :| 0 <= i < |ps| && ps[i].you && ps[i].turn;
      PlayerFields(ps[i]);
      assert YouAndTurn(items[i]);
    }
  }

  /** On a snapshot, "your turn" is a listed player that is both "you" and "turn", with a
      discard expected. */
  lemma SnapshotTurn(s: Snapshot)
    ensures IsYourTurn(Some(SnapshotJson(s)))
      <==> (exists i :: 0 <= i < |s.players| && s.players[i].you && s.players[i].turn) && s.expectsDiscard
  {
    SnapshotPlayersField(s);
    SnapshotTurnFields(s);
    YouAndTurnListed(s.players);
  }

  /** The client's "your turn" agrees with the server's: it holds exactly when the recipient
      holds the current seat and a discard is expected. The server also demands a running
      game, so the two differ only after a game ended with a discard still expected. */
  lemma ClientTurnAgrees(g: Game, p: ClientId, clients: map<ClientId, Client>)
    ensures IsYourTurn(Seen(g, p, clients)) <==> Current(g) == Some(p) && g.expectsDiscard
    ensures CanDiscard(g, p) <==> IsYourTurn(Seen(g, p, clients)) && g.started
  {
    SnapshotTurn(SerializeFor(g, p, clients));
    SerializeYourTurn(g, p, clients);
  }

  /** The status line on a snapshot: the snapshot spells the turn field `turnIndex` while the
      client reads `turn_index`, so whoever's turn it is, the line waits for "对家". */
  lemma StatusOnSnapshot(g: Game, p: ClientId, clients: map<ClientId, Client>)
    ensures var v := Seen(g, p, clients);
      StatusLine(v) == (if g.window.active then AwaitingReactions
                        else if Current(g) == Some(p) && g.expectsDiscard then PleaseDiscard
                        else WaitingFor(JStr(Opponent)))
  {
    var s := SerializeFor(g, p, clients);
    SnapshotLacksTurnIndex(s);
    SnapshotTurnFields(s);
    ClientTurnAgrees(g, p, clients);
  }

  /** The dice section shows only for a snapshot of a running game that waits for the dice, a
      combination `start` and `roll_dice` never leave behind. When it shows the roll button,
      the roller's name did not reach the client, and the server refuses a roll from every
      known connection. */
  lemma RollButtonRefused(g: Game, viewer: ClientId, p: ClientId, clients: map<ClientId, Client>,
                          dice: seq<int>, wall: seq<Tile>, now: nat)
    requires p in clients
    ensures DiceSection(Seen(g, viewer, clients)) != NoDice ==> g.started && g.tally.waitingForDice
    ensures DiceSection(Seen(g, viewer, clients)) == RollButton ==> RollDice(g, p, dice, wall, now).None?
  {
    var s := SerializeFor(g, viewer, clients);
    SnapshotTurnFields(s);
    SnapshotDiceFields(s);
    RollDiceEffect(g, p, dice, wall, now);
    if s.diceRoller.Some? {
      assert Field(RollerJson(s.diceRoller), "name").Some?;
    }
  }

  /** The awaited roller, when known by name, sees the roller's name and no roll button. */
  lemma RollerSeesName(g: Game, viewer: ClientId, clients: map<ClientId, Client>, name: string)
    requires g.started && g.tally.waitingForDice
    requires g.tally.diceRoller.Some? && g.tally.diceRoller.value in clients
    requires clients[g.tally.diceRoller.value].name == Some(name)
    ensures DiceSection(Seen(g, viewer, clients)) == WaitingForRoller(Some(JStr(name)))
  {
    var s := SerializeFor(g, viewer, clients);
    SnapshotTurnFields(s);
    SnapshotDiceFields(s);
  }

  /** The claim message for an offered action is a `claim` whose payload holds the claim
      object with the action's id, and no room id. */
  lemma ClaimMessageShape(a: Action)
    ensures var msg := ActionClick(ActionJson(a));
      msg.JObj? && TypeOf(Field(msg, "type")) == ClaimType
      && PayloadOf(msg) == JObj(map["claim" := JObj(map["id" := JStr(ActionId(a))])])
  {
    ActionFields(a);
    var claim := map["claim" := JObj(map["id" := JStr(ActionId(a))])];
    assert Session.Entry("roomId", Session.Text(JoinedRoomId)) == map[];
    assert Session.Entry("id", Field(ActionJson(a), "id")) == map["id" := JStr(ActionId(a))];
    assert Session.Entry("roomId", Session.Text(JoinedRoomId)) + claim == claim;
    assert TypeOf(Some(JStr("claim"))) == ClaimType;
  }

  /** A claim button sends the action's id without a room id; the server reads it in the
      default room and, for an action it offered there, records exactly that action before
      resolving the window. */
  lemma ClaimButtonRecorded(m: Manager, p: ClientId, a: Action, dice: seq<int>, wall: seq<Tile>, now: nat)
    requires var g := GetOrCreateGame(m, DefaultRoom).1;
      g.window.active && g.window.lastDiscard.Some? && a in SerializeFor(g, p, m.clients).yourActions
    ensures var g := GetOrCreateGame(m, DefaultRoom).1;
      var o := Handle(m, p, ActionClick(ActionJson(a)), dice, wall, now);
      !o.closed && DefaultRoom in o.rooms.games && o.rooms.games[DefaultRoom] == Claimed(g, p, a, now)
  {
    var g := GetOrCreateGame(m, DefaultRoom).1;
    var id := ActionId(a);
    var fields := map["claim" := JObj(map["id" := JStr(id)])];
    ClaimMessageShape(a);
    Dispatch(m, p, ActionClick(ActionJson(a)), ClaimType, fields, dice, wall, now);
    SerializeActions(g, p, m.clients, a);
    ClaimInDefaultRoom(m, p, id, now);
  }

  /** A tile's code is sent as it is: it has no surrounding whitespace to strip, and it
      reads back as the tile. */
  lemma CodeSendable(x: Tile)
    ensures Strip(PythonBlanks, Code(x)) == Code(x) && ParseTile(Code(x)) == Some(x)
  {
    StripPlain(PythonBlanks, Code(x));
    ParseCode(x);
  }

  /** The discard message for a tile is a `discard` whose payload holds the tile as given,
      and no room id. */
  lemma DiscardMessageShape(t: Json)
    ensures var msg := Session.DiscardMessage(JoinedRoomId, Some(t));
      msg.JObj? && TypeOf(Field(msg, "type")) == DiscardType && PayloadOf(msg) == JObj(map["tile" := t])
  {
    var payload := map["tile" := t];
    assert Session.Entry("roomId", Session.Text(JoinedRoomId)) == map[];
    assert Session.Entry("tile", Some(t)) == payload;
    assert Session.Entry("roomId", Session.Text(JoinedRoomId)) + Session.Entry("tile", Some(t)) == payload;
    assert TypeOf(Some(JStr("discard"))) == DiscardType;
  }

  /** The server hands a tile button's message to the discard handler. */
  lemma DiscardMessageRouted(m: Manager, p: ClientId, t: Json, dice: seq<int>, wall: seq<Tile>, now: nat)
    ensures Handle(m, p, Session.DiscardMessage(JoinedRoomId, Some(t)), dice, wall, now)
         == HandleDiscard(m, p, map["tile" := t], now)
  {
    DiscardMessageShape(t);
    Dispatch(m, p, Session.DiscardMessage(JoinedRoomId, Some(t)), DiscardType, map["tile" := t], dice, wall, now);
  }

  /** A tile button sends the tile's text without a room id; the server judges a text that
      reads as a tile and needs no stripping, which every tile's code is (`CodeSendable`), as
      that tile's discard in the default room, and reports a refusal to the sender alone. */
  lemma TileButtonDiscards(m: Manager, p: ClientId, x: Tile, text: string, dice: seq<int>, wall: seq<Tile>, now: nat)
    requires ParseTile(text) == Some(x) && Strip(PythonBlanks, text) == text
    ensures var g := GetOrCreateGame(m, DefaultRoom).1;
      var o := Handle(m, p, Session.DiscardMessage(JoinedRoomId, Some(JStr(text))), dice, wall, now);
      var (ok, g1) := Discard(g, p, x, now);
      !o.closed && DefaultRoom in o.rooms.games && o.rooms.games[DefaultRoom] == g1
      && (!ok ==> |o.sent| > 0 && o.sent[0] == Out(p, Failure(Server.DiscardRefused)))
  {
    DiscardMessageRouted(m, p, JStr(text), dice, wall, now);
    DiscardTileInDefaultRoom(m, p, x, text, now);
  }

  /** The ting button shows only to the player the server would let declare, provided the
      game is running. */
  lemma TingButtonAccepted(g: Game, p: ClientId, clients: map<ClientId, Client>)
    requires g.started
    ensures TingShown(Seen(g, p, clients)) || CancelShown(Seen(g, p, clients)) ==> DeclareTing(g, p).Some?
  {
    ClientTurnAgrees(g, p, clients);
  }

  /** A tile the client finds among the snapshot's ting candidates is one of them. */
  lemma CandidateListed(s: Snapshot, x: Tile)
    requires Includes(TingDiscardables(Some(SnapshotJson(s))), TileJson(x))
    ensures x in s.tingDiscardables
  {
    SnapshotHandFields(s);
    var list := TilesJson(s.tingDiscardables);
    var i :| 0 <= i < |list.items| && list.items[i] == TileJson(x);
    CodeInjective(s.tingDiscardables[i], x);
  }

  /** A tile the hand enables while a declaration is pending is one the server accepts. */
  lemma PendingTileAccepted(g: Game, p: ClientId, clients: map<ClientId, Client>, x: Tile, now: nat)
    requires TingPendingFor(g.table, p) && MayDeclare(g, p)
    requires TileEnabled(Seen(g, p, clients), TileJson(x))
    ensures Discard(g, p, x, now).0
  {
    var s := SerializeFor(g, p, clients);
    SnapshotHandFields(s);
    assert TingPending(Seen(g, p, clients));
    CandidateListed(s, x);
    OfferedDiscardAccepted(g, p, clients, x, now);
  }
}

=== FILE: deal.dfy ===
/** Starting games: the full set `build_wall` shuffles (ws.py:102-115), `start` and
    `_start_game` (ws.py:477-533), and the `roll_dice` message that starts every later game
    (main.py:93-104). The shuffled wall and the dice are inputs. */
module Deal {
  import opened Wrappers
  import opened Tiles
  import opened TileSort
  import opened Bonus
  import opened Scoring
  import opened Game
  import opened Claims
  import opened Resolve

  // ---------------------------------------------------------------------------
  // The wall
  // ---------------------------------------------------------------------------

  /** Four copies of every suited, wind and dragon tile; one of each flower. */
  function Copies(t: Tile): nat {
    if t.Flower? then 1 else 4
  }

  /** The copies of the tile kinds from the `k`-th on. */
  function KindsFrom(k: nat): seq<Tile>
    requires k <= TileKinds
    decreases TileKinds - k
  {
    if k == TileKinds then [] else Repeat(TileAt(k), Copies(TileAt(k))) + KindsFrom(k + 1)
  }

  /** `[t] * n`. */
  function Repeat(t: Tile, n: nat): seq<Tile> {
    if n == 0 then [] else Repeat(t, n - 1) + [t]
  }

  /** The tiles `build_wall` lays out before shuffling (in another order, which the shuffle
      makes irrelevant). */
  function FullWall(): seq<Tile> {
    KindsFrom(0)
  }

  lemma {:induction false} KindsFromCount(k: nat, t: Tile)
    requires k <= TileKinds
    ensures multiset(KindsFrom(k))[t] == if CodeRank(t) >= k then Copies(t) else 0
    decreases TileKinds - k
  {
    if k < TileKinds {
      var u := TileAt(k);
      var rest := KindsFrom(k + 1);
      assert KindsFrom(k) == Repeat(u, Copies(u)) + rest;
      KindsFromCount(k + 1, t);
      RepeatCount(u, Copies(u), t);
      assert u == t <==> CodeRank(t) == k by { TileAtCodeRank(t); }
    }
  }

  lemma {:induction false} RepeatCount(t: Tile, n: nat, u: Tile)
    ensures multiset(Repeat(t, n))[u] == if u == t then n else 0
  {
    if n > 0 {
      RepeatCount(t, n - 1, u);
    }
  }

  /** The full set holds every tile exactly `Copies` times. */
  lemma FullWallCount(t: Tile)
    ensures multiset(FullWall())[t] == Copies(t)
  {
    KindsFromCount(0, t);
  }

  /** A wall `random.shuffle` can produce. */
  predicate IsShuffle(wall: seq<Tile>) {
    multiset(wall) == multiset(FullWall())
  }

  // ---------------------------------------------------------------------------
  // Dealing
  // ---------------------------------------------------------------------------

  /** `_start_game`'s reset: every seat gets empty hand, piles and melds, no ting. */
  function FreshTable(order: seq<ClientId>, wall: seq<Tile>): Table {
    Table(wall,
          map q | q in order :: [],
          map q | q in order :: [],
          map q | q in order :: [],
          map q | q in order :: [],
          map q | q in order :: None,
          map q | q in order :: false,
          map q | q in order :: false)
  }

  /** One dealt tile: the tail of a non-empty wall goes to the seat, then the bonus chain.
      Unlike a draw it does not record the tile as last drawn. */
  function DealOne(t: Table, p: ClientId): Table {
    if t.wall == [] then t else RunChain(DealTail(t, p), p)
  }

  /** `hands[ws].append(draw_from_tail())`. */
  function DealTail(t: Table, p: ClientId): Table
    requires t.wall != []
  {
    t.(wall := t.wall[..|t.wall| - 1], hands := t.hands[p := HandOf(t, p) + [Last(t.wall)]])
  }

  lemma DealTailConserves(t: Table, p: ClientId)
    requires t.wall != []
    ensures SeatTiles(DealTail(t, p), p) == SeatTiles(t, p)
    ensures |HandOf(DealTail(t, p), p)| == |HandOf(t, p)| + 1
  {
    var r := DealTail(t, p);
    assert HandOf(r, p) == HandOf(t, p) + [Last(t.wall)] && PileOf(r, p) == PileOf(t, p);
    TailMoved(HandOf(t, p), PileOf(t, p), t.wall);
  }

  /** One round of the deal, seat by seat. */
  function DealRound(t: Table, seats: seq<ClientId>): Table
    decreases |seats|
  {
    if seats == [] then t else DealRound(DealOne(t, seats[0]), seats[1..])
  }

  /** `n` rounds of the deal. */
  function DealRounds(t: Table, order: seq<ClientId>, n: nat): Table
    decreases n
  {
    if n == 0 then t else DealRounds(DealRound(t, order), order, n - 1)
  }

  /** Every seat's hand sorted by `tile_sort_key`. */
  function SortHands(t: Table, seats: seq<ClientId>): Table
    decreases |seats|
  {
    if seats == [] then t
    else SortHands(t.(hands := t.hands[seats[0] := SortTiles(HandOf(t, seats[0]))]), seats[1..])
  }

  /** The tiles in the seats' hands and bonus piles. */
  function SeatSum(t: Table, seats: seq<ClientId>): multiset<Tile>
    decreases |seats|
  {
    if seats == [] then multiset{} else multiset(HandOf(t, seats[0])) + multiset(PileOf(t, seats[0])) + SeatSum(t, seats[1..])
  }

  /** Every tile of the deal: the seats' hands and piles, and the wall. */
  function InPlay(t: Table, seats: seq<ClientId>): multiset<Tile> {
    SeatSum(t, seats) + multiset(t.wall)
  }

  lemma DealTailFrame(t: Table, p: ClientId)
    requires t.wall != []
    ensures forall q :: q != p ==> HandOf(DealTail(t, p), q) == HandOf(t, q) && PileOf(DealTail(t, p), q) == PileOf(t, q)
  {
  }

  lemma DealOneConserves(t: Table, p: ClientId)
    ensures SeatTiles(DealOne(t, p), p) == SeatTiles(t, p)
    ensures forall q :: q != p ==> HandOf(DealOne(t, p), q) == HandOf(t, q) && PileOf(DealOne(t, p), q) == PileOf(t, q)
  {
    if t.wall != [] {
      DealTailConserves(t, p);
      DealTailFrame(t, p);
      RunChainConserves(DealTail(t, p), p);
      RunChainFrame(DealTail(t, p), p);
    }
  }

  /** Changing one seat's hand and pile changes the seats' sum by exactly that seat's change. */
  lemma {:induction false} SeatSumOne(a: Table, b: Table, seats: seq<ClientId>, p: ClientId, x: Tile)
    requires Distinct(seats)
    requires forall q :: q != p ==> HandOf(a, q) == HandOf(b, q) && PileOf(a, q) == PileOf(b, q)
    ensures SeatSum(a, seats)[x] + (if p in seats then multiset(HandOf(b, p))[x] + multiset(PileOf(b, p))[x] else 0)
            == SeatSum(b, seats)[x] + (if p in seats then multiset(HandOf(a, p))[x] + multiset(PileOf(a, p))[x] else 0)
    decreases |seats|
  {
    if seats != [] {
      DistinctTail(seats);
      SeatSumOne(a, b, seats[1..], p, x);
      var q := seats[0];
      assert p in seats <==> q == p || p in seats[1..];
    }
  }

  /** Dealing a tile to a seated player moves it from the wall to that seat. */
  lemma DealOneInPlay(t: Table, seats: seq<ClientId>, p: ClientId)
    requires Distinct(seats) && p in seats
    ensures InPlay(DealOne(t, p), seats) == InPlay(t, seats)
  {
    var r := DealOne(t, p);
    DealOneConserves(t, p);
    forall x ensures InPlay(r, seats)[x] == InPlay(t, seats)[x] {
      SeatSumOne(t, r, seats, p, x);
      assert SeatTiles(r, p)[x] == SeatTiles(t, p)[x];
    }
    MultisetExt(InPlay(r, seats), InPlay(t, seats));
  }

  lemma {:induction false} DealRoundInPlay(t: Table, order: seq<ClientId>, seats: seq<ClientId>)
    requires Distinct(order) && forall q :: q in seats ==> q in order
    ensures InPlay(DealRound(t, seats), order) == InPlay(t, order)
    decreases |seats|
  {
    if seats != [] {
      DealOneInPlay(t, order, seats[0]);
      DealRoundInPlay(DealOne(t, seats[0]), order, seats[1..]);
    }
  }

  /** A measure every round keeps is kept over any number of rounds. */
  lemma {:induction false} RoundsKeep<M>(t: Table, order: seq<ClientId>, n: nat, measure: Table -> M)
    requires forall u :: measure(DealRound(u, order)) == measure(u)
    ensures measure(DealRounds(t, order, n)) == measure(t)
    decreases n
  {
    if n > 0 {
      RoundsKeep(DealRound(t, order), order, n - 1, measure);
    }
  }

  /** The deal loses and invents no tile: everything is in a seated hand, a seated bonus pile
      or still in the wall. */
  lemma DealRoundsInPlay(t: Table, order: seq<ClientId>, n: nat)
    requires Distinct(order)
    ensures InPlay(DealRounds(t, order, n), order) == InPlay(t, order)
  {
    var measure := (u: Table) => InPlay(u, order);
    forall u: Table ensures measure(DealRound(u, order)) == measure(u) {
      DealRoundInPlay(u, order, order);
    }
    RoundsKeep(t, order, n, measure);
  }

  lemma {:induction false} DealRoundEmptyWall(t: Table, seats: seq<ClientId>)
    requires t.wall == []
    ensures DealRound(t, seats) == t
    decreases |seats|
  {
    if seats != [] {
      DealRoundEmptyWall(t, seats[1..]);
    }
  }

  /** One round gives each listed seat one more tile, unless the wall runs out, and leaves the
      other seats alone. */
  lemma {:induction false} DealRoundSizes(t: Table, seats: seq<ClientId>, k: nat)
    requires Distinct(seats) && forall q :: q in seats ==> |HandOf(t, q)| == k
    ensures var r := DealRound(t, seats);
      (r.wall != [] ==> forall q :: q in seats ==> |HandOf(r, q)| == k + 1)
      && (forall q :: q !in seats ==> HandOf(r, q) == HandOf(t, q))
    decreases |seats|
  {
    if seats != [] {
      var p := seats[0];
      var t1 := DealOne(t, p);
      DistinctTail(seats);
      DealOneConserves(t, p);
      if t.wall == [] {
        DealRoundEmptyWall(t, seats);
      } else {
        DealTailConserves(t, p);
        RunChainSize(DealTail(t, p), p);
        DealRoundSizes(t1, seats[1..], k);
        if t1.wall == [] {
          DealRoundEmptyWall(t1, seats[1..]);
        }
      }
    }
  }

  /** After `n` rounds from empty hands every seat holds `n` tiles, unless the wall ran out. */
  lemma {:induction false} DealRoundsSizes(t: Table, order: seq<ClientId>, n: nat, k: nat)
    requires Distinct(order) && forall q :: q in order ==> |HandOf(t, q)| == k
    ensures var r := DealRounds(t, order, n);
      r.wall != [] ==> forall q :: q in order ==> |HandOf(r, q)| == k + n
    decreases n
  {
    if n > 0 {
      var t1 := DealRound(t, order);
      DealRoundSizes(t, order, k);
      if t1.wall == [] {
        DealRoundsEmptyWall(t1, order, n - 1);
      } else {
        DealRoundsSizes(t1, order, n - 1, k + 1);
      }
    }
  }

  lemma {:induction false} DealRoundsEmptyWall(t: Table, order: seq<ClientId>, n: nat)
    requires t.wall == []
    ensures DealRounds(t, order, n) == t
    decreases n
  {
    if n > 0 {
      DealRoundEmptyWall(t, order);
      DealRoundsEmptyWall(t, order, n - 1);
    }
  }

  // ---------------------------------------------------------------------------
  // Starting a game
  // ---------------------------------------------------------------------------

  /** The seat that opens: the last winner's if they are still seated, otherwise the first. */
  function OpeningSeat(order: seq<ClientId>, lastWinner: Option<ClientId>): nat {
    if lastWinner.Some? && lastWinner.value in order then IndexOf(order, lastWinner.value).value else 0
  }

  /** The table `_start_game` deals from a shuffled wall: 13 rounds, then sorted hands. */
  function DealtTable(order: seq<ClientId>, wall: seq<Tile>): Table {
    SortHands(DealRounds(FreshTable(order, wall), order, 13), order)
  }

  /** `_start_game`: a fresh deal, no window, no dice wait, the opening seat draws and must
      discard. */
  function StartGame(g: Game, wall: seq<Tile>, now: nat): Game {
    var g1 := g.(started := true,
                 table := DealtTable(g.playerOrder, wall),
                 turnIndex := OpeningSeat(g.playerOrder, g.tally.lastWinner),
                 window := ClosedWindow,
                 tally := g.tally.(waitingForDice := false, diceRoller := None));
    AutoDrawCurrent(g1, now).(expectsDiscard := true)
  }

  /** `start(sockets)`: ignored while a game runs or with nobody in the room; otherwise the
      first four players are seated and the game count goes up. Only the very first game is
      dealt here, with zeroed scores and multipliers taken from the dice as they are; later
      games wait for the winner's `roll_dice`. */
  function Start(g: Game, sockets: seq<ClientId>, dice: seq<int>, wall: seq<Tile>, now: nat): Game {
    if g.started || sockets == [] then g
    else
      var order := Seated(sockets);
      var g1 := g.(playerOrder := order, tally := g.tally.(gameCount := g.tally.gameCount + 1));
      if g1.tally.gameCount != 1 then g1
      else
        var m := DiceMultipliers(dice);
        StartGame(g1.(tally := g1.tally.(scores := map q | q in order :: 0, diceValues := dice,
                                         scoreMultiplier := m.0, nextGameMultiplier := m.1)), wall, now)
  }

  /** The `roll_dice` message: refused unless the game waits for this player's roll; the dice
      multiply the multiplier carried over from the last game, and the game starts. */
  function RollDice(g: Game, p: ClientId, dice: seq<int>, wall: seq<Tile>, now: nat): Option<Game> {
    if !g.tally.waitingForDice || g.tally.diceRoller != Some(p) then None
    else
      var m := DiceMultipliers(dice);
      Some(StartGame(g.(tally := g.tally.(diceValues := dice, scoreMultiplier := m.0 * g.tally.scoreMultiplier,
                                          nextGameMultiplier := m.1)), wall, now))
  }

  lemma {:induction false} DealRoundsKeepsTing(t: Table, order: seq<ClientId>, n: nat)
    ensures DealRounds(t, order, n).tingFlags == t.tingFlags
    decreases n
  {
    if n > 0 {
      DealRoundKeepsTing(t, order);
      DealRoundsKeepsTing(DealRound(t, order), order, n - 1);
    }
  }

  lemma {:induction false} DealRoundKeepsTing(t: Table, seats: seq<ClientId>)
    ensures DealRound(t, seats).tingFlags == t.tingFlags
    decreases |seats|
  {
    if seats != [] {
      if t.wall != [] {
        RunChainFrame(DealTail(t, seats[0]), seats[0]);
      }
      DealRoundKeepsTing(DealOne(t, seats[0]), seats[1..]);
    }
  }

  lemma {:induction false} SortHandsKeepsTing(t: Table, seats: seq<ClientId>)
    ensures SortHands(t, seats).tingFlags == t.tingFlags
    decreases |seats|
  {
    if seats != [] {
      SortHandsKeepsTing(t.(hands := t.hands[seats[0] := SortTiles(HandOf(t, seats[0]))]), seats[1..]);
    }
  }

  /** Nobody is in ting after the deal. */
  lemma DealtNoTing(order: seq<ClientId>, wall: seq<Tile>, p: ClientId)
    ensures !InTing(DealtTable(order, wall), p)
  {
    DealRoundsKeepsTing(FreshTable(order, wall), order, 13);
    SortHandsKeepsTing(DealRounds(FreshTable(order, wall), order, 13), order);
  }

  /** A new game is under way with the opening seat current and expected to discard, no
      window open, and nobody waiting to roll dice. */
  lemma StartGameEffect(g: Game, wall: seq<Tile>, now: nat)
    requires g.playerOrder != []
    ensures var r := StartGame(g, wall, now);
      r.started && r.expectsDiscard && !r.window.active
      && r.turnIndex == OpeningSeat(g.playerOrder, g.tally.lastWinner) && Current(r).Some?
      && (g.tally.lastWinner.Some? && g.tally.lastWinner.value in g.playerOrder ==> Current(r) == g.tally.lastWinner)
      && r.tally == g.tally.(waitingForDice := false, diceRoller := None)
      && r.playerOrder == g.playerOrder
  {
    var g1 := g.(started := true,
                 table := DealtTable(g.playerOrder, wall),
                 turnIndex := OpeningSeat(g.playerOrder, g.tally.lastWinner),
                 window := ClosedWindow,
                 tally := g.tally.(waitingForDice := false, diceRoller := None));
    var p := g.playerOrder[OpeningSeat(g.playerOrder, g.tally.lastWinner)];
    assert Current(g1) == Some(p);
    DealtNoTing(g.playerOrder, wall, p);
    assert StartGame(g, wall, now) == AutoDrawCurrent(g1, now).(expectsDiscard := true);
    AutoDrawTable(g1, now);
    if g1.table.wall != [] {
      AutoDrawSelfWin(g1, now);
    }
  }

  /** From a shuffled wall, the deal keeps every tile of the full set in a seated hand, a
      seated bonus pile or the wall, and (unless the wall ran out) gives every seat 13. */
  lemma DealtTiles(order: seq<ClientId>, wall: seq<Tile>)
    requires Distinct(order)
    ensures var t := DealRounds(FreshTable(order, wall), order, 13);
      InPlay(t, order) == multiset(wall)
      && (t.wall != [] ==> forall q :: q in order ==> |HandOf(t, q)| == 13)
  {
    var f := FreshTable(order, wall);
    DealRoundsInPlay(f, order, 13);
    FreshEmpty(order, wall, order);
    DealRoundsSizes(f, order, 13, 0);
  }

  lemma {:induction false} FreshEmpty(order: seq<ClientId>, wall: seq<Tile>, seats: seq<ClientId>)
    ensures SeatSum(FreshTable(order, wall), seats) == multiset{}
    ensures forall q :: |HandOf(FreshTable(order, wall), q)| == 0
    decreases |seats|
  {
    if seats != [] {
      FreshEmpty(order, wall, seats[1..]);
    }
  }

  /** The seats `start` fills: the first four of the room's players. */
  function Seated(sockets: seq<ClientId>): seq<ClientId> {
    if |sockets| <= 4 then sockets else sockets[..4]
  }

  /** A running game or an empty room is left alone. */
  lemma StartIgnored(g: Game, sockets: seq<ClientId>, dice: seq<int>, wall: seq<Tile>, now: nat)
    requires g.started || sockets == []
    ensures Start(g, sockets, dice, wall, now) == g
  {
  }

  /** The first `start` seats up to four players with zero scores, takes the multipliers from
      the dice as they are, and deals. */
  lemma StartFirst(g: Game, sockets: seq<ClientId>, dice: seq<int>, wall: seq<Tile>, now: nat)
    requires !g.started && sockets != [] && g.tally.gameCount == 0
    ensures var r := Start(g, sockets, dice, wall, now);
      r.tally.gameCount == 1 && r.playerOrder == Seated(sockets) && |r.playerOrder| <= 4
      && r.started && r.tally.scoreMultiplier == DiceMultipliers(dice).0
      && r.tally.nextGameMultiplier == DiceMultipliers(dice).1
      && forall q :: q in r.playerOrder ==> q in r.tally.scores && r.tally.scores[q] == 0
  {
    var order := Seated(sockets);
    var m := DiceMultipliers(dice);
    var g2 := g.(playerOrder := order,
                 tally := g.tally.(gameCount := 1, scores := map q | q in order :: 0, diceValues := dice,
                                   scoreMultiplier := m.0, nextGameMultiplier := m.1));
    assert Start(g, sockets, dice, wall, now) == StartGame(g2, wall, now);
    StartGameEffect(g2, wall, now);
  }

  /** Any later `start` only counts and reseats, leaving the game stopped until the winner
      rolls. */
  lemma StartLater(g: Game, sockets: seq<ClientId>, dice: seq<int>, wall: seq<Tile>, now: nat)
    requires !g.started && sockets != [] && g.tally.gameCount != 0
    ensures var r := Start(g, sockets, dice, wall, now);
      r == g.(playerOrder := Seated(sockets), tally := g.tally.(gameCount := g.tally.gameCount + 1))
  {
  }

  /** Rolling is allowed exactly to the awaited roller; the game then starts with the carried
      multiplier multiplied by the throw's. */
  lemma RollDiceEffect(g: Game, p: ClientId, dice: seq<int>, wall: seq<Tile>, now: nat)
    ensures var r := RollDice(g, p, dice, wall, now);
      (r.Some? <==> g.tally.waitingForDice && g.tally.diceRoller == Some(p))
      && (r.Some? && g.playerOrder != [] ==>
            r.value.started && !r.value.tally.waitingForDice
            && r.value.tally.scoreMultiplier == DiceMultipliers(dice).0 * g.tally.scoreMultiplier
            && r.value.tally.scores == g.tally.scores)
  {
    if g.tally.waitingForDice && g.tally.diceRoller == Some(p) && g.playerOrder != [] {
      var m := DiceMultipliers(dice);
      var g0 := g.(tally := g.tally.(diceValues := dice, scoreMultiplier := m.0 * g.tally.scoreMultiplier,
                                     nextGameMultiplier := m.1));
      assert RollDice(g, p, dice, wall, now) == Some(StartGame(g0, wall, now));
      StartGameEffect(g0, wall, now);
    }
  }

  /** A self-drawn win stalls the room: the game stops, but nobody is made the dice roller and
      the game does not wait for the dice (as it never does while a game runs), so every
      `roll_dice` is refused, and every later `start` only counts without dealing. Only a win
      on a discard hands the dice to the winner. */
  lemma SelfWinStalls(g: Game, now: nat, p: ClientId, sockets: seq<ClientId>, dice: seq<int>, wall: seq<Tile>)
    requires !g.tally.waitingForDice && g.tally.gameCount >= 1
    requires ResolveReactions(g, now).kind == Some(SelfWinKind)
    ensures var r := ResolveReactions(g, now).game;
      !r.started && RollDice(r, p, dice, wall, now).None? && !Start(r, sockets, dice, wall, now).started
  {
    ResolveWinEndings(g, now);
    if sockets != [] {
      StartLater(ResolveReactions(g, now).game, sockets, dice, wall, now);
    }
  }
}

=== FILE: encoding.dfy ===
/** The JSON the server sends for a snapshot (the dictionary `serialize_for` returns,
    ws.py:1048-1068): tiles as their codes, melds and actions as the dictionaries ws.py
    builds for them (ws.py:567, 711-728, 940-963). */
module Encoding {
  import opened Wrappers
  import opened Tiles
  import opened Hands
  import opened Game
  import opened Actions
  import opened Projection
  import opened Wire

  function TileJson(t: Tile): Json {
    JStr(Code(t))
  }

  function TilesJson(ts: seq<Tile>): (r: Json)
    ensures r.JArr? && |r.items| == |ts|
    ensures forall i :: 0 <= i < |ts| ==> r.items[i] == TileJson(ts[i])
  {
    JArr(seq(|ts|, i requires 0 <= i < |ts| => TileJson(ts[i])))
  }

  /** Reading a tile code back. */
  function TileOf(j: Json): Option<Tile> {
    if j.JStr? then ParseTile(j.s) else None
  }

  /** Reading a list of tile codes back; nothing if any entry is not one. */
  function TilesOf(items: seq<Json>): (r: Option<seq<Tile>>)
    ensures r.Some? ==> |r.value| == |items|
  {
    if items == [] then Some([])
    else
      var t := TileOf(items[0]);
      var rest := TilesOf(items[1..]);
      if t.None? || rest.None? then None else Some([t.value] + rest.value)
  }

  /** Tiles survive the trip through their codes. */
  lemma {:induction false} TilesRoundTrip(ts: seq<Tile>)
    ensures TilesOf(TilesJson(ts).items) == Some(ts)
  {
    if ts != [] {
      var items := TilesJson(ts).items;
      assert items[1..] == TilesJson(ts[1..]).items;
      ParseCode(ts[0]);
      TilesRoundTrip(ts[1..]);
      assert ts == [ts[0]] + ts[1..];
    }
  }

  /** `{'type': 'pong', 'tile': t}`, `{'type': 'kong', 'tile': t}`, `{'type': 'chi', 'tiles': [...]}`. */
  function MeldJson(m: ExposedMeld): Json {
    match m
    case Pong(t) => JObj(map["type" := JStr("pong"), "tile" := TileJson(t)])
    case Kong(t) => JObj(map["type" := JStr("kong"), "tile" := TileJson(t)])
    case Chi(ts) => JObj(map["type" := JStr("chi"), "tiles" := TilesJson(ts)])
  }

  /** The action dictionaries: a win names its tile, a pong, kong or chi the hand tiles it
      uses, a pass nothing. */
  function ActionJson(a: Action): Json {
    var id := JStr(ActionId(a));
    match a
    case SelfWin(t) => JObj(map["id" := id, "type" := JStr("self-win"), "tile" := TileJson(t)])
    case Win(t) => JObj(map["id" := id, "type" := JStr("win"), "tile" := TileJson(t)])
    case PongOf(t) => JObj(map["id" := id, "type" := JStr("pong"), "tiles" := TilesJson([t, t])])
    case KongOf(t) => JObj(map["id" := id, "type" := JStr("kong"), "tiles" := TilesJson([t, t, t])])
    case ChiWith(x, y) => JObj(map["id" := id, "type" := JStr("chi"), "tiles" := TilesJson([x, y])])
    case Pass => JObj(map["id" := id, "type" := JStr("pass")])
  }

  function ListJson<T>(xs: seq<T>, f: T -> Json): (r: Json)
    ensures r.JArr? && |r.items| == |xs|
    ensures forall i :: 0 <= i < |xs| ==> r.items[i] == f(xs[i])
  {
    JArr(seq(|xs|, i requires 0 <= i < |xs| => f(xs[i])))
  }

  function PlayerJson(p: PlayerView): Json {
    JObj(map[
      "name" := JStr(p.name),
      "index" := JNum(p.index),
      "handCount" := JNum(p.handCount),
      "you" := JBool(p.you),
      "turn" := JBool(p.turn),
      "score" := JNum(p.score),
      "bonusTiles" := TilesJson(p.bonusTiles),
      "ting" := JBool(p.ting),
      "exposedMelds" := ListJson(p.exposedMelds, MeldJson)])
  }

  function DiscardJson(d: DiscardView): Json {
    JObj(map["index" := JNum(d.index), "name" := JStr(d.name), "tiles" := TilesJson(d.tiles)])
  }

  function RollerJson(r: Option<Option<string>>): Json {
    match r
    case None => JNull
    case Some(name) => JObj(map["name" := if name.Some? then JStr(name.value) else JNull])
  }

  /** The snapshot dictionary. `reaction_deadline_ts` is a float number of seconds in the
      source; the model counts whole milliseconds, so `reactionDeadlineTs` here is the source's
      value times 1000. */
  function SnapshotJson(s: Snapshot): Json {
    JObj(map[
      "started" := JBool(s.started),
      "wallCount" := JNum(s.wallCount),
      "turnIndex" := JNum(s.turnIndex),
      "expectsDiscard" := JBool(s.expectsDiscard),
      "reactionActive" := JBool(s.reactionActive),
      "reactionDeadlineTs" := JNum(s.reactionDeadline),
      "players" := ListJson(s.players, PlayerJson),
      "yourHand" := TilesJson(s.yourHand),
      "discardsByPlayer" := ListJson(s.discardsByPlayer, DiscardJson),
      "yourActions" := ListJson(s.yourActions, ActionJson),
      "canTing" := JBool(s.canTing),
      "yourTingPending" := JBool(s.yourTingPending),
      "tingDiscardables" := TilesJson(s.tingDiscardables),
      "diceValues" := ListJson(s.diceValues, (n: int) => JNum(n)),
      "scoreMultiplier" := JNum(s.scoreMultiplier),
      "nextGameMultiplier" := JNum(s.nextGameMultiplier),
      "waitingForDice" := JBool(s.waitingForDice),
      "diceRoller" := RollerJson(s.diceRoller),
      "gameCount" := JNum(s.gameCount)])
  }

  /** The fields a client reads to decide whose turn it is come back as sent. */
  lemma SnapshotTurnFields(s: Snapshot)
    ensures Field(SnapshotJson(s), "started") == Some(JBool(s.started))
    ensures Field(SnapshotJson(s), "expectsDiscard") == Some(JBool(s.expectsDiscard))
    ensures Field(SnapshotJson(s), "reactionActive") == Some(JBool(s.reactionActive))
  {
  }

  /** The player list comes back as sent. */
  lemma SnapshotPlayersField(s: Snapshot)
    ensures Field(SnapshotJson(s), "players") == Some(ListJson(s.players, PlayerJson))
  {
  }

  /** The fields behind the hand, the ting buttons and the action buttons. */
  lemma SnapshotHandFields(s: Snapshot)
    ensures Field(SnapshotJson(s), "yourHand") == Some(TilesJson(s.yourHand))
    ensures Field(SnapshotJson(s), "yourActions") == Some(ListJson(s.yourActions, ActionJson))
    ensures Field(SnapshotJson(s), "canTing") == Some(JBool(s.canTing))
    ensures Field(SnapshotJson(s), "yourTingPending") == Some(JBool(s.yourTingPending))
    ensures Field(SnapshotJson(s), "tingDiscardables") == Some(TilesJson(s.tingDiscardables))
  {
  }

  /** The fields behind the dice section, the start button and the countdown. */
  lemma SnapshotDiceFields(s: Snapshot)
    ensures Field(SnapshotJson(s), "waitingForDice") == Some(JBool(s.waitingForDice))
    ensures Field(SnapshotJson(s), "diceRoller") == Some(RollerJson(s.diceRoller))
    ensures Field(SnapshotJson(s), "gameCount") == Some(JNum(s.gameCount))
    ensures Field(SnapshotJson(s), "reactionDeadlineTs") == Some(JNum(s.reactionDeadline))
  {
  }

  /** The snapshot has no `turn_index` key: its turn field is spelled `turnIndex`. */
  lemma SnapshotLacksTurnIndex(s: Snapshot)
    ensures Field(SnapshotJson(s), "turn_index") == None
    ensures Field(SnapshotJson(s), "turnIndex") == Some(JNum(s.turnIndex))
  {
  }

  /** The fields a client reads of a player entry and of an action. */
  lemma PlayerFields(p: PlayerView)
    ensures Field(PlayerJson(p), "you") == Some(JBool(p.you))
    ensures Field(PlayerJson(p), "turn") == Some(JBool(p.turn))
    ensures Field(PlayerJson(p), "ting") == Some(JBool(p.ting))
    ensures Field(PlayerJson(p), "name") == Some(JStr(p.name))
  {
  }

  lemma ActionFields(a: Action)
    ensures Field(ActionJson(a), "id") == Some(JStr(ActionId(a)))
  {
  }
}

=== FILE: game.dfy ===
/** The per-room game record `GameState` (ws.py:429-456) and its drawing steps
    (ws.py:535-589), the bonus chain applied to one seat (ws.py:599-616), and the cleanup
    helpers `clear_reactions` and `_end_game` (ws.py:965-993). */
module Game {
  import opened Wrappers
  import opened Tiles
  import opened Hands
  import opened Bonus

  /** A connection; Python keys everything by the WebSocket object. */
  type ClientId = nat

  /** A reaction offered to a player. Pong, kong and win name the discarded tile; a chi names the
      two hand tiles that complete the run with it; a self-win names the tile drawn. */
  datatype Action =
    | SelfWin(tile: Tile)
    | Win(tile: Tile)
    | PongOf(tile: Tile)
    | KongOf(tile: Tile)
    | ChiWith(first: Tile, second: Tile)
    | Pass

  /** The tiles of a game: the wall (its head is index 0, `popleft`; its tail the last
      element, `pop`) and the per-player dictionaries of `GameState`. */
  datatype Table = Table(
    wall: seq<Tile>,
    hands: map<ClientId, seq<Tile>>,
    bonusPiles: map<ClientId, seq<Tile>>,
    discardPiles: map<ClientId, seq<Tile>>,
    exposedMelds: map<ClientId, seq<ExposedMeld>>,
    lastDrawn: map<ClientId, Option<Tile>>,
    tingFlags: map<ClientId, bool>,
    tingPending: map<ClientId, bool>)

  /** The reaction window: `reaction_active`, `reaction_deadline_ts` (float seconds in the
      source, whole milliseconds here; 0 meaning unset), `reaction_actions`, `reaction_claims`
      in dictionary insertion order, and `last_discard`. */
  datatype Window = Window(
    active: bool,
    deadline: nat,
    actions: map<ClientId, seq<Action>>,
    claims: seq<(ClientId, Action)>,
    lastDiscard: Option<(ClientId, Tile)>)

  /** What outlives a single game: scores, dice, multipliers, the last winner, the game count and
      the wait for the next dice roll. */
  datatype Tally = Tally(
    scores: map<ClientId, int>,
    diceValues: seq<int>,
    scoreMultiplier: int,
    nextGameMultiplier: int,
    lastWinner: Option<ClientId>,
    gameCount: nat,
    waitingForDice: bool,
    diceRoller: Option<ClientId>)

  /** `GameState` (ws.py:429-456), its fields grouped as above. */
  datatype Game = Game(
    started: bool,
    turnIndex: nat,
    playerOrder: seq<ClientId>,
    expectsDiscard: bool,
    table: Table,
    window: Window,
    tally: Tally)

  const EmptyTable := Table([], map[], map[], map[], map[], map[], map[], map[])
  const ClosedWindow := Window(false, 0, map[], [], None)

  /** The dataclass defaults. */
  function NewGame(): Game {
    Game(false, 0, [], false, EmptyTable, ClosedWindow, Tally(map[], [], 1, 1, None, 0, false, None))
  }

  /** Five seconds, the reaction window (ws.py:569, 678). */
  const ReactionWindowMs: nat := 5000

  // ---------------------------------------------------------------------------
  // Dictionary lookups with the defaults the source passes to `.get`
  // ---------------------------------------------------------------------------

  function HandOf(t: Table, p: ClientId): seq<Tile> {
    if p in t.hands then t.hands[p] else []
  }

  function PileOf(t: Table, p: ClientId): seq<Tile> {
    if p in t.bonusPiles then t.bonusPiles[p] else []
  }

  function DiscardsOf(t: Table, p: ClientId): seq<Tile> {
    if p in t.discardPiles then t.discardPiles[p] else []
  }

  function ExposedOf(t: Table, p: ClientId): seq<ExposedMeld> {
    if p in t.exposedMelds then t.exposedMelds[p] else []
  }

  predicate InTing(t: Table, p: ClientId) {
    p in t.tingFlags && t.tingFlags[p]
  }

  predicate TingPendingFor(t: Table, p: ClientId) {
    p in t.tingPending && t.tingPending[p]
  }

  function LastDrawnOf(t: Table, p: ClientId): Option<Tile> {
    if p in t.lastDrawn then t.lastDrawn[p] else None
  }

  function ScoreOf(scores: map<ClientId, int>, p: ClientId): int {
    if p in scores then scores[p] else 0
  }

  /** `player_order[turn_index]`, or nothing when the order is empty (or the index is stale). */
  function Current(g: Game): Option<ClientId> {
    if g.turnIndex < |g.playerOrder| then Some(g.playerOrder[g.turnIndex]) else None
  }

  /** `list.index`: the first position of `x`, or nothing where Python would raise. */
  function IndexOf<T(==)>(s: seq<T>, x: T): (r: Option<nat>)
    ensures r.Some? <==> x in s
    ensures r.Some? ==> r.value < |s| && s[r.value] == x
    ensures r.Some? ==> forall j :: 0 <= j < r.value ==> s[j] != x
  {
    if s == [] then None
    else if s[0] == x then Some(0)
    else
      var r := IndexOf(s[1..], x);
      if r.None? then None else Some(r.value + 1)
  }

  /** The seat after `p`'s, clockwise; nothing when `p` is not seated. */
  function NextSeat(order: seq<ClientId>, p: ClientId): Option<nat> {
    var i := IndexOf(order, p);
    if i.None? then None else Some((i.value + 1) % |order|)
  }

  // ---------------------------------------------------------------------------
  // Drawing
  // ---------------------------------------------------------------------------

  /** `process_bonus_chain(ws)` on one seat: nothing happens unless the seat has a hand ending in
      a bonus tile; `last_drawn` is written only when a replacement was drawn. */
  function RunChain(t: Table, p: ClientId): Table {
    if p !in t.hands || !EndsInBonus(t.hands[p]) then t
    else
      Reseat(t, p, ProcessBonusChain(Chain(t.hands[p], PileOf(t, p), t.wall, None)))
  }

  /** The seat's hand, bonus pile and `last_drawn`, and the wall, written back from a chain. */
  function Reseat(t: Table, p: ClientId, r: Chain): Table {
    t.(hands := t.hands[p := r.hand],
       bonusPiles := t.bonusPiles[p := r.pile],
       wall := r.wall,
       lastDrawn := if r.drawn.Some? then t.lastDrawn[p := r.drawn] else t.lastDrawn)
  }

  /** Writing a chain back touches only that seat and the wall. */
  lemma ReseatFrame(t: Table, p: ClientId, c: Chain)
    ensures var r := Reseat(t, p, c);
      (forall q :: q != p ==> HandOf(r, q) == HandOf(t, q) && PileOf(r, q) == PileOf(t, q)
                              && LastDrawnOf(r, q) == LastDrawnOf(t, q))
      && r.discardPiles == t.discardPiles && r.exposedMelds == t.exposedMelds
      && r.tingFlags == t.tingFlags && r.tingPending == t.tingPending
      && HandOf(r, p) == c.hand && PileOf(r, p) == c.pile && r.wall == c.wall
  {
  }

  /** The tiles one seat holds in hand and bonus pile, plus the wall. */
  function SeatTiles(t: Table, p: ClientId): multiset<Tile> {
    multiset(HandOf(t, p)) + multiset(PileOf(t, p)) + multiset(t.wall)
  }

  /** The chain moves tiles only between the seat's hand, its bonus pile and the wall. */
  lemma RunChainConserves(t: Table, p: ClientId)
    ensures SeatTiles(RunChain(t, p), p) == SeatTiles(t, p)
  {
    if p in t.hands && EndsInBonus(t.hands[p]) {
      var c := Chain(t.hands[p], PileOf(t, p), t.wall, None);
      var cr := ProcessBonusChain(c);
      var r := RunChain(t, p);
      BonusChainConserves(c);
      assert HandOf(r, p) == cr.hand && PileOf(r, p) == cr.pile && r.wall == cr.wall;
      assert SeatTiles(r, p) == ChainTiles(cr);
      assert SeatTiles(t, p) == ChainTiles(c);
    }
  }

  /** Afterwards the hand does not end in a bonus tile unless the wall has run out. */
  lemma RunChainExit(t: Table, p: ClientId)
    ensures !EndsInBonus(HandOf(RunChain(t, p), p)) || RunChain(t, p).wall == []
  {
  }

  /** Only the seat's hand, its bonus pile, its `last_drawn` and the wall change. */
  lemma RunChainFrame(t: Table, p: ClientId)
    ensures var r := RunChain(t, p);
      (forall q :: q != p ==> HandOf(r, q) == HandOf(t, q) && PileOf(r, q) == PileOf(t, q)
                              && LastDrawnOf(r, q) == LastDrawnOf(t, q))
      && r.discardPiles == t.discardPiles && r.exposedMelds == t.exposedMelds
      && r.tingFlags == t.tingFlags && r.tingPending == t.tingPending
      && |r.wall| <= |t.wall|
  {
    if p in t.hands && EndsInBonus(t.hands[p]) {
      var c := Chain(t.hands[p], PileOf(t, p), t.wall, None);
      BonusChainShape(c);
      ReseatFrame(t, p, ProcessBonusChain(c));
    }
  }

  /** The chain keeps the hand's size unless the wall runs out. */
  lemma RunChainSize(t: Table, p: ClientId)
    ensures |HandOf(RunChain(t, p), p)| == |HandOf(t, p)| || RunChain(t, p).wall == []
  {
    if p in t.hands && EndsInBonus(t.hands[p]) {
      BonusChainShape(Chain(t.hands[p], PileOf(t, p), t.wall, None));
    }
  }

  /** `draw_from_tail` then the append and `last_drawn` of the drawing player. */
  function TakeTail(t: Table, p: ClientId): Table
    requires t.wall != []
  {
    t.(wall := t.wall[..|t.wall| - 1],
       hands := t.hands[p := HandOf(t, p) + [Last(t.wall)]],
       lastDrawn := t.lastDrawn[p := Some(Last(t.wall))])
  }

  /** The draw, followed by the chain. */
  function DrawTo(t: Table, p: ClientId): Table
    requires t.wall != []
  {
    RunChain(TakeTail(t, p), p)
  }

  lemma TakeTailConserves(t: Table, p: ClientId)
    requires t.wall != []
    ensures SeatTiles(TakeTail(t, p), p) == SeatTiles(t, p)
    ensures |HandOf(TakeTail(t, p), p)| == |HandOf(t, p)| + 1
  {
    var r := TakeTail(t, p);
    assert HandOf(r, p) == HandOf(t, p) + [Last(t.wall)] && PileOf(r, p) == PileOf(t, p);
    TailMoved(HandOf(t, p), PileOf(t, p), t.wall);
  }

  /** Moving the wall's last tile to the end of the hand keeps the tiles of hand, pile and wall. */
  lemma TailMoved(hand: seq<Tile>, pile: seq<Tile>, wall: seq<Tile>)
    requires wall != []
    ensures multiset(hand + [Last(wall)]) + multiset(pile) + multiset(wall[..|wall| - 1])
         == multiset(hand) + multiset(pile) + multiset(wall)
  {
    assert wall == wall[..|wall| - 1] + [Last(wall)];
  }

  /** Drawing moves the last wall tile into the hand and runs the chain: the seat's tiles with
      the wall are conserved, the wall shrinks, and the hand grows by one unless the wall ran
      out during the chain, in which case it may end in a bonus tile. */
  lemma DrawToEffect(t: Table, p: ClientId)
    requires t.wall != []
    ensures var r := DrawTo(t, p);
      SeatTiles(r, p) == SeatTiles(t, p)
      && (!EndsInBonus(HandOf(r, p)) || r.wall == [])
      && (|HandOf(r, p)| == |HandOf(t, p)| + 1 || r.wall == [])
      && |r.wall| < |t.wall|
  {
    TakeTailConserves(t, p);
    RunChainConserves(TakeTail(t, p), p);
    RunChainExit(TakeTail(t, p), p);
    RunChainSize(TakeTail(t, p), p);
    RunChainFrame(TakeTail(t, p), p);
  }

  /** Nobody else's hand or pile changes, and neither do melds nor ting state. */
  lemma DrawToFrame(t: Table, p: ClientId)
    requires t.wall != []
    ensures var r := DrawTo(t, p);
      (forall q :: q != p ==> HandOf(r, q) == HandOf(t, q) && PileOf(r, q) == PileOf(t, q))
      && r.discardPiles == t.discardPiles && r.exposedMelds == t.exposedMelds
      && r.tingFlags == t.tingFlags && r.tingPending == t.tingPending
  {
    var t1 := TakeTail(t, p);
    assert forall q :: q != p ==> HandOf(t1, q) == HandOf(t, q) && PileOf(t1, q) == PileOf(t, q);
    RunChainFrame(t1, p);
  }

  /** `draw_for` (ws.py:535-547): a seated player of a started game draws from the tail of a
      non-empty wall; otherwise nothing happens. It does not check whose turn it is. */
  function DrawFor(g: Game, p: ClientId): Game {
    if !g.started || p !in g.playerOrder || g.table.wall == [] then g
    else g.(table := DrawTo(g.table, p))
  }

  /** `can_win_on_self_draw` (ws.py:575-583): only a player who declared ting, and only if the hand
      as it stands wins. */
  predicate CanWinOnSelfDraw(t: Table, p: ClientId) {
    InTing(t, p) && CanWinHand(HandOf(t, p), ExposedOf(t, p))
  }

  /** `auto_draw_current` (ws.py:549-573): the current player draws; a self-drawn win opens a
      five-second window offering only the self-win on the tile taken from the tail, otherwise a
      discard is expected. An empty wall changes nothing. */
  function AutoDrawCurrent(g: Game, now: nat): Game {
    if !g.started || g.playerOrder == [] || Current(g).None? || g.table.wall == [] then g
    else
      var p := Current(g).value;
      var t := DrawTo(g.table, p);
      if CanWinOnSelfDraw(t, p) then
        g.(table := t,
           expectsDiscard := false,
           window := g.window.(active := true,
                               actions := map[p := [SelfWin(Last(g.table.wall))]],
                               deadline := now + ReactionWindowMs))
      else g.(table := t, expectsDiscard := true)
  }

  /** The automatic draw changes the table only by the current seat's draw, and leaves the
      seating, turn and scores alone. */
  lemma AutoDrawTable(g: Game, now: nat)
    ensures var r := AutoDrawCurrent(g, now);
      r.table == (if g.started && Current(g).Some? && g.table.wall != [] then DrawTo(g.table, Current(g).value) else g.table)
      && r.tally == g.tally && r.playerOrder == g.playerOrder && r.turnIndex == g.turnIndex
      && r.started == g.started
  {
  }

  /** After the automatic draw a reaction window is open exactly when the drawing player is in
      ting and now holds a winning hand (with the same exposed melds); otherwise a discard is
      expected and the window is as it was. */
  lemma AutoDrawSelfWin(g: Game, now: nat)
    requires g.started && Current(g).Some? && g.table.wall != []
    ensures var r := AutoDrawCurrent(g, now);
      var p := Current(g).value;
      var won := InTing(g.table, p) && CanWinHand(HandOf(r.table, p), ExposedOf(g.table, p));
      (won ==> r.window.active && !r.expectsDiscard
               && r.window.actions == map[p := [SelfWin(Last(g.table.wall))]]
               && r.window.deadline == now + ReactionWindowMs)
      && (!won ==> r.expectsDiscard && r.window == g.window)
      && Current(r) == Current(g)
  {
    DrawToFrame(g.table, Current(g).value);
  }

  // ---------------------------------------------------------------------------
  // Cleanup
  // ---------------------------------------------------------------------------

  /** `clear_reactions` (ws.py:965-969). The deadline is left as it was. */
  function ClearReactions(w: Window): Window {
    w.(active := false, actions := map[], claims := [], lastDiscard := None)
  }

  /** The per-game tile dictionaries the end of a game forgets; the wall and the bonus piles
      stay until the next deal. */
  function ForgetRound(t: Table): Table {
    t.(hands := map[], discardPiles := map[], exposedMelds := map[], tingFlags := map[],
       lastDrawn := map[], tingPending := map[])
  }

  /** `_end_game` (ws.py:971-993): the winner will roll the dice for the next game, whose
      multiplier takes over; scores stay. */
  function EndGame(g: Game, winner: ClientId): Game {
    g.(started := false,
       table := ForgetRound(g.table),
       window := ClearReactions(g.window),
       tally := g.tally.(lastWinner := Some(winner),
                         scoreMultiplier := g.tally.nextGameMultiplier,
                         nextGameMultiplier := 1,
                         diceValues := [],
                         waitingForDice := true,
                         diceRoller := Some(winner)))
  }
}

=== FILE: hands.dfy ===
/**
 * Hand evaluation (ws.py:302-427): the exposed melds a player has laid down,
 * `check_standard_hand` (N melds plus one pair), `can_win_hand` (the tile
 * count must reach 14 first) and `winning_tiles_for` (which of the default
 * candidate tiles would complete a 13-tile hand).
 */
module Hands {
  import opened Tiles
  import opened Melds

  /** An entry of `exposed_melds`: {'type': 'chi', 'tiles': [...]}, {'type': 'pong', 'tile': t}
      or {'type': 'kong', 'tile': t}. */
  datatype ExposedMeld = Chi(tiles: seq<Tile>) | Pong(tile: Tile) | Kong(tile: Tile)

  /** The tiles a meld fixes on the table: a chi its own tiles, a pong 3, a kong 4 (ws.py:309-312). */
  function FixedCount(m: ExposedMeld): nat {
    match m
    case Chi(ts) => |ts|
    case Pong(_) => 3
    case Kong(_) => 4
  }

  function FixedTotal(ms: seq<ExposedMeld>): nat {
    if ms == [] then 0 else FixedCount(ms[0]) + FixedTotal(ms[1..])
  }

  // ---------------------------------------------------------------------------
  // check_standard_hand (ws.py:323-355)
  // ---------------------------------------------------------------------------

  /** Taking two copies of `t` as the pair leaves tiles the search can split into melds. */
  predicate PairWorks(m: multiset<Tile>, t: Tile) {
    m[t] >= 2 && CanFormMelds(m - multiset{t, t})
  }

  /** `check_standard_hand`: the empty hand passes; otherwise the size must be 3N + 2 and
      some tile held at least twice must work as the pair. Python walks the Counter's
      keys; walking all 42 kinds visits the same candidates. */
  predicate CheckStandardHand(m: multiset<Tile>) {
    m == multiset{} || (|m| % 3 == 2 && PairSearch(m, 0))
  }

  /** Tries the tile kinds from position `k` on as the pair. */
  predicate PairSearch(m: multiset<Tile>, k: nat)
    requires k <= TileKinds
    decreases TileKinds - k
  {
    k < TileKinds && (PairWorks(m, TileAt(k)) || PairSearch(m, k + 1))
  }

  lemma {:induction false} PairSearchFinds(m: multiset<Tile>, k: nat) returns (j: nat)
    requires k <= TileKinds && PairSearch(m, k)
    ensures k <= j < TileKinds && PairWorks(m, TileAt(j))
    decreases TileKinds - k
  {
    if PairWorks(m, TileAt(k)) {
      j := k;
    } else {
      j := PairSearchFinds(m, k + 1);
    }
  }

  lemma {:induction false} PairSearchReaches(m: multiset<Tile>, k: nat, j: nat)
    requires k <= j < TileKinds && PairWorks(m, TileAt(j))
    ensures PairSearch(m, k)
    decreases j - k
  {
    if k < j {
      PairSearchReaches(m, k + 1, j);
    }
  }

  /** The reference shape of a standard hand: one pair and the rest split into melds. */
  ghost predicate PairPlusMelds(m: multiset<Tile>) {
    exists t :: PairSplit(m, t)
  }

  /** Two copies of `t` as the pair leave a multiset that splits into melds. */
  ghost predicate PairSplit(m: multiset<Tile>, t: Tile) {
    m[t] >= 2 && Decomposable(m - multiset{t, t})
  }

  lemma RemovePairSize(m: multiset<Tile>, t: Tile)
    requires m[t] >= 2
    ensures |m - multiset{t, t}| == |m| - 2
  {
    var pair := multiset{t, t};
    assert pair <= m;
    assert forall x :: (m - pair)[x] + pair[x] == m[x];
    MultisetExt((m - pair) + pair, m);
  }

  /** The search succeeds exactly on the empty hand and on hands made of a pair plus melds;
      the 3N + 2 size test never rejects such a hand, it only fails the others early. */
  lemma CheckStandardHandCorrect(m: multiset<Tile>)
    ensures CheckStandardHand(m) <==> m == multiset{} || PairPlusMelds(m)
  {
    if m != multiset{} {
      if CheckStandardHand(m) {
        CheckStandardHandSound(m);
      }
      if PairPlusMelds(m) {
        var t :| PairSplit(m, t);
        CheckStandardHandComplete(m, t);
      }
    }
  }

  lemma CheckStandardHandSound(m: multiset<Tile>)
    requires m != multiset{} && CheckStandardHand(m)
    ensures PairPlusMelds(m)
  {
    var k := PairSearchFinds(m, 0);
    var t := TileAt(k);
    CanFormMeldsCorrect(m - multiset{t, t});
    assert PairSplit(m, t);
  }

  lemma CheckStandardHandComplete(m: multiset<Tile>, t: Tile)
    requires PairSplit(m, t)
    ensures CheckStandardHand(m)
  {
    DecomposableSize(m - multiset{t, t});
    RemovePairSize(m, t);
    CanFormMeldsCorrect(m - multiset{t, t});
    TileAtCodeRank(t);
    PairSearchReaches(m, 0, CodeRank(t));
    PairAddsTwo(|m|, |m - multiset{t, t}|);
  }

  lemma PairAddsTwo(a: nat, b: nat)
    requires a == b + 2 && b % 3 == 0
    ensures a % 3 == 2
  {
  }

  // ---------------------------------------------------------------------------
  // can_win_hand (ws.py:302-321)
  // ---------------------------------------------------------------------------

  /** `can_win_hand`: the concealed tiles plus the fixed meld tiles must number 14, and then
      only the concealed tiles are searched. */
  predicate CanWinHand(hand: seq<Tile>, exposed: seq<ExposedMeld>) {
    |hand| + FixedTotal(exposed) == 14 && CheckStandardHand(multiset(hand))
  }

  /** A hand wins exactly when the tile count reaches 14 and the concealed tiles are empty or
      a pair plus melds; the exposed melds are never re-split. */
  lemma CanWinHandCorrect(hand: seq<Tile>, exposed: seq<ExposedMeld>)
    ensures CanWinHand(hand, exposed) <==>
              |hand| + FixedTotal(exposed) == 14 && (hand == [] || PairPlusMelds(multiset(hand)))
  {
    CheckStandardHandCorrect(multiset(hand));
  }

  /** A single exposed kong shuts a hand out of winning: the kong counts four fixed tiles,
      so the concealed tiles number 10 - 3j (j the other melds' tiles / 3) and are never 3N + 2. */
  lemma KongBlocksWin(hand: seq<Tile>, k: Tile, others: seq<ExposedMeld>)
    requires forall i :: 0 <= i < |others| ==> FixedCount(others[i]) == 3
    ensures !CanWinHand(hand, [Kong(k)] + others)
  {
    var ms := [Kong(k)] + others;
    assert ms[1..] == others;
    ThreesTotal(others);
    assert |hand| + FixedTotal(ms) == 14 ==> |multiset(hand)| % 3 == 1;
  }

  lemma {:induction false} ThreesTotal(ms: seq<ExposedMeld>)
    requires forall i :: 0 <= i < |ms| ==> FixedCount(ms[i]) == 3
    ensures FixedTotal(ms) == 3 * |ms|
  {
    if ms != [] {
      ThreesTotal(ms[1..]);
    }
  }

  // ---------------------------------------------------------------------------
  // winning_tiles_for (ws.py:412-427)
  // ---------------------------------------------------------------------------

  /** The default candidate pool: B1..B9, C1..C9, D1..D9, then WE, WS, WW, WN. */
  const DefaultCandidates: seq<Tile> :=
    [ Suited(Bamboo, 1), Suited(Bamboo, 2), Suited(Bamboo, 3), Suited(Bamboo, 4), Suited(Bamboo, 5),
      Suited(Bamboo, 6), Suited(Bamboo, 7), Suited(Bamboo, 8), Suited(Bamboo, 9),
      Suited(Characters, 1), Suited(Characters, 2), Suited(Characters, 3), Suited(Characters, 4),
      Suited(Characters, 5), Suited(Characters, 6), Suited(Characters, 7), Suited(Characters, 8),
      Suited(Characters, 9),
      Suited(Dots, 1), Suited(Dots, 2), Suited(Dots, 3), Suited(Dots, 4), Suited(Dots, 5),
      Suited(Dots, 6), Suited(Dots, 7), Suited(Dots, 8), Suited(Dots, 9),
      WindTile(East), WindTile(South), WindTile(West), WindTile(North) ]

  /** Strictly ascending in `key`, hence without repeats. */
  predicate AscendingBy<T>(key: T -> nat, s: seq<T>) {
    forall i, j :: 0 <= i < j < |s| ==> key(s[i]) < key(s[j])
  }

  /** Strictly ascending in `tile_sort_key` order. */
  predicate Ascending(s: seq<Tile>) {
    AscendingBy(SortRank, s)
  }

  predicate AdjacentAscending(s: seq<Tile>) {
    forall i :: 0 <= i < |s| - 1 ==> SortRank(s[i]) < SortRank(s[i + 1])
  }

  lemma {:induction false} AdjacentAscendingIsAscending(s: seq<Tile>)
    requires AdjacentAscending(s)
    ensures Ascending(s)
    decreases |s|
  {
    if |s| > 1 {
      AdjacentAscendingIsAscending(s[1..]);
      forall i, j | 0 <= i < j < |s| ensures SortRank(s[i]) < SortRank(s[j]) {
        if i > 0 {
          assert s[i] == s[1..][i - 1] && s[j] == s[1..][j - 1];
        } else if j > 1 {
          assert s[j] == s[1..][j - 1] && s[1] == s[1..][0];
        }
      }
    }
  }

  /** The candidate pool has 31 tiles, no dragon or flower, and is in display order. */
  lemma DefaultCandidatesShape()
    ensures |DefaultCandidates| == 31
    ensures forall t :: t in DefaultCandidates ==> t.Suited? || t.WindTile?
    ensures forall t: Tile :: t.Suited? || t.WindTile? ==> t in DefaultCandidates
    ensures Ascending(DefaultCandidates)
  {
    assert AdjacentAscending(DefaultCandidates);
    AdjacentAscendingIsAscending(DefaultCandidates);
    forall t: Tile | t.Suited? || t.WindTile? ensures t in DefaultCandidates {
      if t.Suited? {
        var i := 9 * SuitIndex(t.suit) + t.rank - 1;
        assert DefaultCandidates[i] == t;
      } else {
        var i := 27 + WindIndex(t.wind);
        assert DefaultCandidates[i] == t;
      }
    }
  }

  /** The elements of `s` that satisfy `p`, in their original order. */
  function FilterBy<T(!new)>(p: T -> bool, s: seq<T>): (r: seq<T>)
    ensures forall x :: x in r <==> x in s && p(x)
    ensures |r| <= |s|
  {
    if s == [] then []
    else
      var rest := FilterBy(p, s[1..]);
      assert forall x :: x in s <==> x == s[0] || x in s[1..];
      if p(s[0]) then [s[0]] + rest else rest
  }

  /** Filtering keeps the relative order, so an ascending sequence filters to an ascending one. */
  lemma {:induction false} FilterAscending<T(!new)>(p: T -> bool, key: T -> nat, s: seq<T>)
    requires AscendingBy(key, s)
    ensures AscendingBy(key, FilterBy(p, s))
  {
    if s != [] {
      var rest := FilterBy(p, s[1..]);
      assert AscendingBy(key, s[1..]);
      FilterAscending(p, key, s[1..]);
      if p(s[0]) {
        forall x | x in rest ensures key(s[0]) < key(x) {
          var j :| 0 <= j < |s[1..]| && s[1..][j] == x;
          assert s[j + 1] == x;
        }
        assert FilterBy(p, s) == [s[0]] + rest;
      }
    }
  }

  /** `winning_tiles_for` with the default pool: exactly the candidates that complete the hand,
      in candidate order, each once, never a dragon or a flower. */
  function WinningTilesFor(hand: seq<Tile>, exposed: seq<ExposedMeld>): (r: seq<Tile>)
    ensures forall t :: t in r <==> (t.Suited? || t.WindTile?) && CanWinHand(hand + [t], exposed)
    ensures Ascending(r)
  {
    var p := (t: Tile) => CanWinHand(hand + [t], exposed);
    DefaultCandidatesShape();
    FilterAscending(p, SortRank, DefaultCandidates);
    FilterBy(p, DefaultCandidates)
  }

  /** A tile that is not suited and not yet held never completes a hand: it could only be
      the pair or part of a triplet, and both need another copy in the hand. */
  lemma LoneUnsuitedNeverCompletes(hand: seq<Tile>, exposed: seq<ExposedMeld>, t: Tile)
    requires !t.Suited? && t !in hand
    ensures !CanWinHand(hand + [t], exposed)
  {
    var m := multiset(hand + [t]);
    assert m[t] == 1;
    CanWinHandCorrect(hand + [t], exposed);
    SingleUnsuitedSplitsNot(m, t);
  }

  lemma SingleUnsuitedSplitsNot(m: multiset<Tile>, t: Tile)
    requires !t.Suited? && m[t] == 1
    ensures !PairPlusMelds(m)
  {
    forall p ensures !PairSplit(m, p) {
      NoSplitAround(m, t, p);
    }
  }

  lemma NoSplitAround(m: multiset<Tile>, t: Tile, p: Tile)
    requires !t.Suited? && m[t] == 1
    ensures !PairSplit(m, p)
  {
    if PairSplit(m, p) {
      var rest := m - multiset{p, p};
      OtherPairKeeps(m, p, t);
      var ms := DecompositionOf(rest);
      UnsuitedCountsThree(ms, t);
      OneIsNotThrees(Sum(ms)[t], TripletsOf(ms, t));
    }
  }

  lemma OneIsNotThrees(n: nat, k: nat)
    requires n == 3 * k
    ensures n != 1
  {
  }

  lemma OtherPairKeeps(m: multiset<Tile>, p: Tile, t: Tile)
    requires m[p] >= 2 && m[t] == 1
    ensures (m - multiset{p, p})[t] == 1
  {
  }

  /** For a hand holding no bonus tile the pool without dragons loses nothing: the list holds
      exactly the tiles that would complete the hand, because a dragon or a flower could only
      complete it if the hand already held a copy. */
  lemma WinningTilesComplete(hand: seq<Tile>, exposed: seq<ExposedMeld>)
    requires forall i :: 0 <= i < |hand| ==> !IsBonus(hand[i])
    ensures forall t :: t in WinningTilesFor(hand, exposed) <==> CanWinHand(hand + [t], exposed)
  {
    forall t | IsBonus(t) ensures !CanWinHand(hand + [t], exposed) {
      LoneUnsuitedNeverCompletes(hand, exposed, t);
    }
  }

  // ---------------------------------------------------------------------------
  // The hands of backend/app/test.py
  // ---------------------------------------------------------------------------

  const C2 := Suited(Characters, 2)
  const D5 := Suited(Dots, 5)

  /** The three tiles of the run starting at `n`, as a hand lists them. */
  function RunList(s: Suit, n: RunStart): seq<Tile> {
    [Suited(s, n), Suited(s, n + 1), Suited(s, n + 2)]
  }

  /** B1..B9 and three C2: the hand of test_ting_tiles without its D5. */
  function TwelveTiles(): seq<Tile> {
    RunList(Bamboo, 1) + RunList(Bamboo, 4) + RunList(Bamboo, 7) + [C2, C2, C2]
  }

  /** A decomposition of the tiles of `s`, followed by a meld of the tiles of `t`,
      decomposes the tiles of `s + t`. */
  lemma ExtendDecomposition(ms: seq<Meld>, meld: Meld, s: seq<Tile>, t: seq<Tile>) returns (longer: seq<Meld>)
    requires Sum(ms) == multiset(s) && MeldTiles(meld) == multiset(t)
    ensures Sum(longer) == multiset(s + t)
  {
    longer := ms + [meld];
    SumConcat(ms, [meld]);
    assert [meld][1..] == [];
    assert forall x :: Sum(longer)[x] == multiset(s + t)[x];
    MultisetExt(Sum(longer), multiset(s + t));
  }

  /** Four tile lists, each the tiles of a meld, decompose together. */
  lemma FourMeldsDecompose(a: Meld, b: Meld, c: Meld, d: Meld,
                           sa: seq<Tile>, sb: seq<Tile>, sc: seq<Tile>, sd: seq<Tile>)
    requires MeldTiles(a) == multiset(sa) && MeldTiles(b) == multiset(sb)
    requires MeldTiles(c) == multiset(sc) && MeldTiles(d) == multiset(sd)
    ensures Decomposable(multiset(sa + sb + sc + sd))
  {
    var ms1 := ExtendDecomposition([], a, [], sa);
    assert [] + sa == sa;
    var ms2 := ExtendDecomposition(ms1, b, sa, sb);
    var ms3 := ExtendDecomposition(ms2, c, sa + sb, sc);
    var ms4 := ExtendDecomposition(ms3, d, sa + sb + sc, sd);
    assert Decomposes(ms4, multiset(sa + sb + sc + sd));
  }

  lemma TwelveTilesDecompose()
    ensures Decomposable(multiset(TwelveTiles()))
  {
    RunListTiles(Bamboo, 1);
    RunListTiles(Bamboo, 4);
    RunListTiles(Bamboo, 7);
    assert multiset([C2, C2, C2]) == MeldTiles(Triplet(C2));
    FourMeldsDecompose(Run(Bamboo, 1), Run(Bamboo, 4), Run(Bamboo, 7), Triplet(C2),
                       RunList(Bamboo, 1), RunList(Bamboo, 4), RunList(Bamboo, 7), [C2, C2, C2]);
  }

  lemma RunListTiles(s: Suit, n: RunStart)
    ensures multiset(RunList(s, n)) == MeldTiles(Run(s, n))
  {
  }

  /** The 14-tile hand of test_win_hand (three bamboo runs, a C2 triplet, a D5 pair) wins. */
  lemma TestWinHand()
    ensures CanWinHand(TwelveTiles() + [D5] + [D5], [])
  {
    var m := multiset(TwelveTiles() + [D5] + [D5]);
    TwelveTilesDecompose();
    DropPair(TwelveTiles(), D5);
    assert PairSplit(m, D5);
    CheckStandardHandComplete(m, D5);
  }

  lemma DropPair(s: seq<Tile>, t: Tile)
    ensures multiset(s + [t] + [t]) - multiset{t, t} == multiset(s)
  {
    assert forall x :: (multiset(s + [t] + [t]) - multiset{t, t})[x] == multiset(s)[x];
    MultisetExt(multiset(s + [t] + [t]) - multiset{t, t}, multiset(s));
  }

  /** The 13-tile hand of test_ting_tiles waits on D5. */
  lemma TestTingTiles()
    ensures D5 in WinningTilesFor(TwelveTiles() + [D5], [])
  {
    TestWinHand();
  }
}

=== FILE: intended.dfy ===
/** Corrected definitions for the defects the rest of the model exhibits as written: the
    behaviour the surrounding code and the tests evidently intend, each with the property
    that fails for the original. The modules above keep modelling the code as it stands;
    every member here states how it departs from its as-written counterpart. */
module Intended {
  import opened Wrappers
  import opened Wire
  import opened Tiles
  import opened Hands
  import opened Patterns
  import opened Scoring
  import opened Settle
  import opened Game
  import opened Rooms
  import opened Projection
  import opened Encoding
  import opened Claims
  import opened Melds
  import Resolve
  import Deal
  import Turns
  import Server
  import Session
  import View
  import Crossing

  // ---------------------------------------------------------------------------
  // A self-drawn win hands the dice to the winner (ws.py:831-867 against 971-993)
  // ---------------------------------------------------------------------------

  /** The self-win settlement ending through `_end_game`, as the discard win does: the same
      payments, scores and cleanup, and in addition the winner is the awaited dice roller. */
  function SettleSelfWin(g: Game, w: ClientId): (r: Game)
    ensures var s := Resolve.SettleSelfWin(g, w);
      r == s.(tally := s.tally.(waitingForDice := true, diceRoller := Some(w)))
  {
    var amount := Resolve.WinScore(g.table, w) * 2 * g.tally.scoreMultiplier;
    EndGame(g.(turnIndex := 0, tally := g.tally.(scores := PayAll(g.tally.scores, g.playerOrder, w, amount))), w)
  }

  /** After the corrected self-win settlement exactly the winner may roll, and that roll
      starts the next game whenever anyone is seated. */
  lemma SelfWinHandsDice(g: Game, w: ClientId, p: ClientId, dice: seq<int>, wall: seq<Tile>, now: nat)
    ensures var r := SettleSelfWin(g, w);
      (Deal.RollDice(r, p, dice, wall, now).Some? <==> p == w)
      && (p == w && g.playerOrder != [] ==> Deal.RollDice(r, p, dice, wall, now).value.started)
  {
    Deal.RollDiceEffect(SettleSelfWin(g, w), p, dice, wall, now);
  }

  // ---------------------------------------------------------------------------
  // Passing the turn keeps a self-draw window (ws.py:656-687 against 549-573)
  // ---------------------------------------------------------------------------

  /** The turn passes to the seat after the discarder, the discard's window closes first, and
      then the automatic draw runs, so a self-drawn win it finds stays offered; a discard is
      expected whenever no such window opened. */
  function PassTurn(g: Game, from: ClientId, now: nat): (r: Game)
    ensures r.table == Resolve.PassTurn(g, from, now).table
    ensures r.turnIndex == Resolve.PassTurn(g, from, now).turnIndex
    ensures !r.window.active ==> r == Resolve.PassTurn(g, from, now).(window := r.window)
  {
    var next := NextSeat(g.playerOrder, from);
    if next.None? then g
    else
      var g1 := AutoDrawCurrent(g.(turnIndex := next.value, window := ClearReactions(g.window)), now);
      if g1.window.active then g1 else g1.(expectsDiscard := true)
  }

  /** When the next seat is in ting and its automatic draw completes a winning hand, the
      corrected pass offers it the self-win on the drawn tile and waits for it; the
      as-written pass has already closed that window and expects a discard. */
  lemma PassTurnOffersSelfWin(g: Game, from: ClientId, now: nat)
    requires g.started && from in g.playerOrder && g.table.wall != []
    ensures var k := NextSeat(g.playerOrder, from).value;
      var q := g.playerOrder[k];
      var t := DrawTo(g.table, q);
      var r := PassTurn(g, from, now);
      var won := InTing(g.table, q) && CanWinHand(HandOf(t, q), ExposedOf(g.table, q));
      (won ==> r.window.active && !r.expectsDiscard
               && r.window.actions == map[q := [SelfWin(Last(g.table.wall))]]
               && r.window.deadline == now + ReactionWindowMs
               && !Resolve.PassTurn(g, from, now).window.active)
      && (!won ==> r.expectsDiscard && !r.window.active)
  {
    var k := NextSeat(g.playerOrder, from).value;
    var g0 := g.(turnIndex := k, window := ClearReactions(g.window));
    assert Current(g0) == Some(g.playerOrder[k]);
    AutoDrawSelfWin(g0, now);
  }

  /** The two corrections composed: the corrected pass offers the next seat its self-win, and
      once that seat claims it, the as-written settlement stops the game and stalls the room,
      while the corrected settlement lets that seat roll for the next game. */
  lemma OfferedSelfWinSettles(g: Game, from: ClientId, now: nat, later: nat, sockets: seq<ClientId>,
                              dice: seq<int>, wall: seq<Tile>)
    requires g.started && from in g.playerOrder && g.table.wall != []
    requires !g.tally.waitingForDice && g.tally.gameCount >= 1
    requires var q := g.playerOrder[NextSeat(g.playerOrder, from).value];
      InTing(g.table, q) && CanWinHand(HandOf(DrawTo(g.table, q), q), ExposedOf(g.table, q))
    ensures var q := g.playerOrder[NextSeat(g.playerOrder, from).value];
      var r := PassTurn(g, from, now);
      var c := r.(window := r.window.(claims := [(q, SelfWin(Last(g.table.wall)))]));
      var s := Resolve.ResolveReactions(c, later);
      r.window.active && s.kind == Some(SelfWinKind)
      && Deal.RollDice(s.game, q, dice, wall, later).None?
      && !Deal.Start(s.game, sockets, dice, wall, later).started
      && Deal.RollDice(SettleSelfWin(c, q), q, dice, wall, later).Some?
  {
    var k := NextSeat(g.playerOrder, from).value;
    var q := g.playerOrder[k];
    var g0 := g.(turnIndex := k, window := ClearReactions(g.window));
    assert Current(g0) == Some(q);
    AutoDrawTable(g0, now);
    PassTurnOffersSelfWin(g, from, now);
    var r := PassTurn(g, from, now);
    SelfWinClaimSettles(r, q, SelfWin(Last(g.table.wall)), later, sockets, dice, wall);
  }

  /** An open window whose one claim is a self-win: the as-written settlement stalls, the
      corrected one lets the claimer roll. */
  lemma SelfWinClaimSettles(r: Game, q: ClientId, a: Action, later: nat, sockets: seq<ClientId>,
                            dice: seq<int>, wall: seq<Tile>)
    requires r.window.active && a.SelfWin?
    requires !r.tally.waitingForDice && r.tally.gameCount >= 1
    ensures var c := r.(window := r.window.(claims := [(q, a)]));
      var s := Resolve.ResolveReactions(c, later);
      s.kind == Some(SelfWinKind)
      && Deal.RollDice(s.game, q, dice, wall, later).None?
      && !Deal.Start(s.game, sockets, dice, wall, later).started
      && Deal.RollDice(SettleSelfWin(c, q), q, dice, wall, later).Some?
  {
    var c := r.(window := r.window.(claims := [(q, a)]));
    assert Claimers(c.window.claims, SelfWinKind) == [q];
    Deal.SelfWinStalls(c, later, q, sockets, dice, wall);
    SelfWinHandsDice(c, q, q, dice, wall, later);
  }

  // ---------------------------------------------------------------------------
  // A win on a discard is scored with the claimed tile (ws.py:758-804, 870-889)
  // ---------------------------------------------------------------------------

  /** The discard-win score on the winning hand: the hand with the claimed tile added, as the
      self-drawn win is scored on a hand that already holds its last tile. */
  function DiscardWinScore(t: Table, w: ClientId, tile: Tile): (s: int)
    ensures s == Resolve.WinScore(t.(hands := t.hands[w := HandOf(t, w) + [tile]]), w)
  {
    var exposed := ExposedOf(t, w);
    CalculateScore(HandOf(t, w) + [tile], exposed, |PileOf(t, w)|) * (if exposed == [] then 2 else 1)
  }

  /** A winning hand of seven pairs or all pongs completed by the claimed tile has a pattern
      factor of at least 2 in the corrected score, while the as-written score, taken on the
      hand without that tile, never sees either pattern. */
  lemma DiscardWinCountsPatterns(t: Table, w: ClientId, tile: Tile)
    requires CanWinHand(HandOf(t, w) + [tile], ExposedOf(t, w))
    requires IsSevenPairs(HandOf(t, w) + [tile], ExposedOf(t, w)) || IsAllPongs(HandOf(t, w) + [tile], ExposedOf(t, w))
    ensures var exposed := ExposedOf(t, w);
      var hand := HandOf(t, w) + [tile];
      DiscardWinScore(t, w, tile) == CalculateScore(hand, exposed, |PileOf(t, w)|) * (if exposed == [] then 2 else 1)
      && PatternMultiplier(hand, exposed) >= 2
      && !IsSevenPairs(HandOf(t, w), exposed) && !IsAllPongs(HandOf(t, w), exposed)
  {
    var exposed := ExposedOf(t, w);
    DiscardWinMissesPatterns(HandOf(t, w), exposed, tile);
    PatternFactorCounts(HandOf(t, w) + [tile], exposed);
  }

  /** The discard-win settlement paying the corrected score, then `_end_game`. */
  function SettleWin(g: Game, w: ClientId, from: ClientId, tile: Tile): (r: Game)
    ensures var amount := DiscardWinScore(g.table, w, tile) * g.tally.scoreMultiplier;
      !r.started && r.tally.waitingForDice && r.tally.diceRoller == Some(w)
      && r.tally.scores == PayDiscard(g.tally.scores, w, from, amount)
      && r.playerOrder == g.playerOrder
  {
    var amount := DiscardWinScore(g.table, w, tile) * g.tally.scoreMultiplier;
    EndGame(g.(tally := g.tally.(scores := PayDiscard(g.tally.scores, w, from, amount))), w)
  }

  // ---------------------------------------------------------------------------
  // An exposed kong counts as one set (ws.py:302-321 against 942-953)
  // ---------------------------------------------------------------------------

  /** The tiles an exposed meld stands for in the fourteen: a kong is one set, like the pong
      it grew from, its fourth tile made up for by the supplement drawn from the wall. */
  function SetCount(m: ExposedMeld): nat {
    match m
    case Chi(ts) => |ts|
    case Pong(_) => 3
    case Kong(_) => 3
  }

  function SetTotal(ms: seq<ExposedMeld>): nat {
    if ms == [] then 0 else SetCount(ms[0]) + SetTotal(ms[1..])
  }

  /** `can_win_hand` with each kong counted as one set of three. */
  predicate CanWinCountingSets(hand: seq<Tile>, exposed: seq<ExposedMeld>) {
    |hand| + SetTotal(exposed) == 14 && CheckStandardHand(multiset(hand))
  }

  /** The two counts differ by one per kong and agree on every list without one. */
  lemma {:induction false} SetTotalCountsKongs(ms: seq<ExposedMeld>)
    ensures FixedTotal(ms) == SetTotal(ms) + |Kongs(ms)|
    ensures Kongs(ms) == [] ==> FixedTotal(ms) == SetTotal(ms)
  {
    if ms != [] {
      SetTotalCountsKongs(ms[1..]);
    }
  }

  /** The kongs among the exposed melds, in order. */
  function Kongs(ms: seq<ExposedMeld>): (r: seq<ExposedMeld>)
    ensures forall m :: m in r <==> m in ms && m.Kong?
  {
    if ms == [] then []
    else
      assert forall m :: m in ms <==> m == ms[0] || m in ms[1..];
      (if ms[0].Kong? then [ms[0]] else []) + Kongs(ms[1..])
  }

  /** Without a kong the corrected test is the as-written one. */
  lemma CountingSetsAgrees(hand: seq<Tile>, exposed: seq<ExposedMeld>)
    requires forall i :: 0 <= i < |exposed| ==> !exposed[i].Kong?
    ensures CanWinCountingSets(hand, exposed) == CanWinHand(hand, exposed)
  {
    NoKongs(exposed);
    SetTotalCountsKongs(exposed);
  }

  lemma NoKongs(ms: seq<ExposedMeld>)
    requires forall i :: 0 <= i < |ms| ==> !ms[i].Kong?
    ensures Kongs(ms) == []
  {
    if Kongs(ms) != [] {
      assert Kongs(ms)[0] in Kongs(ms);
    }
  }

  /** A kong wins exactly as the pong it grew from would: with the other melds sets of three,
      the hand wins when its concealed tiles number 14 less three per meld and are empty or a
      pair plus melds. As written the same hand never wins. */
  lemma KongCountsAsPong(hand: seq<Tile>, k: Tile, others: seq<ExposedMeld>)
    requires forall i :: 0 <= i < |others| ==> FixedCount(others[i]) == 3
    ensures CanWinCountingSets(hand, [Kong(k)] + others) == CanWinHand(hand, [Pong(k)] + others)
    ensures CanWinCountingSets(hand, [Kong(k)] + others) <==>
              |hand| + 3 * (|others| + 1) == 14 && (hand == [] || PairPlusMelds(multiset(hand)))
    ensures !CanWinHand(hand, [Kong(k)] + others)
  {
    var withKong, withPong := [Kong(k)] + others, [Pong(k)] + others;
    assert withKong[1..] == others && withPong[1..] == others;
    ThreesTotal(others);
    NoKongs(others);
    SetTotalCountsKongs(others);
    assert SetTotal(withKong) == 3 + FixedTotal(others) == FixedTotal(withPong);
    CanWinHandCorrect(hand, withPong);
    KongBlocksWin(hand, k, others);
  }

  /** Three bamboo runs and a pair of D5 beside an exposed kong of C2: a complete hand that the
      corrected count accepts and the as-written count refuses. */
  lemma KongHandWins()
    ensures CanWinCountingSets(RunsPlusPair(), [Kong(C2)]) && !CanWinHand(RunsPlusPair(), [Kong(C2)])
  {
    RunsAndPair();
    ElevenBesideKong(RunsPlusPair(), C2);
  }

  /** Three bamboo runs and a pair of D5: eleven concealed tiles. */
  function RunsPlusPair(): (hand: seq<Tile>)
    ensures |hand| == 11
  {
    RunList(Bamboo, 1) + RunList(Bamboo, 4) + RunList(Bamboo, 7) + [D5] + [D5]
  }

  /** Eleven concealed tiles forming a standard hand beside a single exposed kong. */
  lemma ElevenBesideKong(hand: seq<Tile>, k: Tile)
    requires |hand| == 11 && CheckStandardHand(multiset(hand))
    ensures CanWinCountingSets(hand, [Kong(k)]) && !CanWinHand(hand, [Kong(k)])
  {
    assert SetTotal([Kong(k)]) == 3 by {
      assert [Kong(k)][1..] == [];
    }
    KongBlocksWin(hand, k, []);
    assert [Kong(k)] + [] == [Kong(k)];
  }

  /** The three bamboo runs and the D5 pair are a standard hand. */
  lemma RunsAndPair()
    ensures CheckStandardHand(multiset(RunsPlusPair()))
  {
    var runs := RunList(Bamboo, 1) + RunList(Bamboo, 4) + RunList(Bamboo, 7);
    ThreeRunsDecompose();
    DropPair(runs, D5);
    CheckStandardHandComplete(multiset(runs + [D5] + [D5]), D5);
  }

  lemma ThreeRunsDecompose()
    ensures Decomposable(multiset(RunList(Bamboo, 1) + RunList(Bamboo, 4) + RunList(Bamboo, 7)))
  {
    RunListTiles(Bamboo, 1);
    RunListTiles(Bamboo, 4);
    RunListTiles(Bamboo, 7);
    var ms1 := ExtendDecomposition([], Run(Bamboo, 1), [], RunList(Bamboo, 1));
    assert [] + RunList(Bamboo, 1) == RunList(Bamboo, 1);
    var ms2 := ExtendDecomposition(ms1, Run(Bamboo, 4), RunList(Bamboo, 1), RunList(Bamboo, 4));
    var ms3 := ExtendDecomposition(ms2, Run(Bamboo, 7), RunList(Bamboo, 1) + RunList(Bamboo, 4), RunList(Bamboo, 7));
    Witness(ms3, multiset(RunList(Bamboo, 1) + RunList(Bamboo, 4) + RunList(Bamboo, 7)));
  }

  // ---------------------------------------------------------------------------
  // The suit patterns test the tile's suit (ws.py:211-261)
  // ---------------------------------------------------------------------------

  /** `is_pure_suit` asking whether a tile is suited instead of whether its code starts with a
      suit letter: the non-flower tiles are not empty, all suited, and all of one suit. */
  predicate IsPureSuitByKind(hand: seq<Tile>, exposed: seq<ExposedMeld>) {
    var all := SuitTiles(hand, exposed);
    |all| > 0 && all[0].Suited?
    && forall i :: 0 <= i < |all| ==> all[i].Suited? && all[i].suit == all[0].suit
  }

  /** The first suited tile. */
  function FirstOfSuit(ts: seq<Tile>): (r: Option<Tile>)
    ensures r.Some? ==> r.value in ts && r.value.Suited?
    ensures r.None? ==> forall i :: 0 <= i < |ts| ==> !ts[i].Suited?
  {
    if ts == [] then None
    else if ts[0].Suited? then Some(ts[0])
    else FirstOfSuit(ts[1..])
  }

  /** `is_half_suit` with the same correction: some tile is suited, and every suited tile is of
      the first one's suit. */
  predicate IsHalfSuitByKind(hand: seq<Tile>, exposed: seq<ExposedMeld>) {
    var all := SuitTiles(hand, exposed);
    var first := FirstOfSuit(all);
    first.Some?
    && forall i :: 0 <= i < |all| ==> all[i].Suited? ==> all[i].suit == first.value.suit
  }

  /** Reference: the tiles are not empty and all suited tiles of one suit. */
  ghost predicate OneSuit(ts: seq<Tile>) {
    (exists t :: t in ts)
    && forall t, u :: t in ts && u in ts ==> t.Suited? && u.Suited? && t.suit == u.suit
  }

  /** Reference: some tile is suited, and no two suited tiles differ in suit. */
  ghost predicate OneSuitAmongSuited(ts: seq<Tile>) {
    (exists t :: t in ts && t.Suited?)
    && forall t, u :: t in ts && u in ts && t.Suited? && u.Suited? ==> t.suit == u.suit
  }

  /** The corrected pure suit holds exactly for tiles of a single suit, honours excluded. */
  lemma PureSuitByKindCorrect(hand: seq<Tile>, exposed: seq<ExposedMeld>)
    ensures IsPureSuitByKind(hand, exposed) <==> OneSuit(SuitTiles(hand, exposed))
  {
    var all := SuitTiles(hand, exposed);
    if OneSuit(all) {
      var w :| w in all;
      assert all[0] in all;
      forall i | 0 <= i < |all| ensures all[i].Suited? && all[i].suit == all[0].suit {
        assert all[i] in all;
      }
    }
    if IsPureSuitByKind(hand, exposed) {
      forall t, u | t in all && u in all ensures t.Suited? && u.Suited? && t.suit == u.suit {
        var i :| 0 <= i < |all| && all[i] == t;
        var j :| 0 <= j < |all| && all[j] == u;
      }
      assert all[0] in all;
    }
  }

  /** The corrected half suit holds exactly when some tile is suited and all suited tiles share
      one suit, whatever the honours. */
  lemma HalfSuitByKindCorrect(hand: seq<Tile>, exposed: seq<ExposedMeld>)
    ensures IsHalfSuitByKind(hand, exposed) <==> OneSuitAmongSuited(SuitTiles(hand, exposed))
  {
    var all := SuitTiles(hand, exposed);
    var first := FirstOfSuit(all);
    if IsHalfSuitByKind(hand, exposed) {
      forall t, u | t in all && u in all && t.Suited? && u.Suited? ensures t.suit == u.suit {
        var i :| 0 <= i < |all| && all[i] == t;
        var j :| 0 <= j < |all| && all[j] == u;
      }
    }
    if OneSuitAmongSuited(all) {
      var w :| w in all && w.Suited?;
      var i :| 0 <= i < |all| && all[i] == w;
      assert first.Some?;
      forall j | 0 <= j < |all| && all[j].Suited? ensures all[j].suit == first.value.suit {
        assert all[j] in all;
      }
    }
  }

  /** The letter test and the kind test agree on every tile but the dragons, so without a
      dragon among the tiles the corrected patterns are the as-written ones. */
  lemma SuitByKindAgrees(hand: seq<Tile>, exposed: seq<ExposedMeld>)
    requires forall t :: t in SuitTiles(hand, exposed) ==> !t.DragonTile?
    ensures IsPureSuitByKind(hand, exposed) == IsPureSuit(hand, exposed)
    ensures IsHalfSuitByKind(hand, exposed) == IsHalfSuit(hand, exposed)
  {
    var all := SuitTiles(hand, exposed);
    assert forall i :: 0 <= i < |all| ==> (HasSuitLetter(all[i]) <==> all[i].Suited?);
    IsPureSuitCorrect(hand, exposed);
    IsHalfSuitCorrect(hand, exposed);
    PureSuitByKindCorrect(hand, exposed);
    HalfSuitByKindCorrect(hand, exposed);
    SuitedLetters(all);
  }

  /** On tiles without a dragon the letter references are the kind references: a suited
      tile's letter names its suit. */
  lemma SuitedLetters(ts: seq<Tile>)
    requires forall t :: t in ts ==> !t.DragonTile?
    ensures OneLetter(ts) <==> OneSuit(ts)
    ensures OneLetterAmongSuited(ts) <==> OneSuitAmongSuited(ts)
  {
    assert forall t: Tile, u: Tile :: t.Suited? && u.Suited? ==> (Letter(t) == Letter(u) <==> t.suit == u.suit);
  }

  /** D1 with a red dragon: as written a pure suit (factor 4), corrected a half suit (factor 2). */
  lemma DragonWithDots()
    ensures var hand := [Suited(Dots, 1), DragonTile(Red)];
      IsPureSuit(hand, []) && !IsPureSuitByKind(hand, []) && IsHalfSuitByKind(hand, [])
  {
    DotAndDragonTiles();
    DotBesideDragon([Suited(Dots, 1), DragonTile(Red)], [], 1, Red);
  }

  /** Any hand whose non-flower tiles are one dot and one dragon passes the as-written pure
      suit test and only the corrected half suit test. */
  lemma DotBesideDragon(hand: seq<Tile>, exposed: seq<ExposedMeld>, n: Rank, d: Dragon)
    requires SuitTiles(hand, exposed) == [Suited(Dots, n), DragonTile(d)]
    ensures IsPureSuit(hand, exposed) && !IsPureSuitByKind(hand, exposed) && IsHalfSuitByKind(hand, exposed)
  {
    DotBesideDragonAsWritten(hand, exposed, n, d);
    var all := SuitTiles(hand, exposed);
    assert !all[1].Suited?;
    assert FirstOfSuit(all) == Some(all[0]);
  }

  lemma DotBesideDragonAsWritten(hand: seq<Tile>, exposed: seq<ExposedMeld>, n: Rank, d: Dragon)
    requires SuitTiles(hand, exposed) == [Suited(Dots, n), DragonTile(d)]
    ensures IsPureSuit(hand, exposed)
  {
    var all := SuitTiles(hand, exposed);
    SharedLetter(n, d);
    forall i | 0 <= i < |all| ensures HasSuitLetter(all[i]) && Letter(all[i]) == Letter(all[0]) {
      assert i == 0 || i == 1;
    }
  }

  /** Dots and dragons share the code letter 'D'. */
  lemma SharedLetter(n: Rank, d: Dragon)
    ensures Letter(Suited(Dots, n)) == 'D' == Letter(DragonTile(d))
  {
  }

  lemma DotAndDragonTiles()
    ensures SuitTiles([Suited(Dots, 1), DragonTile(Red)], []) == [Suited(Dots, 1), DragonTile(Red)]
  {
    var hand := [Suited(Dots, 1), DragonTile(Red)];
    assert hand + ExposedTiles([]) == hand;
    assert DropFlowers(hand[1..]) == [hand[1]] by {
      assert hand[1..][1..] == [];
    }
  }

  // ---------------------------------------------------------------------------
  // The page addresses the room it joined (App.tsx:13, 29 against main.py:36-45)
  // ---------------------------------------------------------------------------

  /** A tile button sending the room the server confirmed on joining: a room id already
      stripped and not blank reaches the server unchanged, so the discard is judged in that
      room and not in the default one. */
  lemma TileButtonInRoom(m: Manager, p: ClientId, room: string, x: Tile, dice: seq<int>, wall: seq<Tile>, now: nat)
    requires room != "" && Strip(PythonBlanks, room) == room
    ensures var g := GetOrCreateGame(m, room).1;
      var o := Server.Handle(m, p, Session.DiscardMessage(Some(room), Some(TileJson(x))), dice, wall, now);
      var (ok, g1) := Turns.Discard(g, p, x, now);
      !o.closed && room in o.rooms.games && o.rooms.games[room] == g1
      && (!ok ==> |o.sent| > 0 && o.sent[0] == Server.Out(p, Server.Failure(Server.DiscardRefused)))
  {
    var payload := map["roomId" := JStr(room), "tile" := TileJson(x)];
    RoomMessageRouted(m, p, room, TileJson(x), dice, wall, now);
    RoomPayloadRead(room, x);
    Server.DiscardTextCode(GetOrCreateGame(m, room).1, p, x, now);
  }

  /** The server hands a discard carrying a room id to the discard handler with both fields. */
  lemma RoomMessageRouted(m: Manager, p: ClientId, room: string, t: Json, dice: seq<int>, wall: seq<Tile>, now: nat)
    ensures Server.Handle(m, p, Session.DiscardMessage(Some(room), Some(t)), dice, wall, now)
         == Server.HandleDiscard(m, p, map["roomId" := JStr(room), "tile" := t], now)
  {
    var payload := map["roomId" := JStr(room), "tile" := t];
    var msg := Session.DiscardMessage(Some(room), Some(t));
    RoomMessageShape(room, t);
    Server.Dispatch(m, p, msg, Server.DiscardType, payload, dice, wall, now);
  }

  lemma RoomMessageShape(room: string, t: Json)
    ensures var msg := Session.DiscardMessage(Some(room), Some(t));
      msg.JObj? && Server.TypeOf(Field(msg, "type")) == Server.DiscardType
      && Server.PayloadOf(msg) == JObj(map["roomId" := JStr(room), "tile" := t])
  {
    var payload := map["roomId" := JStr(room), "tile" := t];
    assert Session.Entry("roomId", Session.Text(Some(room))) + Session.Entry("tile", Some(t)) == payload;
    assert Server.TypeOf(Some(JStr("discard"))) == Server.DiscardType;
  }

  /** The server reads such a payload as the room and the tile's code, unchanged. */
  lemma RoomPayloadRead(room: string, x: Tile)
    requires room != "" && Strip(PythonBlanks, room) == room
    ensures var payload := map["roomId" := JStr(room), "tile" := TileJson(x)];
      Server.RoomOf(payload) == room && Server.TileTextOf(payload) == Code(x)
  {
    LobbyPlain(PythonBlanks);
    NormalizeSpec(Some(JStr(room)), Server.DefaultRoom);
    Crossing.CodeSendable(x);
  }

  // ---------------------------------------------------------------------------
  // The status line names the player whose turn it is (Hand.tsx:5 against ws.py:1009)
  // ---------------------------------------------------------------------------

  /** The first player entry marked "turn". */
  function FirstTurn(players: seq<Json>): (r: Option<nat>)
    ensures r.Some? ==> r.value < |players| && Truthy(Field(players[r.value], "turn"))
    ensures r.None? ==> forall i :: 0 <= i < |players| ==> !Truthy(Field(players[i], "turn"))
  {
    if players == [] then None
    else if Truthy(Field(players[0], "turn")) then Some(0)
    else
      var r := FirstTurn(players[1..]);
      if r.Some? then Some(r.value + 1) else None
  }

  /** The status line reading the entry the snapshot marks as "turn", in the rotated list the
      page receives, instead of the missing `turn_index`. */
  function StatusLine(game: View.GameView): (r: View.Status)
    ensures Truthy(Get(game, "reactionActive")) ==> r == View.AwaitingReactions
    ensures !Truthy(Get(game, "reactionActive")) && View.IsYourTurn(game) ==> r == View.PleaseDiscard
  {
    if Truthy(Get(game, "reactionActive")) then View.AwaitingReactions
    else if View.IsYourTurn(game) then View.PleaseDiscard
    else
      var players := View.Players(game);
      var i := FirstTurn(players);
      var name := if i.Some? then Field(players[i.value], "name") else None;
      View.WaitingFor(if name.None? || name.value == JNull then JStr(View.Opponent) else name.value)
  }

  /** While someone else is to play, the corrected line names that player as the snapshot
      lists them; the as-written line names nobody (`Crossing.StatusOnSnapshot`). */
  lemma StatusNamesCurrent(g: Game, p: ClientId, clients: map<ClientId, Client>)
    requires !g.window.active && !(Current(g) == Some(p) && g.expectsDiscard)
    ensures var s := SerializeFor(g, p, clients);
      var line := StatusLine(Crossing.Seen(g, p, clients));
      (Current(g).None? ==> line == View.WaitingFor(JStr(View.Opponent)))
      && (Current(g).Some? ==>
            exists i :: 0 <= i < |s.players| && s.players[i].turn
              && s.players[i].name == DisplayName(clients, Current(g).value, i)
              && line == View.WaitingFor(JStr(s.players[i].name)))
  {
    var s := SerializeFor(g, p, clients);
    Crossing.ClientTurnAgrees(g, p, clients);
    StatusOnEntry(s);
    TurnEntry(g, p, clients);
  }

  /** Off the reactions and off the page's own turn, the corrected line names the first
      entry marked "turn", or waits for "对家" when none is. */
  lemma StatusOnEntry(s: Snapshot)
    requires !s.reactionActive && !View.IsYourTurn(Some(SnapshotJson(s)))
    ensures var items := ListJson(s.players, PlayerJson).items;
      var first := FirstTurn(items);
      var line := StatusLine(Some(SnapshotJson(s)));
      (first.None? ==> line == View.WaitingFor(JStr(View.Opponent)))
      && (first.Some? && Field(items[first.value], "name") == Some(JStr(s.players[first.value].name)) ==>
            line == View.WaitingFor(JStr(s.players[first.value].name)))
  {
    SnapshotTurnFields(s);
    SnapshotPlayersField(s);
    assert View.Players(Some(SnapshotJson(s))) == ListJson(s.players, PlayerJson).items;
  }

  /** The first entry marked "turn" in the player list is the current seat's, and there is
      one exactly when a seat is current. */
  lemma TurnEntry(g: Game, p: ClientId, clients: map<ClientId, Client>)
    ensures var s := SerializeFor(g, p, clients);
      var items := ListJson(s.players, PlayerJson).items;
      var first := FirstTurn(items);
      (first.Some? <==> Current(g).Some?)
      && (first.Some? ==>
            var i := first.value;
            s.players[i].turn && s.players[i].name == DisplayName(clients, Current(g).value, i)
            && Field(items[i], "name") == Some(JStr(s.players[i].name)))
  {
    var rotated := Rotated(g.playerOrder, p);
    var s := SerializeFor(g, p, clients);
    assert |s.players| == |rotated|;
    assert forall i :: 0 <= i < |s.players| ==>
      s.players[i].turn == (Current(g) == Some(rotated[i])) && s.players[i].name == DisplayName(clients, rotated[i], i);
    if Current(g).Some? {
      RotatedMembers(g.playerOrder, p);
      assert Current(g).value in multiset(rotated);
    }
    TurnEntryIn(s.players, rotated, Current(g), clients);
  }

  lemma TurnEntryIn(ps: seq<PlayerView>, seats: seq<ClientId>, current: Option<ClientId>, clients: map<ClientId, Client>)
    requires |ps| == |seats| && (current.Some? ==> current.value in seats)
    requires forall i :: 0 <= i < |ps| ==>
      ps[i].turn == (current == Some(seats[i])) && ps[i].name == DisplayName(clients, seats[i], i)
    ensures var items := ListJson(ps, PlayerJson).items;
      var first := FirstTurn(items);
      (first.Some? <==> current.Some?)
      && (first.Some? ==>
            var i := first.value;
            ps[i].turn && ps[i].name == DisplayName(clients, current.value, i)
            && Field(items[i], "name") == Some(JStr(ps[i].name)))
  {
    var items := ListJson(ps, PlayerJson).items;
    var first := FirstTurn(items);
    if first.Some? {
      PlayerFields(ps[first.value]);
    } else if current.Some? {
      var i :| 0 <= i < |seats| && seats[i] == current.value;
      PlayerFields(ps[i]);
      assert false;
    }
  }

  // ---------------------------------------------------------------------------
  // The roll button shows to the awaited roller (ActionPanel.tsx:7-16 against ws.py:971-993)
  // ---------------------------------------------------------------------------

  /** The dice section while the game waits for the dice, whether or not a game runs, with
      the roller's name compared to the name the server confirmed on joining. */
  function DiceSection(game: View.GameView, joinedName: string): (r: View.DiceView)
    ensures r == View.RollButton <==>
              Truthy(Get(game, "waitingForDice")) && Get(Get(game, "diceRoller"), "name") == Some(JStr(joinedName))
  {
    if !Truthy(Get(game, "waitingForDice")) then View.NoDice
    else
      var name := Get(Get(game, "diceRoller"), "name");
      if name == Some(JStr(joinedName)) then View.RollButton else View.WaitingForRoller(name)
  }

  /** After a win on a discard, every page whose joined name is the winner's, and only such
      a page, shows the roll button, and the winner's roll is accepted; the as-written section
      shows nothing there, since the game has stopped. */
  lemma RollButtonForWinner(g: Game, w: ClientId, from: ClientId, viewer: ClientId, clients: map<ClientId, Client>,
                            joinedName: string, dice: seq<int>, wall: seq<Tile>, now: nat)
    requires w in clients && clients[w].name.Some?
    ensures var r := Resolve.SettleWin(g, w, from);
      var v := Crossing.Seen(r, viewer, clients);
      (DiceSection(v, joinedName) == View.RollButton <==> joinedName == clients[w].name.value)
      && View.DiceSection(v) == View.NoDice
      && Deal.RollDice(r, w, dice, wall, now).Some?
  {
    var r := Resolve.SettleWin(g, w, from);
    assert !r.started && r.tally.waitingForDice && r.tally.diceRoller == Some(w);
    RollButtonWhenAwaited(r, viewer, clients, joinedName);
    Deal.RollDiceEffect(r, w, dice, wall, now);
  }

  /** In a stopped game waiting for a roller known by name, the corrected section offers the
      roll to the pages joined under that name, and the as-written section shows nothing. */
  lemma RollButtonWhenAwaited(r: Game, viewer: ClientId, clients: map<ClientId, Client>, joinedName: string)
    requires !r.started && r.tally.waitingForDice
    requires r.tally.diceRoller.Some? && r.tally.diceRoller.value in clients
    requires clients[r.tally.diceRoller.value].name.Some?
    ensures var v := Crossing.Seen(r, viewer, clients);
      (DiceSection(v, joinedName) == View.RollButton <==> joinedName == clients[r.tally.diceRoller.value].name.value)
      && View.DiceSection(v) == View.NoDice
  {
    RollerSeen(r, viewer, clients);
  }

  /** What a page reads of the dice: the flags as sent, and the roller's name when the roller
      is known by name. */
  lemma RollerSeen(r: Game, viewer: ClientId, clients: map<ClientId, Client>)
    requires r.tally.diceRoller.Some? && r.tally.diceRoller.value in clients
    requires clients[r.tally.diceRoller.value].name.Some?
    ensures var v := Crossing.Seen(r, viewer, clients);
      Get(v, "waitingForDice") == Some(JBool(r.tally.waitingForDice))
      && Get(v, "started") == Some(JBool(r.started))
      && Get(Get(v, "diceRoller"), "name") == Some(JStr(clients[r.tally.diceRoller.value].name.value))
  {
    var s := SerializeFor(r, viewer, clients);
    SnapshotDiceFields(s);
    SnapshotTurnFields(s);
    assert s.diceRoller == Some(clients[r.tally.diceRoller.value].name);
  }

  // ---------------------------------------------------------------------------
  // Disconnecting is final (ws.ts:60-64, 71-75)
  // ---------------------------------------------------------------------------

  /** `disconnect` that also cancels a pending reconnect timeout. */
  function Disconnect(c: Session.Client): (r: (Session.Client, seq<Session.Effect>))
    ensures r.1 == Session.Disconnect(c).1
    ensures r.0.reconnect.None? && r.0.socket.None? && r.0.phase == Session.Disconnected
    ensures r.0.(reconnect := c.reconnect, timeouts := Session.Disconnect(c).0.timeouts) == Session.Disconnect(c).0
  {
    var (c1, out) := Session.Disconnect(c);
    (if c1.reconnect.Some? then c1.(reconnect := None, timeouts := c1.timeouts - {c1.reconnect.value}) else c1, out)
  }

  /** `onclose` that cleans up and reconnects only for the current socket; the close of a
      socket already dropped or replaced is recorded and nothing else. */
  function Closed(c: Session.Client, sock: nat, code: int, reason: string): (r: (Session.Client, seq<Session.Effect>))
    ensures c.socket == Some(sock) ==> r == Session.Closed(c, sock, code, reason)
    ensures c.socket != Some(sock) ==>
              r.1 == [] && r.0.phase == c.phase && r.0.heartbeat == c.heartbeat && r.0.reconnect == c.reconnect
              && r.0.socket == c.socket && r.0.intervals == c.intervals && r.0.timeouts == c.timeouts
  {
    if sock !in c.sockets || c.sockets[sock] == Session.SocketClosed then (c, [])
    else
      var c1 := c.(sockets := c.sockets[sock := Session.SocketClosed], lastClose := Some(Session.CloseInfo(code, reason)));
      if c.socket != Some(sock) then (c1, [])
      else
        var (c2, out) := Session.Cleanup(c1);
        (Session.ScheduleReconnect(c2), out)
  }

  /** The corrected close keeps the client's timers accounted for. */
  lemma ClosedValid(c: Session.Client, sock: nat, code: int, reason: string)
    requires Session.Valid(c)
    ensures Session.Valid(Closed(c, sock, code, reason).0)
  {
    if c.socket == Some(sock) {
      Session.ClosedValid(c, sock, code, reason);
    }
  }

  /** After the corrected `disconnect`, the dropped socket's close schedules nothing: the
      client stays disconnected with no timer left, and no reconnect can fire. */
  lemma DisconnectIsFinal(c: Session.Client, code: int, reason: string, h: Session.Handle)
    requires Session.Valid(c) && Session.SocketIn(c, {Session.SocketOpen})
    ensures var sock := c.socket.value;
      var d := Disconnect(c).0;
      var e := Closed(d, sock, code, reason).0;
      e.sockets[sock] == Session.SocketClosed && e.phase == Session.Disconnected
      && e.reconnect.None? && e.timeouts == {} && e.intervals == {} && e.socket.None?
      && Session.ReconnectDue(e, h) == (e, [])
  {
  }

  /** With the corrected close, the old socket's late close after disconnect, connect and the
      new socket opening leaves the client connected with its heartbeat running. */
  lemma StaleCloseKeepsConnection(c: Session.Client, code: int, reason: string)
    requires Session.Valid(c) && Session.SocketIn(c, {Session.SocketOpen})
    ensures var prev := c.socket.value;
      var d := Disconnect(c).0;
      var n := Session.Connect(d).0;
      var o := Session.Opened(n, n.socket.value).0;
      var x := Closed(o, prev, code, reason).0;
      x.phase == Session.Connected && x.heartbeat == o.heartbeat && x.heartbeat.Some?
      && Session.SocketIn(x, {Session.SocketOpen}) && x.reconnect.None?
  {
  }
}

=== FILE: melds.dfy ===
/**
 * Meld decomposition: `can_form_melds_recursive` (ws.py:357-409) and the
 * independent definition it is proved against, "the tiles split into
 * triplets of equal tiles and same-suit runs n, n+1, n+2".
 */
module Melds {
  import opened Tiles

  /** A run can start at ranks 1..7 only. */
  type RunStart = n: int | 1 <= n <= 7 witness 1

  /** A concealed meld: a triplet (刻子) or a run (顺子). */
  datatype Meld = Triplet(tile: Tile) | Run(suit: Suit, start: RunStart)

  function MeldTiles(m: Meld): multiset<Tile> {
    match m
    case Triplet(t) => multiset{t, t, t}
    case Run(s, n) => multiset{Suited(s, n), Suited(s, n + 1), Suited(s, n + 2)}
  }

  /** All tiles of a list of melds. */
  function Sum(ms: seq<Meld>): (r: multiset<Tile>)
    ensures |r| == 3 * |ms|
  {
    if ms == [] then multiset{} else MeldTiles(ms[0]) + Sum(ms[1..])
  }

  /** The reference definition: some list of melds uses exactly these tiles. */
  ghost predicate Decomposable(m: multiset<Tile>) {
    exists ms: seq<Meld> :: Decomposes(ms, m)
  }

  /** `ms` is a decomposition of `m`. */
  ghost predicate Decomposes(ms: seq<Meld>, m: multiset<Tile>) {
    Sum(ms) == m
  }

  /** Any list of melds witnesses that its tiles decompose. */
  lemma Witness(ms: seq<Meld>, m: multiset<Tile>)
    requires Sum(ms) == m
    ensures Decomposable(m)
  {
    assert Decomposes(ms, m);
  }

  /** A decomposable multiset has a multiple of three tiles. */
  lemma DecomposableSize(m: multiset<Tile>)
    requires Decomposable(m)
    ensures |m| % 3 == 0
  {
    var ms :| Decomposes(ms, m);
    ThreeDivides(|ms|, |m|);
  }

  lemma ThreeDivides(k: nat, n: nat)
    requires n == 3 * k
    ensures n % 3 == 0
  {
  }

  /** The first tile of `m` in code-string order, searching from position `k`. */
  function FirstFrom(m: multiset<Tile>, k: nat): (t: Tile)
    requires k < TileKinds
    requires exists u :: u in m && CodeRank(u) >= k
    ensures t in m && CodeRank(t) >= k
    decreases TileKinds - k
  {
    if TileAt(k) in m then TileAt(k)
    else
      NextKindRemains(m, k);
      FirstFrom(m, k + 1)
  }

  /** If the tile at position `k` is absent, some tile sits strictly later. */
  lemma NextKindRemains(m: multiset<Tile>, k: nat)
    requires k < TileKinds && TileAt(k) !in m
    requires exists u :: u in m && CodeRank(u) >= k
    ensures k + 1 < TileKinds && exists u :: u in m && CodeRank(u) >= k + 1
  {
    var u :| u in m && CodeRank(u) >= k;
    if CodeRank(u) == k { TileAtCodeRank(u); }
  }

  /** No tile of `m` from position `k` on comes before the one FirstFrom picks. */
  lemma {:induction false} FirstFromMinimal(m: multiset<Tile>, k: nat, u: Tile)
    requires k < TileKinds
    requires u in m && CodeRank(u) >= k
    ensures CodeRank(FirstFrom(m, k)) <= CodeRank(u)
    decreases TileKinds - k
  {
    if TileAt(k) !in m {
      if CodeRank(u) == k { TileAtCodeRank(u); }
      FirstFromMinimal(m, k + 1, u);
    }
  }

  /** `sorted(counts.keys())[0]`: the tile of `m` whose code is smallest. */
  function Smallest(m: multiset<Tile>): (t: Tile)
    requires m != multiset{}
    ensures t in m
  {
    NonEmptyHasKind(m);
    FirstFrom(m, 0)
  }

  lemma NonEmptyHasKind(m: multiset<Tile>)
    requires m != multiset{}
    ensures exists u :: u in m && CodeRank(u) >= 0
  {
    var u :| u in m;
  }

  /** Smallest really is the least tile of `m` in code-string order. */
  lemma SmallestMinimal(m: multiset<Tile>, u: Tile)
    requires u in m
    ensures CodeRank(Smallest(m)) <= CodeRank(u)
  {
    FirstFromMinimal(m, 0, u);
  }

  /** `can_form_melds_recursive`: take the smallest tile; try it as a triplet,
      then as the start of a run; succeed on the empty multiset. */
  function CanFormMelds(m: multiset<Tile>): bool
    decreases |m|
  {
    if m == multiset{} then true
    else
      var t := Smallest(m);
      (m[t] >= 3 && CanFormMelds(m - MeldTiles(Triplet(t))))
      || (StartsRun(m, t) && CanFormMelds(m - MeldTiles(Run(t.suit, t.rank))))
  }

  /** `t` is a suited tile of rank at most 7 and its two successors are in `m`. */
  predicate StartsRun(m: multiset<Tile>, t: Tile) {
    t.Suited? && t.rank <= 7 && Suited(t.suit, t.rank + 1) in m && Suited(t.suit, t.rank + 2) in m
  }

  // ---------------------------------------------------------------------------
  // Correctness of the search
  // ---------------------------------------------------------------------------

  /** A tile of a decomposition lies in one of its melds. */
  lemma InSomeMeld(ms: seq<Meld>, t: Tile) returns (i: nat)
    requires t in Sum(ms)
    ensures i < |ms| && t in MeldTiles(ms[i])
  {
    assert ms[0..] == ms;
    i := InSomeMeldFrom(ms, t, 0);
  }

  /** A tile of the melds from position `k` on lies in one of them. */
  lemma {:induction false} InSomeMeldFrom(ms: seq<Meld>, t: Tile, k: nat) returns (i: nat)
    requires k <= |ms| && t in Sum(ms[k..])
    ensures k <= i < |ms| && t in MeldTiles(ms[i])
    decreases |ms| - k
  {
    var inHead := SumFrom(ms, t, k);
    if inHead {
      i := k;
    } else {
      i := InSomeMeldFrom(ms, t, k + 1);
    }
  }

  /** A tile of the melds from position `k` on lies in the one at `k` or in those after it. */
  lemma SumFrom(ms: seq<Meld>, t: Tile, k: nat) returns (inHead: bool)
    requires k <= |ms| && t in Sum(ms[k..])
    ensures k < |ms|
    ensures inHead ==> t in MeldTiles(ms[k])
    ensures !inHead ==> t in Sum(ms[k + 1..])
  {
    var rest := ms[k..];
    assert rest != [];
    assert Sum(rest) == MeldTiles(rest[0]) + Sum(rest[1..]);
    assert rest[0] == ms[k] && rest[1..] == ms[k + 1..];
    inHead := t in MeldTiles(ms[k]);
  }

  /** Honours and flowers only ever sit in triplets: runs are made of suited tiles. */
  lemma HonorsOnlyInTriplets(meld: Meld, t: Tile)
    requires t in MeldTiles(meld) && !t.Suited?
    ensures meld == Triplet(t)
  {
  }

  /** The tiles of two lists of melds put together, counted tile by tile. */
  lemma {:induction false} SumConcat(a: seq<Meld>, b: seq<Meld>)
    ensures forall x :: Sum(a + b)[x] == Sum(a)[x] + Sum(b)[x]
  {
    if a == [] {
      assert a + b == b;
    } else {
      SumConcat(a[1..], b);
      assert (a + b)[1..] == a[1..] + b;
    }
  }

  lemma SumWithoutCounts(ms: seq<Meld>, i: nat)
    requires i < |ms|
    ensures forall x :: Sum(ms)[x] == MeldTiles(ms[i])[x] + Sum(ms[..i] + ms[i + 1..])[x]
  {
    var pre, post := ms[..i], ms[i + 1..];
    assert ms == pre + ([ms[i]] + post);
    SumConcat(pre, [ms[i]] + post);
    SumConcat(pre, post);
    assert ([ms[i]] + post)[1..] == post;
  }

  /** How many of the melds are triplets of `t`. */
  function TripletsOf(ms: seq<Meld>, t: Tile): nat {
    if ms == [] then 0 else (if ms[0] == Triplet(t) then 1 else 0) + TripletsOf(ms[1..], t)
  }

  /** An honour or a flower sits only in triplets, so any list of melds holds exactly three
      copies of it per triplet of it. */
  lemma {:induction false} UnsuitedCountsThree(ms: seq<Meld>, t: Tile)
    requires !t.Suited?
    ensures Sum(ms)[t] == 3 * TripletsOf(ms, t)
  {
    if ms != [] {
      UnsuitedCountsThree(ms[1..], t);
      UnsuitedInMeld(ms[0], t);
      assert Sum(ms)[t] == MeldTiles(ms[0])[t] + Sum(ms[1..])[t];
    }
  }

  lemma UnsuitedInMeld(meld: Meld, t: Tile)
    requires !t.Suited?
    ensures MeldTiles(meld)[t] == if meld == Triplet(t) then 3 else 0
  {
  }

  /** Putting a meld in front of a decomposition of `m - MeldTiles(meld)` decomposes `m`. */
  lemma ConsMeld(meld: Meld, ms: seq<Meld>, m: multiset<Tile>)
    requires MeldTiles(meld) <= m
    requires Sum(ms) == m - MeldTiles(meld)
    ensures Sum([meld] + ms) == m
  {
    var ms' := [meld] + ms;
    assert ms'[1..] == ms;
    assert forall x :: Sum(ms')[x] == m[x];
    MultisetExt(Sum(ms'), m);
  }

  /** A witness list of melds for a decomposable multiset. */
  lemma DecompositionOf(m: multiset<Tile>) returns (ms: seq<Meld>)
    requires Decomposable(m)
    ensures Sum(ms) == m
  {
    ms :| Decomposes(ms, m);
  }

  /** Adding the tiles of one meld keeps a multiset decomposable. */
  lemma AddMeld(meld: Meld, m: multiset<Tile>)
    requires MeldTiles(meld) <= m
    requires Decomposable(m - MeldTiles(meld))
    ensures Decomposable(m)
  {
    var ms := DecompositionOf(m - MeldTiles(meld));
    ConsMeld(meld, ms, m);
    Witness([meld] + ms, m);
  }

  /** A successful search on a non-empty multiset commits to one meld and succeeds on the rest. */
  lemma SearchStep(m: multiset<Tile>) returns (meld: Meld)
    requires m != multiset{} && CanFormMelds(m)
    ensures MeldTiles(meld) <= m && CanFormMelds(m - MeldTiles(meld))
  {
    var t := Smallest(m);
    if m[t] >= 3 && CanFormMelds(m - MeldTiles(Triplet(t))) {
      meld := Triplet(t);
      TripletWithin(m, t);
    } else {
      meld := Run(t.suit, t.rank);
      RunWithin(m, t);
    }
  }

  lemma TripletWithin(m: multiset<Tile>, t: Tile)
    requires m[t] >= 3
    ensures MeldTiles(Triplet(t)) <= m
  {
    assert forall o :: MeldTiles(Triplet(t))[o] <= m[o];
  }

  lemma RunWithin(m: multiset<Tile>, t: Tile)
    requires t in m && StartsRun(m, t)
    ensures MeldTiles(Run(t.suit, t.rank)) <= m
  {
    assert forall o :: MeldTiles(Run(t.suit, t.rank))[o] <= m[o];
  }

  /** Every success of the search yields a decomposition. */
  lemma {:induction false} CanFormMeldsSound(m: multiset<Tile>)
    requires CanFormMelds(m)
    ensures Decomposable(m)
    decreases |m|
  {
    if m == multiset{} {
      Witness([], m);
    } else {
      var meld := SearchStep(m);
      CanFormMeldsSound(m - MeldTiles(meld));
      AddMeld(meld, m);
    }
  }

  /** In a decomposition, the meld holding the smallest tile is its triplet or the run it starts. */
  lemma MeldOfSmallest(m: multiset<Tile>, ms: seq<Meld>) returns (meld: Meld)
    requires m != multiset{} && Decomposes(ms, m)
    ensures Decomposable(m - MeldTiles(meld))
    ensures MeldTiles(meld) <= m
    ensures meld == Triplet(Smallest(m))
            || (Smallest(m).Suited? && Smallest(m).rank <= 7 && meld == Run(Smallest(m).suit, Smallest(m).rank))
  {
    var i := InSomeMeld(ms, Smallest(m));
    meld := ms[i];
    RemoveMeld(ms, i);
    Witness(ms[..i] + ms[i + 1..], m - MeldTiles(meld));
    HeadedBySmallest(m, meld);
  }

  /** A meld inside `m` that holds the smallest tile of `m` starts with it. */
  lemma HeadedBySmallest(m: multiset<Tile>, meld: Meld)
    requires MeldTiles(meld) <= m && Smallest(m) in MeldTiles(meld)
    ensures meld == Triplet(Smallest(m))
            || (Smallest(m).Suited? && Smallest(m).rank <= 7 && meld == Run(Smallest(m).suit, Smallest(m).rank))
  {
    match meld
    case Triplet(u) =>
    case Run(s, n) =>
      assert Suited(s, n) in m;
      SmallestMinimal(m, Suited(s, n));
  }

  /** Dropping one meld from a decomposition leaves a decomposition of the rest. */
  lemma RemoveMeld(ms: seq<Meld>, i: nat)
    requires i < |ms|
    ensures MeldTiles(ms[i]) <= Sum(ms)
    ensures Sum(ms[..i] + ms[i + 1..]) == Sum(ms) - MeldTiles(ms[i])
  {
    SumWithoutCounts(ms, i);
    var rest := Sum(ms[..i] + ms[i + 1..]);
    assert forall x :: rest[x] == (Sum(ms) - MeldTiles(ms[i]))[x];
    MultisetExt(rest, Sum(ms) - MeldTiles(ms[i]));
  }

  /** Every decomposable multiset is found by the search. */
  lemma {:induction false} CanFormMeldsComplete(m: multiset<Tile>)
    requires Decomposable(m)
    ensures CanFormMelds(m)
    decreases |m|
  {
    if m != multiset{} {
      var ms := DecompositionOf(m);
      assert Decomposes(ms, m);
      var meld := MeldOfSmallest(m, ms);
      CanFormMeldsComplete(m - MeldTiles(meld));
      SearchAccepts(m, meld);
    }
  }

  /** The search accepts `m` when the meld of its smallest tile leaves an acceptable rest. */
  lemma SearchAccepts(m: multiset<Tile>, meld: Meld)
    requires m != multiset{} && MeldTiles(meld) <= m && CanFormMelds(m - MeldTiles(meld))
    requires meld == Triplet(Smallest(m))
             || (Smallest(m).Suited? && Smallest(m).rank <= 7 && meld == Run(Smallest(m).suit, Smallest(m).rank))
    ensures CanFormMelds(m)
  {
    var t := Smallest(m);
    match meld
    case Triplet(u) =>
      assert MeldTiles(meld)[t] == 3;
    case Run(s, n) =>
      RunStartsIn(m, s, n);
  }

  /** A run inside `m` starts at a tile that StartsRun recognises. */
  lemma RunStartsIn(m: multiset<Tile>, s: Suit, n: RunStart)
    requires MeldTiles(Run(s, n)) <= m
    ensures StartsRun(m, Suited(s, n))
  {
    var run := MeldTiles(Run(s, n));
    assert run[Suited(s, n + 1)] > 0 && run[Suited(s, n + 2)] > 0;
  }

  /** The search succeeds exactly on the multisets that split into melds. */
  lemma CanFormMeldsCorrect(m: multiset<Tile>)
    ensures CanFormMelds(m) <==> Decomposable(m)
  {
    if CanFormMelds(m) { CanFormMeldsSound(m); }
    if Decomposable(m) { CanFormMeldsComplete(m); }
  }
}

=== FILE: patterns.dfy ===
/** The special winning patterns that raise a win's multiplier (ws.py:188-300):
    seven pairs, pure suit, half suit and all pongs. Each Python check is modelled as written
    and then characterised by an order-free reference definition. */
module Patterns {
  import opened Wrappers
  import opened Tiles
  import opened Hands

  // ---------------------------------------------------------------------------
  // Tile lists
  // ---------------------------------------------------------------------------

  /** The tiles an exposed meld shows: a pong its tile three times, a kong four times,
      a chi its own tiles (ws.py:215-219). */
  function MeldTileList(m: ExposedMeld): seq<Tile> {
    match m
    case Chi(ts) => ts
    case Pong(t) => [t, t, t]
    case Kong(t) => [t, t, t, t]
  }

  function ExposedTiles(ms: seq<ExposedMeld>): seq<Tile> {
    if ms == [] then [] else MeldTileList(ms[0]) + ExposedTiles(ms[1..])
  }

  /** `[t for t in tiles if t not in SEASONS]`: every tile but the flowers, in order. */
  function DropFlowers(ts: seq<Tile>): (r: seq<Tile>)
    ensures forall t :: multiset(r)[t] == if t.Flower? then 0 else multiset(ts)[t]
    ensures |r| <= |ts|
  {
    if ts == [] then []
    else
      assert ts == [ts[0]] + ts[1..];
      (if ts[0].Flower? then [] else [ts[0]]) + DropFlowers(ts[1..])
  }

  lemma DropFlowersMembers(ts: seq<Tile>)
    ensures forall t :: t in DropFlowers(ts) <==> t in ts && !t.Flower?
  {
    forall t ensures t in DropFlowers(ts) <==> t in ts && !t.Flower? {
      assert t in DropFlowers(ts) <==> multiset(DropFlowers(ts))[t] > 0;
      assert t in ts <==> multiset(ts)[t] > 0;
    }
  }

  // ---------------------------------------------------------------------------
  // Counting over the 42 tile kinds
  // ---------------------------------------------------------------------------

  /** `count_tiles` laid out by kind: entry k counts the tile at code position k. */
  function KindCounts(m: multiset<Tile>): (c: seq<nat>)
    ensures |c| == TileKinds
    ensures forall k :: 0 <= k < TileKinds ==> c[k] == m[TileAt(k)]
  {
    seq(TileKinds, k requires 0 <= k < TileKinds => m[TileAt(k)])
  }

  function SumFrom(c: seq<nat>, k: nat): nat
    requires k <= |c|
    decreases |c| - k
  {
    if k == |c| then 0 else c[k] + SumFrom(c, k + 1)
  }

  lemma {:induction false} SumFromZero(c: seq<nat>, k: nat)
    requires k <= |c|
    requires forall j :: 0 <= j < |c| ==> c[j] == 0
    ensures SumFrom(c, k) == 0
    decreases |c| - k
  {
    if k < |c| {
      SumFromZero(c, k + 1);
    }
  }

  /** Two count rows that differ by one at position `i` differ by one in their sums. */
  lemma {:induction false} SumFromBump(c: seq<nat>, c': seq<nat>, i: nat, k: nat)
    requires |c| == |c'| && k <= |c|
    requires forall j :: 0 <= j < |c| ==> c[j] == c'[j] + (if j == i then 1 else 0)
    ensures SumFrom(c, k) == SumFrom(c', k) + (if k <= i < |c| then 1 else 0)
    decreases |c| - k
  {
    if k < |c| {
      SumFromBump(c, c', i, k + 1);
    }
  }

  /** Summing the counts of all 42 kinds gives the number of tiles: every tile has a kind. */
  lemma {:induction false} KindSumIsSize(m: multiset<Tile>)
    ensures SumFrom(KindCounts(m), 0) == |m|
    decreases |m|
  {
    if m == multiset{} {
      SumFromZero(KindCounts(m), 0);
    } else {
      var t :| t in m;
      var m' := m - multiset{t};
      assert m == m' + multiset{t};
      KindSumIsSize(m');
      TileAtCodeRank(t);
      forall j | 0 <= j < TileKinds
        ensures KindCounts(m)[j] == KindCounts(m')[j] + (if j == CodeRank(t) then 1 else 0)
      {
        assert TileAt(j) == t <==> j == CodeRank(t);
      }
      SumFromBump(KindCounts(m), KindCounts(m'), CodeRank(t), 0);
    }
  }

  // ---------------------------------------------------------------------------
  // is_seven_pairs (ws.py:188-209)
  // ---------------------------------------------------------------------------

  /** The Counter loop: `None` once some count is neither 2 nor 4, else the pairs counted
      (a count of 4 is two pairs). Kinds absent from the hand are not Counter keys. */
  function PairCount(c: seq<nat>, k: nat): Option<nat>
    requires k <= |c|
    decreases |c| - k
  {
    if k == |c| then Some(0)
    else
      var rest := PairCount(c, k + 1);
      if c[k] == 0 then rest
      else if c[k] != 2 && c[k] != 4 then None
      else if rest.None? then None
      else Some(rest.value + c[k] / 2)
  }

  /** `is_seven_pairs`: no exposed meld, exactly 14 tiles besides flowers, seven pairs. */
  predicate IsSevenPairs(hand: seq<Tile>, exposed: seq<ExposedMeld>) {
    var core := DropFlowers(hand);
    exposed == [] && |core| == 14 && PairCount(KindCounts(multiset(core)), 0) == Some(7)
  }

  predicate PairedCount(c: nat) {
    c == 0 || c == 2 || c == 4
  }

  /** Reference: every tile kind is held 0, 2 or 4 times. */
  ghost predicate AllPaired(m: multiset<Tile>) {
    forall t :: PairedCount(m[t])
  }

  lemma {:induction false} PairCountSpec(c: seq<nat>, k: nat)
    requires k <= |c|
    ensures PairCount(c, k).Some? <==> forall j :: k <= j < |c| ==> PairedCount(c[j])
    ensures PairCount(c, k).Some? ==> 2 * PairCount(c, k).value == SumFrom(c, k)
    decreases |c| - k
  {
    if k < |c| {
      PairCountSpec(c, k + 1);
    }
  }

  lemma AllPairedByKind(m: multiset<Tile>)
    ensures AllPaired(m) <==> forall j :: 0 <= j < TileKinds ==> PairedCount(KindCounts(m)[j])
  {
    var c := KindCounts(m);
    if forall j :: 0 <= j < TileKinds ==> PairedCount(c[j]) {
      forall t ensures PairedCount(m[t]) {
        TileAtCodeRank(t);
        assert PairedCount(c[CodeRank(t)]);
      }
    }
  }

  /** Seven pairs holds exactly for a hand with no exposed meld whose 14 non-flower tiles
      come in kinds of 2 or 4; the count of seven pairs then follows from the size. */
  lemma IsSevenPairsCorrect(hand: seq<Tile>, exposed: seq<ExposedMeld>)
    ensures IsSevenPairs(hand, exposed) <==>
              exposed == [] && |DropFlowers(hand)| == 14 && AllPaired(multiset(DropFlowers(hand)))
  {
    var m := multiset(DropFlowers(hand));
    PairCountSpec(KindCounts(m), 0);
    AllPairedByKind(m);
    KindSumIsSize(m);
  }

  /** Any 14 flower-free tiles held in kinds of 2 or 4 form seven pairs; a four-of-a-kind counts as two. */
  lemma PairedHandIsSevenPairs(hand: seq<Tile>)
    requires |hand| == 14 && forall i :: 0 <= i < 14 ==> !hand[i].Flower?
    requires AllPaired(multiset(hand))
    ensures IsSevenPairs(hand, [])
  {
    DropFlowersMembers(hand);
    var core := DropFlowers(hand);
    assert forall t :: multiset(core)[t] == multiset(hand)[t];
    MultisetExt(multiset(core), multiset(hand));
    IsSevenPairsCorrect(hand, []);
  }

  // ---------------------------------------------------------------------------
  // is_pure_suit and is_half_suit (ws.py:211-261)
  // ---------------------------------------------------------------------------

  /** The tiles both suit checks look at: the hand and the exposed melds, flowers dropped. */
  function SuitTiles(hand: seq<Tile>, exposed: seq<ExposedMeld>): seq<Tile> {
    DropFlowers(hand + ExposedTiles(exposed))
  }

  /** `is_pure_suit`: the first tile must carry a suit letter and every tile the same letter.
      Dragons carry 'D', so dots and dragons together pass as one suit. */
  predicate IsPureSuit(hand: seq<Tile>, exposed: seq<ExposedMeld>) {
    var all := SuitTiles(hand, exposed);
    |all| > 0 && HasSuitLetter(all[0])
    && forall i :: 0 <= i < |all| ==> HasSuitLetter(all[i]) && Letter(all[i]) == Letter(all[0])
  }

  /** `next((t for t in all_tiles if t[0] in SUITS), None)`. */
  function FirstSuited(ts: seq<Tile>): (r: Option<Tile>)
    ensures r.Some? ==> r.value in ts && HasSuitLetter(r.value)
    ensures r.None? ==> forall i :: 0 <= i < |ts| ==> !HasSuitLetter(ts[i])
  {
    if ts == [] then None
    else if HasSuitLetter(ts[0]) then Some(ts[0])
    else FirstSuited(ts[1..])
  }

  /** `is_half_suit`: some tile carries a suit letter, and every tile carrying one carries the
      letter of the first such tile. */
  predicate IsHalfSuit(hand: seq<Tile>, exposed: seq<ExposedMeld>) {
    var all := SuitTiles(hand, exposed);
    var first := FirstSuited(all);
    |all| > 0 && first.Some?
    && forall i :: 0 <= i < |all| ==> HasSuitLetter(all[i]) ==> Letter(all[i]) == Letter(first.value)
  }

  /** Reference: the tiles are not empty, all carry a suit letter, and it is the same one. */
  ghost predicate OneLetter(ts: seq<Tile>) {
    (exists t :: t in ts)
    && forall t, u :: t in ts && u in ts ==> HasSuitLetter(t) && Letter(t) == Letter(u)
  }

  /** Reference: some tile carries a suit letter, and no two carry different ones. */
  ghost predicate OneLetterAmongSuited(ts: seq<Tile>) {
    (exists t :: t in ts && HasSuitLetter(t))
    && forall t, u :: t in ts && u in ts && HasSuitLetter(t) && HasSuitLetter(u) ==> Letter(t) == Letter(u)
  }

  /** Pure suit does not depend on which tile comes first: it holds exactly when every
      non-flower tile carries one and the same suit letter. */
  lemma IsPureSuitCorrect(hand: seq<Tile>, exposed: seq<ExposedMeld>)
    ensures IsPureSuit(hand, exposed) <==> OneLetter(SuitTiles(hand, exposed))
  {
    var all := SuitTiles(hand, exposed);
    if OneLetter(all) {
      var w :| w in all;
      assert all[0] in all;
      forall i | 0 <= i < |all| ensures HasSuitLetter(all[i]) && Letter(all[i]) == Letter(all[0]) {
        assert all[i] in all;
      }
    }
    if IsPureSuit(hand, exposed) {
      assert all[0] in all;
      forall t, u | t in all && u in all ensures HasSuitLetter(t) && Letter(t) == Letter(u) {
        var i :| 0 <= i < |all| && all[i] == t;
        var j :| 0 <= j < |all| && all[j] == u;
      }
    }
  }

  /** Half suit holds exactly when some non-flower tile carries a suit letter and no two
      carry different ones. */
  lemma IsHalfSuitCorrect(hand: seq<Tile>, exposed: seq<ExposedMeld>)
    ensures IsHalfSuit(hand, exposed) <==> OneLetterAmongSuited(SuitTiles(hand, exposed))
  {
    var all := SuitTiles(hand, exposed);
    var first := FirstSuited(all);
    if IsHalfSuit(hand, exposed) {
      forall t, u | t in all && u in all && HasSuitLetter(t) && HasSuitLetter(u)
        ensures Letter(t) == Letter(u)
      {
        var i :| 0 <= i < |all| && all[i] == t;
        var j :| 0 <= j < |all| && all[j] == u;
      }
    }
    if OneLetterAmongSuited(all) {
      var w :| w in all && HasSuitLetter(w);
      assert first.Some?;
    }
  }

  /** The half-suit check does not exclude hands with no honour: every pure-suit hand also
      passes it, so only the `elif` of the scoring keeps the two multipliers apart. */
  lemma PureImpliesHalf(hand: seq<Tile>, exposed: seq<ExposedMeld>)
    ensures IsPureSuit(hand, exposed) ==> IsHalfSuit(hand, exposed)
  {
    var all := SuitTiles(hand, exposed);
    if IsPureSuit(hand, exposed) {
      assert FirstSuited(all) == Some(all[0]);
    }
  }

  // ---------------------------------------------------------------------------
  // is_all_pongs (ws.py:263-300)
  // ---------------------------------------------------------------------------

  predicate HasChi(ms: seq<ExposedMeld>) {
    exists i :: 0 <= i < |ms| && ms[i].Chi?
  }

  /** The Counter loop with `pair_found`: a count of 2 is the pair (a second one fails),
      3 and 4 are fine, anything else fails; at the end a pair must have been seen. */
  function PongScan(c: seq<nat>, k: nat, pairFound: bool): bool
    requires k <= |c|
    decreases |c| - k
  {
    if k == |c| then pairFound
    else if c[k] == 0 then PongScan(c, k + 1, pairFound)
    else if c[k] == 2 then !pairFound && PongScan(c, k + 1, true)
    else if c[k] == 3 || c[k] == 4 then PongScan(c, k + 1, pairFound)
    else false
  }

  /** The non-flower hand tiles followed by the exposed melds' tiles. */
  function PongTiles(hand: seq<Tile>, exposed: seq<ExposedMeld>): seq<Tile> {
    DropFlowers(hand) + ExposedTiles(exposed)
  }

  /** `is_all_pongs`: any chi fails; then 14 tiles in all whose counts are one pair and
      otherwise triplets or quads. */
  predicate IsAllPongs(hand: seq<Tile>, exposed: seq<ExposedMeld>) {
    var all := PongTiles(hand, exposed);
    !HasChi(exposed) && |all| == 14 && PongScan(KindCounts(multiset(all)), 0, false)
  }

  predicate PongCount(c: nat) {
    c == 0 || c == 2 || c == 3 || c == 4
  }

  /** Reference: every kind is held 0, 2, 3 or 4 times and exactly one kind twice. */
  ghost predicate OnePairRestPongs(m: multiset<Tile>) {
    (forall t :: PongCount(m[t]))
    && (exists t :: m[t] == 2)
    && (forall t, u :: m[t] == 2 && m[u] == 2 ==> t == u)
  }

  /** How many kinds from position `k` on are held exactly twice. */
  function PairKinds(c: seq<nat>, k: nat): nat
    requires k <= |c|
    decreases |c| - k
  {
    if k == |c| then 0 else (if c[k] == 2 then 1 else 0) + PairKinds(c, k + 1)
  }

  lemma {:induction false} PongScanSpec(c: seq<nat>, k: nat, pairFound: bool)
    requires k <= |c|
    ensures PongScan(c, k, pairFound) <==>
              (forall j :: k <= j < |c| ==> PongCount(c[j]))
              && PairKinds(c, k) + (if pairFound then 1 else 0) == 1
    decreases |c| - k
  {
    if k < |c| {
      PongScanSpec(c, k + 1, pairFound);
      PongScanSpec(c, k + 1, true);
    }
  }

  lemma {:induction false} PairKindsFound(c: seq<nat>, k: nat, j: nat)
    requires k <= j < |c| && c[j] == 2
    ensures PairKinds(c, k) >= 1
    decreases |c| - k
  {
    if k < j {
      PairKindsFound(c, k + 1, j);
    }
  }

  lemma {:induction false} PairKindsTwo(c: seq<nat>, k: nat, a: nat, b: nat)
    requires k <= a < b < |c| && c[a] == 2 && c[b] == 2
    ensures PairKinds(c, k) >= 2
    decreases |c| - k
  {
    if k < a {
      PairKindsTwo(c, k + 1, a, b);
    } else {
      PairKindsFound(c, k + 1, b);
    }
  }

  lemma {:induction false} PairKindsWitness(c: seq<nat>, k: nat) returns (j: nat)
    requires k <= |c| && PairKinds(c, k) >= 1
    ensures k <= j < |c| && c[j] == 2
    decreases |c| - k
  {
    if c[k] == 2 {
      j := k;
    } else {
      j := PairKindsWitness(c, k + 1);
    }
  }

  /** When position `a` is the only possible pair kind, at most one is counted. */
  lemma {:induction false} PairKindsAtMost(c: seq<nat>, k: nat, a: nat)
    requires k <= |c|
    requires forall j :: k <= j < |c| && c[j] == 2 ==> j == a
    ensures PairKinds(c, k) <= (if k <= a < |c| then 1 else 0)
    decreases |c| - k
  {
    if k < |c| {
      PairKindsAtMost(c, k + 1, a);
    }
  }

  /** Exactly one pair kind, in terms of tiles rather than positions. */
  lemma OnePairKind(m: multiset<Tile>)
    ensures PairKinds(KindCounts(m), 0) == 1 <==>
              (exists t :: m[t] == 2) && (forall t, u :: m[t] == 2 && m[u] == 2 ==> t == u)
  {
    var c := KindCounts(m);
    if PairKinds(c, 0) == 1 {
      var j := PairKindsWitness(c, 0);
      assert m[TileAt(j)] == 2;
      forall t, u | m[t] == 2 && m[u] == 2 ensures t == u {
        TileAtCodeRank(t);
        TileAtCodeRank(u);
        assert c[CodeRank(t)] == 2 && c[CodeRank(u)] == 2;
        if CodeRank(t) < CodeRank(u) {
          PairKindsTwo(c, 0, CodeRank(t), CodeRank(u));
        } else if CodeRank(u) < CodeRank(t) {
          PairKindsTwo(c, 0, CodeRank(u), CodeRank(t));
        }
      }
    }
    if (exists t :: m[t] == 2) && (forall t, u :: m[t] == 2 && m[u] == 2 ==> t == u) {
      var t :| m[t] == 2;
      TileAtCodeRank(t);
      assert c[CodeRank(t)] == 2;
      PairKindsFound(c, 0, CodeRank(t));
      forall j | 0 <= j < |c| && c[j] == 2 ensures j == CodeRank(t) {
        assert m[TileAt(j)] == 2;
      }
      PairKindsAtMost(c, 0, CodeRank(t));
    }
  }

  lemma PongCountByKind(m: multiset<Tile>)
    ensures (forall t :: PongCount(m[t])) <==> forall j :: 0 <= j < TileKinds ==> PongCount(KindCounts(m)[j])
  {
    var c := KindCounts(m);
    if forall j :: 0 <= j < TileKinds ==> PongCount(c[j]) {
      forall t ensures PongCount(m[t]) {
        TileAtCodeRank(t);
        assert PongCount(c[CodeRank(t)]);
      }
    }
  }

  /** All pongs holds exactly when no exposed meld is a chi, the tiles number 14, and they
      form one pair with every other kind a triplet or a quad. */
  lemma IsAllPongsCorrect(hand: seq<Tile>, exposed: seq<ExposedMeld>)
    ensures IsAllPongs(hand, exposed) <==>
              !HasChi(exposed) && |PongTiles(hand, exposed)| == 14
              && OnePairRestPongs(multiset(PongTiles(hand, exposed)))
  {
    var m := multiset(PongTiles(hand, exposed));
    PongScanSpec(KindCounts(m), 0, false);
    PongCountByKind(m);
    OnePairKind(m);
  }
}

=== FILE: projection.dfy ===
/** `serialize_for` (ws.py:995-1068): what one connection is told about its room's game. The
    seats are rotated so that the recipient comes first, only the recipient's own hand is
    shown, and the tiles whose discard would leave a waiting hand are listed while a ting
    declaration is pending. */
module Projection {
  import opened Wrappers
  import opened Tiles
  import opened Hands
  import opened Game
  import opened Actions
  import opened Claims
  import opened Turns
  import opened Rooms
  import opened Wire

  /** One entry of `players`. */
  datatype PlayerView = PlayerView(
    name: string,
    index: nat,
    handCount: nat,
    you: bool,
    turn: bool,
    score: int,
    bonusTiles: seq<Tile>,
    ting: bool,
    exposedMelds: seq<ExposedMeld>)

  /** One entry of `discardsByPlayer`. */
  datatype DiscardView = DiscardView(index: nat, name: string, tiles: seq<Tile>)

  /** The snapshot, field for field. `diceRoller` is absent, or an object whose name may itself
      be null. */
  datatype Snapshot = Snapshot(
    started: bool,
    wallCount: nat,
    turnIndex: nat,
    expectsDiscard: bool,
    reactionActive: bool,
    reactionDeadline: nat,
    players: seq<PlayerView>,
    yourHand: seq<Tile>,
    discardsByPlayer: seq<DiscardView>,
    yourActions: seq<Action>,
    canTing: bool,
    yourTingPending: bool,
    tingDiscardables: seq<Tile>,
    diceValues: seq<int>,
    scoreMultiplier: int,
    nextGameMultiplier: int,
    waitingForDice: bool,
    diceRoller: Option<Option<string>>,
    gameCount: nat)

  // ---------------------------------------------------------------------------
  // Seating
  // ---------------------------------------------------------------------------

  /** Where the rotation starts: the recipient's seat, or seat 0 for an onlooker. */
  function Pivot(order: seq<ClientId>, recipient: ClientId): (k: nat)
    ensures k <= |order| && (order != [] ==> k < |order|)
    ensures recipient in order ==> order[k] == recipient
    ensures recipient !in order ==> k == 0
  {
    match IndexOf(order, recipient)
    case Some(i) => i
    case None => 0
  }

  /** `order[idx:] + order[:idx]`. */
  function Rotated(order: seq<ClientId>, recipient: ClientId): seq<ClientId> {
    var k := Pivot(order, recipient);
    order[k..] + order[..k]
  }

  /** The rotation is the seating read clockwise from the pivot: it keeps every seat, puts the
      recipient first when seated, and leaves an onlooker's view unrotated. */
  lemma RotatedSeats(order: seq<ClientId>, recipient: ClientId, i: nat)
    requires i < |order|
    ensures var r := Rotated(order, recipient);
      |r| == |order| && r[i] == order[(Pivot(order, recipient) + i) % |order|]
  {
    var k := Pivot(order, recipient);
    var n := |order|;
    var r := Rotated(order, recipient);
    ModNear(k + i, n);
    if i < n - k {
      assert r[i] == order[k..][i];
    } else {
      assert r[i] == order[..k][i - (n - k)];
    }
  }

  lemma RotatedFirst(order: seq<ClientId>, recipient: ClientId)
    ensures recipient in order ==> Rotated(order, recipient)[0] == recipient
    ensures recipient !in order ==> Rotated(order, recipient) == order
  {
  }

  lemma RotatedMembers(order: seq<ClientId>, recipient: ClientId)
    ensures multiset(Rotated(order, recipient)) == multiset(order)
  {
    var k := Pivot(order, recipient);
    assert order == order[..k] + order[k..];
  }

  /** `clients.get(ws).name or f"player{i+1}"`. */
  function DisplayName(clients: map<ClientId, Client>, ws: ClientId, i: nat): (r: string)
    ensures r != ""
  {
    if ws in clients && clients[ws].name.Some? && clients[ws].name.value != "" then clients[ws].name.value
    else "player" + NatToString(i + 1)
  }

  function PlayerAt(g: Game, recipient: ClientId, clients: map<ClientId, Client>, ws: ClientId, i: nat): PlayerView {
    var t := g.table;
    PlayerView(DisplayName(clients, ws, i), i, |HandOf(t, ws)|, ws == recipient, Current(g) == Some(ws),
               ScoreOf(g.tally.scores, ws), PileOf(t, ws), InTing(t, ws), ExposedOf(t, ws))
  }

  function DiscardsAt(g: Game, clients: map<ClientId, Client>, ws: ClientId, i: nat): DiscardView {
    DiscardView(i, DisplayName(clients, ws, i), DiscardsOf(g.table, ws))
  }

  // ---------------------------------------------------------------------------
  // Ting discardables
  // ---------------------------------------------------------------------------

  /** `dict.fromkeys(hand)`: each tile once, at its first position. */
  function Dedup(s: seq<Tile>): (r: seq<Tile>)
    ensures forall x :: x in r <==> x in s
    ensures Distinct(r)
  {
    if s == [] then []
    else
      var r := Dedup(s[..|s| - 1]);
      assert s == s[..|s| - 1] + [s[|s| - 1]];
      if s[|s| - 1] in r then r else r + [s[|s| - 1]]
  }

  /** Discarding one copy of `x` leaves a hand waiting on some tile. */
  predicate Waits(hand: seq<Tile>, exposed: seq<ExposedMeld>, x: Tile)
    requires x in hand
  {
    WinningTilesFor(RemoveFirst(hand, x).value, exposed) != []
  }

  /** The listed tiles (all from the hand) whose discard leaves a waiting hand, in order. */
  function KeepWaiting(ts: seq<Tile>, hand: seq<Tile>, exposed: seq<ExposedMeld>): (r: seq<Tile>)
    requires forall x :: x in ts ==> x in hand
    ensures forall x :: x in r <==> x in ts && Waits(hand, exposed, x)
  {
    if ts == [] then []
    else
      var rest := KeepWaiting(ts[1..], hand, exposed);
      if Waits(hand, exposed, ts[0]) then [ts[0]] + rest else rest
  }

  /** Filtering a list without repeats gives a list without repeats. */
  lemma {:induction false} KeepWaitingDistinct(ts: seq<Tile>, hand: seq<Tile>, exposed: seq<ExposedMeld>)
    requires forall x :: x in ts ==> x in hand
    requires Distinct(ts)
    ensures Distinct(KeepWaiting(ts, hand, exposed))
  {
    if ts != [] {
      DistinctTail(ts);
      KeepWaitingDistinct(ts[1..], hand, exposed);
    }
  }

  /** The tiles offered for a ting discard, each once. */
  function TingChoices(hand: seq<Tile>, exposed: seq<ExposedMeld>): seq<Tile> {
    KeepWaiting(Dedup(hand), hand, exposed)
  }

  /** The candidates are computed only for the current player of a started game who has to
      discard and is not yet in ting. */
  predicate MayDeclare(g: Game, p: ClientId) {
    CanDiscard(g, p) && !InTing(g.table, p)
  }

  function TingList(g: Game, p: ClientId): seq<Tile> {
    if MayDeclare(g, p) then TingChoices(HandOf(g.table, p), ExposedOf(g.table, p)) else []
  }

  // ---------------------------------------------------------------------------
  // The snapshot
  // ---------------------------------------------------------------------------

  /** `dice_roller_info`: the roller's name when the roller is a known connection. */
  function RollerInfo(g: Game, clients: map<ClientId, Client>): Option<Option<string>> {
    match g.tally.diceRoller
    case Some(q) => if q in clients then Some(clients[q].name) else None
    case None => None
  }

  /** `serialize_for(recipient, clients, sockets)`; the socket list is not used. */
  function SerializeFor(g: Game, recipient: ClientId, clients: map<ClientId, Client>): Snapshot {
    var rotated := Rotated(g.playerOrder, recipient);
    var players := seq(|rotated|, i requires 0 <= i < |rotated| => PlayerAt(g, recipient, clients, rotated[i], i));
    var discards := seq(|rotated|, i requires 0 <= i < |rotated| => DiscardsAt(g, clients, rotated[i], i));
    var ting := TingList(g, recipient);
    var pending := TingPendingFor(g.table, recipient);
    Snapshot(g.started, |g.table.wall|, g.turnIndex, g.expectsDiscard, g.window.active, g.window.deadline,
             players, HandOf(g.table, recipient), discards,
             if g.window.active then ComputeActionsFor(g, recipient) else [],
             ting != [], pending, if pending then ting else [],
             g.tally.diceValues, g.tally.scoreMultiplier, g.tally.nextGameMultiplier,
             g.tally.waitingForDice, RollerInfo(g, clients), g.tally.gameCount)
  }

  /** The players are the seats in rotated order, numbered from 0; only the recipient is marked
      as "you", only the current seat as "turn", and each carries its own counts and tiles. */
  lemma SerializePlayers(g: Game, recipient: ClientId, clients: map<ClientId, Client>, i: nat)
    requires i < |g.playerOrder|
    ensures var s := SerializeFor(g, recipient, clients);
      var ws := g.playerOrder[(Pivot(g.playerOrder, recipient) + i) % |g.playerOrder|];
      |s.players| == |g.playerOrder| && |s.discardsByPlayer| == |g.playerOrder|
      && s.players[i].index == i && s.discardsByPlayer[i].index == i
      && s.players[i].you == (ws == recipient)
      && s.players[i].turn == (Current(g) == Some(ws))
      && s.players[i].handCount == |HandOf(g.table, ws)|
      && s.players[i].name == s.discardsByPlayer[i].name
      && s.discardsByPlayer[i].tiles == DiscardsOf(g.table, ws)
  {
    RotatedSeats(g.playerOrder, recipient, i);
  }

  /** Some player is both "you" and "turn" exactly when the recipient is seated and holds the
      current seat. */
  lemma SerializeYourTurn(g: Game, recipient: ClientId, clients: map<ClientId, Client>)
    ensures var s := SerializeFor(g, recipient, clients);
      (exists i :: 0 <= i < |s.players| && s.players[i].you && s.players[i].turn)
      <==> recipient in g.playerOrder && Current(g) == Some(recipient)
  {
    var s := SerializeFor(g, recipient, clients);
    var r := Rotated(g.playerOrder, recipient);
    if recipient in g.playerOrder && Current(g) == Some(recipient) {
      RotatedFirst(g.playerOrder, recipient);
      assert s.players[0].you && s.players[0].turn;
    }
    if exists i :: 0 <= i < |s.players| && s.players[i].you && s.players[i].turn {
      var i :| 0 <= i < |s.players| && s.players[i].you && s.players[i].turn;
      assert r[i] == recipient;
      RotatedMembers(g.playerOrder, recipient);
      assert r[i] in multiset(r);
    }
  }

  /** The candidates are exactly the tiles in hand whose discard leaves a waiting hand, each
      listed once. */
  lemma TingChoicesSpec(hand: seq<Tile>, exposed: seq<ExposedMeld>)
    ensures var r := TingChoices(hand, exposed);
      (forall x :: x in r <==> x in hand && Waits(hand, exposed, x)) && Distinct(r)
  {
    KeepWaitingDistinct(Dedup(hand), hand, exposed);
  }

  /** Some discard leaves a waiting hand. */
  predicate HasWaitingDiscard(hand: seq<Tile>, exposed: seq<ExposedMeld>) {
    exists x :: x in hand && Waits(hand, exposed, x)
  }

  lemma TingChoicesNonEmpty(hand: seq<Tile>, exposed: seq<ExposedMeld>)
    ensures TingChoices(hand, exposed) != [] <==> HasWaitingDiscard(hand, exposed)
  {
    TingChoicesSpec(hand, exposed);
    var r := TingChoices(hand, exposed);
    if r != [] {
      assert r[0] in r;
    }
    if HasWaitingDiscard(hand, exposed) {
      var x :| x in hand && Waits(hand, exposed, x);
      assert x in r;
    }
  }

  /** "canTing" says whether the player who may declare has a discard that leaves a waiting
      hand; nobody else is ever told they can. */
  lemma SerializeCanTing(g: Game, recipient: ClientId, clients: map<ClientId, Client>)
    ensures SerializeFor(g, recipient, clients).canTing <==>
      MayDeclare(g, recipient) && HasWaitingDiscard(HandOf(g.table, recipient), ExposedOf(g.table, recipient))
  {
    TingChoicesNonEmpty(HandOf(g.table, recipient), ExposedOf(g.table, recipient));
  }

  /** The candidates are sent only while a declaration is pending: then they are the tiles in
      hand whose discard leaves a waiting hand, each once. */
  lemma SerializeTing(g: Game, recipient: ClientId, clients: map<ClientId, Client>)
    ensures var s := SerializeFor(g, recipient, clients);
      var hand := HandOf(g.table, recipient);
      (forall x :: x in s.tingDiscardables <==>
          TingPendingFor(g.table, recipient) && MayDeclare(g, recipient)
          && x in hand && Waits(hand, ExposedOf(g.table, recipient), x))
      && Distinct(s.tingDiscardables)
  {
    TingChoicesSpec(HandOf(g.table, recipient), ExposedOf(g.table, recipient));
  }

  /** A tile offered for a ting discard is one the server accepts, and while a declaration is
      pending nothing else is. */
  lemma OfferedDiscardAccepted(g: Game, p: ClientId, clients: map<ClientId, Client>, x: Tile, now: nat)
    requires TingPendingFor(g.table, p) && MayDeclare(g, p)
    ensures x in SerializeFor(g, p, clients).tingDiscardables <==> Discard(g, p, x, now).0
  {
    SerializeTing(g, p, clients);
    DiscardAccepted(g, p, x, now);
  }

  /** Actions are listed only inside a reaction window, never to the discarder of the tile in
      question, and each listed action's id picks out that very action among them. */
  lemma SerializeActions(g: Game, recipient: ClientId, clients: map<ClientId, Client>, a: Action)
    requires a in SerializeFor(g, recipient, clients).yourActions
    ensures g.window.active
    ensures g.window.lastDiscard.Some? ==> recipient != g.window.lastDiscard.value.0
    ensures g.window.lastDiscard.Some? ==>
      FindById(SerializeFor(g, recipient, clients).yourActions, ActionId(a)) == Some(a)
  {
    var acts := SerializeFor(g, recipient, clients).yourActions;
    if g.window.lastDiscard.Some? {
      ActionsSound(g, recipient, a);
      var b := FindById(acts, ActionId(a));
      var j :| 0 <= j < |acts| && acts[j] == a;
      assert b.Some?;
      var i :| 0 <= i < |acts| && acts[i] == b.value;
      if i != j {
        if i < j { ActionIdsUnique(g, recipient, i, j); } else { ActionIdsUnique(g, recipient, j, i); }
      }
    }
  }
}

=== FILE: resolve.dfy ===
/** Ending a reaction window: `apply_claim` (ws.py:919-963), the turn passing on to the next
    seat, and `resolve_reactions` (ws.py:818-917) with its scoring of wins. */
module Resolve {
  import opened Wrappers
  import opened Tiles
  import opened TileSort
  import opened Hands
  import opened Bonus
  import opened Game
  import opened Patterns
  import opened Scoring
  import opened Actions
  import opened Claims
  import opened Settle

  // ---------------------------------------------------------------------------
  // apply_claim
  // ---------------------------------------------------------------------------

  /** The discarder's pile gives up its top tile if that is the discarded one. */
  function TakeBack(t: Table, last: Option<(ClientId, Tile)>): Table {
    if last.None? then t
    else
      var d := last.value.0;
      var pile := DiscardsOf(t, d);
      if pile != [] && Last(pile) == last.value.1 then t.(discardPiles := t.discardPiles[d := pile[..|pile| - 1]])
      else t
  }

  predicate IsMeldKind(k: Kind) {
    k == KongKind || k == PongKind || k == ChiKind
  }

  /** The hand tiles a claim uses: two or three copies of the discard, or the chi's two tiles. */
  function ClaimTiles(kind: Kind, tile: Tile, need: seq<Tile>): seq<Tile> {
    match kind
    case PongKind => [tile, tile]
    case KongKind => [tile, tile, tile]
    case _ => need
  }

  /** The meld recorded: a chi lists its three tiles sorted. */
  function MeldFor(kind: Kind, tile: Tile, need: seq<Tile>): ExposedMeld {
    match kind
    case PongKind => Pong(tile)
    case KongKind => Kong(tile)
    case _ => Chi(SortTiles([tile] + need))
  }

  /** The claimant's new hand and its meld appended to the exposed melds. */
  function LayMeld(t: Table, p: ClientId, hand: seq<Tile>, meld: ExposedMeld): Table {
    t.(hands := t.hands[p := hand], exposedMelds := t.exposedMelds[p := ExposedOf(t, p) + [meld]])
  }

  /** A kong's replacement: the head of the wall is appended to the hand, then the bonus chain. */
  function KongDraw(t: Table, p: ClientId): Table {
    if t.wall == [] then t else RunChain(TakeHead(t, p), p)
  }

  /** `popleft` from the wall, appended to the hand. */
  function TakeHead(t: Table, p: ClientId): Table
    requires t.wall != []
  {
    t.(hands := t.hands[p := HandOf(t, p) + [t.wall[0]]], wall := t.wall[1..])
  }

  /** The table side of a claim; nothing where a `remove` would raise. */
  function ClaimTable(t: Table, p: ClientId, kind: Kind, tile: Tile, need: seq<Tile>): Option<Table> {
    var hand := RemoveAll(HandOf(t, p), ClaimTiles(kind, tile, need));
    if hand.None? then None
    else
      var t1 := LayMeld(t, p, SortTiles(hand.value), MeldFor(kind, tile, need));
      Some(if kind == KongKind then KongDraw(t1, p) else t1)
  }

  /** `apply_claim`: the discard is taken back from the pile, the claimant lays the meld, sorts
      the hand, and gets the turn with a discard expected; a kong first draws a replacement from
      the head of the wall. Where the source would raise part-way through (a missing tile, an
      unseated claimant) the game is left as it was. */
  function ApplyClaim(g: Game, p: ClientId, kind: Kind, tile: Tile, need: seq<Tile>): Game {
    var t := ClaimTable(TakeBack(g.table, g.window.lastDiscard), p, kind, tile, need);
    var seat := IndexOf(g.playerOrder, p);
    if t.None? || seat.None? then g
    else g.(table := t.value, turnIndex := seat.value, expectsDiscard := true)
  }

  /** What a seat holds: hand, bonus pile and the wall, plus the tiles of its exposed melds. */
  function HeldTiles(t: Table, p: ClientId): multiset<Tile> {
    SeatTiles(t, p) + multiset(ExposedTiles(ExposedOf(t, p)))
  }

  lemma {:induction false} ExposedTilesAppend(ms: seq<ExposedMeld>, m: ExposedMeld)
    ensures ExposedTiles(ms + [m]) == ExposedTiles(ms) + MeldTileList(m)
  {
    if ms != [] {
      assert (ms + [m])[1..] == ms[1..] + [m];
      ExposedTilesAppend(ms[1..], m);
    } else {
      assert ExposedTiles([m]) == MeldTileList(m) + ExposedTiles([]);
    }
  }

  lemma LayMeldHeld(t: Table, p: ClientId, hand: seq<Tile>, meld: ExposedMeld)
    ensures var r := LayMeld(t, p, hand, meld);
      HeldTiles(r, p) == multiset(hand) + multiset(PileOf(t, p)) + multiset(t.wall)
                         + multiset(ExposedTiles(ExposedOf(t, p))) + multiset(MeldTileList(meld))
      && HandOf(r, p) == hand && ExposedOf(r, p) == ExposedOf(t, p) + [meld]
  {
    ExposedTilesAppend(ExposedOf(t, p), meld);
  }

  lemma TakeHeadConserves(t: Table, p: ClientId)
    requires t.wall != []
    ensures SeatTiles(TakeHead(t, p), p) == SeatTiles(t, p)
    ensures ExposedOf(TakeHead(t, p), p) == ExposedOf(t, p)
  {
    var r := TakeHead(t, p);
    assert HandOf(r, p) == HandOf(t, p) + [t.wall[0]];
    assert PileOf(r, p) == PileOf(t, p) && r.wall == t.wall[1..];
    assert t.wall == [t.wall[0]] + t.wall[1..];
    assert multiset(t.wall) == multiset{t.wall[0]} + multiset(r.wall);
  }

  lemma KongDrawHeld(t: Table, p: ClientId)
    ensures HeldTiles(KongDraw(t, p), p) == HeldTiles(t, p)
  {
    if t.wall != [] {
      TakeHeadConserves(t, p);
      RunChainConserves(TakeHead(t, p), p);
      RunChainFrame(TakeHead(t, p), p);
    }
  }

  lemma KongDrawExposed(t: Table, p: ClientId)
    ensures ExposedOf(KongDraw(t, p), p) == ExposedOf(t, p)
  {
    if t.wall != [] {
      TakeHeadConserves(t, p);
      RunChainFrame(TakeHead(t, p), p);
    }
  }

  /** The claim's tiles: the hand gives up what the claim uses, and the meld holds those tiles
      with the discard. */
  lemma ClaimTilesInMeld(kind: Kind, tile: Tile, need: seq<Tile>)
    requires IsMeldKind(kind)
    ensures multiset(MeldTileList(MeldFor(kind, tile, need))) == multiset(ClaimTiles(kind, tile, need)) + multiset{tile}
  {
  }

  /** The table side succeeds exactly when the hand holds the tiles the claim uses. */
  lemma ClaimTableSucceeds(t: Table, p: ClientId, kind: Kind, tile: Tile, need: seq<Tile>)
    ensures ClaimTable(t, p, kind, tile, need).Some? <==> multiset(ClaimTiles(kind, tile, need)) <= multiset(HandOf(t, p))
  {
    RemoveAllSucceeds(HandOf(t, p), ClaimTiles(kind, tile, need));
  }

  /** When it succeeds, the seat's tiles grow by exactly the discard. */
  lemma ClaimTableHeld(t: Table, p: ClientId, kind: Kind, tile: Tile, need: seq<Tile>)
    requires IsMeldKind(kind) && ClaimTable(t, p, kind, tile, need).Some?
    ensures HeldTiles(ClaimTable(t, p, kind, tile, need).value, p) == HeldTiles(t, p) + multiset{tile}
  {
    var removed := ClaimTiles(kind, tile, need);
    var hand := RemoveAll(HandOf(t, p), removed).value;
    var meld := MeldFor(kind, tile, need);
    var sorted := SortTiles(hand);
    ClaimTilesInMeld(kind, tile, need);
    LayMeldAdds(t, p, sorted, removed, meld, tile);
    KongDrawHeld(LayMeld(t, p, sorted, meld), p);
  }

  lemma LayMeldAdds(t: Table, p: ClientId, hand: seq<Tile>, removed: seq<Tile>, meld: ExposedMeld, tile: Tile)
    requires multiset(hand) + multiset(removed) == multiset(HandOf(t, p))
    requires multiset(MeldTileList(meld)) == multiset(removed) + multiset{tile}
    ensures HeldTiles(LayMeld(t, p, hand, meld), p) == HeldTiles(t, p) + multiset{tile}
  {
    LayMeldHeld(t, p, hand, meld);
    var a := HeldTiles(LayMeld(t, p, hand, meld), p);
    var b := HeldTiles(t, p) + multiset{tile};
    forall x ensures a[x] == b[x] {
    }
    MultisetExt(a, b);
  }

  /** When it succeeds, the meld is appended and, unless a kong's replacement was appended
      after sorting, the hand is sorted. */
  lemma ClaimTableShape(t: Table, p: ClientId, kind: Kind, tile: Tile, need: seq<Tile>)
    requires ClaimTable(t, p, kind, tile, need).Some?
    ensures var r := ClaimTable(t, p, kind, tile, need).value;
      ExposedOf(r, p) == ExposedOf(t, p) + [MeldFor(kind, tile, need)]
      && (kind != KongKind ==> Sorted(HandOf(r, p)))
  {
    var hand := RemoveAll(HandOf(t, p), ClaimTiles(kind, tile, need)).value;
    KongDrawExposed(LayMeld(t, p, SortTiles(hand), MeldFor(kind, tile, need)), p);
  }

  lemma TakeBackKeepsSeats(t: Table, last: Option<(ClientId, Tile)>, p: ClientId)
    ensures var r := TakeBack(t, last);
      HandOf(r, p) == HandOf(t, p) && HeldTiles(r, p) == HeldTiles(t, p)
  {
  }

  /** The claim applies exactly when the claimant is seated and holds the tiles it uses; the
      claimant is then the current player, a discard is expected, and the seat's tiles grow by
      exactly the discard. */
  lemma ApplyClaimEffect(g: Game, p: ClientId, kind: Kind, tile: Tile, need: seq<Tile>)
    requires IsMeldKind(kind)
    requires p in g.playerOrder && multiset(ClaimTiles(kind, tile, need)) <= multiset(HandOf(g.table, p))
    ensures var r := ApplyClaim(g, p, kind, tile, need);
      Current(r) == Some(p) && r.expectsDiscard && r.window == g.window
      && HeldTiles(r.table, p) == HeldTiles(g.table, p) + multiset{tile}
      && ExposedOf(r.table, p) == ExposedOf(g.table, p) + [MeldFor(kind, tile, need)]
  {
    var t := TakeBack(g.table, g.window.lastDiscard);
    TakeBackKeepsSeats(g.table, g.window.lastDiscard, p);
    ClaimTableSucceeds(t, p, kind, tile, need);
    ClaimTableHeld(t, p, kind, tile, need);
    ClaimTableShape(t, p, kind, tile, need);
  }

  /** Otherwise nothing changes. */
  lemma ApplyClaimRejected(g: Game, p: ClientId, kind: Kind, tile: Tile, need: seq<Tile>)
    requires p !in g.playerOrder || !(multiset(ClaimTiles(kind, tile, need)) <= multiset(HandOf(g.table, p)))
    ensures ApplyClaim(g, p, kind, tile, need) == g
  {
    var t := TakeBack(g.table, g.window.lastDiscard);
    TakeBackKeepsSeats(g.table, g.window.lastDiscard, p);
    ClaimTableSucceeds(t, p, kind, tile, need);
  }

  /** The discarder's pile loses its top tile exactly when that tile is the discard. */
  lemma TakeBackEffect(t: Table, d: ClientId, tile: Tile)
    ensures var r := TakeBack(t, Some((d, tile)));
      var pile := DiscardsOf(t, d);
      (pile != [] && Last(pile) == tile ==> DiscardsOf(r, d) == pile[..|pile| - 1])
      && (pile == [] || Last(pile) != tile ==> r == t)
      && (forall q :: q != d ==> DiscardsOf(r, q) == DiscardsOf(t, q))
  {
  }

  // ---------------------------------------------------------------------------
  // Passing the turn
  // ---------------------------------------------------------------------------

  /** The turn passes to the seat after the discarder, who draws; a discard is expected and the
      window closes. Nothing happens where `list.index` would raise. */
  function PassTurn(g: Game, from: ClientId, now: nat): Game {
    var next := NextSeat(g.playerOrder, from);
    if next.None? then g
    else
      var g1 := AutoDrawCurrent(g.(turnIndex := next.value), now);
      g1.(expectsDiscard := true, window := ClearReactions(g1.window))
  }

  /** After passing, the seat after the discarder is current, a discard is expected and no
      window is open. */
  lemma PassTurnEffect(g: Game, from: ClientId, now: nat)
    requires from in g.playerOrder
    ensures var r := PassTurn(g, from, now);
      var k := (IndexOf(g.playerOrder, from).value + 1) % |g.playerOrder|;
      Current(r) == Some(g.playerOrder[k])
      && r.expectsDiscard && !r.window.active && r.window.lastDiscard.None? && r.window.claims == []
  {
  }

  /** That seat has drawn if the game is on and the wall not empty, and the scores are
      untouched. */
  lemma PassTurnTable(g: Game, from: ClientId, now: nat)
    requires from in g.playerOrder
    ensures var r := PassTurn(g, from, now);
      var k := (IndexOf(g.playerOrder, from).value + 1) % |g.playerOrder|;
      r.table == (if g.started && g.table.wall != [] then DrawTo(g.table, g.playerOrder[k]) else g.table)
      && r.tally == g.tally
  {
    var i := IndexOf(g.playerOrder, from).value;
    ModNear(i + 1, |g.playerOrder|);
    var k := (i + 1) % |g.playerOrder|;
    assert NextSeat(g.playerOrder, from) == Some(k);
    var g0 := g.(turnIndex := k);
    assert Current(g0) == Some(g.playerOrder[k]);
    AutoDrawTable(g0, now);
    var g1 := AutoDrawCurrent(g0, now);
    assert PassTurn(g, from, now) == g1.(expectsDiscard := true, window := ClearReactions(g1.window));
  }

  // ---------------------------------------------------------------------------
  // resolve_reactions
  // ---------------------------------------------------------------------------

  /** `calculate_score` doubled for a concealed hand (no exposed melds). */
  function WinScore(t: Table, p: ClientId): int {
    var exposed := ExposedOf(t, p);
    CalculateScore(HandOf(t, p), exposed, |PileOf(t, p)|) * (if exposed == [] then 2 else 1)
  }

  /** The self-win settlement: the points are doubled again and every other seated player pays;
      the round is forgotten and the turn index reset. Unlike `_end_game` it neither names a
      dice roller nor waits for the dice. */
  function SettleSelfWin(g: Game, w: ClientId): Game {
    var amount := WinScore(g.table, w) * 2 * g.tally.scoreMultiplier;
    g.(started := false,
       turnIndex := 0,
       table := ForgetRound(g.table),
       window := ClearReactions(g.window),
       tally := g.tally.(scores := PayAll(g.tally.scores, g.playerOrder, w, amount),
                         scoreMultiplier := g.tally.nextGameMultiplier,
                         nextGameMultiplier := 1,
                         lastWinner := Some(w),
                         diceValues := []))
  }

  /** The discard-win settlement: the discarder pays, then `_end_game`. */
  function SettleWin(g: Game, w: ClientId, from: ClientId): Game {
    var amount := WinScore(g.table, w) * g.tally.scoreMultiplier;
    EndGame(g.(tally := g.tally.(scores := PayDiscard(g.tally.scores, w, from, amount))), w)
  }

  /** The claim types tried for a discard after the wins, in order. */
  function MeldClaimKind(claims: ClaimList): (r: Option<Kind>)
    ensures r.Some? ==> IsMeldKind(r.value) && Claimers(claims, r.value) != []
    ensures r.None? ==> Claimers(claims, KongKind) == [] && Claimers(claims, PongKind) == [] && Claimers(claims, ChiKind) == []
    ensures r == Some(PongKind) ==> Claimers(claims, KongKind) == []
    ensures r == Some(ChiKind) ==> Claimers(claims, KongKind) == [] && Claimers(claims, PongKind) == []
  {
    if Claimers(claims, KongKind) != [] then Some(KongKind)
    else if Claimers(claims, PongKind) != [] then Some(PongKind)
    else if Claimers(claims, ChiKind) != [] then Some(ChiKind)
    else None
  }

  /** `reaction_claims[w].get("tiles")` as `apply_claim` uses it: a chi's two tiles. */
  function ChiNeed(c: Option<Action>): seq<Tile> {
    if c.Some? && c.value.ChiWith? then [c.value.first, c.value.second] else []
  }

  /** The type `resolve_reactions` returns, and the game after it. */
  datatype Resolution = Resolution(kind: Option<Kind>, game: Game)

  /** `set(reaction_claims.keys()) == set(all_targets)`. */
  predicate AllAnswered(order: seq<ClientId>, claims: ClaimList, from: ClientId) {
    (set q | q in Keys(claims)) == (set q | q in order && q != from)
  }

  /** The meld claims of one type: the first claimer in seating priority takes the discard.
      `ordered[0]` on an empty list raises; the model then changes nothing. */
  function ResolveMeld(g: Game, kind: Kind, from: ClientId, tile: Tile): Resolution {
    var ordered := SeatingPriority(g.playerOrder, Claimers(g.window.claims, kind), from);
    if ordered == [] then Resolution(None, g)
    else
      var w := ordered[0];
      var g1 := ApplyClaim(g, w, kind, tile, ChiNeed(ClaimOf(g.window.claims, w)));
      Resolution(Some(kind), g1.(window := ClearReactions(g1.window)))
  }

  /** A discard window with no win claimed: a meld claim if any, else the turn passes on once
      the deadline has passed or every other seated player has answered. */
  function ResolveDiscard(g: Game, from: ClientId, tile: Tile, now: nat): Resolution {
    var kind := MeldClaimKind(g.window.claims);
    if kind.Some? then ResolveMeld(g, kind.value, from, tile)
    else if now >= g.window.deadline || AllAnswered(g.playerOrder, g.window.claims, from) then
      Resolution(None, PassTurn(g, from, now))
    else Resolution(None, g)
  }

  /** `resolve_reactions` at time `now`: a self-win claim ends the game at once; then a win on a
      discard; then the discard's other claims; a self-draw window otherwise closes only at
      its deadline. */
  function ResolveReactions(g: Game, now: nat): Resolution {
    var selfWins := Claimers(g.window.claims, SelfWinKind);
    var wins := Claimers(g.window.claims, WinKind);
    if !g.window.active then Resolution(None, g)
    else if selfWins != [] then Resolution(Some(SelfWinKind), SettleSelfWin(g, selfWins[0]))
    else if g.window.lastDiscard.Some? then
      var from := g.window.lastDiscard.value.0;
      if wins != [] then Resolution(Some(WinKind), SettleWin(g, wins[0], from))
      else ResolveDiscard(g, from, g.window.lastDiscard.value.1, now)
    else if now >= g.window.deadline then
      Resolution(None, g.(expectsDiscard := true, window := ClearReactions(g.window)))
    else Resolution(None, g)
  }

  /** The claims the server accepts: one per player, each by a seated player and each among
      the actions then offered to them. */
  predicate ClaimsValid(g: Game) {
    Distinct(Keys(g.window.claims))
    && forall i :: 0 <= i < |g.window.claims| ==>
         g.window.claims[i].0 in g.playerOrder
         && g.window.claims[i].1 in ComputeActionsFor(g, g.window.claims[i].0)
  }

  lemma ClaimedKind(claims: ClaimList, i: nat)
    requires i < |claims|
    ensures claims[i].0 in Claimers(claims, KindOf(claims[i].1))
  {
    ClaimersMembers(claims, KindOf(claims[i].1));
  }

  /** The type resolved is the highest-priority type claimed (a win counting only on a
      discard), and it was claimed. */
  lemma ResolvePriority(g: Game, now: nat)
    ensures var r := ResolveReactions(g, now);
      r.kind.Some? ==>
        Claimers(g.window.claims, r.kind.value) != []
        && forall i :: 0 <= i < |g.window.claims| ==>
             var k := KindOf(g.window.claims[i].1);
             Priority(k) <= Priority(r.kind.value) || (k == WinKind && g.window.lastDiscard.None?)
  {
    var claims := g.window.claims;
    var k := ResolveReactions(g, now).kind;
    var discard := g.window.lastDiscard.Some?;
    ReactionsKind(g, now);
    if !g.window.active {
    } else if Claimers(claims, SelfWinKind) != [] {
      PriorityFromAbsence(claims, SelfWinKind, discard);
    } else if !discard {
    } else if Claimers(claims, WinKind) != [] {
      PriorityFromAbsence(claims, WinKind, discard);
    } else {
      var d := g.window.lastDiscard.value;
      DiscardKindChosen(g, d.0, d.1, now);
      if k.Some? {
        PriorityFromAbsence(claims, k.value, discard);
      }
    }
  }

  /** A chosen type outranks every claim made once no claimer of a higher type is left (a
      win counting only where `discard` holds). */
  lemma PriorityFromAbsence(claims: ClaimList, chosen: Kind, discard: bool)
    requires Priority(chosen) < 5 ==> Claimers(claims, SelfWinKind) == []
    requires Priority(chosen) < 4 ==> Claimers(claims, WinKind) == [] || !discard
    requires Priority(chosen) < 3 ==> Claimers(claims, KongKind) == []
    requires Priority(chosen) < 2 ==> Claimers(claims, PongKind) == []
    requires chosen != PassKind
    ensures forall i :: 0 <= i < |claims| ==>
      var k := KindOf(claims[i].1);
      Priority(k) <= Priority(chosen) || (k == WinKind && !discard)
  {
    forall i | 0 <= i < |claims|
      ensures var k := KindOf(claims[i].1);
              Priority(k) <= Priority(chosen) || (k == WinKind && !discard)
    {
      ClaimedKind(claims, i);
    }
  }

  /** The type `resolve_reactions` reports, branch by branch. */
  lemma ReactionsKind(g: Game, now: nat)
    ensures ResolveReactions(g, now).kind
      == if !g.window.active then None
         else if Claimers(g.window.claims, SelfWinKind) != [] then Some(SelfWinKind)
         else if g.window.lastDiscard.None? then None
         else if Claimers(g.window.claims, WinKind) != [] then Some(WinKind)
         else ResolveDiscard(g, g.window.lastDiscard.value.0, g.window.lastDiscard.value.1, now).kind
  {
  }

  /** A discard's claims resolve to the type `MeldClaimKind` picks, or to none. */
  lemma DiscardKindChosen(g: Game, from: ClientId, tile: Tile, now: nat)
    ensures var r := ResolveDiscard(g, from, tile, now);
      r.kind.Some? ==> r.kind == MeldClaimKind(g.window.claims)
  {
  }


  /** The claimer of a meld type chosen by seating priority: a seated non-discarder who made a
      valid claim of that type, nearer clockwise than every other such claimer. */
  lemma NearestClaimer(g: Game, kind: Kind) returns (w: ClientId, a: Action)
    requires ClaimsValid(g) && Distinct(g.playerOrder) && g.window.active && g.window.lastDiscard.Some?
    requires g.window.lastDiscard.value.0 in g.playerOrder
    requires IsMeldKind(kind) && Claimers(g.window.claims, kind) != []
    ensures var from := g.window.lastDiscard.value.0;
      var ordered := SeatingPriority(g.playerOrder, Claimers(g.window.claims, kind), from);
      ordered != [] && w == ordered[0] && w in g.playerOrder
      && ClaimOf(g.window.claims, w) == Some(a) && KindOf(a) == kind && a in ComputeActionsFor(g, w)
      && forall q :: q in Claimers(g.window.claims, kind) && q != w ==>
           Distance(g.playerOrder, from, w) < Distance(g.playerOrder, from, q)
  {
    var claims := g.window.claims;
    var from := g.window.lastDiscard.value.0;
    var cl := Claimers(claims, kind);
    ClaimersSeated(g, kind);
    var ordered := SeatingPriority(g.playerOrder, cl, from);
    SeatingPriorityCorrect(g.playerOrder, cl, from);
    FirstIsNearest(g.playerOrder, from, cl, ordered);
    w := ordered[0];
    a := ClaimOfClaimer(g, kind, w);
  }

  /** Every claimer of a type is seated and is not the discarder. */
  lemma ClaimersSeated(g: Game, kind: Kind)
    requires ClaimsValid(g) && g.window.active && g.window.lastDiscard.Some?
    ensures forall q :: q in Claimers(g.window.claims, kind) ==>
      q in g.playerOrder && q != g.window.lastDiscard.value.0
  {
    ClaimersMembers(g.window.claims, kind);
    forall q | q in Claimers(g.window.claims, kind)
      ensures q in g.playerOrder && q != g.window.lastDiscard.value.0
    {
      var i :| 0 <= i < |g.window.claims| && g.window.claims[i].0 == q && KindOf(g.window.claims[i].1) == kind;
      ValidClaimBy(g, i);
    }
  }

  /** A claimer's recorded claim is of the claimed type and was offered to them. */
  lemma ClaimOfClaimer(g: Game, kind: Kind, w: ClientId) returns (a: Action)
    requires ClaimsValid(g) && g.window.active && g.window.lastDiscard.Some?
    requires w in Claimers(g.window.claims, kind)
    ensures ClaimOf(g.window.claims, w) == Some(a) && KindOf(a) == kind && a in ComputeActionsFor(g, w)
  {
    var claims := g.window.claims;
    ClaimersMembers(claims, kind);
    var j :| 0 <= j < |claims| && claims[j].0 == w && KindOf(claims[j].1) == kind;
    a := claims[j].1;
    ClaimAt(claims, j);
    ValidClaimBy(g, j);
  }

  /** The head of a list ordered by distance, holding exactly the eligible claimers, is the
      nearest of them. */
  lemma FirstIsNearest(order: seq<ClientId>, from: ClientId, cl: seq<ClientId>, ordered: seq<ClientId>)
    requires forall q :: q in ordered <==> q in order && q != from && q in cl
    requires forall i, j :: 0 <= i < j < |ordered| ==> Distance(order, from, ordered[i]) < Distance(order, from, ordered[j])
    requires cl != [] && forall q :: q in cl ==> q in order && q != from
    ensures ordered != [] && ordered[0] in order && ordered[0] in cl
    ensures forall q :: q in cl && q != ordered[0] ==> Distance(order, from, ordered[0]) < Distance(order, from, q)
  {
    assert cl[0] in cl;
    assert cl[0] in ordered;
    assert ordered[0] in ordered;
    forall q | q in cl && q != ordered[0]
      ensures Distance(order, from, ordered[0]) < Distance(order, from, q)
    {
      var k :| 0 <= k < |ordered| && ordered[k] == q;
    }
  }

  /** A valid claim on a discard comes from a seated player other than the discarder, for an
      action offered to them. */
  lemma ValidClaimBy(g: Game, i: nat)
    requires ClaimsValid(g) && g.window.active && g.window.lastDiscard.Some? && i < |g.window.claims|
    ensures var (q, a) := g.window.claims[i];
      q in g.playerOrder && q != g.window.lastDiscard.value.0 && a in ComputeActionsFor(g, q)
  {
    ActionsSound(g, g.window.claims[i].0, g.window.claims[i].1);
  }

  /** A valid kong, pong or chi claim always applies: the claimant holds the tiles it uses. */
  lemma MeldClaimApplies(g: Game, p: ClientId, a: Action)
    requires g.window.active && g.window.lastDiscard.Some? && a in ComputeActionsFor(g, p)
    requires IsMeldKind(KindOf(a))
    ensures multiset(ClaimTiles(KindOf(a), g.window.lastDiscard.value.1, ChiNeed(Some(a))))
            <= multiset(HandOf(g.table, p))
  {
    ActionsSound(g, p, a);
    assert a.ChiWith? ==> a.first.rank < a.second.rank;
    ClaimTilesHeld(a, g.window.lastDiscard.value.1, HandOf(g.table, p));
  }

  /** The hand tiles a pong, kong or chi takes are in a hand holding the copies it needs. */
  lemma ClaimTilesHeld(a: Action, tile: Tile, hand: seq<Tile>)
    requires IsMeldKind(KindOf(a))
    requires a.PongOf? ==> multiset(hand)[tile] >= 2
    requires a.KongOf? ==> multiset(hand)[tile] >= 3
    requires a.ChiWith? ==> a.first in hand && a.second in hand && a.first != a.second
    ensures multiset(ClaimTiles(KindOf(a), tile, ChiNeed(Some(a)))) <= multiset(hand)
  {
    if a.ChiWith? {
      PairHeld(a.first, a.second, hand);
    } else if a.PongOf? {
      CopiesHeld(tile, [tile, tile], hand);
    } else {
      CopiesHeld(tile, [tile, tile, tile], hand);
    }
  }

  /** Two different tiles of a hand form a sub-multiset of it. */
  lemma PairHeld<T>(x: T, y: T, hand: seq<T>)
    requires x in hand && y in hand && x != y
    ensures multiset([x, y]) <= multiset(hand)
  {
    assert forall z :: multiset([x, y])[z] == (if z == x || z == y then 1 else 0);
  }

  /** Copies of one tile, no more than the hand holds, form a sub-multiset of it. */
  lemma CopiesHeld<T>(x: T, copies: seq<T>, hand: seq<T>)
    requires forall i :: 0 <= i < |copies| ==> copies[i] == x
    requires multiset(hand)[x] >= |copies|
    ensures multiset(copies) <= multiset(hand)
  {
    assert multiset(copies) == multiset{}[x := |copies|] by {
      CopiesCount(x, copies);
    }
  }

  lemma {:induction false} CopiesCount<T>(x: T, copies: seq<T>)
    requires forall i :: 0 <= i < |copies| ==> copies[i] == x
    ensures multiset(copies) == multiset{}[x := |copies|]
  {
    if copies != [] {
      CopiesCount(x, copies[1..]);
      assert copies == [x] + copies[1..];
    }
  }

  /** With valid claims and distinct seats, a kong, pong or chi goes to the claimer of that type
      nearest clockwise from the discarder, who becomes the current player, lays the meld and
      gains exactly the discard; the window closes. */
  lemma ResolveMeldClaim(g: Game, kind: Kind, now: nat)
    requires ClaimsValid(g) && Distinct(g.playerOrder) && g.window.active && g.window.lastDiscard.Some?
    requires g.window.lastDiscard.value.0 in g.playerOrder
    requires IsMeldKind(kind) && Claimers(g.window.claims, kind) != []
    ensures var from := g.window.lastDiscard.value.0;
      var tile := g.window.lastDiscard.value.1;
      var r := ResolveMeld(g, kind, from, tile);
      r.kind == Some(kind)
      && exists w :: w in Claimers(g.window.claims, kind)
           && Current(r.game) == Some(w) && r.game.expectsDiscard && !r.game.window.active
           && HeldTiles(r.game.table, w) == HeldTiles(g.table, w) + multiset{tile}
           && (forall q :: q in Claimers(g.window.claims, kind) && q != w ==>
                 Distance(g.playerOrder, from, w) < Distance(g.playerOrder, from, q))
  {
    var from := g.window.lastDiscard.value.0;
    var tile := g.window.lastDiscard.value.1;
    var w, a := NearestClaimer(g, kind);
    MeldClaimApplies(g, w, a);
    ApplyClaimEffect(g, w, kind, tile, ChiNeed(Some(a)));
    SeatingPriorityCorrect(g.playerOrder, Claimers(g.window.claims, kind), from);
  }

  /** Every win is zero-sum: over any distinct list of players holding every seated player and
      every claimant, the scores add up to the same total after resolving. */
  lemma ResolveZeroSum(g: Game, now: nat, ids: seq<ClientId>)
    requires Distinct(ids)
    requires forall q :: q in g.playerOrder ==> q in ids
    requires forall q :: q in Keys(g.window.claims) ==> q in ids
    requires g.window.lastDiscard.Some? ==> g.window.lastDiscard.value.0 in ids
    ensures Total(ResolveReactions(g, now).game.tally.scores, ids) == Total(g.tally.scores, ids)
  {
    var claims := g.window.claims;
    var selfWins := Claimers(claims, SelfWinKind);
    var wins := Claimers(claims, WinKind);
    if g.window.active && selfWins != [] {
      ClaimerListed(claims, SelfWinKind);
      PayAllZeroSum(g.tally.scores, g.playerOrder, selfWins[0], WinScore(g.table, selfWins[0]) * 2 * g.tally.scoreMultiplier, ids);
    } else if g.window.active && g.window.lastDiscard.Some? {
      var from := g.window.lastDiscard.value.0;
      if wins != [] {
        ClaimerListed(claims, WinKind);
        PayDiscardZeroSum(g.tally.scores, wins[0], from, WinScore(g.table, wins[0]) * g.tally.scoreMultiplier, ids);
      } else {
        ResolveDiscardScores(g, from, g.window.lastDiscard.value.1, now);
      }
    }
  }

  lemma ClaimerListed(claims: ClaimList, k: Kind)
    requires Claimers(claims, k) != []
    ensures Claimers(claims, k)[0] in Keys(claims)
  {
    var q := Claimers(claims, k)[0];
    assert q in Claimers(claims, k);
    ClaimersMembers(claims, k);
    var i :| 0 <= i < |claims| && claims[i].0 == q && KindOf(claims[i].1) == k;
    assert Keys(claims)[i] == q;
  }

  /** Meld claims and passing the turn leave the scores alone. */
  lemma ResolveDiscardScores(g: Game, from: ClientId, tile: Tile, now: nat)
    ensures ResolveDiscard(g, from, tile, now).game.tally == g.tally
  {
  }

  /** A self-drawn win ends the game without handing the dice to anyone: it leaves the dice
      wait and the dice roller as they were, while a discard win makes the winner roll. */
  lemma ResolveWinEndings(g: Game, now: nat)
    ensures var r := ResolveReactions(g, now);
      (r.kind == Some(SelfWinKind) ==>
         !r.game.started && r.game.turnIndex == 0
         && r.game.tally.waitingForDice == g.tally.waitingForDice
         && r.game.tally.diceRoller == g.tally.diceRoller
         && r.game.tally.lastWinner == Some(Claimers(g.window.claims, SelfWinKind)[0])
         && r.game.tally.gameCount == g.tally.gameCount)
      && (r.kind == Some(WinKind) ==>
         !r.game.started && r.game.tally.waitingForDice
         && r.game.tally.diceRoller == Some(Claimers(g.window.claims, WinKind)[0])
         && r.game.tally.lastWinner == r.game.tally.diceRoller)
  {
    var from := if g.window.lastDiscard.Some? then g.window.lastDiscard.value.0 else 0;
    var tile := if g.window.lastDiscard.Some? then g.window.lastDiscard.value.1 else Flower(1);
    ResolveDiscardKind(g, from, tile, now);
  }

  lemma ResolveDiscardKind(g: Game, from: ClientId, tile: Tile, now: nat)
    ensures var r := ResolveDiscard(g, from, tile, now);
      r.kind.None? || IsMeldKind(r.kind.value)
  {
  }

  /** With only passes claimed on a discard, the window closes and the turn passes exactly
      when the deadline has passed or every other seated player has answered; until then
      nothing changes. */
  lemma ResolveNoClaims(g: Game, now: nat)
    requires g.window.active && g.window.lastDiscard.Some?
    requires forall i :: 0 <= i < |g.window.claims| ==> g.window.claims[i].1 == Pass
    ensures var r := ResolveReactions(g, now);
      var from := g.window.lastDiscard.value.0;
      r.kind == None
      && (now >= g.window.deadline || AllAnswered(g.playerOrder, g.window.claims, from) ==> r.game == PassTurn(g, from, now))
      && (now < g.window.deadline && !AllAnswered(g.playerOrder, g.window.claims, from) ==> r.game == g)
  {
    forall k | k != PassKind ensures Claimers(g.window.claims, k) == [] {
      OnlyPassers(g.window.claims, k);
    }
  }

  /** Where every claim is a pass, no other type has claimers. */
  lemma {:induction false} OnlyPassers(claims: ClaimList, k: Kind)
    requires forall i :: 0 <= i < |claims| ==> claims[i].1 == Pass
    requires k != PassKind
    ensures Claimers(claims, k) == []
  {
    if claims != [] {
      assert forall i :: 0 <= i < |claims[1..]| ==> claims[1..][i] == claims[i + 1];
      OnlyPassers(claims[1..], k);
    }
  }
}

=== FILE: rooms.dfy ===
/** `RoomManager` (ws.py:21-91): which connections are known, which room each has joined, and
    the game of each room. Sending is not modelled here; the server step turns the
    broadcasts into outgoing messages. */
module Rooms {
  import opened Wrappers
  import opened Game

  /** `Client` (ws.py:14-18) without its socket: the name and room given when joining. */
  datatype Client = Client(name: Option<string>, roomId: Option<string>)

  /** The three dictionaries of `RoomManager`. */
  datatype Manager = Manager(
    rooms: map<string, set<ClientId>>,
    clients: map<ClientId, Client>,
    games: map<string, Game>)

  const NoRooms := Manager(map[], map[], map[])

  /** `client.room_id` is truthy: set and not the empty string. */
  predicate HasRoom(c: Client) {
    c.roomId.Some? && c.roomId.value != ""
  }

  /** `connect`, once the socket is accepted: a fresh record with no name and no room. */
  function Connect(m: Manager, ws: ClientId): (r: Manager)
    ensures r.clients == m.clients[ws := Client(None, None)]
    ensures r.rooms == m.rooms && r.games == m.games
  {
    m.(clients := m.clients[ws := Client(None, None)])
  }

  /** The connection leaves the room its record names, if that room exists; a room left
      empty is deleted together with its game. */
  function LeaveRoom(m: Manager, ws: ClientId, c: Client, dropEmpty: bool): Manager {
    if HasRoom(c) && c.roomId.value in m.rooms then
      var id := c.roomId.value;
      var left := m.rooms[id] - {ws};
      if dropEmpty && left == {} then m.(rooms := m.rooms - {id}, games := m.games - {id})
      else m.(rooms := m.rooms[id := left])
    else m
  }

  /** `disconnect`: forget the connection and take it out of its room. */
  function Disconnect(m: Manager, ws: ClientId): Manager {
    if ws !in m.clients then m
    else LeaveRoom(m.(clients := m.clients - {ws}), ws, m.clients[ws], true)
  }

  /** `join_room`: nothing for an unknown connection (the dictionary lookup raises);
      otherwise the connection leaves its previous room, which stays even when now empty,
      and joins `roomId` under `name`. */
  function JoinRoom(m: Manager, ws: ClientId, roomId: string, name: string): Option<Manager> {
    if ws !in m.clients then None
    else
      var m1 := LeaveRoom(m, ws, m.clients[ws], false);
      var members := if roomId in m1.rooms then m1.rooms[roomId] else {};
      Some(m1.(rooms := m1.rooms[roomId := members + {ws}],
               clients := m1.clients[ws := Client(Some(name), Some(roomId))]))
  }

  /** `get_or_create_game`: the room's game, created with the defaults if there is none. */
  function GetOrCreateGame(m: Manager, roomId: string): (r: (Manager, Game))
    ensures roomId in r.0.games && r.0.games[roomId] == r.1
    ensures roomId in m.games ==> r == (m, m.games[roomId])
    ensures roomId !in m.games ==> r.1 == NewGame() && r.0.games == m.games[roomId := NewGame()]
    ensures r.0.rooms == m.rooms && r.0.clients == m.clients
  {
    if roomId in m.games then (m, m.games[roomId])
    else (m.(games := m.games[roomId := NewGame()]), NewGame())
  }

  // ---------------------------------------------------------------------------
  // Listing a room
  // ---------------------------------------------------------------------------

  predicate Ascending(s: seq<ClientId>) {
    forall i, j :: 0 <= i < j < |s| ==> s[i] < s[j]
  }

  predicate IsLeast(m: ClientId, s: set<ClientId>) {
    m in s && forall x :: x in s ==> m <= x
  }

  lemma {:induction false} MinExists(s: set<ClientId>)
    requires s != {}
    ensures exists m :: IsLeast(m, s)
    decreases |s|
  {
    var y :| y in s;
    var rest := s - {y};
    if rest == {} {
      assert s == {y};
      assert IsLeast(y, s);
    } else {
      MinExists(rest);
      var m :| IsLeast(m, rest);
      var least := if y < m then y else m;
      assert s == rest + {y};
      assert IsLeast(least, s);
    }
  }

  /** The smallest member of a non-empty set. */
  function Least(s: set<ClientId>): (m: ClientId)
    requires s != {}
    ensures m in s && forall x :: x in s ==> m <= x
  {
    MinExists(s);
    var m :| IsLeast(m, s);
    m
  }

  /** The members of a set in ascending order. */
  function Members(s: set<ClientId>): (r: seq<ClientId>)
    ensures forall x :: x in r <==> x in s
    ensures Ascending(r) && |r| == |s|
    decreases s
  {
    if s == {} then []
    else
      var m := Least(s);
      var rest := Members(s - {m});
      assert forall x :: x in rest ==> m < x;
      [m] + rest
  }

  /** `list_room_players`: the room's members, none for an unknown room. Python lists a set
      in an order of its own; the model lists it in ascending order. */
  function ListRoomPlayers(m: Manager, roomId: string): (r: seq<ClientId>)
    ensures forall x :: x in r <==> roomId in m.rooms && x in m.rooms[roomId]
    ensures forall i, j :: 0 <= i < j < |r| ==> r[i] != r[j]
  {
    if roomId in m.rooms then Members(m.rooms[roomId]) else []
  }

  // ---------------------------------------------------------------------------
  // Membership invariant
  // ---------------------------------------------------------------------------

  /** Every member of a room is a known connection whose record names that room, by a
      non-empty id. */
  predicate MembersKnown(m: Manager) {
    forall id, ws :: id in m.rooms && ws in m.rooms[id] ==>
      ws in m.clients && m.clients[ws].roomId == Some(id) && id != ""
  }

  /** Every connection whose record names a room is a member of that room, which exists. */
  predicate RecordsHonoured(m: Manager) {
    forall ws :: ws in m.clients && HasRoom(m.clients[ws]) ==>
      m.clients[ws].roomId.value in m.rooms && ws in m.rooms[m.clients[ws].roomId.value]
  }

  /** The two directions together: room membership and the clients' records agree, so a
      connection is in at most one room. */
  predicate Consistent(m: Manager) {
    MembersKnown(m) && RecordsHonoured(m)
  }

  lemma OneRoom(m: Manager, ws: ClientId, a: string, b: string)
    requires Consistent(m)
    requires a in m.rooms && ws in m.rooms[a] && b in m.rooms && ws in m.rooms[b]
    ensures a == b
  {
    assert m.clients[ws].roomId == Some(a);
    assert m.clients[ws].roomId == Some(b);
  }

  /** A new connection (Python accepts a fresh socket object each time) joins no room. */
  lemma ConnectConsistent(m: Manager, ws: ClientId)
    requires Consistent(m) && ws !in m.clients
    ensures Consistent(Connect(m, ws))
    ensures forall id :: id in m.rooms ==> ws !in Connect(m, ws).rooms[id]
  {
    var r := Connect(m, ws);
    forall id, q | id in r.rooms && q in r.rooms[id]
      ensures q in r.clients && r.clients[q].roomId == Some(id) && id != ""
    {
      assert q in m.clients && q != ws;
    }
  }

  /** After a disconnect the connection is unknown and in no room; every other connection
      keeps its record and its room; a room disappears only when it was left empty, and then
      its game goes with it. */
  lemma DisconnectSpec(m: Manager, ws: ClientId)
    requires Consistent(m)
    ensures var r := Disconnect(m, ws);
      ws !in r.clients
      && (forall q :: q != ws && q in m.clients ==> q in r.clients && r.clients[q] == m.clients[q])
      && (forall id :: id in r.rooms ==> ws !in r.rooms[id] && id in m.rooms && r.rooms[id] == m.rooms[id] - {ws})
      && (forall id :: id in m.rooms && id !in r.rooms ==> m.rooms[id] == {ws} && id !in r.games)
      && (forall id :: id in m.games && id !in r.games ==> id in m.rooms && m.rooms[id] == {ws})
  {
    if ws in m.clients {
      var c := m.clients[ws];
      forall id | id in m.rooms && ws in m.rooms[id]
        ensures HasRoom(c) && id == c.roomId.value
      {
      }
      if HasRoom(c) {
        assert ws in m.rooms[c.roomId.value];
      }
    }
  }

  /** The invariant survives a disconnect. */
  lemma DisconnectConsistent(m: Manager, ws: ClientId)
    requires Consistent(m)
    ensures Consistent(Disconnect(m, ws))
  {
    if ws in m.clients {
      var r := Disconnect(m, ws);
      var c := m.clients[ws];
      forall q | q in r.clients && HasRoom(r.clients[q])
        ensures r.clients[q].roomId.value in r.rooms && q in r.rooms[r.clients[q].roomId.value]
      {
        var id := m.clients[q].roomId.value;
        assert q in m.rooms[id] && q != ws;
      }
    }
  }

  /** Joining needs a known connection; afterwards it is a member of the joined room under
      the given name and of no other room, and every other connection keeps its record and
      its rooms. */
  lemma JoinRoomSpec(m: Manager, ws: ClientId, roomId: string, name: string)
    requires Consistent(m)
    ensures JoinRoom(m, ws, roomId, name).Some? <==> ws in m.clients
    ensures JoinRoom(m, ws, roomId, name).Some? ==>
      var r := JoinRoom(m, ws, roomId, name).value;
      r.clients[ws] == Client(Some(name), Some(roomId))
      && roomId in r.rooms && ws in r.rooms[roomId]
      && (forall id :: id in r.rooms && id != roomId ==> ws !in r.rooms[id])
      && (forall q :: q != ws && q in m.clients ==> q in r.clients && r.clients[q] == m.clients[q])
      && (forall id, q :: q != ws ==> (id in r.rooms && q in r.rooms[id] <==> id in m.rooms && q in m.rooms[id]))
      && r.games == m.games
  {
  }

  /** The invariant survives a join under any non-empty room id, which is what the server's
      normalisation of the id guarantees. */
  lemma JoinRoomConsistent(m: Manager, ws: ClientId, roomId: string, name: string)
    requires Consistent(m) && roomId != "" && ws in m.clients
    ensures Consistent(JoinRoom(m, ws, roomId, name).value)
  {
    var r := JoinRoom(m, ws, roomId, name).value;
    JoinRoomSpec(m, ws, roomId, name);
    forall id, q | id in r.rooms && q in r.rooms[id]
      ensures q in r.clients && r.clients[q].roomId == Some(id) && id != ""
    {
      if q != ws {
        assert q in m.rooms[id];
      }
    }
    forall q | q in r.clients && HasRoom(r.clients[q])
      ensures r.clients[q].roomId.value in r.rooms && q in r.rooms[r.clients[q].roomId.value]
    {
      if q != ws {
        var id := m.clients[q].roomId.value;
        assert q in m.rooms[id];
      }
    }
  }
}

=== FILE: scoring.dfy ===
/** `calculate_score` (ws.py:758-804) and the dice multipliers (ws.py:462-475). */
module Scoring {
  import opened Tiles
  import opened Hands
  import opened Patterns

  /** The points an exposed meld adds: a wind pong 1, a wind kong 2, any other kong 1. */
  function MeldPoints(m: ExposedMeld): nat {
    match m
    case Pong(t) => if t.WindTile? then 1 else 0
    case Kong(t) => if t.WindTile? then 2 else 1
    case Chi(_) => 0
  }

  function MeldBonus(ms: seq<ExposedMeld>): nat {
    if ms == [] then 0 else MeldPoints(ms[0]) + MeldBonus(ms[1..])
  }

  /** The pattern factor: seven pairs x2; pure suit x4, or else half suit x2; all pongs x2. */
  function PatternMultiplier(hand: seq<Tile>, exposed: seq<ExposedMeld>): nat {
    (if IsSevenPairs(hand, exposed) then 2 else 1)
    * (if IsPureSuit(hand, exposed) then 4 else if IsHalfSuit(hand, exposed) then 2 else 1)
    * (if IsAllPongs(hand, exposed) then 2 else 1)
  }

  /** `calculate_score`: base 10, one point per bonus tile, the meld points, times the pattern
      factor. `bonusCount` is the size of the player's bonus pile. */
  function CalculateScore(hand: seq<Tile>, exposed: seq<ExposedMeld>, bonusCount: nat): int {
    (10 + bonusCount + MeldBonus(exposed)) * PatternMultiplier(hand, exposed)
  }

  /** Meld points add up over any split of the melds, so their order does not matter, and no
      meld adds more than 2. */
  lemma {:induction false} MeldBonusAdditive(a: seq<ExposedMeld>, b: seq<ExposedMeld>)
    ensures MeldBonus(a + b) == MeldBonus(a) + MeldBonus(b)
  {
    if a != [] {
      assert (a + b)[0] == a[0];
      assert (a + b)[1..] == a[1..] + b;
      MeldBonusAdditive(a[1..], b);
    } else {
      assert a + b == b;
    }
  }

  lemma {:induction false} MeldBonusBound(ms: seq<ExposedMeld>)
    ensures MeldBonus(ms) <= 2 * |ms|
    ensures (forall i :: 0 <= i < |ms| ==> ms[i].Chi?) ==> MeldBonus(ms) == 0
  {
    if ms != [] {
      MeldBonusBound(ms[1..]);
    }
  }

  /** The pattern factor is one of 1, 2, 4, 8, 16. A pure-suit hand also passes the half-suit
      check, yet its suit factor is 4 and not 4 x 2, because the half-suit test is an `elif`. */
  lemma PatternMultiplierValues(hand: seq<Tile>, exposed: seq<ExposedMeld>)
    ensures PatternMultiplier(hand, exposed) in {1, 2, 4, 8, 16}
    ensures IsPureSuit(hand, exposed) ==>
              IsHalfSuit(hand, exposed)
              && PatternMultiplier(hand, exposed)
                 == (if IsSevenPairs(hand, exposed) then 2 else 1) * 4 * (if IsAllPongs(hand, exposed) then 2 else 1)
  {
    PureImpliesHalf(hand, exposed);
  }

  /** Scores never fall below 10 plus the bonus tiles, and each extra bonus tile is worth exactly
      one pattern factor. */
  lemma ScoreBounds(hand: seq<Tile>, exposed: seq<ExposedMeld>, bonusCount: nat)
    ensures 10 + bonusCount <= CalculateScore(hand, exposed, bonusCount)
    ensures CalculateScore(hand, exposed, bonusCount) <= (10 + bonusCount + 2 * |exposed|) * 16
    ensures CalculateScore(hand, exposed, bonusCount + 1)
            == CalculateScore(hand, exposed, bonusCount) + PatternMultiplier(hand, exposed)
  {
    PatternMultiplierValues(hand, exposed);
    MeldBonusBound(exposed);
    FactorBounds(10 + bonusCount + MeldBonus(exposed), 10 + bonusCount + 2 * |exposed|,
                 PatternMultiplier(hand, exposed));
  }

  /** The pattern factor rewards exactly the four patterns: it exceeds 1 if and only if the
      hand is seven pairs, pure suit, half suit or all pongs. */
  lemma PatternFactorCounts(hand: seq<Tile>, exposed: seq<ExposedMeld>)
    ensures PatternMultiplier(hand, exposed) >= 2
            <==> IsSevenPairs(hand, exposed) || IsPureSuit(hand, exposed)
                 || IsHalfSuit(hand, exposed) || IsAllPongs(hand, exposed)
  {
    PatternMultiplierValues(hand, exposed);
  }

  lemma FactorBounds(base: nat, top: nat, f: nat)
    requires base <= top && f in {1, 2, 4, 8, 16}
    ensures base <= base * f <= top * 16
    ensures (base + 1) * f == base * f + f
  {
  }

  lemma {:induction false} ExposedTilesCount(ms: seq<ExposedMeld>)
    ensures |ExposedTiles(ms)| == FixedTotal(ms)
  {
    if ms != [] {
      ExposedTilesCount(ms[1..]);
    }
  }

  /** A win on a discard is scored on the hand without the claimed tile (13 tiles counting the
      exposed ones), so seven pairs and all pongs, which both need 14, never count there. */
  lemma DiscardWinMissesPatterns(hand: seq<Tile>, exposed: seq<ExposedMeld>, t: Tile)
    requires CanWinHand(hand + [t], exposed)
    ensures !IsSevenPairs(hand, exposed) && !IsAllPongs(hand, exposed)
  {
    ExposedTilesCount(exposed);
  }

  // ---------------------------------------------------------------------------
  // calculate_dice_multiplier (ws.py:462-475)
  // ---------------------------------------------------------------------------

  /** (multiplier of this game, multiplier of the next game): without exactly two dice both are
      1; equal dice double this game; dice three apart double the next one. */
  function DiceMultipliers(dice: seq<int>): (r: (nat, nat))
    ensures r.0 in {1, 2} && r.1 in {1, 2}
  {
    if |dice| != 2 then (1, 1)
    else
      var diff := if dice[0] >= dice[1] then dice[0] - dice[1] else dice[1] - dice[0];
      (if dice[0] == dice[1] then 2 else 1, if diff == 3 then 2 else 1)
  }

  /** For real dice (faces 1..6) the next game doubles exactly on the throws 1-4, 2-5 and 3-6 in
      either order, and a double never also doubles the next game. */
  lemma DiceMultipliersOnFaces(d0: int, d1: int)
    requires 1 <= d0 <= 6 && 1 <= d1 <= 6
    ensures DiceMultipliers([d0, d1]).0 == 2 <==> d0 == d1
    ensures DiceMultipliers([d0, d1]).1 == 2 <==>
              (d0, d1) in {(1, 4), (4, 1), (2, 5), (5, 2), (3, 6), (6, 3)}
    ensures !(DiceMultipliers([d0, d1]).0 == 2 && DiceMultipliers([d0, d1]).1 == 2)
  {
  }
}

=== FILE: server.dfy ===
/** The server's connection loop `handle_ws` (backend/app/main.py:11-146): one decoded message
    from one connection, dispatched by its `type` to the room manager and the room's game,
    followed by the check for an expired reaction window. A step returns the new room manager,
    the messages sent in order, and whether the connection was dropped (an exception in the
    handler, after which the connection is disconnected). The clock, the dice and the shuffled
    wall are inputs. */
module Server {
  import opened Wrappers
  import opened Tiles
  import opened Game
  import opened Actions
  import opened Claims
  import opened Resolve
  import opened Turns
  import opened Deal
  import opened Scoring
  import opened Rooms
  import opened Projection
  import opened Wire

  /** A received text frame: not JSON at all, or the value it decodes to. */
  datatype Inbound = Unparsable | Parsed(data: Json)

  /** The messages the server sends, by `type`: `hello`, `pong`, `joined`, `error`, `system`
      and `state`. */
  datatype Reply =
    | Hello
    | Pong
    | Joined(roomId: string, name: string)
    | Failure(message: string)
    | System(message: string)
    | StateOf(snapshot: Snapshot)

  datatype Out = Out(to: ClientId, reply: Reply)

  datatype Outcome = Outcome(rooms: Manager, sent: seq<Out>, closed: bool)

  // ---------------------------------------------------------------------------
  // Sending to a room
  // ---------------------------------------------------------------------------

  /** `broadcast`: the message to every member of the room, none for an unknown room. */
  function Broadcast(m: Manager, roomId: string, reply: Reply): (r: seq<Out>)
    ensures |r| == |ListRoomPlayers(m, roomId)|
    ensures forall i :: 0 <= i < |r| ==> r[i] == Out(ListRoomPlayers(m, roomId)[i], reply)
  {
    var members := ListRoomPlayers(m, roomId);
    seq(|members|, i requires 0 <= i < |members| => Out(members[i], reply))
  }

  /** `broadcast_state`: every member of the room gets its own snapshot of the room's game;
      nothing is sent without a game or without members. */
  function BroadcastState(m: Manager, roomId: string): (r: seq<Out>)
    ensures roomId !in m.games ==> r == []
    ensures roomId in m.games ==>
      |r| == |ListRoomPlayers(m, roomId)|
      && forall i :: 0 <= i < |r| ==>
           r[i] == Out(ListRoomPlayers(m, roomId)[i],
                       StateOf(SerializeFor(m.games[roomId], ListRoomPlayers(m, roomId)[i], m.clients)))
  {
    if roomId !in m.games then []
    else
      var g := m.games[roomId];
      var members := ListRoomPlayers(m, roomId);
      seq(|members|, i requires 0 <= i < |members| => Out(members[i], StateOf(SerializeFor(g, members[i], m.clients))))
  }

  /** The room's game replaced; membership stays as it was. */
  function Store(m: Manager, roomId: string, g: Game): (r: Manager)
    ensures SameMembership(r, m) && roomId in r.games && r.games[roomId] == g
  {
    m.(games := m.games[roomId := g])
  }

  /** The same connections, in the same rooms, with the same records. */
  predicate SameMembership(a: Manager, b: Manager) {
    a.rooms == b.rooms && a.clients == b.clients
  }

  /** Disconnecting depends on membership alone. */
  lemma DisconnectMembership(m: Manager, n: Manager, ws: ClientId)
    requires SameMembership(n, m)
    ensures SameMembership(Disconnect(n, ws), Disconnect(m, ws))
  {
  }

  /** The handler raised: the connection is disconnected. */
  function Dropped(m: Manager, ws: ClientId): Outcome {
    Outcome(Disconnect(m, ws), [], true)
  }

  // ---------------------------------------------------------------------------
  // Reading the payload
  // ---------------------------------------------------------------------------

  /** The room id and the name used when the payload has none. */
  const DefaultRoom: string := "lobby"
  const DefaultName: string := "guest"

  /** `payload.get(key)`. */
  function Entry(payload: map<string, Json>, key: string): Option<Json> {
    if key in payload then Some(payload[key]) else None
  }

  /** `str(payload.get("roomId", "lobby")).strip() or "lobby"`. */
  function RoomOf(payload: map<string, Json>): string {
    Normalize(Entry(payload, "roomId"), DefaultRoom)
  }

  /** `str(payload.get("name", "guest")).strip() or "guest"`. */
  function NameOf(payload: map<string, Json>): string {
    Normalize(Entry(payload, "name"), DefaultName)
  }

  /** `str(payload.get("tile", "")).strip()`. */
  function TileTextOf(payload: map<string, Json>): string {
    Strip(PythonBlanks, PyStr(if "tile" in payload then payload["tile"] else JStr("")))
  }

  // ---------------------------------------------------------------------------
  // The handlers
  // ---------------------------------------------------------------------------

  /** `join`: join the normalised room under the normalised name; the room hears who joined,
      the sender gets the confirmation, and the room's state goes out. */
  function HandleJoin(m: Manager, ws: ClientId, payload: map<string, Json>): (o: Outcome)
    ensures o.closed <==> ws !in m.clients
    ensures o.closed ==> o.rooms == Disconnect(m, ws)
  {
    var room := RoomOf(payload);
    var name := NameOf(payload);
    var j := JoinRoom(m, ws, room, name);
    if j.None? then Dropped(m, ws)
    else
      var m1 := j.value;
      Outcome(m1, Broadcast(m1, room, System(name + " joined room " + room)) + [Out(ws, Joined(room, name))]
                  + BroadcastState(m1, room), false)
  }

  /** `start`: the room's members, in the room manager's order, are offered to `start`. */
  function HandleStart(m: Manager, payload: map<string, Json>, dice: seq<int>, wall: seq<Tile>, now: nat): (o: Outcome)
    ensures SameMembership(o.rooms, m) && !o.closed
  {
    var room := RoomOf(payload);
    var sockets := ListRoomPlayers(m, room);
    var (m1, g) := GetOrCreateGame(m, room);
    var m2 := Store(m1, room, Start(g, sockets, dice, wall, now));
    Outcome(m2, BroadcastState(m2, room), false)
  }

  /** `draw`: a manual draw for the sender. */
  function HandleDraw(m: Manager, ws: ClientId, payload: map<string, Json>): (o: Outcome)
    ensures SameMembership(o.rooms, m) && !o.closed
  {
    var room := RoomOf(payload);
    var (m1, g) := GetOrCreateGame(m, room);
    var m2 := Store(m1, room, DrawFor(g, ws));
    Outcome(m2, BroadcastState(m2, room), false)
  }

  /** The text of a discard, as a tile: a text that is no tile's code is in no hand and is
      never the tile last drawn, so `discard` refuses it without changing anything. */
  function DiscardText(g: Game, ws: ClientId, text: string, now: nat): (bool, Game) {
    var t := ParseTile(text);
    if t.None? then (false, g) else Discard(g, ws, t.value, now)
  }

  const DiscardRefused := "cannot discard now or tile not in hand"

  /** `discard`: a refused discard is reported to the sender; the room's state goes out either
      way. */
  function HandleDiscard(m: Manager, ws: ClientId, payload: map<string, Json>, now: nat): (o: Outcome)
    ensures SameMembership(o.rooms, m) && !o.closed
  {
    var room := RoomOf(payload);
    var (m1, g) := GetOrCreateGame(m, room);
    var (ok, g1) := DiscardText(g, ws, TileTextOf(payload), now);
    var m2 := Store(m1, room, g1);
    Outcome(m2, (if ok then [] else [Out(ws, Failure(DiscardRefused))]) + BroadcastState(m2, room), false)
  }

  const TingRefused := "ting only on your turn before discard"

  /** `ting`: a declaration by the player about to discard, or an error to the sender. */
  function HandleTing(m: Manager, ws: ClientId, payload: map<string, Json>): (o: Outcome)
    ensures SameMembership(o.rooms, m) && !o.closed
  {
    var room := RoomOf(payload);
    var (m1, g) := GetOrCreateGame(m, room);
    var d := DeclareTing(g, ws);
    if d.None? then Outcome(m1, [Out(ws, Failure(TingRefused))], false)
    else
      var m2 := Store(m1, room, d.value);
      Outcome(m2, BroadcastState(m2, room), false)
  }

  const NoTingPending := "no ting pending"

  /** `ting_cancel`: withdraws a pending declaration, or an error to the sender. */
  function HandleTingCancel(m: Manager, ws: ClientId, payload: map<string, Json>): (o: Outcome)
    ensures SameMembership(o.rooms, m) && !o.closed
  {
    var room := RoomOf(payload);
    var (m1, g) := GetOrCreateGame(m, room);
    var d := CancelTing(g, ws);
    if d.None? then Outcome(m1, [Out(ws, Failure(NoTingPending))], false)
    else
      var m2 := Store(m1, room, d.value);
      Outcome(m2, BroadcastState(m2, room), false)
  }

  const NotYourRoll := "not your turn to roll dice"

  /** `roll_dice`: only the awaited roller may roll; the next game then starts. */
  function HandleRollDice(m: Manager, ws: ClientId, payload: map<string, Json>, dice: seq<int>,
                          wall: seq<Tile>, now: nat): (o: Outcome)
    ensures SameMembership(o.rooms, m) && !o.closed
  {
    var room := RoomOf(payload);
    var (m1, g) := GetOrCreateGame(m, room);
    var r := RollDice(g, ws, dice, wall, now);
    if r.None? then Outcome(m1, [Out(ws, Failure(NotYourRoll))], false)
    else
      var m2 := Store(m1, room, r.value);
      Outcome(m2, BroadcastState(m2, room), false)
  }

  const NoWindow := "no reaction window"
  const InvalidClaim := "invalid claim"

  /** The claim recorded for the sender, then the window resolved at `now`. */
  function Claimed(g: Game, ws: ClientId, a: Action, now: nat): Game {
    ResolveReactions(g.(window := g.window.(claims := SetClaim(g.window.claims, ws, a))), now).game
  }

  /** `claim`: with a reaction window open, the claimed id must be one of the actions offered
      to the sender; it becomes the sender's claim and the reactions are resolved. */
  function HandleClaim(m: Manager, ws: ClientId, payload: map<string, Json>, now: nat): (o: Outcome)
    ensures o.closed ==> SameMembership(o.rooms, Disconnect(m, ws))
    ensures !o.closed ==> SameMembership(o.rooms, m)
  {
    var room := RoomOf(payload);
    var claim := if "claim" in payload && PyTruthy(payload["claim"]) then payload["claim"] else JObj(map[]);
    var (m1, g) := GetOrCreateGame(m, room);
    if !g.window.active then Outcome(m1, [Out(ws, Failure(NoWindow))], false)
    else if !claim.JObj? then DisconnectMembership(m, m1, ws); Dropped(m1, ws)
    else
      var id := PyStr(if "id" in claim.fields then claim.fields["id"] else JStr(""));
      var chosen := FindById(ComputeActionsFor(g, ws), id);
      if chosen.None? then Outcome(m1, [Out(ws, Failure(InvalidClaim))], false)
      else
        var m2 := Store(m1, room, Claimed(g, ws, chosen.value, now));
        Outcome(m2, BroadcastState(m2, room), false)
  }

  /** The message types the loop tells apart. */
  datatype MessageType =
    | PingType | JoinType | StartType | DrawType | DiscardType | TingType | TingCancelType
    | RollDiceType | ClaimType | UnknownType

  /** The branch `msg_type` selects; anything but one of the nine type names, including a
      missing or non-string `type`, is unknown. */
  function TypeOf(kind: Option<Json>): MessageType {
    if kind == Some(JStr("ping")) then PingType
    else if kind == Some(JStr("join")) then JoinType
    else if kind == Some(JStr("start")) then StartType
    else if kind == Some(JStr("draw")) then DrawType
    else if kind == Some(JStr("discard")) then DiscardType
    else if kind == Some(JStr("ting")) then TingType
    else if kind == Some(JStr("ting_cancel")) then TingCancelType
    else if kind == Some(JStr("roll_dice")) then RollDiceType
    else if kind == Some(JStr("claim")) then ClaimType
    else UnknownType
  }

  /** The type names `handle_ws` recognises. */
  const KnownTypes: set<string> := {"ping", "join", "start", "draw", "discard", "ting", "ting_cancel", "roll_dice", "claim"}

  /** The types whose handler reads the payload. */
  predicate ReadsPayload(t: MessageType) {
    !t.PingType? && !t.UnknownType?
  }

  /** A message of type `join`. */
  predicate IsJoin(data: Json) {
    data.JObj? && TypeOf(Field(data, "type")) == JoinType
  }

  /** `data.get("payload") or {}`. */
  function PayloadOf(data: Json): Json {
    var raw := Field(data, "payload");
    if raw.Some? && PyTruthy(raw.value) then raw.value else JObj(map[])
  }

  /** The handler of a type that reads the payload, given the payload's entries. */
  function Route(m: Manager, ws: ClientId, t: MessageType, payload: map<string, Json>,
                 dice: seq<int>, wall: seq<Tile>, now: nat): (o: Outcome)
    requires ReadsPayload(t)
    ensures o.closed ==> SameMembership(o.rooms, Disconnect(m, ws))
    ensures !o.closed && t != JoinType ==> SameMembership(o.rooms, m)
  {
    match t
    case JoinType => HandleJoin(m, ws, payload)
    case StartType => HandleStart(m, payload, dice, wall, now)
    case DrawType => HandleDraw(m, ws, payload)
    case DiscardType => HandleDiscard(m, ws, payload, now)
    case TingType => HandleTing(m, ws, payload)
    case TingCancelType => HandleTingCancel(m, ws, payload)
    case RollDiceType => HandleRollDice(m, ws, payload, dice, wall, now)
    case ClaimType => HandleClaim(m, ws, payload, now)
  }

  /** The decoded message dispatched by `type`. A message that is not an object, or whose
      truthy payload is not an object where the handler reads it, raises and drops the
      connection; a missing or falsy payload reads as `{}`. */
  function Handle(m: Manager, ws: ClientId, data: Json, dice: seq<int>, wall: seq<Tile>, now: nat): (o: Outcome)
    ensures o.closed ==> SameMembership(o.rooms, Disconnect(m, ws))
    ensures !o.closed && !IsJoin(data) ==> SameMembership(o.rooms, m)
  {
    if !data.JObj? then Dropped(m, ws)
    else
      var kind := Field(data, "type");
      var t := TypeOf(kind);
      var payload := PayloadOf(data);
      if t == PingType then Outcome(m, [Out(ws, Pong)], false)
      else if t == UnknownType then Outcome(m, [Out(ws, Failure("unknown type: " + PyStr(kind.GetOr(JNull))))], false)
      else if !payload.JObj? then Dropped(m, ws)
      else Route(m, ws, t, payload.fields, dice, wall, now)
  }

  /** A reaction window that is open with a set deadline no later than `now`. */
  predicate Expired(g: Game, now: nat) {
    g.window.active && g.window.deadline != 0 && g.window.deadline <= now
  }

  /** The check after every handled message: the sender's room (creating its game if need
      be) has an expired window resolved and its state broadcast. */
  function ExpiryCheck(m: Manager, ws: ClientId, now: nat): (Manager, seq<Out>) {
    if ws !in m.clients || !HasRoom(m.clients[ws]) then (m, [])
    else
      var room := m.clients[ws].roomId.value;
      var (m1, g) := GetOrCreateGame(m, room);
      if !Expired(g, now) then (m1, [])
      else
        var m2 := Store(m1, room, ResolveReactions(g, now).game);
        (m2, BroadcastState(m2, room))
  }

  const InvalidJson := "invalid JSON"

  /** One received frame. A frame that is not JSON is answered with an error and skips the
      expiry check; a dropped connection ends the loop. */
  function Step(m: Manager, ws: ClientId, msg: Inbound, dice: seq<int>, wall: seq<Tile>, now: nat): Outcome {
    match msg
    case Unparsable => Outcome(m, [Out(ws, Failure(InvalidJson))], false)
    case Parsed(data) =>
      var o := Handle(m, ws, data, dice, wall, now);
      if o.closed then o
      else
        var (m1, extra) := ExpiryCheck(o.rooms, ws, now);
        Outcome(m1, o.sent + extra, false)
  }

  /** A new connection: registered, then greeted. */
  function Open(m: Manager, ws: ClientId): Outcome {
    Outcome(Connect(m, ws), [Out(ws, Hello)], false)
  }

  // ---------------------------------------------------------------------------
  // Properties: the room manager stays consistent
  // ---------------------------------------------------------------------------

  /** The normalised room id is never empty. */
  lemma RoomOfNonEmpty(payload: map<string, Json>)
    ensures RoomOf(payload) != ""
  {
    LobbyPlain(PythonBlanks);
    NormalizeSpec(Entry(payload, "roomId"), DefaultRoom);
  }

  /** A join by a registered connection never raises and keeps the manager consistent. */
  lemma JoinConsistent(m: Manager, ws: ClientId, payload: map<string, Json>)
    requires Consistent(m) && ws in m.clients
    ensures var o := HandleJoin(m, ws, payload);
      !o.closed && Consistent(o.rooms) && ws in o.rooms.clients
  {
    RoomOfNonEmpty(payload);
    JoinRoomConsistent(m, ws, RoomOf(payload), NameOf(payload));
    JoinRoomSpec(m, ws, RoomOf(payload), NameOf(payload));
  }

  /** Consistency depends on membership alone. */
  lemma SameMembershipConsistent(m: Manager, n: Manager)
    requires Consistent(m) && SameMembership(n, m)
    ensures Consistent(n)
  {
    forall id, q | id in n.rooms && q in n.rooms[id]
      ensures q in n.clients && n.clients[q].roomId == Some(id) && id != ""
    {
      assert q in m.rooms[id];
    }
    forall q | q in n.clients && HasRoom(n.clients[q])
      ensures n.clients[q].roomId.value in n.rooms && q in n.rooms[n.clients[q].roomId.value]
    {
      assert q in m.clients && HasRoom(m.clients[q]);
    }
  }

  /** Dropping the connection after the room's game was created keeps the manager
      consistent and forgets the connection. */
  lemma DroppedConsistent(m: Manager, n: Manager, ws: ClientId)
    requires Consistent(m) && n.rooms == m.rooms && n.clients == m.clients
    ensures Consistent(Disconnect(n, ws)) && ws !in Disconnect(n, ws).clients
  {
    SameMembershipConsistent(m, n);
    DisconnectConsistent(n, ws);
  }

  /** The handlers keep the manager consistent; the sender stays registered unless the
      connection was dropped, and is forgotten if it was. */
  lemma HandleConsistent(m: Manager, ws: ClientId, data: Json, dice: seq<int>, wall: seq<Tile>, now: nat)
    requires Consistent(m) && ws in m.clients
    ensures var o := Handle(m, ws, data, dice, wall, now);
      Consistent(o.rooms) && (!o.closed ==> ws in o.rooms.clients) && (o.closed ==> ws !in o.rooms.clients)
  {
    var o := Handle(m, ws, data, dice, wall, now);
    if o.closed {
      DisconnectConsistent(m, ws);
      SameMembershipConsistent(Disconnect(m, ws), o.rooms);
    } else if IsJoin(data) {
      JoinConsistent(m, ws, PayloadOf(data).fields);
    } else {
      SameMembershipConsistent(m, o.rooms);
    }
  }

  /** The expiry check changes no membership. */
  lemma ExpiryKeepsRooms(m: Manager, ws: ClientId, now: nat)
    ensures SameMembership(ExpiryCheck(m, ws, now).0, m)
  {
  }

  /** Every step keeps room membership and the clients' records in agreement, and the sender
      stays registered exactly while the connection is open. */
  lemma StepConsistent(m: Manager, ws: ClientId, msg: Inbound, dice: seq<int>, wall: seq<Tile>, now: nat)
    requires Consistent(m) && ws in m.clients
    ensures var o := Step(m, ws, msg, dice, wall, now);
      Consistent(o.rooms) && (ws in o.rooms.clients <==> !o.closed)
  {
    if msg.Parsed? {
      var o := Handle(m, ws, msg.data, dice, wall, now);
      HandleConsistent(m, ws, msg.data, dice, wall, now);
      if !o.closed {
        ExpiryKeepsRooms(o.rooms, ws, now);
        SameMembershipConsistent(o.rooms, ExpiryCheck(o.rooms, ws, now).0);
      }
    }
  }

  // ---------------------------------------------------------------------------
  // Properties: the guards
  // ---------------------------------------------------------------------------

  /** A frame that is not JSON changes nothing and is answered, to the sender only, with
      an error; the connection stays open. */
  lemma UnparsableAnswered(m: Manager, ws: ClientId, dice: seq<int>, wall: seq<Tile>, now: nat)
    ensures var o := Step(m, ws, Unparsable, dice, wall, now);
      o.rooms == m && !o.closed && o.sent == [Out(ws, Failure("invalid JSON"))]
  {
  }

  /** An object whose type no handler knows changes nothing, is answered with an error naming
      the type as Python prints it (`None` when there is none), and the connection stays open. */
  lemma UnknownTypeAnswered(m: Manager, ws: ClientId, fields: map<string, Json>, dice: seq<int>,
                            wall: seq<Tile>, now: nat)
    requires "type" in fields ==> fields["type"].JStr? && fields["type"].s !in KnownTypes
    ensures var name := if "type" in fields then fields["type"].s else "None";
      Handle(m, ws, JObj(fields), dice, wall, now) == Outcome(m, [Out(ws, Failure("unknown type: " + name))], false)
  {
    var kind := Field(JObj(fields), "type");
    assert TypeOf(kind) == UnknownType;
    assert PyStr(kind.GetOr(JNull)) == if "type" in fields then fields["type"].s else "None";
  }

  /** `ting` is accepted exactly when the sender may discard in the room's game; then only the
      sender's pending flag changes. Otherwise the sender alone hears why. */
  lemma TingGuard(m: Manager, ws: ClientId, payload: map<string, Json>)
    ensures var room := RoomOf(payload);
      var (m1, g) := GetOrCreateGame(m, room);
      var o := HandleTing(m, ws, payload);
      !o.closed
      && (CanDiscard(g, ws) ==>
            o.rooms.games[room].table.tingPending == g.table.tingPending[ws := true]
            && o.rooms.games[room].table.hands == g.table.hands
            && o.rooms.games[room].window == g.window
            && o.rooms.games[room].turnIndex == g.turnIndex)
      && (!CanDiscard(g, ws) ==> o.rooms == m1 && o.sent == [Out(ws, Failure(TingRefused))])
  {
  }

  /** `ting_cancel` clears the sender's pending flag when the sender has an entry, and is
      refused otherwise. */
  lemma TingCancelGuard(m: Manager, ws: ClientId, payload: map<string, Json>)
    ensures var room := RoomOf(payload);
      var (m1, g) := GetOrCreateGame(m, room);
      var o := HandleTingCancel(m, ws, payload);
      (ws in g.table.tingPending ==> o.rooms.games[room].table.tingPending == g.table.tingPending[ws := false])
      && (ws !in g.table.tingPending ==> o.rooms == m1 && o.sent == [Out(ws, Failure(NoTingPending))])
  {
  }

  /** `roll_dice` is accepted only from the awaited roller; the new game's multiplier is the
      throw's multiplier times the one carried over. */
  lemma RollGuard(m: Manager, ws: ClientId, payload: map<string, Json>, dice: seq<int>, wall: seq<Tile>, now: nat)
    ensures var room := RoomOf(payload);
      var (m1, g) := GetOrCreateGame(m, room);
      var o := HandleRollDice(m, ws, payload, dice, wall, now);
      (!(g.tally.waitingForDice && g.tally.diceRoller == Some(ws)) ==>
         o.rooms == m1 && o.sent == [Out(ws, Failure(NotYourRoll))])
      && (g.tally.waitingForDice && g.tally.diceRoller == Some(ws) && g.playerOrder != [] ==>
            o.rooms.games[room].started
            && o.rooms.games[room].tally.scoreMultiplier == DiceMultipliers(dice).0 * g.tally.scoreMultiplier
            && o.rooms.games[room].tally.scores == g.tally.scores)
  {
    var room := RoomOf(payload);
    RollDiceEffect(GetOrCreateGame(m, room).1, ws, dice, wall, now);
  }

  /** `claim` with no open window, or with an id not offered to the sender, is refused with the
      manager as it was after finding the game; otherwise exactly the chosen action becomes
      the sender's claim before the reactions are resolved. */
  lemma ClaimGuard(m: Manager, ws: ClientId, payload: map<string, Json>, id: string, now: nat)
    requires "claim" in payload && payload["claim"] == JObj(map["id" := JStr(id)])
    ensures var room := RoomOf(payload);
      var (m1, g) := GetOrCreateGame(m, room);
      var o := HandleClaim(m, ws, payload, now);
      var chosen := FindById(ComputeActionsFor(g, ws), id);
      !o.closed
      && (!g.window.active ==> o.rooms == m1 && o.sent == [Out(ws, Failure(NoWindow))])
      && (g.window.active && chosen.None? ==> o.rooms == m1 && o.sent == [Out(ws, Failure(InvalidClaim))])
      && (g.window.active && chosen.Some? ==>
            chosen.value in ComputeActionsFor(g, ws) && ActionId(chosen.value) == id
            && o.rooms.games[room] == Claimed(g, ws, chosen.value, now))
  {
  }

  /** A refused discard: the sender alone hears the error, first, and the room's state still
      goes out to every member; an accepted one sends only the state. */
  lemma DiscardReplies(m: Manager, ws: ClientId, payload: map<string, Json>, now: nat)
    ensures var room := RoomOf(payload);
      var (m1, g) := GetOrCreateGame(m, room);
      var o := HandleDiscard(m, ws, payload, now);
      var ok := DiscardText(g, ws, TileTextOf(payload), now).0;
      (!ok ==> o.sent == [Out(ws, Failure(DiscardRefused))] + BroadcastState(o.rooms, room))
      && (ok ==> o.sent == BroadcastState(o.rooms, room))
  {
  }

  /** A discard text that names no tile changes no game. */
  lemma DiscardTextUnknown(g: Game, ws: ClientId, text: string, now: nat)
    requires ParseTile(text).None?
    ensures DiscardText(g, ws, text, now) == (false, g)
  {
  }

  /** A discard text naming a tile is judged as that tile's discard. */
  lemma DiscardTextCode(g: Game, ws: ClientId, t: Tile, now: nat)
    ensures DiscardText(g, ws, Code(t), now) == Discard(g, ws, t, now)
  {
    ParseCode(t);
  }

  /** After a handled message the sender's room has no expired window left open: it was
      resolved at `now`, and its state broadcast. */
  lemma ExpiryResolves(m: Manager, ws: ClientId, now: nat)
    requires ws in m.clients && HasRoom(m.clients[ws])
    ensures var room := m.clients[ws].roomId.value;
      var (m1, g) := GetOrCreateGame(m, room);
      var (r, extra) := ExpiryCheck(m, ws, now);
      (Expired(g, now) ==> r.games[room] == ResolveReactions(g, now).game && extra == BroadcastState(r, room))
      && (!Expired(g, now) ==> r == m1 && extra == [])
  {
  }

  /** A payload without a room id addresses the default room. */
  lemma RoomDefault(payload: map<string, Json>)
    requires "roomId" !in payload
    ensures RoomOf(payload) == DefaultRoom
  {
    LobbyPlain(PythonBlanks);
    NormalizeSpec(None, DefaultRoom);
  }

  /** A message object of a type that reads the payload, with a payload object, goes to that
      type's handler. */
  lemma Dispatch(m: Manager, ws: ClientId, data: Json, t: MessageType, fields: map<string, Json>,
                 dice: seq<int>, wall: seq<Tile>, now: nat)
    requires data.JObj? && TypeOf(Field(data, "type")) == t && ReadsPayload(t) && PayloadOf(data) == JObj(fields)
    ensures Handle(m, ws, data, dice, wall, now) == Route(m, ws, t, fields, dice, wall, now)
  {
    assert t != PingType && t != UnknownType;
    assert PayloadOf(data).JObj? && PayloadOf(data).fields == fields;
  }

  /** A claim naming `id` without a room id is judged in the default room; an id offered to
      the sender there is recorded as the sender's claim and the window resolved. */
  lemma ClaimInDefaultRoom(m: Manager, ws: ClientId, id: string, now: nat)
    ensures var fields := map["claim" := JObj(map["id" := JStr(id)])];
      var g := GetOrCreateGame(m, DefaultRoom).1;
      var chosen := FindById(ComputeActionsFor(g, ws), id);
      var o := HandleClaim(m, ws, fields, now);
      g.window.active && chosen.Some? ==>
        !o.closed && DefaultRoom in o.rooms.games && o.rooms.games[DefaultRoom] == Claimed(g, ws, chosen.value, now)
  {
    var fields := map["claim" := JObj(map["id" := JStr(id)])];
    RoomDefault(fields);
    ClaimGuard(m, ws, fields, id, now);
  }

  /** A tile text without surrounding whitespace is read as it was sent. */
  lemma TileTextPlain(text: string)
    requires Strip(PythonBlanks, text) == text
    ensures TileTextOf(map["tile" := JStr(text)]) == text
  {
  }

  /** A discard of a text without surrounding whitespace, without a room id, is judged in the
      default room as the discard of that text. */
  lemma DiscardInDefaultRoom(m: Manager, ws: ClientId, text: string, now: nat)
    requires Strip(PythonBlanks, text) == text
    ensures var fields := map["tile" := JStr(text)];
      var g := GetOrCreateGame(m, DefaultRoom).1;
      var (ok, g1) := DiscardText(g, ws, text, now);
      var o := HandleDiscard(m, ws, fields, now);
      !o.closed && DefaultRoom in o.rooms.games && o.rooms.games[DefaultRoom] == g1
      && (!ok ==> |o.sent| > 0 && o.sent[0] == Out(ws, Failure(DiscardRefused)))
  {
    RoomDefault(map["tile" := JStr(text)]);
    TileTextPlain(text);
  }

  /** A discard of a text naming a tile, without a room id, is that tile's discard in the
      default room, a refusal reported to the sender first. */
  lemma DiscardTileInDefaultRoom(m: Manager, ws: ClientId, x: Tile, text: string, now: nat)
    requires ParseTile(text) == Some(x) && Strip(PythonBlanks, text) == text
    ensures var g := GetOrCreateGame(m, DefaultRoom).1;
      var (ok, g1) := Discard(g, ws, x, now);
      var o := HandleDiscard(m, ws, map["tile" := JStr(text)], now);
      !o.closed && DefaultRoom in o.rooms.games && o.rooms.games[DefaultRoom] == g1
      && (!ok ==> |o.sent| > 0 && o.sent[0] == Out(ws, Failure(DiscardRefused)))
  {
    DiscardInDefaultRoom(m, ws, text, now);
  }

  /** A join message with no room id and no name joins `lobby` as `guest`. */
  lemma JoinDefaults(m: Manager, ws: ClientId)
    requires Consistent(m) && ws in m.clients
    ensures var o := HandleJoin(m, ws, map[]);
      !o.closed && o.rooms.clients[ws] == Client(Some(DefaultName), Some(DefaultRoom))
      && Out(ws, Joined(DefaultRoom, DefaultName)) in o.sent
  {
    LobbyPlain(PythonBlanks);
    GuestPlain(PythonBlanks);
    NormalizeSpec(None, DefaultRoom);
    NormalizeSpec(None, DefaultName);
    JoinRoomSpec(m, ws, DefaultRoom, DefaultName);
  }
}

=== FILE: session.dfy ===
/** `WSClient` (frontend/src/ws.ts): the browser side of the connection. The client owns at
    most one current socket, a heartbeat interval and a reconnect timeout; the browser drives
    it by calling its methods and by firing socket events and timers. Each step returns the
    new client and what it did outward: callbacks invoked and frames sent. */
module Session {
  import opened Wrappers
  import opened Wire

  /** `WSState`. */
  datatype Phase = Disconnected | Connecting | Connected

  /** A WebSocket's `readyState`. */
  datatype ReadyState = SocketConnecting | SocketOpen | SocketClosing | SocketClosed

  /** Browser timer ids are positive, so a set timer field is always truthy. */
  type Handle = n: nat | n >= 1 witness 1

  /** `lastClose`. */
  datatype CloseInfo = CloseInfo(code: int, reason: string)

  /** The client's fields plus the part of the browser it touches: every socket it created
      with its ready state, and the interval and timeout timers still scheduled. */
  datatype Client = Client(
    heartbeatMs: nat,
    reconnectMs: nat,
    socket: Option<nat>,
    sockets: map<nat, ReadyState>,
    heartbeat: Option<Handle>,
    reconnect: Option<Handle>,
    phase: Phase,
    lastPongAt: Option<int>,
    lastClose: Option<CloseInfo>,
    intervals: set<Handle>,
    timeouts: set<Handle>,
    nextHandle: Handle,
    nextSocket: nat)

  /** What a step does outward: a callback (`onStateChange`, `onHello`, `onJoined`, `onState`,
      `onErrorMsg`) with its argument, or a frame sent on a socket. */
  datatype Effect =
    | StateChanged(phase: Phase)
    | HelloReceived(payload: Option<Json>)
    | JoinedReceived(payload: Option<Json>)
    | StateReceived(payload: Option<Json>)
    | ErrorReceived(payload: Option<Json>)
    | Frame(socket: nat, message: Json)

  /** The constructor: the options default to a 10 s heartbeat and a 2 s reconnect delay. */
  function NewClient(heartbeatMs: Option<nat>, reconnectMs: Option<nat>): Client {
    Client(heartbeatMs.GetOr(10000), reconnectMs.GetOr(2000), None, map[], None, None,
           Disconnected, None, None, {}, {}, 1, 0)
  }

  // ---------------------------------------------------------------------------
  // Private helpers
  // ---------------------------------------------------------------------------

  /** The current socket, if it exists and is in one of the given states. */
  predicate SocketIn(c: Client, states: set<ReadyState>) {
    c.socket.Some? && c.socket.value in c.sockets && c.sockets[c.socket.value] in states
  }

  /** `stopHeartbeat`: clear the interval, if any. */
  function StopHeartbeat(c: Client): Client {
    if c.heartbeat.Some? then c.(intervals := c.intervals - {c.heartbeat.value}, heartbeat := None) else c
  }

  /** `startHeartbeat`: replace the interval by a fresh one. */
  function StartHeartbeat(c: Client): Client {
    var c1 := StopHeartbeat(c);
    var h := c1.nextHandle;
    c1.(heartbeat := Some(h), intervals := c1.intervals + {h}, nextHandle := h + 1)
  }

  /** `scheduleReconnect`: a timeout unless one is already pending. */
  function ScheduleReconnect(c: Client): Client {
    if c.reconnect.Some? then c
    else
      var h := c.nextHandle;
      c.(reconnect := Some(h), timeouts := c.timeouts + {h}, nextHandle := h + 1)
  }

  /** `cleanup`: stop the heartbeat and report the disconnected state. */
  function Cleanup(c: Client): (Client, seq<Effect>) {
    (StopHeartbeat(c).(phase := Disconnected), [StateChanged(Disconnected)])
  }

  // ---------------------------------------------------------------------------
  // Public methods
  // ---------------------------------------------------------------------------

  /** `connect`: nothing while the current socket is connecting or open; otherwise a new
      socket, which becomes the current one. */
  function Connect(c: Client): (Client, seq<Effect>) {
    if SocketIn(c, {SocketConnecting, SocketOpen}) then (c, [])
    else
      var id := c.nextSocket;
      (c.(phase := Connecting, socket := Some(id), sockets := c.sockets[id := SocketConnecting],
          nextSocket := id + 1),
       [StateChanged(Connecting)])
  }

  /** `disconnect`: clean up, start closing the current socket and forget it. A pending
      reconnect timeout is left in place. */
  function Disconnect(c: Client): (Client, seq<Effect>) {
    var (c1, out) := Cleanup(c);
    var c2 := if SocketIn(c1, {SocketConnecting, SocketOpen})
              then c1.(sockets := c1.sockets[c1.socket.value := SocketClosing]) else c1;
    (c2.(socket := None), out)
  }

  /** `send`: a frame on the current socket when it is open, nothing otherwise. */
  function Send(c: Client, message: Json): seq<Effect> {
    if SocketIn(c, {SocketOpen}) then [Frame(c.socket.value, message)] else []
  }

  // ---------------------------------------------------------------------------
  // Socket events and timers
  // ---------------------------------------------------------------------------

  /** `onopen`, which every socket the client created keeps, current or not. */
  function Opened(c: Client, sock: nat): (Client, seq<Effect>) {
    if sock !in c.sockets || c.sockets[sock] != SocketConnecting then (c, [])
    else
      var c1 := c.(sockets := c.sockets[sock := SocketOpen], phase := Connected);
      (StartHeartbeat(c1), [StateChanged(Connected)])
  }

  /** `onclose`: record the close, clean up and schedule a reconnect, whichever socket it was. */
  function Closed(c: Client, sock: nat, code: int, reason: string): (Client, seq<Effect>) {
    if sock !in c.sockets || c.sockets[sock] == SocketClosed then (c, [])
    else
      var c1 := c.(sockets := c.sockets[sock := SocketClosed], lastClose := Some(CloseInfo(code, reason)));
      var (c2, out) := Cleanup(c1);
      (ScheduleReconnect(c2), out)
  }

  /** The callback `onmessage` picks by the `type` of the decoded message: `pong` updates
      `lastPongAt` instead. `None` stands for a frame that is not JSON, which is ignored. */
  function Dispatch(data: Option<Json>): seq<Effect> {
    if data.None? then []
    else
      var kind := Field(data.value, "type");
      var payload := Field(data.value, "payload");
      if kind == Some(JStr("hello")) then [HelloReceived(payload)]
      else if kind == Some(JStr("joined")) then [JoinedReceived(payload)]
      else if kind == Some(JStr("state")) then [StateReceived(payload)]
      else if kind == Some(JStr("error")) then [ErrorReceived(payload)]
      else []
  }

  predicate IsPong(data: Option<Json>) {
    data.Some? && Field(data.value, "type") == Some(JStr("pong"))
  }

  /** `onmessage` on an open socket. */
  function Received(c: Client, sock: nat, data: Option<Json>, now: int): (Client, seq<Effect>) {
    if sock !in c.sockets || c.sockets[sock] != SocketOpen then (c, [])
    else if IsPong(data) then (c.(lastPongAt := Some(now)), [])
    else (c, Dispatch(data))
  }

  /** `{type: 'ping', payload: {ts}}`. */
  function Ping(now: int): Json {
    JObj(map["type" := JStr("ping"), "payload" := JObj(map["ts" := JNum(now)])])
  }

  /** The heartbeat interval fires: a ping, if the socket is open. */
  function HeartbeatDue(c: Client, h: Handle, now: int): (Client, seq<Effect>) {
    if h !in c.intervals then (c, []) else (c, Send(c, Ping(now)))
  }

  /** The reconnect timeout fires: forget it and connect. */
  function ReconnectDue(c: Client, h: Handle): (Client, seq<Effect>) {
    if h !in c.timeouts then (c, [])
    else Connect(c.(reconnect := None, timeouts := c.timeouts - {h}))
  }

  /** What can happen to the client: a method call from the page, or an event from the browser. */
  datatype Event =
    | ConnectCalled
    | DisconnectCalled
    | SendCalled(message: Json)
    | OpenEvent(sock: nat)
    | CloseEvent(sock: nat, code: int, reason: string)
    | MessageEvent(sock: nat, data: Option<Json>)
    | HeartbeatTick(handle: Handle)
    | ReconnectTick(handle: Handle)

  function Step(c: Client, e: Event, now: int): (Client, seq<Effect>) {
    match e
    case ConnectCalled => Connect(c)
    case DisconnectCalled => Disconnect(c)
    case SendCalled(m) => (c, Send(c, m))
    case OpenEvent(s) => Opened(c, s)
    case CloseEvent(s, code, reason) => Closed(c, s, code, reason)
    case MessageEvent(s, data) => Received(c, s, data, now)
    case HeartbeatTick(h) => HeartbeatDue(c, h, now)
    case ReconnectTick(h) => ReconnectDue(c, h)
  }

  // ---------------------------------------------------------------------------
  // Outgoing messages
  // ---------------------------------------------------------------------------

  /** `{type, payload}`, with the payload entries that are `undefined` left out, as
      `JSON.stringify` leaves them out. */
  function Outgoing(kind: string, payload: map<string, Json>): Json {
    JObj(map["type" := JStr(kind), "payload" := JObj(payload)])
  }

  function Entry(key: string, value: Option<Json>): map<string, Json> {
    if value.Some? then map[key := value.value] else map[]
  }

  function Text(s: Option<string>): Option<Json> {
    if s.Some? then Some(JStr(s.value)) else None
  }

  function JoinMessage(roomId: Option<string>, name: Option<string>): Json {
    Outgoing("join", Entry("roomId", Text(roomId)) + Entry("name", Text(name)))
  }

  function StartMessage(roomId: Option<string>): Json {
    Outgoing("start", Entry("roomId", Text(roomId)))
  }

  function DrawMessage(roomId: Option<string>): Json {
    Outgoing("draw", Entry("roomId", Text(roomId)))
  }

  function DiscardMessage(roomId: Option<string>, tile: Option<Json>): Json {
    Outgoing("discard", Entry("roomId", Text(roomId)) + Entry("tile", tile))
  }

  /** `claim(roomId, {id})`: the claim object always travels, its id only when defined. */
  function ClaimMessage(roomId: Option<string>, id: Option<Json>): Json {
    Outgoing("claim", Entry("roomId", Text(roomId)) + map["claim" := JObj(Entry("id", id))])
  }

  function TingMessage(roomId: Option<string>): Json {
    Outgoing("ting", Entry("roomId", Text(roomId)))
  }

  function TingCancelMessage(roomId: Option<string>): Json {
    Outgoing("ting_cancel", Entry("roomId", Text(roomId)))
  }

  function RollDiceMessage(roomId: Option<string>): Json {
    Outgoing("roll_dice", Entry("roomId", Text(roomId)))
  }

  // ---------------------------------------------------------------------------
  // Properties
  // ---------------------------------------------------------------------------

  /** The timers the browser holds are exactly the ones the client's fields name, so no
      heartbeat interval or reconnect timeout is ever leaked; handles and socket ids are fresh
      below their counters; a disconnected client runs no heartbeat. */
  predicate Valid(c: Client) {
    (c.intervals == if c.heartbeat.Some? then {c.heartbeat.value} else {})
    && (c.timeouts == if c.reconnect.Some? then {c.reconnect.value} else {})
    && (c.heartbeat.Some? ==> c.heartbeat.value < c.nextHandle)
    && (c.reconnect.Some? ==> c.reconnect.value < c.nextHandle)
    && (c.socket.Some? ==> c.socket.value in c.sockets)
    && (forall k :: k in c.sockets ==> k < c.nextSocket)
    && (c.phase == Disconnected ==> c.heartbeat.None?)
  }

  lemma NewClientValid(heartbeatMs: Option<nat>, reconnectMs: Option<nat>)
    ensures Valid(NewClient(heartbeatMs, reconnectMs))
    ensures NewClient(heartbeatMs, reconnectMs).heartbeatMs == heartbeatMs.GetOr(10000)
    ensures NewClient(heartbeatMs, reconnectMs).reconnectMs == reconnectMs.GetOr(2000)
  {
  }

  lemma ConnectValid(c: Client)
    requires Valid(c)
    ensures Valid(Connect(c).0)
  {
  }

  lemma DisconnectValid(c: Client)
    requires Valid(c)
    ensures Valid(Disconnect(c).0)
  {
  }

  lemma OpenedValid(c: Client, sock: nat)
    requires Valid(c)
    ensures Valid(Opened(c, sock).0)
  {
  }

  lemma ClosedValid(c: Client, sock: nat, code: int, reason: string)
    requires Valid(c)
    ensures Valid(Closed(c, sock, code, reason).0)
  {
  }

  lemma ReconnectDueValid(c: Client, h: Handle)
    requires Valid(c)
    ensures Valid(ReconnectDue(c, h).0)
  {
  }

  /** Every step keeps the client valid: at most one heartbeat and one reconnect timer exist
      at any time. */
  lemma StepValid(c: Client, e: Event, now: int)
    requires Valid(c)
    ensures Valid(Step(c, e, now).0)
    ensures |Step(c, e, now).0.intervals| <= 1 && |Step(c, e, now).0.timeouts| <= 1
  {
    match e
    case ConnectCalled => ConnectValid(c);
    case DisconnectCalled => DisconnectValid(c);
    case OpenEvent(s) => OpenedValid(c, s);
    case CloseEvent(s, code, reason) => ClosedValid(c, s, code, reason);
    case ReconnectTick(h) => ReconnectDueValid(c, h);
    case _ =>
  }

  /** `connect` does nothing exactly when the current socket is connecting or open;
      otherwise the new socket is the current one, connecting, and no earlier socket had its id. */
  lemma ConnectSpec(c: Client)
    requires Valid(c)
    ensures var (r, out) := Connect(c);
      (r == c && out == []) <==> SocketIn(c, {SocketConnecting, SocketOpen})
    ensures var (r, out) := Connect(c);
      !SocketIn(c, {SocketConnecting, SocketOpen}) ==>
        r.socket.Some? && r.socket.value !in c.sockets && r.sockets[r.socket.value] == SocketConnecting
        && r.phase == Connecting && out == [StateChanged(Connecting)]
  {
  }

  /** Calling `connect` again right away changes nothing. */
  lemma ConnectTwice(c: Client)
    requires Valid(c)
    ensures Connect(Connect(c).0) == (Connect(c).0, [])
  {
  }

  /** A frame goes out exactly when the current socket is open, and on that socket. */
  lemma SendSpec(c: Client, m: Json)
    ensures Send(c, m) != [] <==> c.socket.Some? && c.socket.value in c.sockets && c.sockets[c.socket.value] == SocketOpen
    ensures Send(c, m) != [] ==> Send(c, m) == [Frame(c.socket.value, m)]
  {
  }

  /** A message on an open socket reaches the callback its type names, with its payload, and
      changes nothing else; a pong only records the time; anything else is ignored. */
  lemma ReceivedSpec(c: Client, sock: nat, data: Option<Json>, now: int)
    requires sock in c.sockets && c.sockets[sock] == SocketOpen
    ensures var (r, out) := Received(c, sock, data, now);
      var kind := if data.Some? then Field(data.value, "type") else None;
      var payload := if data.Some? then Field(data.value, "payload") else None;
      (kind == Some(JStr("hello")) ==> r == c && out == [HelloReceived(payload)])
      && (kind == Some(JStr("state")) ==> r == c && out == [StateReceived(payload)])
      && (kind == Some(JStr("joined")) ==> r == c && out == [JoinedReceived(payload)])
      && (kind == Some(JStr("error")) ==> r == c && out == [ErrorReceived(payload)])
      && (kind == Some(JStr("pong")) ==> r == c.(lastPongAt := Some(now)) && out == [])
      && ((kind.None? || !kind.value.JStr? || kind.value.s !in {"hello", "joined", "state", "error", "pong"})
          ==> r == c && out == [])
  {
  }

  /** A heartbeat sends a ping stamped with the current time, on the open current socket. */
  lemma HeartbeatSendsPing(c: Client, now: int)
    requires Valid(c) && c.heartbeat.Some? && SocketIn(c, {SocketOpen})
    ensures HeartbeatDue(c, c.heartbeat.value, now) == (c, [Frame(c.socket.value, Ping(now))])
  {
  }

  /** Opening a socket starts a single fresh heartbeat and replaces any earlier one. */
  lemma OpenedStartsHeartbeat(c: Client, sock: nat)
    requires Valid(c) && sock in c.sockets && c.sockets[sock] == SocketConnecting
    ensures var r := Opened(c, sock).0;
      r.phase == Connected && r.heartbeat.Some? && r.intervals == {r.heartbeat.value}
      && (c.heartbeat.Some? ==> r.heartbeat != c.heartbeat)
  {
  }

  /** `disconnect` does not stop reconnection: once the closing socket's close event
      arrives a reconnect is scheduled, and when it fires the client connects a new socket. */
  lemma DisconnectStillReconnects(c: Client, code: int, reason: string)
    requires Valid(c) && SocketIn(c, {SocketOpen})
    ensures var sock := c.socket.value;
      var d := Disconnect(c).0;
      var e := Closed(d, sock, code, reason).0;
      d.socket.None? && d.sockets[sock] == SocketClosing
      && e.reconnect.Some?
      && var f := ReconnectDue(e, e.reconnect.value).0;
      f.socket.Some? && f.socket.value != sock && f.sockets[f.socket.value] == SocketConnecting
      && f.phase == Connecting
  {
  }

  /** The close event of a socket the client has already replaced still runs `cleanup`: after
      disconnect, connect and the new socket opening, the old socket's close leaves the client
      reporting `disconnected` with no heartbeat while its current socket is open, and the
      reconnect it schedules then finds that socket open and does nothing. */
  lemma StaleCloseStopsHeartbeat(c: Client, code: int, reason: string)
    requires Valid(c) && SocketIn(c, {SocketOpen})
    ensures var prev := c.socket.value;
      var d := Disconnect(c).0;
      var n := Connect(d).0;
      var o := Opened(n, n.socket.value).0;
      var x := Closed(o, prev, code, reason).0;
      var y := ReconnectDue(x, x.reconnect.value).0;
      n.socket.value != prev
      && x.phase == Disconnected && x.heartbeat.None? && SocketIn(x, {SocketOpen})
      && y.phase == Disconnected && y.heartbeat.None? && y.intervals == {} && SocketIn(y, {SocketOpen})
  {
  }
}

=== FILE: settle.dfy ===
/** How a win moves points (ws.py:831-889): on a self-drawn win every other seated player pays
    the winner; on a discard win the discarder alone pays. */
module Settle {
  import opened Game
  import opened Claims

  /** `scores[p] = scores.get(p, 0) + amount`. */
  function Credit(scores: map<ClientId, int>, p: ClientId, amount: int): map<ClientId, int> {
    scores[p := ScoreOf(scores, p) + amount]
  }

  /** The self-win loop: for each seated player other than the winner, that player pays
      `amount` and the winner receives it. */
  function PayAll(scores: map<ClientId, int>, order: seq<ClientId>, winner: ClientId, amount: int): map<ClientId, int>
    decreases |order|
  {
    if order == [] then scores
    else
      var s := if order[0] != winner then Credit(Credit(scores, order[0], -amount), winner, amount) else scores;
      PayAll(s, order[1..], winner, amount)
  }

  /** The discard win: the winner receives `amount`, then the discarder pays it. */
  function PayDiscard(scores: map<ClientId, int>, winner: ClientId, from: ClientId, amount: int): map<ClientId, int> {
    Credit(Credit(scores, winner, amount), from, -amount)
  }

  /** The sum of the scores of the listed players. */
  function Total(scores: map<ClientId, int>, ids: seq<ClientId>): int {
    if ids == [] then 0 else ScoreOf(scores, ids[0]) + Total(scores, ids[1..])
  }

  /** A credit changes the total of a list of distinct players by its amount if the player is
      listed and not at all otherwise. */
  lemma {:induction false} CreditTotal(scores: map<ClientId, int>, ids: seq<ClientId>, p: ClientId, amount: int)
    requires Distinct(ids)
    ensures Total(Credit(scores, p, amount), ids) == Total(scores, ids) + (if p in ids then amount else 0)
  {
    if ids != [] {
      DistinctTail(ids);
      CreditTotal(scores, ids[1..], p, amount);
    }
  }

  /** A self-win settlement is zero-sum over any list of distinct players that includes the
      winner and every seated player. */
  lemma {:induction false} PayAllZeroSum(scores: map<ClientId, int>, order: seq<ClientId>, winner: ClientId, amount: int, ids: seq<ClientId>)
    requires Distinct(ids) && winner in ids && forall q :: q in order ==> q in ids
    ensures Total(PayAll(scores, order, winner, amount), ids) == Total(scores, ids)
    decreases |order|
  {
    if order != [] {
      var s := if order[0] != winner then Credit(Credit(scores, order[0], -amount), winner, amount) else scores;
      if order[0] != winner {
        CreditTotal(scores, ids, order[0], -amount);
        CreditTotal(Credit(scores, order[0], -amount), ids, winner, amount);
      }
      PayAllZeroSum(s, order[1..], winner, amount, ids);
    }
  }

  /** So is a discard-win settlement, whoever the two players are. */
  lemma PayDiscardZeroSum(scores: map<ClientId, int>, winner: ClientId, from: ClientId, amount: int, ids: seq<ClientId>)
    requires Distinct(ids) && winner in ids && from in ids
    ensures Total(PayDiscard(scores, winner, from, amount), ids) == Total(scores, ids)
  {
    CreditTotal(scores, ids, winner, amount);
    CreditTotal(Credit(scores, winner, amount), ids, from, -amount);
  }

  /** With distinct seats, each other seated player pays exactly `amount`, the winner gains it
      once per payer, and nobody else is touched. */
  lemma {:induction false} PayAllShares(scores: map<ClientId, int>, order: seq<ClientId>, winner: ClientId, amount: int)
    requires Distinct(order)
    ensures var r := PayAll(scores, order, winner, amount);
      var payers := |order| - (if winner in order then 1 else 0);
      ScoreOf(r, winner) == ScoreOf(scores, winner) + amount * payers
      && forall q :: q != winner ==> ScoreOf(r, q) == ScoreOf(scores, q) - (if q in order then amount else 0)
    decreases |order|
  {
    if order != [] {
      DistinctTail(order);
      var s := if order[0] != winner then Credit(Credit(scores, order[0], -amount), winner, amount) else scores;
      PayAllShares(s, order[1..], winner, amount);
      var k := |order[1..]| - (if winner in order[1..] then 1 else 0);
      if order[0] != winner {
        assert amount * (k + 1) == amount * k + amount;
      }
    }
  }

  /** The discarder loses and the winner gains exactly `amount`, and nobody else is touched. */
  lemma PayDiscardShares(scores: map<ClientId, int>, winner: ClientId, from: ClientId, amount: int)
    requires winner != from
    ensures var r := PayDiscard(scores, winner, from, amount);
      ScoreOf(r, winner) == ScoreOf(scores, winner) + amount
      && ScoreOf(r, from) == ScoreOf(scores, from) - amount
      && forall q :: q != winner && q != from ==> ScoreOf(r, q) == ScoreOf(scores, q)
  {
  }
}

=== FILE: tiles.dfy ===
/**
 * The tile vocabulary of the rules engine (backend/app/ws.py): three suits of
 * ranks 1..9, four winds, three dragons and eight flowers, their two-letter
 * wire codes ("B1", "WE", "DR", "F3"), and the two orders the engine uses:
 * the display order of `tile_sort_key` and Python's string order of the codes,
 * which `can_form_melds_recursive` uses to pick its first tile.
 */
module Tiles {
  import opened Wrappers

  /** B = bamboo, C = characters, D = dots. */
  datatype Suit = Bamboo | Characters | Dots
  datatype Wind = East | South | West | North
  datatype Dragon = Red | Green | White

  type Rank = n: int | 1 <= n <= 9 witness 1
  type FlowerNo = n: int | 1 <= n <= 8 witness 1

  datatype Tile =
    | Suited(suit: Suit, rank: Rank)
    | WindTile(wind: Wind)
    | DragonTile(dragon: Dragon)
    | Flower(no: FlowerNo)

  /** Number of distinct tile kinds: 27 suited, 3 dragons, 8 flowers, 4 winds. */
  const TileKinds: nat := 42

  function SuitLetter(s: Suit): char {
    match s
    case Bamboo => 'B'
    case Characters => 'C'
    case Dots => 'D'
  }

  function DigitChar(n: int): (c: char)
    requires 0 <= n <= 9
    ensures '0' <= c <= '9'
  {
    (48 + n) as char
  }

  /** The wire code of a tile, as built by `build_wall` and the SUITS/WINDS/DRAGONS/SEASONS tables. */
  function Code(t: Tile): (s: string)
    ensures |s| == 2
  {
    match t
    case Suited(su, n) => [SuitLetter(su), DigitChar(n)]
    case WindTile(w) =>
      (match w case East => "WE" case South => "WS" case West => "WW" case North => "WN")
    case DragonTile(d) =>
      (match d case Red => "DR" case Green => "DG" case White => "DW")
    case Flower(k) => ['F', DigitChar(k)]
  }

  /** Reads a wire code back; any string that is not exactly a tile's code is rejected. */
  function ParseTile(s: string): (r: Option<Tile>)
    ensures r.Some? ==> Code(r.value) == s
  {
    if |s| != 2 then None
    else
      var c, d := s[0], s[1];
      if (c == 'B' || c == 'C' || c == 'D') && '1' <= d <= '9' then
        var su := if c == 'B' then Bamboo else if c == 'C' then Characters else Dots;
        Some(Suited(su, d as int - 48))
      else if c == 'W' && d == 'E' then Some(WindTile(East))
      else if c == 'W' && d == 'S' then Some(WindTile(South))
      else if c == 'W' && d == 'W' then Some(WindTile(West))
      else if c == 'W' && d == 'N' then Some(WindTile(North))
      else if c == 'D' && d == 'R' then Some(DragonTile(Red))
      else if c == 'D' && d == 'G' then Some(DragonTile(Green))
      else if c == 'D' && d == 'W' then Some(DragonTile(White))
      else if c == 'F' && '1' <= d <= '8' then Some(Flower(d as int - 48))
      else None
  }

  /** Every tile's code parses back to that tile. */
  lemma ParseCode(t: Tile)
    ensures ParseTile(Code(t)) == Some(t)
  {
  }

  /** Distinct tiles have distinct codes, so comparing codes is comparing tiles. */
  lemma CodeInjective(a: Tile, b: Tile)
    ensures Code(a) == Code(b) <==> a == b
  {
    ParseCode(a);
    ParseCode(b);
  }

  /** Two tile multisets with the same count of every tile are equal. */
  lemma MultisetExt(a: multiset<Tile>, b: multiset<Tile>)
    requires forall x :: a[x] == b[x]
    ensures a == b
  {
  }

  /** `is_bonus_tile` (ws.py:591-597): the eight flowers and the three dragons. */
  predicate IsBonus(t: Tile) {
    t.Flower? || t.DragonTile?
  }

  /** `is_honor` (ws.py:144-145): winds and dragons. */
  predicate IsHonor(t: Tile) {
    t.WindTile? || t.DragonTile?
  }

  /** First letter of the code; dragons share 'D' with the dots suit. */
  function Letter(t: Tile): char {
    Code(t)[0]
  }

  /** `t[0] in SUITS`: true for suited tiles and, through the shared 'D', for dragons. */
  predicate HasSuitLetter(t: Tile)
    ensures HasSuitLetter(t) <==> t.Suited? || t.DragonTile?
  {
    var c := Letter(t);
    c == 'B' || c == 'C' || c == 'D'
  }

  // ---------------------------------------------------------------------------
  // Display order: tile_sort_key (ws.py:121-135)
  // ---------------------------------------------------------------------------

  function SuitIndex(s: Suit): nat {
    match s case Bamboo => 0 case Characters => 1 case Dots => 2
  }

  function WindIndex(w: Wind): nat {
    match w case East => 0 case South => 1 case West => 2 case North => 3
  }

  function DragonIndex(d: Dragon): nat {
    match d case Red => 0 case Green => 1 case White => 2
  }

  /** (group, suit index, rank): suited 0, winds 1, dragons 2, flowers 3. */
  function SortKey(t: Tile): (int, int, int) {
    match t
    case Suited(s, n) => (0, SuitIndex(s) as int, n as int)
    case WindTile(w) => (1, 0, WindIndex(w) as int)
    case DragonTile(d) => (2, 0, DragonIndex(d) as int)
    case Flower(k) => (3, 0, k as int - 1)
  }

  predicate KeyLess(a: (int, int, int), b: (int, int, int)) {
    a.0 < b.0 || (a.0 == b.0 && (a.1 < b.1 || (a.1 == b.1 && a.2 < b.2)))
  }

  /** The key flattened to one number: group * 100 + suit index * 10 + rank. */
  function SortRank(t: Tile): nat {
    match t
    case Suited(s, n) => SuitIndex(s) * 10 + n
    case WindTile(w) => 100 + WindIndex(w)
    case DragonTile(d) => 200 + DragonIndex(d)
    case Flower(k) => 300 + k - 1
  }

  /** Comparing flattened keys is comparing `tile_sort_key` tuples, and no two tiles share a key. */
  lemma SortRankIsKeyOrder(a: Tile, b: Tile)
    ensures KeyLess(SortKey(a), SortKey(b)) <==> SortRank(a) < SortRank(b)
    ensures SortRank(a) == SortRank(b) <==> a == b
  {
  }

  /** `a` may precede `b` in a hand sorted by `tile_sort_key`. */
  predicate TileLe(a: Tile, b: Tile) {
    SortRank(a) <= SortRank(b)
  }

  // ---------------------------------------------------------------------------
  // String order of the codes: sorted(counts.keys()) in ws.py:368
  // ---------------------------------------------------------------------------

  /** Python's `<` on strings: lexicographic by code point. */
  predicate StrLess(a: string, b: string)
    decreases |a|
  {
    if |a| == 0 then |b| > 0
    else if |b| == 0 then false
    else a[0] < b[0] || (a[0] == b[0] && StrLess(a[1..], b[1..]))
  }

  /** Position of a tile's code among all 42 codes in string order:
      B1..B9, C1..C9, D1..D9, DG, DR, DW, F1..F8, WE, WN, WS, WW. */
  function CodeRank(t: Tile): (k: nat)
    ensures k < TileKinds
  {
    match t
    case Suited(s, n) => 9 * SuitIndex(s) + n - 1
    case DragonTile(d) => (match d case Green => 27 case Red => 28 case White => 29)
    case Flower(f) => 29 + f
    case WindTile(w) => (match w case East => 38 case North => 39 case South => 40 case West => 41)
  }

  /** The tile whose code is the `k`-th in string order. */
  function TileAt(k: nat): (t: Tile)
    requires k < TileKinds
    ensures CodeRank(t) == k
  {
    if k < 9 then Suited(Bamboo, k + 1)
    else if k < 18 then Suited(Characters, k - 8)
    else if k < 27 then Suited(Dots, k - 17)
    else if k == 27 then DragonTile(Green)
    else if k == 28 then DragonTile(Red)
    else if k == 29 then DragonTile(White)
    else if k < 38 then Flower(k - 29)
    else if k == 38 then WindTile(East)
    else if k == 39 then WindTile(North)
    else if k == 40 then WindTile(South)
    else WindTile(West)
  }

  /** Every tile is enumerated exactly once by TileAt. */
  lemma TileAtCodeRank(t: Tile)
    ensures TileAt(CodeRank(t)) == t
  {
  }

  /** CodeRank orders tiles exactly as Python orders their code strings. */
  lemma CodeRankIsStringOrder(a: Tile, b: Tile)
    ensures CodeRank(a) < CodeRank(b) <==> StrLess(Code(a), Code(b))
  {
    var ca, cb := Code(a), Code(b);
    assert StrLess(ca[2..], cb[2..]) == false;
    assert StrLess(ca, cb) <==> ca[0] < cb[0] || (ca[0] == cb[0] && ca[1] < cb[1]);
  }
}

=== FILE: tilesort.dfy ===
/**
 * `hand.sort(key=tile_sort_key)` (ws.py:523, 645, 936, 945, 959, 963), written
 * as an insertion sort over any key. Because the tile key separates all tiles,
 * the sorted hand is the unique ordered arrangement of the hand's multiset.
 */
module TileSort {
  import opened Tiles

  /** `s` is in ascending order of `key`. */
  predicate SortedBy<T>(key: T -> nat, s: seq<T>) {
    forall i, j :: 0 <= i < j < |s| ==> key(s[i]) <= key(s[j])
  }

  function InsertBy<T>(key: T -> nat, t: T, s: seq<T>): (r: seq<T>)
    requires SortedBy(key, s)
    ensures SortedBy(key, r)
    ensures multiset(r) == multiset(s) + multiset{t}
    ensures |r| == |s| + 1
  {
    if s == [] then [t]
    else if key(t) <= key(s[0]) then
      [t] + s
    else
      var rest := InsertBy(key, t, s[1..]);
      assert s == [s[0]] + s[1..];
      forall j | 0 <= j < |rest| ensures key(s[0]) <= key(rest[j]) {
        assert rest[j] in multiset(rest);
        if rest[j] != t {
          assert rest[j] in multiset(s[1..]);
          var k :| 0 <= k < |s[1..]| && s[1..][k] == rest[j];
          assert s[k + 1] == rest[j];
        }
      }
      [s[0]] + rest
  }

  /** Python's stable sort by key: the result is ordered and is a permutation of the input. */
  function SortBy<T>(key: T -> nat, s: seq<T>): (r: seq<T>)
    ensures SortedBy(key, r)
    ensures multiset(r) == multiset(s)
    ensures |r| == |s|
  {
    if s == [] then []
    else
      assert s == [s[0]] + s[1..];
      InsertBy(key, s[0], SortBy(key, s[1..]))
  }

  /** With a key that tells all elements apart, two ordered arrangements of the same elements agree. */
  lemma {:induction false} SortedUnique<T>(key: T -> nat, a: seq<T>, b: seq<T>)
    requires forall x, y :: key(x) == key(y) ==> x == y
    requires SortedBy(key, a) && SortedBy(key, b)
    requires multiset(a) == multiset(b)
    ensures a == b
    decreases |a|
  {
    assert |a| == |multiset(a)| == |b|;
    if a != [] {
      HeadsAgree(key, a, b);
      TailsAgree(a, b);
      SortedUnique(key, a[1..], b[1..]);
      assert a == [a[0]] + a[1..] && b == [b[0]] + b[1..];
    }
  }

  lemma TailsAgree<T>(a: seq<T>, b: seq<T>)
    requires a != [] && b != [] && a[0] == b[0]
    requires multiset(a) == multiset(b)
    ensures multiset(a[1..]) == multiset(b[1..])
  {
    assert a == [a[0]] + a[1..] && b == [b[0]] + b[1..];
    assert multiset(a) == multiset{a[0]} + multiset(a[1..]);
    assert multiset(b) == multiset{a[0]} + multiset(b[1..]);
    assert forall x :: multiset(a[1..])[x] == multiset(a)[x] - multiset{a[0]}[x] == multiset(b[1..])[x];
  }

  lemma HeadsAgree<T>(key: T -> nat, a: seq<T>, b: seq<T>)
    requires forall x, y :: key(x) == key(y) ==> x == y
    requires SortedBy(key, a) && SortedBy(key, b)
    requires multiset(a) == multiset(b)
    requires a != []
    ensures b != [] && a[0] == b[0]
  {
    assert a[0] in multiset(b) && b[0] in multiset(a);
    var i :| 0 <= i < |b| && b[i] == a[0];
    var j :| 0 <= j < |a| && a[j] == b[0];
    assert key(b[0]) <= key(a[0]) by { if i > 0 { assert key(b[0]) <= key(b[i]); } }
    assert key(a[0]) <= key(b[0]) by { if j > 0 { assert key(a[0]) <= key(a[j]); } }
  }

  /** A hand in `tile_sort_key` order. */
  predicate Sorted(s: seq<Tile>) {
    SortedBy(SortRank, s)
  }

  /** Sorts a hand by `tile_sort_key`. */
  function SortTiles(s: seq<Tile>): (r: seq<Tile>)
    ensures Sorted(r)
    ensures multiset(r) == multiset(s)
    ensures |r| == |s|
  {
    SortBy(SortRank, s)
  }

  /** Sorting forgets arrival order: hands with the same tiles sort to the same sequence. */
  lemma SortTilesCanonical(a: seq<Tile>, b: seq<Tile>)
    requires multiset(a) == multiset(b)
    ensures SortTiles(a) == SortTiles(b)
  {
    forall x: Tile, y: Tile | SortRank(x) == SortRank(y) ensures x == y {
      SortRankIsKeyOrder(x, y);
    }
    SortedUnique(SortRank, SortTiles(a), SortTiles(b));
  }
}

=== FILE: tiletext.dfy ===
/** `formatTileZh` (frontend/src/i18n.ts:23-47): the Chinese reading of a tile code, with any
    string the function does not recognise shown as it is. */
module TileText {
  import opened Tiles
  import opened Wire

  /** `numZh`: the numerals 零 to 九. */
  const Numerals: seq<string> := ["零", "一", "二", "三", "四", "五", "六", "七", "八", "九"]

  /** `/^\d+$/`: one or more ASCII digits. */
  predicate AllDigits(s: string) {
    s != [] && forall i :: 0 <= i < |s| ==> IsDigit(s[i])
  }

  /** `Math.max(1, Math.min(9, n))`. */
  function ClampRank(n: int): (r: int)
    ensures 1 <= r <= 9
    ensures 1 <= n <= 9 ==> r == n
  {
    if n < 1 then 1 else if n > 9 then 9 else n
  }

  function SuitWord(c: char): string {
    if c == 'B' then "条" else if c == 'C' then "万" else "筒"
  }

  /** `formatTileZh`. */
  function FormatTileZh(tile: string): string {
    if tile == "" then ""
    else if (tile[0] == 'B' || tile[0] == 'C' || tile[0] == 'D') && AllDigits(tile[1..]) then
      Numerals[ClampRank(DigitsValue(tile[1..]))] + SuitWord(tile[0])
    else if tile == "F1" then "春"
    else if tile == "F2" then "夏"
    else if tile == "F3" then "秋"
    else if tile == "F4" then "冬"
    else if tile == "WE" then "东风"
    else if tile == "WS" then "南风"
    else if tile == "WW" then "西风"
    else if tile == "WN" then "北风"
    else if tile == "DR" then "红中"
    else if tile == "DG" then "发财"
    else if tile == "DW" then "白板"
    else tile
  }

  /** The reading of each tile, written per kind: a suited tile by numeral and suit, the
      winds and dragons by name, the first four flowers by season, the other four by their
      code. */
  function TileNameZh(t: Tile): string {
    match t
    case Suited(su, n) =>
      Numerals[n] + (match su case Bamboo => "条" case Characters => "万" case Dots => "筒")
    case WindTile(w) =>
      (match w case East => "东风" case South => "南风" case West => "西风" case North => "北风")
    case DragonTile(d) =>
      (match d case Red => "红中" case Green => "发财" case White => "白板")
    case Flower(k) =>
      if k == 1 then "春" else if k == 2 then "夏" else if k == 3 then "秋" else if k == 4 then "冬"
      else Code(t)
  }

  /** Formatting a tile's code gives its reading. */
  lemma FormatCode(t: Tile)
    ensures FormatTileZh(Code(t)) == TileNameZh(t)
  {
    var s := Code(t);
    if t.Suited? {
      assert s[1..] == [s[1]];
      assert DigitsValue(s[1..]) == DigitsValue([]) * 10 + (s[1] as int - 48);
    } else if t.DragonTile? {
      assert s[1..][0] == s[1] && !IsDigit(s[1]);
    }
  }

  /** The second character of a two-character reading tells the kind of tile. */
  lemma NameShape(t: Tile)
    ensures var s := TileNameZh(t);
      (t.Suited? ==> |s| == 2 && s[0] == Numerals[t.rank][0] && s[1] in {'条', '万', '筒'})
      && (t.WindTile? ==> |s| == 2 && s[1] == '风')
      && (t.DragonTile? ==> |s| == 2 && s[1] in {'中', '财', '板'})
      && (t.Flower? && t.no <= 4 ==> |s| == 1)
      && (t.Flower? && t.no > 4 ==> s == Code(t))
  {
  }

  /** Distinct tiles read differently, so the reading identifies the tile. */
  lemma TileNameInjective(a: Tile, b: Tile)
    requires TileNameZh(a) == TileNameZh(b)
    ensures a == b
  {
    NameShape(a);
    NameShape(b);
    if a.Flower? && a.no > 4 {
      CodeInjective(a, b);
    } else if a.Suited? {
      assert b.Suited?;
      assert Numerals[a.rank][0] == Numerals[b.rank][0];
    }
  }

  /** Only the empty string formats to the empty string. */
  lemma FormatEmpty(tile: string)
    ensures FormatTileZh(tile) == "" <==> tile == ""
  {
  }

  /** The suit whose letter is `c`, for the three letters `formatTileZh` reads as suits. */
  function SuitOf(c: char): Suit {
    if c == 'B' then Bamboo else if c == 'C' then Characters else Dots
  }

  /** A suit letter followed by digits always reads as a rank of that suit, the number clamped
      into 1..9, whatever the digits. */
  lemma FormatClamps(tile: string)
    requires tile != "" && tile[0] in {'B', 'C', 'D'} && AllDigits(tile[1..])
    ensures FormatTileZh(tile) == TileNameZh(Suited(SuitOf(tile[0]), ClampRank(DigitsValue(tile[1..]))))
  {
  }

  /** Three instances of the clamp: "C0" reads 一万, "B12" reads 九条 and "D007" reads 七筒. */
  lemma FormatClampExamples()
    ensures FormatTileZh("C0") == "一万"
    ensures FormatTileZh("B12") == "九条"
    ensures FormatTileZh("D007") == "七筒"
  {
    assert "C0"[1..] == "0";
    assert "B12"[1..] == "12" && "12"[..1] == "1";
    assert "D007"[1..] == "007" && "007"[..2] == "00" && "00"[..1] == "0";
  }

  /** A string that is neither a suited code nor one of the named codes comes back unchanged:
      the flowers F5 to F8 and any other text. */
  lemma FormatUnknown(tile: string)
    requires tile != "" && !((tile[0] == 'B' || tile[0] == 'C' || tile[0] == 'D') && AllDigits(tile[1..]))
    requires tile !in {"F1", "F2", "F3", "F4", "WE", "WS", "WW", "WN", "DR", "DG", "DW"}
    ensures FormatTileZh(tile) == tile
  {
  }
}

=== FILE: turns.dfy ===
/** A turn: `can_discard` and `discard` (ws.py:618-654), the reaction window a discard opens
    (`start_reactions`, ws.py:656-687), and the ting declaration handlers (main.py:74-91). */
module Turns {
  import opened Wrappers
  import opened Tiles
  import opened TileSort
  import opened Hands
  import opened Game
  import opened Actions
  import opened Claims
  import opened Resolve

  /** `can_discard`: a started game, the player's seat is current, and a discard is expected. */
  predicate CanDiscard(g: Game, p: ClientId) {
    g.started && Current(g) == Some(p) && g.expectsDiscard
  }

  /** The discard laid down: one copy leaves the hand, the hand is re-sorted, the tile goes on
      the player's pile, and a pending ting declaration is committed. */
  function PlaceDiscard(t: Table, p: ClientId, tile: Tile): Table
    requires tile in HandOf(t, p)
  {
    WithDiscard(t, p, SortTiles(RemoveFirst(HandOf(t, p), tile).value), tile)
  }

  /** The discarder's new hand and pile written back; a pending declaration becomes ting. */
  function WithDiscard(t: Table, p: ClientId, hand: seq<Tile>, tile: Tile): Table {
    var t1 := t.(hands := t.hands[p := hand],
                 discardPiles := t.discardPiles[p := DiscardsOf(t, p) + [tile]]);
    if TingPendingFor(t, p) then t1.(tingFlags := t1.tingFlags[p := true], tingPending := t1.tingPending[p := false])
    else t1
  }

  /** Writing back a discard touches only the discarder's hand, pile and ting flags. */
  lemma WithDiscardFrame(t: Table, p: ClientId, hand: seq<Tile>, tile: Tile)
    ensures var r := WithDiscard(t, p, hand, tile);
      (forall q :: q != p ==> HandOf(r, q) == HandOf(t, q) && DiscardsOf(r, q) == DiscardsOf(t, q))
      && r.wall == t.wall && r.bonusPiles == t.bonusPiles && r.exposedMelds == t.exposedMelds
      && r.lastDrawn == t.lastDrawn
  {
    var r := WithDiscard(t, p, hand, tile);
    forall q | q != p ensures HandOf(r, q) == HandOf(t, q) && DiscardsOf(r, q) == DiscardsOf(t, q) {
    }
  }

  /** Some other seated player is offered something besides a pass. */
  predicate HasReaction(g: Game, from: ClientId) {
    exists q :: q in g.playerOrder && q != from && exists a :: a in ComputeActionsFor(g, q) && a != Pass
  }

  /** `start_reactions`: the window opens with no claims; if nobody but the discarder could
      react, the turn passes on at once (which also closes any self-draw window the next
      player's draw would have opened); otherwise the deadline is five seconds away. */
  function StartReactions(g: Game, now: nat): Game {
    var w := g.window.(active := true, actions := map[], claims := []);
    var g1 := g.(expectsDiscard := false, window := w);
    if w.lastDiscard.None? then g1
    else if HasReaction(g1, w.lastDiscard.value.0) then g1.(window := w.(deadline := now + ReactionWindowMs))
    else PassTurn(g1, w.lastDiscard.value.0, now)
  }

  /** `discard`: whether the discard was accepted, and the game after it. A player in ting
      must discard the tile just drawn, whose record is then cleared even if the discard
      fails afterwards; a pending ting declaration requires the hand left to be waiting on
      some tile. */
  function Discard(g: Game, p: ClientId, tile: Tile, now: nat): (bool, Game) {
    var t := g.table;
    if !CanDiscard(g, p) then (false, g)
    else if InTing(t, p) && LastDrawnOf(t, p) != Some(tile) then (false, g)
    else
      var g1 := if InTing(t, p) then g.(table := t.(lastDrawn := t.lastDrawn[p := None])) else g;
      var hand := HandOf(t, p);
      if tile !in hand then (false, g1)
      else if TingPendingFor(t, p) && WinningTilesFor(RemoveFirst(hand, tile).value, ExposedOf(t, p)) == [] then
        (false, g1)
      else (true, StartReactions(Discarded(g, p, tile), now))
  }

  /** The hand left after discarding `tile` is waiting on some tile. */
  predicate LeavesTenpai(t: Table, p: ClientId, tile: Tile)
    requires tile in HandOf(t, p)
  {
    WinningTilesFor(RemoveFirst(HandOf(t, p), tile).value, ExposedOf(t, p)) != []
  }

  /** A discard is accepted exactly on the player's own turn, with the tile in hand, the tile
      just drawn when in ting, and a hand left waiting when a ting declaration is pending. */
  lemma DiscardAccepted(g: Game, p: ClientId, tile: Tile, now: nat)
    ensures Discard(g, p, tile, now).0 <==>
      CanDiscard(g, p) && tile in HandOf(g.table, p)
      && (InTing(g.table, p) ==> LastDrawnOf(g.table, p) == Some(tile))
      && (TingPendingFor(g.table, p) ==> LeavesTenpai(g.table, p, tile))
  {
  }

  /** A refused discard changes nothing, except that a player in ting who named the tile just
      drawn loses that record. */
  lemma DiscardRefused(g: Game, p: ClientId, tile: Tile, now: nat)
    requires !Discard(g, p, tile, now).0
    ensures var r := Discard(g, p, tile, now).1;
      r == g || (InTing(g.table, p) && r == g.(table := g.table.(lastDrawn := g.table.lastDrawn[p := None])))
  {
  }

  /** Laying the discard down removes exactly one copy from the hand, which stays sorted,
      appends the tile to the player's pile, and turns a pending declaration into ting;
      nobody else's tiles change. */
  lemma PlaceDiscardEffect(t: Table, p: ClientId, tile: Tile)
    requires tile in HandOf(t, p)
    ensures var r := PlaceDiscard(t, p, tile);
      multiset(HandOf(r, p)) + multiset{tile} == multiset(HandOf(t, p))
      && Sorted(HandOf(r, p))
      && DiscardsOf(r, p) == DiscardsOf(t, p) + [tile]
      && (TingPendingFor(t, p) ==> InTing(r, p) && !TingPendingFor(r, p))
      && (!TingPendingFor(t, p) ==> InTing(r, p) == InTing(t, p) && !TingPendingFor(r, p))
  {
  }

  lemma PlaceDiscardFrame(t: Table, p: ClientId, tile: Tile)
    requires tile in HandOf(t, p)
    ensures var r := PlaceDiscard(t, p, tile);
      (forall q :: q != p ==> HandOf(r, q) == HandOf(t, q) && DiscardsOf(r, q) == DiscardsOf(t, q))
      && r.wall == t.wall && r.bonusPiles == t.bonusPiles && r.exposedMelds == t.exposedMelds
      && r.lastDrawn == t.lastDrawn
  {
    WithDiscardFrame(t, p, SortTiles(RemoveFirst(HandOf(t, p), tile).value), tile);
  }

  /** After a discard the window stays open exactly when another seated player can do more
      than pass; it then carries the discard, no claims, a deadline five seconds on, and the
      table as the discard left it. Otherwise the turn has passed on. */
  lemma StartReactionsEffect(g: Game, now: nat)
    requires g.window.lastDiscard.Some?
    ensures var r := StartReactions(g, now);
      var from := g.window.lastDiscard.value.0;
      var g1 := g.(expectsDiscard := false, window := g.window.(active := true, actions := map[], claims := []));
      (HasReaction(g1, from) ==>
         r.window.active && r.window.claims == [] && r.window.lastDiscard == g.window.lastDiscard
         && r.window.deadline == now + ReactionWindowMs && !r.expectsDiscard && r.table == g.table
         && r.turnIndex == g.turnIndex)
      && (!HasReaction(g1, from) ==> r == PassTurn(g1, from, now))
  {
  }

  /** Passing the turn never leaves a window open: a self-drawn win for the next player is
      not offered when the turn passes straight on from a discard nobody could claim. */
  lemma NoReactionClosesWindow(g: Game, now: nat)
    requires g.window.lastDiscard.Some? && g.window.lastDiscard.value.0 in g.playerOrder
    ensures var g1 := g.(expectsDiscard := false, window := g.window.(active := true, actions := map[], claims := []));
      !HasReaction(g1, g.window.lastDiscard.value.0) ==> !StartReactions(g, now).window.active && StartReactions(g, now).expectsDiscard
  {
    var g1 := g.(expectsDiscard := false, window := g.window.(active := true, actions := map[], claims := []));
    PassTurnEffect(g1, g.window.lastDiscard.value.0, now);
  }

  /** Passing the turn leaves every discard pile alone. */
  lemma PassTurnKeepsPiles(g: Game, from: ClientId, now: nat)
    ensures PassTurn(g, from, now).table.discardPiles == g.table.discardPiles
  {
    var next := NextSeat(g.playerOrder, from);
    if next.Some? {
      var g0 := g.(turnIndex := next.value);
      if g0.started && g0.playerOrder != [] && Current(g0).Some? && g0.table.wall != [] {
        DrawToFrame(g0.table, Current(g0).value);
      }
    }
  }

  /** The game an accepted discard hands to `start_reactions`. */
  function Discarded(g: Game, p: ClientId, tile: Tile): Game
    requires tile in HandOf(g.table, p)
  {
    var t := g.table;
    var g1 := if InTing(t, p) then g.(table := t.(lastDrawn := t.lastDrawn[p := None])) else g;
    g1.(table := PlaceDiscard(g1.table, p, tile), window := g1.window.(lastDiscard := Some((p, tile))))
  }

  lemma DiscardedPile(g: Game, p: ClientId, tile: Tile)
    requires tile in HandOf(g.table, p)
    ensures DiscardsOf(Discarded(g, p, tile).table, p) == DiscardsOf(g.table, p) + [tile]
  {
  }

  lemma StartReactionsKeepsPiles(g: Game, now: nat)
    ensures StartReactions(g, now).table.discardPiles == g.table.discardPiles
  {
    if g.window.lastDiscard.Some? {
      PassTurnKeepsPiles(g.(expectsDiscard := false, window := g.window.(active := true, actions := map[], claims := [])),
                         g.window.lastDiscard.value.0, now);
    }
  }

  /** An accepted discard is the current player's, goes on top of their pile, and a player in
      ting discarded exactly the tile last drawn. */
  lemma DiscardEffect(g: Game, p: ClientId, tile: Tile, now: nat)
    requires Discard(g, p, tile, now).0
    ensures var r := Discard(g, p, tile, now).1;
      Current(g) == Some(p)
      && DiscardsOf(r.table, p) == DiscardsOf(g.table, p) + [tile]
      && (InTing(g.table, p) ==> LastDrawnOf(g.table, p) == Some(tile))
  {
    DiscardedPile(g, p, tile);
    StartReactionsKeepsPiles(Discarded(g, p, tile), now);
  }

  /** The window is then open on that discard with no discard expected, or else closed with a
      discard expected of the next player. */
  lemma DiscardWindow(g: Game, p: ClientId, tile: Tile, now: nat)
    requires Discard(g, p, tile, now).0
    ensures var r := Discard(g, p, tile, now).1;
      (r.window.active ==> r.window.lastDiscard == Some((p, tile)) && !r.expectsDiscard)
      && (!r.window.active ==> r.expectsDiscard)
  {
    var g2 := Discarded(g, p, tile);
    var w1 := g2.(expectsDiscard := false, window := g2.window.(active := true, actions := map[], claims := []));
    if !HasReaction(w1, p) {
      PassTurnEffect(w1, p, now);
    }
  }

  /** A pending ting declaration commits only with a discard that leaves the hand waiting. */
  lemma PendingTingCommits(g: Game, p: ClientId, tile: Tile, now: nat)
    requires TingPendingFor(g.table, p) && Discard(g, p, tile, now).0
    ensures tile in HandOf(g.table, p) && LeavesTenpai(g.table, p, tile)
    ensures var g1 := if InTing(g.table, p) then g.(table := g.table.(lastDrawn := g.table.lastDrawn[p := None])) else g;
      InTing(PlaceDiscard(g1.table, p, tile), p) && !TingPendingFor(PlaceDiscard(g1.table, p, tile), p)
  {
    DiscardAccepted(g, p, tile, now);
  }

  // ---------------------------------------------------------------------------
  // Ting declarations
  // ---------------------------------------------------------------------------

  /** The `ting` message: only the current player of a started game, before discarding, may
      declare; the declaration stays pending until a discard commits it. */
  function DeclareTing(g: Game, p: ClientId): (r: Option<Game>) {
    if CanDiscard(g, p) then Some(g.(table := g.table.(tingPending := g.table.tingPending[p := true])))
    else None
  }

  /** The `ting_cancel` message: only a player with a pending entry (even a false one) may
      cancel. */
  function CancelTing(g: Game, p: ClientId): (r: Option<Game>) {
    if p in g.table.tingPending then Some(g.(table := g.table.(tingPending := g.table.tingPending[p := false])))
    else None
  }

  /** Declaring is allowed exactly when discarding is, and then marks only that player
      pending; cancelling withdraws it; after cancelling a declaration, the same discard is
      judged as if it had never been declared. */
  lemma DeclareThenCancel(g: Game, p: ClientId, tile: Tile, now: nat)
    ensures DeclareTing(g, p).Some? <==> CanDiscard(g, p)
    ensures DeclareTing(g, p).Some? ==>
      TingPendingFor(DeclareTing(g, p).value.table, p)
      && CancelTing(DeclareTing(g, p).value, p).Some?
      && !TingPendingFor(CancelTing(DeclareTing(g, p).value, p).value.table, p)
      && (forall q :: q != p ==> TingPendingFor(DeclareTing(g, p).value.table, q) == TingPendingFor(g.table, q))
  {
  }
}

=== FILE: view.dfy ===
/** What the page derives from the latest snapshot (frontend/src/App.tsx,
    frontend/src/components/Hand.tsx, frontend/src/components/ActionPanel.tsx): whose turn it
    is, which hand tiles can be clicked, the status line, which buttons show, the reaction
    countdown and the messages the clicks send. The snapshot is read as untyped JSON, with
    JavaScript's truthiness and `undefined` for a missing field. */
module View {
  import opened Wrappers
  import opened Wire
  import opened Session

  /** `game`: null until the first state message, then that message's payload. */
  type GameView = Option<Json>

  /** `joined` is the boolean `true`, so `joined.roomId` and `joined.name` are undefined. */
  const JoinedRoomId: Option<string> := None
  const JoinedName: Option<Json> := None

  /** `game?.players` as an array; anything else has no entries. */
  function Players(game: GameView): seq<Json> {
    var p := Get(game, "players");
    if p.Some? && p.value.JArr? then p.value.items else []
  }

  predicate YouAndTurn(p: Json) {
    Truthy(Field(p, "you")) && Truthy(Field(p, "turn"))
  }

  predicate SomeYouAndTurn(players: seq<Json>) {
    exists i :: 0 <= i < |players| && YouAndTurn(players[i])
  }

  /** `isYourTurn` (App.tsx:43). */
  predicate IsYourTurn(game: GameView) {
    Truthy(game) && SomeYouAndTurn(Players(game)) && Truthy(Get(game, "expectsDiscard"))
  }

  /** The first entry satisfying `p.you`. */
  function FirstYou(players: seq<Json>): (r: Option<Json>)
    ensures r.Some? ==> r.value in players && Truthy(Field(r.value, "you"))
    ensures r.None? ==> forall i :: 0 <= i < |players| ==> !Truthy(Field(players[i], "you"))
  {
    if players == [] then None
    else if Truthy(Field(players[0], "you")) then Some(players[0])
    else FirstYou(players[1..])
  }

  /** `you` (App.tsx:44). */
  function You(game: GameView): Option<Json> {
    FirstYou(Players(game))
  }

  /** `tingPending` (App.tsx:45). */
  predicate TingPending(game: GameView) {
    Truthy(Get(game, "yourTingPending"))
  }

  /** `tingDiscardables` (App.tsx:46): the field, or `[]` when it is null or missing. */
  function TingDiscardables(game: GameView): Json {
    var v := Get(game, "tingDiscardables");
    if v.None? || v.value == JNull then JArr([]) else v.value
  }

  /** `list.includes(t)` on an array. */
  predicate Includes(list: Json, t: Json) {
    list.JArr? && t in list.items
  }

  // ---------------------------------------------------------------------------
  // The hand (Hand.tsx)
  // ---------------------------------------------------------------------------

  /** `game?.yourHand ?? []` as an array. */
  function HandTiles(game: GameView): seq<Json> {
    var v := Get(game, "yourHand");
    if v.Some? && v.value.JArr? then v.value.items else []
  }

  /** `enabled` (Hand.tsx:20). */
  predicate TileEnabled(game: GameView, t: Json) {
    IsYourTurn(game) && (!TingPending(game) || Includes(TingDiscardables(game), t))
  }

  /** The tile's click (Hand.tsx:25): a discard of that tile, addressed to `joined.roomId`,
      when the tile is enabled. */
  function TileClick(game: GameView, t: Json): Option<Json> {
    if TileEnabled(game, t) then Some(DiscardMessage(JoinedRoomId, Some(t))) else None
  }

  /** The status line (Hand.tsx:10-16): waiting for reactions, asked to discard, or waiting
      for the named player. */
  datatype Status = AwaitingReactions | PleaseDiscard | WaitingFor(who: Json)

  /** `game?.players?.[game?.turn_index]?.name`. */
  function CurrentPlayerName(game: GameView): Option<Json> {
    var players := Get(game, "players");
    var index := Get(game, "turn_index");
    if players.Some? && players.value.JArr? && index.Some? && index.value.JNum?
       && 0 <= index.value.n < |players.value.items|
    then Field(players.value.items[index.value.n], "name")
    else None
  }

  /** `?? '对家'`. */
  const Opponent: string := "对家"

  function StatusLine(game: GameView): Status {
    if Truthy(Get(game, "reactionActive")) then AwaitingReactions
    else if IsYourTurn(game) then PleaseDiscard
    else
      var name := CurrentPlayerName(game);
      WaitingFor(if name.None? || name.value == JNull then JStr(Opponent) else name.value)
  }

  // ---------------------------------------------------------------------------
  // The action panel (ActionPanel.tsx)
  // ---------------------------------------------------------------------------

  /** The dice area (ActionPanel.tsx:7-18): nothing, the roll button, or a wait for the
      roller's name. */
  datatype DiceView = NoDice | RollButton | WaitingForRoller(name: Option<Json>)

  function DiceSection(game: GameView): DiceView {
    if !Truthy(Get(game, "started")) || !Truthy(Get(game, "waitingForDice")) then NoDice
    else
      var name := Get(Get(game, "diceRoller"), "name");
      if name == JoinedName then RollButton else WaitingForRoller(name)
  }

  /** The start button (ActionPanel.tsx:23): no game yet, or a game count of exactly 0. */
  predicate StartShown(game: GameView) {
    !Truthy(game) || Get(game, "gameCount") == Some(JNum(0))
  }

  /** The ting button (ActionPanel.tsx:26). */
  predicate TingShown(game: GameView) {
    IsYourTurn(game) && !Truthy(Get(You(game), "ting")) && Truthy(Get(game, "canTing")) && !TingPending(game)
  }

  /** The cancel button (ActionPanel.tsx:29). */
  predicate CancelShown(game: GameView) {
    IsYourTurn(game) && TingPending(game)
  }

  /** The offered actions as an array. */
  function YourActions(game: GameView): seq<Json> {
    var v := Get(game, "yourActions");
    if v.Some? && v.value.JArr? then v.value.items else []
  }

  /** The action section (ActionPanel.tsx:35-43) shows while a reaction window is open and
      actions are offered; it holds one button per action. */
  predicate ActionsShown(game: GameView) {
    Truthy(Get(game, "reactionActive")) && |YourActions(game)| > 0
  }

  function ActionButtons(game: GameView): seq<Json> {
    if ActionsShown(game) then YourActions(game) else []
  }

  /** An action button's click: a claim carrying the action's id. */
  function ActionClick(a: Json): Json {
    ClaimMessage(JoinedRoomId, Field(a, "id"))
  }

  /** `Math.max(0, Math.ceil((reactionDeadlineTs * 1000 - nowTs) / 1000))`, with `deadlineMs`
      the deadline already scaled to milliseconds (the model's snapshot carries it so); `/` on
      `int` rounds down, so the ceiling is the negated quotient of the negated numerator. */
  function Countdown(deadlineMs: int, now: int): nat {
    var secs := -((now - deadlineMs) / 1000);
    if secs < 0 then 0 else secs
  }

  /** The countdown appears inside the action section when the deadline is a number. The
      model's snapshot holds the deadline in milliseconds, which is where the client's
      `* 1000` of the source's seconds lands. */
  function CountdownShown(game: GameView, now: int): Option<nat> {
    var d := Get(game, "reactionDeadlineTs");
    if ActionsShown(game) && d.Some? && d.value.JNum? then Some(Countdown(d.value.n, now)) else None
  }

  // ---------------------------------------------------------------------------
  // Joining (App.tsx:39-41)
  // ---------------------------------------------------------------------------

  function TrimOr(input: string, fallback: string): string {
    var t := Strip(JavaScriptBlanks, input);
    if t == "" then fallback else t
  }

  /** `joinRoom`: the trimmed room id and name, or `lobby` and `guest` when blank. */
  function JoinRoomMessage(roomInput: string, nameInput: string): Json {
    JoinMessage(Some(TrimOr(roomInput, "lobby")), Some(TrimOr(nameInput, "guest")))
  }

  // ---------------------------------------------------------------------------
  // Properties
  // ---------------------------------------------------------------------------

  /** With no snapshot it is never your turn. */
  lemma NoGameNoTurn()
    ensures !IsYourTurn(None) && !IsYourTurn(Some(JNull))
  {
  }

  /** Some player must be both "you" and "turn", and a falsy `expectsDiscard` rules the turn
      out whatever the players say. */
  lemma IsYourTurnNeeds(game: GameView)
    ensures IsYourTurn(game) ==> exists p :: p in Players(game) && YouAndTurn(p)
    ensures !Truthy(Get(game, "expectsDiscard")) ==> !IsYourTurn(game)
  {
    if IsYourTurn(game) {
      var i :| 0 <= i < |Players(game)| && YouAndTurn(Players(game)[i]);
      assert Players(game)[i] in Players(game);
    }
  }

  /** Missing fields give no pending ting and an empty list of ting discards. */
  lemma TingDefaults(game: GameView)
    requires Get(game, "yourTingPending").None? && Get(game, "tingDiscardables").None?
    ensures !TingPending(game) && TingDiscardables(game) == JArr([])
  {
  }

  /** Off turn no tile is enabled; on turn without a pending ting every tile is; with a
      pending ting exactly the listed ones are. */
  lemma TileEnabledCases(game: GameView, t: Json)
    ensures !IsYourTurn(game) ==> !TileEnabled(game, t)
    ensures IsYourTurn(game) && !TingPending(game) ==> TileEnabled(game, t)
    ensures IsYourTurn(game) && TingPending(game) ==>
      (TileEnabled(game, t) <==> TingDiscardables(game).JArr? && t in TingDiscardables(game).items)
  {
  }

  /** A click sends something exactly when the tile is enabled, and then a discard of that
      very tile with no room id. */
  lemma TileClickSpec(game: GameView, t: Json)
    ensures TileClick(game, t).Some? <==> TileEnabled(game, t)
    ensures TileClick(game, t).Some? ==>
      var m := TileClick(game, t).value;
      Field(m, "type") == Some(JStr("discard"))
      && Get(Field(m, "payload"), "tile") == Some(t)
      && Get(Field(m, "payload"), "roomId") == None
  {
  }

  /** The reaction message outranks the turn prompt, which outranks the wait. */
  lemma StatusPriority(game: GameView)
    ensures Truthy(Get(game, "reactionActive")) <==> StatusLine(game) == AwaitingReactions
    ensures StatusLine(game) == PleaseDiscard <==> !Truthy(Get(game, "reactionActive")) && IsYourTurn(game)
    ensures StatusLine(game).WaitingFor? <==> !Truthy(Get(game, "reactionActive")) && !IsYourTurn(game)
  {
  }

  /** A snapshot without a `turn_index` key always waits for "对家". */
  lemma StatusWithoutTurnIndex(game: GameView)
    requires Get(game, "turn_index").None?
    requires !Truthy(Get(game, "reactionActive")) && !IsYourTurn(game)
    ensures StatusLine(game) == WaitingFor(JStr(Opponent))
  {
  }

  /** The ting and cancel buttons never show together; cancel shows exactly on your turn with a
      pending ting. */
  lemma TingButtonsExclusive(game: GameView)
    ensures !(TingShown(game) && CancelShown(game))
    ensures TingShown(game) ==> IsYourTurn(game) && Truthy(Get(game, "canTing"))
  {
  }

  /** The start button shows exactly before any snapshot or while the game count is 0. */
  lemma StartShownCases(game: GameView)
    ensures game.None? ==> StartShown(game)
    ensures Truthy(game) ==> (StartShown(game) <==> Get(game, "gameCount") == Some(JNum(0)))
  {
  }

  /** Action buttons need an open reaction window and at least one offered action; each sends
      a claim with exactly that action's id. */
  lemma ActionButtonsSpec(game: GameView, a: Json)
    ensures ActionButtons(game) != [] ==> Truthy(Get(game, "reactionActive"))
    ensures ActionButtons(game) == YourActions(game) || ActionButtons(game) == []
    ensures var m := ActionClick(a);
      Field(m, "type") == Some(JStr("claim"))
      && Get(Get(Field(m, "payload"), "claim"), "id") == Field(a, "id")
      && Get(Field(m, "payload"), "roomId") == None
  {
  }

  /** The countdown needs the action section and a numeric deadline. */
  lemma CountdownShownSpec(game: GameView, now: int)
    ensures CountdownShown(game, now).Some? <==>
      ActionsShown(game) && Get(game, "reactionDeadlineTs").Some? && Get(game, "reactionDeadlineTs").value.JNum?
  {
  }

  /** The countdown is the number of started seconds left: zero exactly once the deadline is
      reached, otherwise the least whole number of seconds covering the time left. */
  lemma CountdownCeiling(deadlineMs: int, now: int)
    ensures Countdown(deadlineMs, now) == 0 <==> deadlineMs <= now
    ensures var r := Countdown(deadlineMs, now);
      r > 0 ==> (r - 1) * 1000 < deadlineMs - now <= r * 1000
  {
  }

  /** The countdown never goes up as time passes. */
  lemma CountdownMonotone(deadlineMs: int, now: int, later: int)
    requires now <= later
    ensures Countdown(deadlineMs, later) <= Countdown(deadlineMs, now)
  {
    CountdownCeiling(deadlineMs, now);
    CountdownCeiling(deadlineMs, later);
  }

  /** The roll button shows exactly when the game is started, waits for dice and the roller
      has no name to compare (`undefined === undefined`); a named roller is never matched. */
  lemma RollButtonCases(game: GameView)
    ensures DiceSection(game) == RollButton <==>
      Truthy(Get(game, "started")) && Truthy(Get(game, "waitingForDice"))
      && Get(Get(game, "diceRoller"), "name").None?
  {
  }

  /** A trimmed input, or the fallback when it trims to nothing: never blank and already
      trimmed. */
  lemma TrimOrSpec(input: string, fallback: string)
    requires fallback != "" && Strip(JavaScriptBlanks, fallback) == fallback
    ensures var r := TrimOr(input, fallback);
      r != "" && Strip(JavaScriptBlanks, r) == r
      && (Strip(JavaScriptBlanks, input) != "" ==> r == Strip(JavaScriptBlanks, input))
      && (Strip(JavaScriptBlanks, input) == "" ==> r == fallback)
  {
    StripIdempotent(JavaScriptBlanks, input);
  }

  /** Joining sends the trimmed room id and name, never blank: `TrimOrSpec` applies with the
      fallbacks `lobby` and `guest` (`LobbyPlain`, `GuestPlain`). */
  lemma JoinRoomMessageSpec(roomInput: string, nameInput: string)
    ensures var p := Field(JoinRoomMessage(roomInput, nameInput), "payload");
      Get(p, "roomId") == Some(JStr(TrimOr(roomInput, "lobby")))
      && Get(p, "name") == Some(JStr(TrimOr(nameInput, "guest")))
  {
  }
}

=== FILE: wire.dfy ===
/** The JSON values the client and the server exchange, and the few Python and JavaScript
    built-ins both sides apply to them: truthiness, `str()`, `str.strip()` and `String.trim()`,
    and decimal numerals. Numbers are integers; JSON text itself is not modelled. */
module Wire {
  import opened Wrappers

  /** A decoded JSON value. An object maps each key to the value bound to it last, as
      `json.loads` and `JSON.parse` both read duplicate keys. */
  datatype Json =
    | JNull
    | JBool(b: bool)
    | JNum(n: int)
    | JStr(s: string)
    | JArr(items: seq<Json>)
    | JObj(fields: map<string, Json>)

  /** `obj.key` / `obj.get(key)`: absent unless `j` is an object binding `key`. */
  function Field(j: Json, key: string): (r: Option<Json>)
    ensures r.Some? <==> j.JObj? && key in j.fields
  {
    if j.JObj? && key in j.fields then Some(j.fields[key]) else None
  }

  /** `a?.key` in TypeScript, where `a` may itself be undefined. */
  function Get(j: Option<Json>, key: string): Option<Json> {
    if j.Some? then Field(j.value, key) else None
  }

  function Last<T>(s: seq<T>): T
    requires s != []
  {
    s[|s| - 1]
  }

  // ---------------------------------------------------------------------------
  // Truthiness
  // ---------------------------------------------------------------------------

  /** JavaScript truthiness; `undefined` is the absent value. */
  predicate Truthy(j: Option<Json>) {
    j.Some? &&
    match j.value
    case JNull => false
    case JBool(b) => b
    case JNum(n) => n != 0
    case JStr(s) => s != ""
    case JArr(_) => true
    case JObj(_) => true
  }

  /** Python truthiness of a decoded value. */
  predicate PyTruthy(j: Json) {
    match j
    case JNull => false
    case JBool(b) => b
    case JNum(n) => n != 0
    case JStr(s) => s != ""
    case JArr(items) => items != []
    case JObj(fields) => fields != map[]
  }

  // ---------------------------------------------------------------------------
  // Decimal numerals
  // ---------------------------------------------------------------------------

  function Digit(d: nat): (c: char)
    requires d < 10
    ensures IsDigit(c)
  {
    (48 + d) as char
  }

  predicate IsDigit(c: char) {
    48 <= c as int <= 57
  }

  /** The decimal numeral of `n`, without leading zeros. */
  function NatToString(n: nat): (s: string)
    ensures s != [] && forall i :: 0 <= i < |s| ==> IsDigit(s[i])
    ensures |s| > 1 ==> s[0] != '0'
  {
    if n < 10 then [Digit(n)] else NatToString(n / 10) + [Digit(n % 10)]
  }

  /** `str(n)` / `String(n)` for an integer. */
  function IntToString(n: int): string {
    if n < 0 then "-" + NatToString(-n) else NatToString(n)
  }

  /** The value of a string of decimal digits (`parseInt(s, 10)` on such a string). */
  function DigitsValue(s: string): nat
    requires forall i :: 0 <= i < |s| ==> IsDigit(s[i])
  {
    if s == [] then 0
    else
      assert IsDigit(s[|s| - 1]);
      10 * DigitsValue(s[..|s| - 1]) + (s[|s| - 1] as int - 48)
  }

  /** Reading a numeral back gives the number. */
  lemma {:induction false} NatToStringRoundTrip(n: nat)
    ensures DigitsValue(NatToString(n)) == n
  {
    if n >= 10 {
      var s := NatToString(n);
      assert s[..|s| - 1] == NatToString(n / 10);
      NatToStringRoundTrip(n / 10);
    }
  }

  // ---------------------------------------------------------------------------
  // str() of a decoded value
  // ---------------------------------------------------------------------------

  /** `repr` of a string, in single quotes (escaping is not modelled). */
  function PyRepr(j: Json): string
    decreases j, 1
  {
    if j.JStr? then "'" + j.s + "'" else PyStr(j)
  }

  function JoinItems(items: seq<Json>): string
    decreases items, 0
  {
    if items == [] then ""
    else if |items| == 1 then PyRepr(items[0])
    else PyRepr(items[0]) + ", " + JoinItems(items[1..])
  }

  /** Python's `str()` of a decoded JSON value. The members of a non-empty object are not
      spelled out. */
  function PyStr(j: Json): string
    decreases j, 0
  {
    match j
    case JNull => "None"
    case JBool(b) => if b then "True" else "False"
    case JNum(n) => IntToString(n)
    case JStr(s) => s
    case JArr(items) => "[" + JoinItems(items) + "]"
    case JObj(fields) => if fields == map[] then "{}" else "{...}"
  }

  // ---------------------------------------------------------------------------
  // Stripping whitespace
  // ---------------------------------------------------------------------------

  /** The characters Python's `str.isspace` accepts, by code point. */
  predicate PySpace(c: char) {
    var n := c as int;
    n == 0x20 || 0x09 <= n <= 0x0d || 0x1c <= n <= 0x1f || n == 0x85 || n == 0xa0 || n == 0x1680
    || 0x2000 <= n <= 0x200a || n == 0x2028 || n == 0x2029 || n == 0x202f || n == 0x205f || n == 0x3000
  }

  /** The characters JavaScript's `String.prototype.trim` removes, by code point. */
  predicate JsSpace(c: char) {
    var n := c as int;
    n == 0x20 || 0x09 <= n <= 0x0d || n == 0xa0 || n == 0x1680
    || 0x2000 <= n <= 0x200a || n == 0x2028 || n == 0x2029 || n == 0x202f || n == 0x205f || n == 0x3000
    || n == 0xfeff
  }

  /** Which whitespace a stripping function removes. */
  datatype Blanks = PythonBlanks | JavaScriptBlanks

  predicate IsBlank(b: Blanks, c: char) {
    if b == PythonBlanks then PySpace(c) else JsSpace(c)
  }

  function StripLeft(b: Blanks, s: string): string {
    if s != [] && IsBlank(b, s[0]) then StripLeft(b, s[1..]) else s
  }

  /** `StripLeft` keeps a suffix that does not start with whitespace. */
  lemma {:induction false} StripLeftShape(b: Blanks, s: string)
    ensures var r := StripLeft(b, s);
      |r| <= |s| && r == s[|s| - |r|..] && (r != [] ==> !IsBlank(b, r[0]))
  {
    if s != [] && IsBlank(b, s[0]) {
      StripLeftShape(b, s[1..]);
    }
  }

  /** Everything `StripLeft` drops is whitespace. */
  lemma {:induction false} StripLeftDrops(b: Blanks, s: string)
    ensures forall i :: 0 <= i < |s| - |StripLeft(b, s)| ==> IsBlank(b, s[i])
  {
    if s != [] && IsBlank(b, s[0]) {
      StripLeftDrops(b, s[1..]);
      assert forall i :: 1 <= i < |s| ==> s[i] == s[1..][i - 1];
    }
  }

  function StripRight(b: Blanks, s: string): string {
    if s != [] && IsBlank(b, Last(s)) then StripRight(b, s[..|s| - 1]) else s
  }

  /** `StripRight` keeps a prefix that does not end with whitespace. */
  lemma {:induction false} StripRightShape(b: Blanks, s: string)
    ensures var r := StripRight(b, s);
      |r| <= |s| && r == s[..|r|] && (r != [] ==> !IsBlank(b, Last(r)))
  {
    if s != [] && IsBlank(b, Last(s)) {
      StripRightShape(b, s[..|s| - 1]);
    }
  }

  /** Everything `StripRight` drops is whitespace. */
  lemma {:induction false} StripRightDrops(b: Blanks, s: string)
    ensures forall i :: |StripRight(b, s)| <= i < |s| ==> IsBlank(b, s[i])
  {
    if s != [] && IsBlank(b, Last(s)) {
      StripRightDrops(b, s[..|s| - 1]);
    }
  }

  /** `str.strip()` (Python) or `trim()` (JavaScript). */
  function Strip(b: Blanks, s: string): string {
    StripRight(b, StripLeft(b, s))
  }

  /** Stripping keeps a contiguous middle part of the string that neither starts nor ends
      with whitespace. */
  lemma StripSlice(b: Blanks, s: string)
    ensures var r := Strip(b, s); var i := |s| - |StripLeft(b, s)|;
      0 <= i && i + |r| <= |s| && r == s[i..i + |r|]
      && (r != [] ==> !IsBlank(b, r[0]) && !IsBlank(b, Last(r)))
  {
    StripLeftShape(b, s);
    StripRightShape(b, StripLeft(b, s));
    MiddleSlice(s, StripLeft(b, s), Strip(b, s));
  }

  /** A prefix of a suffix is a slice, starting where the suffix starts. */
  lemma MiddleSlice(s: string, l: string, r: string)
    requires |l| <= |s| && l == s[|s| - |l|..] && |r| <= |l| && r == l[..|r|]
    ensures var i := |s| - |l|; i + |r| <= |s| && r == s[i..i + |r|] && (r != [] ==> r[0] == l[0])
  {
    var i := |s| - |l|;
    assert s[i..][..|r|] == s[i..i + |r|];
  }

  /** Stripping removes only whitespace: every other character of the input survives. */
  lemma StripKeeps(b: Blanks, s: string, k: nat)
    requires k < |s| && !IsBlank(b, s[k])
    ensures var i := |s| - |StripLeft(b, s)|;
      i <= k < i + |Strip(b, s)| && Strip(b, s)[k - i] == s[k]
  {
    var l := StripLeft(b, s);
    var i := |s| - |l|;
    StripLeftShape(b, s);
    StripLeftDrops(b, s);
    assert i <= k;
    assert l[k - i] == s[k];
    var r := StripRight(b, l);
    StripRightShape(b, l);
    StripRightDrops(b, l);
    assert k - i < |r|;
  }

  /** Stripping a stripped string changes nothing. */
  lemma StripIdempotent(b: Blanks, s: string)
    ensures Strip(b, Strip(b, s)) == Strip(b, s)
  {
    var r := Strip(b, s);
    StripSlice(b, s);
    if r != [] {
      assert StripLeft(b, r) == r;
    }
  }

  /** A string that neither starts nor ends with whitespace is left as it is. */
  lemma StripPlain(b: Blanks, s: string)
    requires s != [] && !IsBlank(b, s[0]) && !IsBlank(b, Last(s))
    ensures Strip(b, s) == s
  {
  }

  /** The default room id has no surrounding whitespace. */
  lemma LobbyPlain(b: Blanks)
    ensures Strip(b, "lobby") == "lobby"
  {
    StripPlain(b, "lobby");
  }

  /** The default player name has no surrounding whitespace. */
  lemma GuestPlain(b: Blanks)
    ensures Strip(b, "guest") == "guest"
  {
    StripPlain(b, "guest");
  }

  /** main.py's normalisation of a payload field: `str(value).strip()`, with `fallback` when
      the field is missing or the result is blank. */
  function Normalize(field: Option<Json>, fallback: string): string {
    var s := Strip(PythonBlanks, PyStr(field.GetOr(JStr(fallback))));
    if s == "" then fallback else s
  }

  /** The normalised value is never blank and is already stripped; a missing field gives
      the fallback, and a string with non-blank content gives that content, stripped. */
  lemma NormalizeSpec(field: Option<Json>, fallback: string)
    requires Strip(PythonBlanks, fallback) == fallback && fallback != ""
    ensures var r := Normalize(field, fallback);
      r != "" && Strip(PythonBlanks, r) == r
      && (field.None? ==> r == fallback)
      && (field.Some? && field.value.JStr? && Strip(PythonBlanks, field.value.s) != "" ==>
            r == Strip(PythonBlanks, field.value.s))
  {
    var text := PyStr(field.GetOr(JStr(fallback)));
    StripIdempotent(PythonBlanks, text);
  }

  /** A JSON `null` normalises to the text "None", as Python's `str(None)` gives. */
  lemma NormalizeNull(fallback: string)
    ensures Normalize(Some(JNull), fallback) == "None"
  {
    assert PyStr(JNull) == "None";
    assert StripLeft(PythonBlanks, "None") == "None";
    assert StripRight(PythonBlanks, "None") == "None";
  }
}

=== FILE: wrappers.dfy ===
/** Optional values, standing in for Python's `None` and TypeScript's `undefined`/`null`. */
module Wrappers {

  datatype Option<+T> = None | Some(value: T) {

    /** The carried value, or `default` when absent (Python's `d.get(k, default)`). */
    function GetOr(default: T): T {
      match this
      case Some(v) => v
      case None => default
    }
  }
}
